=== FILE: README.md ===
# A Dafny model of the Durus object database core

Durus is a persistent object system for Python: objects reached from a root
are stored as records in a storage, a connection loads them on demand
through a persistence proxy, tracks which ones changed, and writes them back
on commit. This project models the parts of Durus that decide what is
loaded, noted, stored and found, and proves properties of them:

- **Codecs and arrays** (durus/utils.py, durus/serialize.py): the int4/int8
  big-endian codecs, the record framing `oid + int4(len(data)) + data + refs`,
  split_oids and extract_class_name, and the file-backed ByteArray, BitArray,
  WordArray, IntArray and IntSet.
- **Storage** (durus/storage.py): MemoryStorage with its pending transaction
  and oid counter, the breadth-first gen_oid_record walk over reachable
  records, and the queries built on it (referrers, class census, reference
  index).
- **Persistence proxy** (_persistent.c, persistent.py): which attribute names
  trigger loading, the read and write interception of PersistentBase, the
  _p_ methods of Persistent, ComputedAttribute, and the pure-Python fallback
  base with its sync_count stamps.
- **Connection** (durus/connection.py): load_state, note_access,
  note_change, the weak ObjectDictionary, the Cache with get_instance and
  shrink, and the transaction bookkeeping of _sync, abort,
  _handle_invalidations and commit with its rollback on a write conflict;
  ObjectWriter's _persistent_id and gen_new_objects (durus/serialize.py).
- **History index** (history.py): an oid-to-offset index that can step back
  and forth among the transactions applied to it.
- **Shelf** (durus/shelf.py): the OffsetMap with the hole free-list that
  gen_stitch builds and gen_holes walks, Shelf's next_name, store and
  get_position, and read_transaction_offsets with its repair of a cut-off
  transaction.
- **B-tree** (durus/btree.py): BNode search, insertion with split_child,
  deletion following section 19.3 of Cormen, Leiserson and Rivest, the
  iterators, and the BTree dictionary interface on top.
- **Persistent containers** (durus/persistent_set.py,
  durus/persistent_list.py, persistent_dict.py): every operator and
  mutator, each mutator proved to call _p_note_change before it touches the
  contents.

Everything is modelled with immutable datatypes and pure functions. Objects
and connections live in an arena (`PersistenceState.World`) and refer to one
another by identifier; calls made to collaborators (loading state, noting an
access or a change, the generic attribute machinery) are recorded in the
world's trace, so contracts can state their order. Files are byte
sequences. Errors the source raises are `Err` values of `Wrappers.Result`.

## Model

| member | source | states |
|---|---|---|
| Codec.Int8ToStr | durus/utils.py:14-15 | succeeds exactly for 0 <= n < 2**64 and then gives 8 bytes whose big-endian value is n |
| Codec.StrToInt8 | durus/utils.py:11-12 | succeeds exactly on an 8-byte string, with a value below 2**64 |
| Codec.Int4ToStr | durus/utils.py:17-18 | succeeds exactly for 0 <= v < 2**32 and then gives 4 bytes whose big-endian value is v |
| Codec.StrToInt4 | durus/utils.py:20-21 | succeeds exactly on a 4-byte string, with a value below 2**32 |
| Codec.Int8RoundTrip | durus/utils.py:11-15 | str_to_int8(int8_to_str(n)) is n for every n in range |
| Codec.Str8RoundTrip | durus/utils.py:11-15 | int8_to_str(str_to_int8(s)) is s for every 8-byte s |
| Codec.Int4RoundTrip | durus/utils.py:17-21 | str_to_int4(int4_to_str(v)) is v for every v in range |
| Codec.Str4RoundTrip | durus/utils.py:17-21 | int4_to_str(str_to_int4(s)) is s for every 4-byte s |
| Codec.EncodeBigEndian | durus/utils.py:11-21 | encoding the big-endian value of a byte string at its own width gives the same bytes |
| Codec.BigEndianInjective | durus/utils.py:11-21 | two byte strings of one width with the same decoded value are equal |
| Codec.PackRecord | durus/serialize.py:21-24 | fails exactly when the data reaches 2**32 bytes (int4_to_str's struct.error); the record's length is the parts' lengths plus 4 |
| Codec.UnpackRecord | durus/serialize.py:26-35 | fails only for a record shorter than 12 bytes; the oid is the first 8 bytes; when the length field fits, the record is oid + length + data + refs with the data as long as the field says |
| Codec.UnpackPack | durus/serialize.py:21-35 | unpack_record(pack_record(oid, data, refs)) gives back the three parts for an 8-byte oid |
| Codec.PackUnpack | durus/serialize.py:21-35 | a record whose length field fits is rebuilt exactly by pack_record from the parts unpack_record returns |
| Codec.SplitOids | durus/serialize.py:37-46 | succeeds exactly when the length is a multiple of 8 (the assert), giving len/8 pieces of 8 bytes whose concatenation is the input |
| Codec.SplitJoin | durus/serialize.py:37-46 | splitting the concatenation of 8-byte oids gives the same list back |
| Codec.SecondLine | durus/serialize.py:53 | the text after the first newline up to the next newline or the end, and None exactly when there is no newline |
| Codec.ExtractClassName | durus/serialize.py:50-56 | fails exactly when unpack_record does; otherwise the second line of the state, or "?" when the state has no newline |
| ByteOrder.LexLeTotal | durus/serialize.py:148 | any two byte strings are ordered one way or the other |
| ByteOrder.LexLeAntisymmetric | durus/serialize.py:148 | byte strings ordered both ways are equal |
| ByteOrder.LexLeTransitive | durus/serialize.py:148 | the byte-string order is transitive |
| ByteOrder.SortSpec | durus/serialize.py:148 | sorted() of a set of oids lists each member exactly once, ascending, and nothing else |
| ByteArrays.ReadAt | durus/utils.py:62-69 | read(f, n) succeeds exactly when n bytes remain at the position, giving those bytes; otherwise ShortRead |
| ByteArrays.WriteAt | durus/utils.py:84-91 | write overwrites the bytes at the position, extends the file when it runs past the end, and leaves all other bytes alone |
| ByteArrays.SetSize | durus/utils.py:153-189 | fails (AssertionError) exactly when the size shrinks, the file is shorter than the array, or it must grow while the array does not end the file; keeps start, sets size and only extends the file |
| ByteArrays.SetSizeSpec | durus/utils.py:153-189 | growing keeps the old contents and, when the file had to grow, fills the new bytes with init_byte |
| ByteArrays.Create | durus/utils.py:138-145 | a new array where the file position is gets the requested size and is valid |
| ByteArrays.CreateZeroes | durus/utils.py:138-145 | a new array over an empty file reads as all zero bytes |
| ByteArrays.GetItem | durus/utils.py:191-203 | IndexError outside 0 <= j < size; otherwise the one-byte string at j |
| ByteArrays.SetItem | durus/utils.py:205-217 | IndexError outside the range (checked first), ValueError for a value that is not one byte, otherwise a valid array of the same size |
| ByteArrays.SetGetItem | durus/utils.py:191-217 | after a[j] = v, a[j] reads v and every other index reads as before |
| ByteArrays.GetSlice | durus/utils.py:219-224 | IndexError unless 0 <= j < k <= size; otherwise bytes j..k |
| ByteArrays.SetSlice | durus/utils.py:226-233 | IndexError for bad bounds (checked first), ValueError for a value of the wrong length, otherwise a valid array of the same size |
| ByteArrays.SetSliceSpec | durus/utils.py:219-233 | a written slice reads back as written and bytes outside it are unchanged |
| ByteArrays.IterateSpec | durus/utils.py:238-243 | iteration yields, at each position, what indexing yields |
| Bits.NewByte | durus/utils.py:252-258 | succeeds exactly for a one-byte string or a number 0..255, with that byte's value; TypeError otherwise |
| Bits.BitIndex | durus/utils.py:260-268 | indices -8..7 are accepted, a negative one counted from the end |
| Bits.MaskBit | durus/utils.py:263 | the mask test `value & (0x80 >> j)` agrees with bit j counted from the most significant |
| Bits.GetBit | durus/utils.py:260-268 | IndexError outside -8..7; otherwise bit j of the byte, as 1 or 0 |
| Bits.SetBit | durus/utils.py:270-279 | IndexError outside -8..7; otherwise succeeds |
| Bits.SetGetBit | durus/utils.py:260-279 | after b[j] = v, bit j reads 1 or 0 as v is true or false and the other seven bits are unchanged |
| Bits.ByteCount | durus/utils.py:302-307 | for a non-negative size, the least number of bytes holding that many bits |
| Bits.SetSize | durus/utils.py:302-308 | fails (AssertionError) when the byte count would shrink; succeeds whenever the byte array ends the file; the new size and byte count are recorded |
| Bits.Create | durus/utils.py:295-297 | a size below -7 fails the byte array's assertion; over a file ending at the array it succeeds with the requested size |
| Bits.Get | durus/utils.py:311-320 | IndexError outside -size..size-1; otherwise the bit at the normalised position |
| Bits.Set | durus/utils.py:322-333 | IndexError outside -size..size-1; otherwise a valid array of the same size |
| Bits.SetByte | durus/utils.py:322-333 | the only write is the byte holding the bit, with that bit changed |
| Bits.SetGet | durus/utils.py:311-333 | after a[j] = v, the bit at j reads v and every other bit reads as before |
| Bits.IterateSpec | durus/utils.py:338-344 | iteration yields, at each position below the size, what indexing yields |
| WordArrays.Header | durus/utils.py:381-385 | succeeds exactly when the width, the count and 16 + width * count all fit an int8 (struct.error otherwise), giving 24 bytes |
| WordArrays.HeaderRoundTrip | durus/utils.py:366-371 | the header generate writes reads back as (16 + width * count, width, count), so the constructor's assert holds |
| WordArrays.Generate | durus/utils.py:377-390 | AssertionError unless the file ends at the start; TypeError without both dimensions; otherwise the file gains the header and width * count copies of init_byte |
| WordArrays.Open | durus/utils.py:354-375 | an opened array is valid, its words start 24 bytes after the start, and the file only grows |
| WordArrays.ReopenGenerated | durus/utils.py:354-390 | opening a freshly generated array finds the dimensions written, whatever dimensions are passed, and words of init_byte |
| WordArrays.OpenNew | durus/utils.py:354-375 | a new array over a file ending at the start has the requested dimensions and all-zero words |
| WordArrays.Get | durus/utils.py:395-405 | IndexError unless -count <= j < count (and, for width 0, the byte array's empty-slice IndexError); otherwise the word at the normalised position |
| WordArrays.Set | durus/utils.py:407-417 | IndexError for a bad index, ValueError for a word of the wrong length, otherwise a valid array with the same dimensions |
| WordArrays.SetGet | durus/utils.py:395-417 | after a[j] = word, a[j] reads word and every other index reads as before |
| WordArrays.IterateSpec | durus/utils.py:419-421 | iteration yields, at each position, what indexing yields |
| IntArrays.WidthFor | durus/utils.py:458-462 | 8 bytes without a maximum; with one, succeeds exactly when maximum + 1 fits an int8 |
| IntArrays.WidthForSpec | durus/utils.py:458-462 | the width is the fewest bytes holding maximum + 1: it fits in w bytes and not in w - 1 |
| IntArrays.LStripSpec | durus/utils.py:461-462 | lstrip of zero bytes removes exactly the leading zeros |
| IntArrays.PadPrefix | durus/utils.py:483-488 | int8_to_str(v) starts with the pad of a w-byte word exactly when v fits in w bytes |
| IntArrays.Generate | durus/utils.py:452-465 | AssertionError unless the file ends at the start; otherwise the WordArray generate with the computed width and 0xff words |
| IntArrays.Open | durus/utils.py:435-451 | an opened array is valid |
| IntArrays.BlankValue | durus/utils.py:467-468 | succeeds exactly for a width up to 8, and is then 256**width - 1 |
| IntArrays.GetItem | durus/utils.py:480-481 | an index out of range is an IndexError |
| IntArrays.SetItem | durus/utils.py:483-488 | a successful store keeps the array valid with its dimensions |
| IntArrays.SetItemErrors | durus/utils.py:483-488 | struct.error for a value outside int8, ValueError for one too wide for the word, IndexError for a bad index, success otherwise |
| IntArrays.SetGet | durus/utils.py:470-488 | after a[j] = v, a[j] reads v and get(j) reads v, or the default when v is the blank value; other indices read as before |
| IntArrays.NewContents | durus/utils.py:435-465 | a new array is all 0xff bytes |
| IntArrays.NewIsBlank | durus/utils.py:435-478 | get(j) on a new array returns the default for every j |
| IntArrays.IterateSpec | durus/utils.py:490-492 | iteration yields, at each position, what indexing yields |
| IntArrays.ItemsFromSpec | durus/utils.py:494-497 | iteritems yields exactly the non-blank positions, in ascending order, each with its decoded value |
| IntSets.Create | durus/utils.py:510-515 | a new set has the requested capacity |
| IntSets.CreateEmpty | durus/utils.py:510-515 | a new set over a file ending at the start has no members |
| IntSets.Contains | durus/utils.py:522-525 | False at or beyond the capacity; a negative n indexes from the end; IndexError below -capacity |
| IntSets.ContainsSpec | durus/utils.py:522-525 | for n >= 0, `n in s` is exactly membership |
| IntSets.AddAsWrittenFails | durus/utils.py:517-520 | with the growth int(n * 1.2), add(n) for n from 0 to 4 at or beyond the capacity raises IndexError |
| IntSets.AddOneToEmpty | durus/utils.py:510-520 | IntSet(0) then add(1) raises IndexError |
| IntSets.Grow | durus/utils.py:519 | the corrected growth is always past n |
| IntSets.AddSpec | durus/utils.py:517-520 | with the corrected growth, add(n) succeeds and the members become the old ones plus n |
| IntSets.Discard | durus/utils.py:527-529 | nothing happens at or beyond the capacity |
| IntSets.DiscardSpec | durus/utils.py:527-529 | discard(n) succeeds and the members become the old ones without n |
| IntSets.GrowSpec | durus/utils.py:302-308 | growing keeps every bit and the new bits are 0 |
| IntSets.SetSpec | durus/utils.py:322-333 | setting bit n changes only bit n of the byte array |
| Storages.AbstractStorage | durus/storage.py:14-15 | the abstract Storage cannot be instantiated: it always raises RuntimeError |
| Storages.GetPacker | durus/storage.py:57-63 | the base storage offers no packer: get_packer gives None |
| Storages.RootOid | durus/storage.py:89-90 | the default start oid, int8_to_str(0), is the root oid of eight zero bytes |
| Storages.ReachStep | durus/storage.py:100-105 | following a reference out of a reachable record reaches another reachable oid |
| Storages.ClosedHoldsReachable | durus/storage.py:93-106 | a set holding the start, loadable throughout and closed under references, holds every reachable oid |
| Storages.PopMin | durus/storage.py:96 | heappop takes the least pending oid in byte order, and the rest of the heap keeps every other entry |
| Storages.PopBatch | durus/storage.py:94-99 | the batch holds distinct oids that were pending and not yet seen; seen grows by exactly the batch; a short batch means the heap ran dry |
| Storages.PushRefs | durus/storage.py:103-105 | after pushing, every reference of the loaded record is seen or pending, nothing pending was lost, and everything pending is reachable |
| Storages.LoadOne | durus/storage.py:100-105 | loading one oid succeeds exactly when its record exists and unpacks; it then yields (oid, record) and leaves every reference seen or pending |
| Storages.LoadBatch | durus/storage.py:100-105 | a batch loads in order, each oid once; it fails only at an oid whose record is missing or malformed |
| Storages.WalkComplete | durus/storage.py:93-106 | once the heap is empty the oids loaded are exactly the oids reachable from the start |
| Storages.Round | durus/storage.py:93-106 | one outer round keeps the walk's invariant and strictly reduces the number of unseen records |
| Storages.GenOidRecord | durus/storage.py:75-106 | the walk succeeds exactly when every reachable record can be read, and then loads every reachable oid and nothing else |
| Storages.WalkYields | durus/storage.py:75-106 | with consistent records the pairs yielded are each reachable oid exactly once, each with its own record |
| StorageQueries.FromWalkPairs | durus/storage.py:113 | the pairs gen_oid_record yields carry the stored records, and their oids are exactly the reachable ones |
| StorageQueries.PairEdge | durus/storage.py:113-114 | a pair refers to an oid exactly when that pair's object is reachable and its record has the reference |
| StorageQueries.ReferringMembers | durus/storage.py:108-115 | gen_referring_oid_record keeps exactly the pairs whose reference list holds the oid |
| StorageQueries.ReferringSpec | durus/storage.py:108-115 | the referring objects are exactly the reachable objects with an edge to the oid |
| StorageQueries.OidClassSpec | durus/storage.py:117-127 | gen_oid_class fails exactly on a record too short for a class name; otherwise it yields (oid, class name) for the pairs whose class is listed, or for all pairs when no class is given |
| StorageQueries.OidClassAll | durus/storage.py:124-127 | with no classes given, every pair yields its oid and class name, in order |
| StorageQueries.TallySpec | durus/storage.py:131-134 | the tally holds exactly the class names seen, each with its count |
| StorageQueries.CensusSpec | durus/storage.py:129-134 | get_census maps each class name present to its number of instances, and holds no other name |
| StorageQueries.AddReferrerSpec | durus/storage.py:143-144 | setdefault(ref, []).append(oid) adds the oid to each referenced oid's list and changes nothing else |
| StorageQueries.RefIndexMembers | durus/storage.py:136-145 | the reference index lists o under ref exactly when o's record refers to ref |
| StorageQueries.RefIndexSpec | durus/storage.py:136-145 | over a whole walk, the index lists exactly the reachable referrers of each oid |
| MemoryStorages.New | durus/storage.py:153-156 | a new memory storage has no records, no transaction and last oid -1 |
| MemoryStorages.NewOidsNumbers | durus/storage.py:158-160 | k calls to new_oid number the oids last+1, last+2, ... and advance the counter by k |
| MemoryStorages.NewOidsDistinct | durus/storage.py:158-160 | while the counter fits an int8, the oids new_oid hands out are distinct |
| MemoryStorages.FirstOid | durus/storage.py:153-160 | the first oid of a new storage is int8_to_str(0), the root oid |
| MemoryStorages.Load | durus/storage.py:162-163 | load succeeds exactly for a stored oid, with its record; KeyError otherwise |
| MemoryStorages.BulkLoad | durus/storage.py:69-73 | bulk_load succeeds exactly when every oid is stored, giving load's record for each |
| MemoryStorages.Begin | durus/storage.py:165-166 | begin opens an empty transaction and keeps the records |
| MemoryStorages.Store | durus/storage.py:168-169 | store outside a transaction raises TypeError; inside one it leaves the committed records alone |
| MemoryStorages.End | durus/storage.py:171-173 | end outside a transaction raises TypeError; inside one it closes the transaction |
| MemoryStorages.Sync | durus/storage.py:175-176 | a memory storage never reports invalidations |
| MemoryStorages.StoreAllTransaction | durus/storage.py:168-169 | after a series of stores the transaction maps each oid to its last record written |
| MemoryStorages.CommitSpec | durus/storage.py:165-173 | stores are invisible to load until end; after end each oid loads its last record written, and any other oid loads as before |
| ObjectWriters.NewWriter | durus/serialize.py:86-90 | a new writer belongs to its connection and has found no objects and collected no references |
| ObjectWriters.PersistentId | durus/serialize.py:104-116 | an object without an oid takes a fresh oid and the writer's connection and joins objects_found; an object of another connection raises ValueError and changes nothing; otherwise its oid joins the references |
| ObjectWriters.PersistentIdTwice | durus/serialize.py:104-116 | meeting the same object a second time changes nothing more |
| ObjectWriters.MeetAllRefs | durus/serialize.py:104-116 | after meeting a series of objects without error, each has an oid and this connection, and the references gained are exactly their oids |
| ObjectWriters.MeetAllKeeps | durus/serialize.py:112-115 | an object already stored by this connection is left exactly as it was |
| ObjectWriters.FoundWereNew | durus/serialize.py:108-111 | every object appended to objects_found was met and had no oid before |
| ObjectWriters.FoundOnce | durus/serialize.py:108-111 | no object is appended to objects_found twice |
| ObjectWriters.FoundIssued | durus/serialize.py:108-111 | exactly one new oid is asked of the connection per object found |
| ObjectWriters.FoundAll | durus/serialize.py:108-111 | when no error is raised, every object met without an oid is in objects_found |
| ObjectWriters.GetStateRefs | durus/serialize.py:126-148 | get_state keeps the writer's connection and raises only ValueError, from a foreign reference |
| ObjectWriters.GetStateRefsSpec | durus/serialize.py:135-148 | the reference bytes split into ascending oids, exactly the oids of the objects met other than the object's own |
| ObjectWriters.MeetAllOids | durus/serialize.py:108-109 | every oid handed out is eight bytes long |
| ObjectWriters.GenNewObjects | durus/serialize.py:118-121 | gen_new_objects can be started once; a second start raises RuntimeError |
| ObjectWriters.Next | durus/serialize.py:122-124 | the generator yields the changed object first, then objects_found in order, then stops, and a stopped generator yields nothing more |
| ObjectWriters.NextFinished | durus/serialize.py:123-124 | once the loop has run off the end of objects_found, objects found afterwards are never yielded |
| ObjectWriters.DrainYields | durus/serialize.py:118-124 | drained from the start, the generator yields the object followed by every object found, including those found while it runs |
| ObjectWriters.GenNewObjectsOnce | durus/serialize.py:118-124 | once started, the first item is the object itself and any further call raises RuntimeError |
| ConnectionNotes.LoadState | durus/connection.py:181-197 | load_state asserts a ghost with an oid; when the oid has no stored record it raises ReadConflictError for a storage that raises DurusKeyError and lets MemoryStorage's bare KeyError escape; otherwise it sets the state and marks the object SAVED |
| ConnectionNotes.NoteAccess | durus/connection.py:205-209 | note_access asserts the object belongs to the connection and has an oid, then stamps it with the transaction serial and adds it to the recent objects |
| ConnectionNotes.NoteChange | durus/connection.py:211-218 | note_change records the object under its oid in changed and changes nothing else |
| ConnectionNotes.NoteChangeIdempotent | durus/connection.py:211-218 | noting the same change twice leaves changed as noting it once |
| Connections.GhostAll | durus/connection.py:245-246 | every listed object becomes a ghost with an empty state; others are untouched |
| Connections.Bump | durus/connection.py:250 | the transaction serial goes up by one and nothing else changes |
| Connections.Sync | durus/connection.py:229-239 | every cached object whose oid is invalid or reported by storage.sync becomes a ghost, the invalid set empties, and nothing else changes |
| Connections.Abort | durus/connection.py:241-250 | every changed object becomes a ghost, changed and the invalid set empty, and the serial goes up by one; the stored records and other connections are untouched |
| Connections.Sweep | durus/connection.py:298-307 | the invalidation loop keeps the connection sound and its objects |
| Connections.SweepFrame | durus/connection.py:298-307 | the loop changes only the connection's invalid set and can only ghost objects, and only objects cached under a reported oid |
| Connections.SweepConflicts | durus/connection.py:302-304 | the conflicts are exactly the reported oids whose cached object carries the current serial, in order, and they join the invalid set |
| Connections.SweepFails | durus/connection.py:305-306 | the loop's assertion fails only when a reported, cached, non-ghost object has an uncommitted change |
| Connections.SweepGhosts | durus/connection.py:305-307 | every reported cached object not accessed in this transaction ends as a ghost |
| Connections.StampedFrame | durus/connection.py:302 | which oids conflict depends only on the objects' serials |
| Connections.HandleInvalidations | durus/connection.py:292-312 | no conflicts means no error; conflicts raise WriteConflictError with the conflicting oids, or ReadConflictError with read_oid when one is given |
| Connections.AdoptOne | durus/connection.py:272-273 | a new object takes its oid and the connection and enters the cache; nothing else in the cache changes |
| Connections.Adopt | durus/connection.py:264-273 | adopting new objects keeps every object of the connection with it and changes only the cache |
| Connections.AdoptOthers | durus/connection.py:264-273 | objects that are not new are untouched |
| Connections.AdoptOtherOids | durus/connection.py:272-273 | cache entries for oids that are not new are untouched |
| Connections.AdoptSpec | durus/connection.py:264-273 | each new object takes its own oid and the connection, and the cache maps that oid to it |
| Connections.SaveAll | durus/connection.py:276 | _p_set_status_saved marks exactly the listed objects SAVED |
| Connections.ChangedRecords | durus/connection.py:264-275 | every changed object's record holds its state under its oid |
| Connections.NewRecordsSpec | durus/connection.py:267-275 | every new object's record holds its state under its new oid |
| Connections.Unlink | durus/connection.py:282-286 | a new object of a failed commit loses its oid and connection, leaves the cache and becomes UNSAVED; other cache entries are untouched |
| Connections.UnlinkConns | durus/connection.py:282-286 | rolling back one object changes only this connection's cache |
| Connections.Detach | durus/connection.py:285-286 | _p_set_status_unsaved then dropping the connection leaves a non-ghost UNSAVED and unconnected |
| Connections.Rollback | durus/connection.py:281-287 | the rollback of a failed commit changes only this connection's cache among the connections |
| Connections.RollbackSucceeds | durus/connection.py:282-286 | rolling back objects the commit adopted raises nothing and changes only the cache |
| Connections.RevertAllSpec | durus/connection.py:282-286 | the rolled-back handles are exactly the new ones, each reverted, and the rest as they were |
| Connections.RollbackSpec | durus/connection.py:281-287 | after a conflict every new object is UNSAVED with neither oid nor connection, and every other object is as it was |
| Connections.RollbackUncached | durus/connection.py:284 | no new object's oid remains in the cache |
| Connections.RollbackKeeps | durus/connection.py:284 | an oid absent from the cache stays absent |
| Connections.Finish | durus/connection.py:289-290 | the end of commit shrinks the cache, only ghosting objects, and adds one to the serial |
| Connections.Commit | durus/connection.py:252-290 | without changes commit only syncs; with invalid oids pending it fails its assertion and changes nothing; a success empties changed and the invalid set and adds one to the serial; a failure leaves the serial |
| Connections.Written | durus/connection.py:264-276 | every new object of the commit belongs to the connection, SAVED, and only the cache changes |
| Connections.Store | durus/connection.py:261-288 | a successful store adds the changed and new records, empties changed and adds one to the serial; a failed one leaves the serial and changed |
| Connections.Ended | durus/connection.py:280 | storage.end's invalidation callback keeps the new objects linked and the serial, changes and stored records |
| Connections.WrittenNew | durus/connection.py:264-276 | each new object is SAVED with its new oid and connection and cached under that oid |
| Connections.WrittenOtherOids | durus/connection.py:272-273 | writing changes no cache entry for an oid that is not new |
| Connections.WrittenStates | durus/connection.py:264-276 | writing changes no object's state |
| Connections.WrittenRevertible | durus/connection.py:264-287 | after writing, the new objects can all be rolled back |
| Connections.InvalidationsKeep | durus/connection.py:292-307 | the invalidation callback leaves alone new objects whose oids it is not given |
| Connections.StoreConflict | durus/connection.py:279-287 | a WriteConflictError at end rolls every new object back to UNSAVED, without oid, connection or cache entry |
| Connections.RecordsSpec | durus/connection.py:264-276 | the records written hold every new and every changed object's state under its oid |
| Connections.CommitConflictRollsBack | durus/connection.py:252-290 | a commit that fails with a write conflict leaves each new object UNSAVED, without oid, connection or cache entry |
| Connections.CommitStores | durus/connection.py:252-290 | a successful commit stores every new and changed object's state under its oid |
| Caches.NewCache | durus/connection.py:387-404 | a cache of a positive target size starts empty; a size <= 0 raises ValueError |
| Caches.SetSize | durus/connection.py:401-404 | set_size accepts exactly positive sizes and changes nothing but the size; ValueError otherwise |
| Caches.GetInstance | durus/connection.py:406-426 | a cached object of the asked class is returned as it is; otherwise a new ghost of that class, with the oid and the connection, is made and cached |
| Caches.GetInstanceWf | durus/connection.py:406-426 | get_instance keeps the world well formed |
| Caches.Evict | durus/connection.py:434-439 | del cache[oid] on an absent oid does nothing; on a present one it asserts the object lost its oid, then removes that entry alone |
| Caches.Least | durus/connection.py:475 | heappop takes an entry no other entry precedes in (serial, oid) order |
| Caches.BytesBeforeTrans | durus/connection.py:475 | the byte order of oids used by the heap is transitive |
| Caches.BytesBeforeIrreflexive | durus/connection.py:475 | no oid precedes itself in byte order |
| Caches.EntryBeforeAcyclic | durus/connection.py:475 | an entry below the least entry would be below every entry, so none is |
| Caches.Collect | durus/connection.py:448-457 | the heap only grows, with entries for the keys visited, none of them accessed in this transaction |
| Caches.BuildHeap | durus/connection.py:441-459 | _build_heap changes neither a lookup nor the length, only the finger and the pruning of dead keys, and returns only live entries not accessed in this transaction |
| Caches.LiveKeysIterate | durus/connection.py:446-448 | a non-empty cache iterates at least one oid |
| Caches.PopOne | durus/connection.py:475-482 | popping one entry only ghosts objects, never one accessed in this transaction, changes only the cache and shrinks it by at most one entry |
| Caches.DrainSpec | durus/connection.py:474-482 | draining the heap only ghosts objects, never one accessed in this transaction; within the target size it does nothing, and it never takes the cache below the target |
| Caches.ShrinkSpec | durus/connection.py:461-485 | shrink does nothing when the cache is within its target size; otherwise it only ghosts objects not accessed in this transaction, and stops at the target size |
| Caches.ShrinkFrame | durus/connection.py:461-485 | shrink changes only the cache and the ghost status of objects |
| ObjectDictionaries.EmptyDict | durus/connection.py:325-327 | a new object dictionary is consistent, empty and finds no key |
| ObjectDictionaries.Keep | durus/connection.py:361-363 | iteration keeps exactly the keys that are not dead |
| ObjectDictionaries.RemoveSpec | durus/connection.py:346-353 | deleting a present key marks it dead: it is no longer found, the length drops by one, and every other key is found as before |
| ObjectDictionaries.AssignSpec | durus/connection.py:342-353 | setting a key revives it and maps it to the value; the length grows by one exactly when it was absent; other keys are unchanged |
| ObjectDictionaries.AssignConsistent | durus/connection.py:342-344 | setting a key keeps the dead keys a subset of the mapping |
| ObjectDictionaries.AssignSize | durus/connection.py:342-353 | the length after setting a key grows by one exactly when the key was absent |
| ObjectDictionaries.ClearDeadSpec | durus/connection.py:355-357 | clear_dead empties the dead set and changes neither lookups nor length |
| ObjectDictionaries.ClearDeadSize | durus/connection.py:352-357 | clearing the dead keys keeps the length |
| ObjectDictionaries.IterateSpec | durus/connection.py:359-363 | iteration yields exactly the live keys, each once |
| PersistenceState.StatusCode | _persistent.c:20 | the three statuses have the codes SAVED 0, UNSAVED 1 and GHOST -1, one code each |
| PersistenceState.StatusOf | persistent.py:9-11 | exactly the codes -1, 0 and 1 name a status, and decoding inverts the coding |
| PersistenceState.NewHandle | _persistent.c:36-52 | a new persistent object is UNSAVED, with serial 0, no connection, no oid and an empty state |
| PersistenceState.NewConn | _persistent.c:258-269 | a new connection starts at transaction serial 1 with no changes and no invalid oids, over the given cache and storage |
| PersistenceState.QuietTrans | _persistent.c:155-193 | two steps that make no generic attribute access compose into one, their calls concatenated |
| PersistenceState.FrameTrans | _persistent.c:155-193 | the frame kept by each step is kept by their composition |
| PersistenceState.Emit | _persistent.c:117-129 | recording a call appends it to the trace and changes nothing else |
| PersistenceState.Ghostify | persistent.py:143-146 | _p_set_status_ghost clears the instance dictionary and sets GHOST, and changes nothing else |
| PersistenceState.MarkSaved | persistent.py:148-149 | _p_set_status_saved sets SAVED and changes nothing else |
| PersistentMethods.LoadSelf | persistent.py:128-131 | the plain _p_load_state asserts a ghost, asks the connection for the state and then sets SAVED; the ComputedAttribute override only sets SAVED; a failure leaves every object as it was |
| PersistentMethods.LoadSelfSpec | persistent.py:128-131 | a ghost whose record is stored loads without error: the connection is asked once, and the stored state is merged into the dictionary |
| PersistentMethods.NoteChangeSelf | persistent.py:133-138 | an UNSAVED object returns at once; a SAVED one tells its connection once and becomes UNSAVED; without a connection it raises; success always leaves UNSAVED |
| PersistentMethods.NoteChangeBodySpec | persistent.py:134-138 | the body of _p_note_change loads a ghost first, tells the connection, then sets UNSAVED; with no connection it raises |
| PersistentMethods.NoteChangeGhost | persistent.py:134-138 | a ghost that can be loaded is loaded before the connection hears of the change, in that order |
| PersistentMethods.NoteChangeGhostFails | persistent.py:134-137 | when the load fails the connection never hears of the change and no object changes |
| PersistentMethods.SetUnsaved | persistent.py:151-154 | _p_set_status_unsaved loads a ghost first; any other object simply becomes UNSAVED |
| PersistentMethods.ExactlyOneStatus | persistent.py:156-163 | exactly one of _p_is_ghost, _p_is_unsaved and _p_is_saved holds |
| PersistentMethods.SetChanged | persistent.py:113-115 | setting _p_changed to a false value does nothing; to a true value it is _p_note_change, after which _p_changed reads true |
| Proxy.CString | _persistent.c:158-161 | the C name is the Python name cut at its first NUL byte |
| Proxy.LoadTriggeringSpec | _persistent.c:85-115 | load_triggering_name is false exactly for names starting "_p_" and for "__repr__", "__class__" and "__setstate__" |
| Proxy.Dunder | _persistent.c:101-112 | comparing past the two underscores decides equality with a dunder name |
| Proxy.Load | _persistent.c:131-139 | pb_load calls _p_load_state exactly when the object is a ghost |
| Proxy.NoteAccessIfStale | _persistent.c:141-153 | pb_note_access tells the connection exactly when the object has one and its serial differs from the connection's |
| Proxy.Activate | _persistent.c:166-171 | loading then noting access keeps the frame |
| Proxy.ActivateQuiet | _persistent.c:166-171 | loading and noting access make no generic attribute access |
| Proxy.ActivateEffect | _persistent.c:166-171 | after a successful activation the object is no ghost and carries the current serial; a computed attribute keeps its dictionary |
| Proxy.GenericGet | _persistent.c:172 | the generic read finds exactly the names in the instance dictionary and raises AttributeError otherwise |
| Proxy.GetAttr | _persistent.c:155-173 | a non-string name raises TypeError; an exempt name is read with no load and no access note |
| Proxy.GhostReadOrder | _persistent.c:155-173 | reading a ghost loads it, notes the access, then reads, in that order, and the loaded state answers the read |
| Proxy.FailedActivationSkipsRead | _persistent.c:166-171 | when the load or access note fails, the read never happens and the error is returned |
| Proxy.LoadedReadNotes | _persistent.c:141-172 | a loaded object with a stale serial notes the access before reading; a current one only reads |
| Proxy.SecondReadQuiet | _persistent.c:141-172 | after a successful read, the next read of the object is the generic read alone |
| Proxy.GenericSet | _persistent.c:192 | the generic write sets the name in the instance dictionary and nothing else |
| Proxy.SetAttr | _persistent.c:175-193 | a non-string name raises TypeError; _p_note_change is called exactly for a load-triggering name on an object that is not UNSAVED; the write happens exactly when no error was raised, leaving the object UNSAVED |
| Proxy.NotedWrite | _persistent.c:186-192 | a noted write calls _p_note_change, writes only if that succeeded, and leaves UNSAVED |
| Proxy.SecondWriteQuiet | _persistent.c:186-192 | after a successful write any further write is the generic write alone |
| Proxy.DelAttr | persistent.py:124-126 | __delattr__ calls _p_note_change first; if that raises the attribute stays, otherwise the attribute is deleted when present and AttributeError is raised when absent |
| Proxy.DelAttrSaved | persistent.py:124-126 | deleting an attribute of a SAVED object tells the connection once, removes the attribute and leaves the object UNSAVED |
| Proxy.RawGet | _persistent.c:377-384 | getattribute reads with no load and no access note; a non-string name raises TypeError |
| Proxy.RawSet | _persistent.c:352-363 | setattribute writes the name with no change note; a non-string name raises TypeError |
| Proxy.RawDel | _persistent.c:365-375 | delattribute succeeds exactly for a present string name, removing it and nothing else |
| Proxy.RawHas | _persistent.c:386-400 | hasattribute is true exactly when getattribute would succeed |
| Proxy.CallIfPersistent | _persistent.c:402-416 | call_if_persistent applies f exactly to persistent arguments and gives None otherwise |
| ComputedAttributes.DictTriggers | persistent.py:206 | reading __dict__ is load-triggering |
| ComputedAttributes.ReadDict | persistent.py:187-189 | reading the dictionary of a computed attribute leaves it loaded and current, with the dictionary it had |
| ComputedAttributes.Get | persistent.py:199-210 | get returns the cached value when there is one, and otherwise computes it and caches it; an exception from compute propagates and nothing is cached; it never marks the object UNSAVED |
| ComputedAttributes.GetRaisedRecomputes | persistent.py:208-209 | after compute has raised, the next get computes again |
| ComputedAttributes.GetOnce | persistent.py:199-210 | a second get returns the first value without computing again |
| ComputedAttributes.Invalidate | persistent.py:191-197 | invalidate forgets the value and leaves the object UNSAVED |
| ComputedAttributes.InvalidateRecomputes | persistent.py:191-210 | after invalidate the next get computes a fresh value |
| FallbackPersistence.NewFHandle | persistent.py:76-82 | a new fallback object is UNSAVED, untouched, with no connection, no oid and an empty state |
| FallbackPersistence.NewFConn | persistent.py:22-25 | a new fallback connection starts with sync_count 0 |
| FallbackPersistence.FLoad | persistent.py:128-131 | over the fallback base, _p_load_state succeeds exactly for a connected ghost whose load does not fail, merging in the state and setting SAVED |
| FallbackPersistence.FNoteChange | persistent.py:133-138 | over the fallback base, _p_note_change returns at once for UNSAVED, tells the connection once for SAVED, and leaves UNSAVED on success |
| FallbackPersistence.FGetAttr | persistent.py:84-91 | an exempt name is read with no load; any other loads a ghost, copies the connection's sync_count into _p_touched, then reads |
| FallbackPersistence.FRead | persistent.py:91 | object.__getattribute__ finds exactly the names in the instance dictionary |
| FallbackPersistence.FSetAttr | persistent.py:93-96 | a non-exempt name calls _p_note_change first, even on an UNSAVED object, and a successful write leaves UNSAVED; an exempt name is written directly |
| FallbackPersistence.FWrite | persistent.py:96 | object.__setattr__ sets the name and nothing else |
| FallbackPersistence.SameExemptions | persistent.py:28-32 | for names without NUL bytes the Python test and the C test exempt the same names |
| History.FoldLatest | history.py:23-25 | the fold of the history maps an oid exactly when some transaction wrote it, to the offset of the latest such transaction |
| History.Update | history.py:23-25 | update appends a copy of the offsets to the history and overrides the index with them, keeping every other oid |
| History.New | history.py:17-21 | a new index has the given offsets as its only transaction and no future |
| History.Undo | history.py:32-33 | undoing a transaction raises KeyError exactly when one of its oids is missing from the index |
| History.Previous | history.py:27-38 | with no history previous_transaction returns None and changes nothing; otherwise it returns the last transaction and moves it from the history to the future |
| History.Next | history.py:40-46 | with no future next_transaction returns None and changes nothing; otherwise it returns the last undone transaction and moves it back to the history |
| History.NewInv | history.py:17-21 | a new index equals the fold of its history |
| History.UpdateInv | history.py:23-25 | update keeps the index equal to the fold of the history |
| History.PreviousInv | history.py:27-38 | previous never fails on a well-formed index and keeps it equal to the fold of the history; each undone oid maps to its latest remaining offset or is absent |
| History.NextInv | history.py:40-46 | next keeps the index equal to the fold of the history |
| History.MovesKeepCount | history.py:30-31 | previous and next keep len(history) + len(future) |
| History.PreviousThenNext | history.py:27-46 | previous followed by next restores the index, history and future exactly |
| History.NextThenPrevious | history.py:27-46 | next followed by previous restores the index, history and future exactly |
| History.StoragePrevious | history.py:74-80 | HistoryFileStorage.previous with no history returns False and changes nothing |
| History.StorageNext | history.py:82-88 | HistoryFileStorage.next with no future returns False and changes nothing |
| History.Sync | history.py:90-93 | sync reports the invalid oids and empties the invalid set, leaving the index |
| History.End | history.py:60-61 | a history storage refuses every commit with RuntimeError |
| History.StoragePreviousSpec | history.py:74-93 | previous returns False exactly when there is no history, and the oids of the undone transaction are reported by the next sync |
| History.StorageNextSpec | history.py:82-93 | next returns False exactly when there is no future, and the oids of the redone transaction are reported by the next sync |
| OffsetMaps.GetItem | durus/shelf.py:419 | int_array[j] succeeds exactly for -size <= j < size and raises IndexError otherwise |
| OffsetMaps.RawGet | durus/utils.py:470-478 | int_array.get gives a slot's value unless it holds the blank value |
| OffsetMaps.Get | durus/shelf.py:358-363 | OffsetMap.get answers only with values below start; a stored value >= start reads as absent |
| OffsetMaps.SetRaw | durus/utils.py:483-488 | writing a slot succeeds exactly for an in-range index and a value that fits the word and an int8, keeping start, width and size |
| OffsetMaps.SetItem | durus/shelf.py:372-378 | __setitem__ writes only into a hole and keeps start, width and size |
| OffsetMaps.SetItemSpec | durus/shelf.py:372-378 | a slot holding an offset is never overwritten (AssertionError); writing a hole makes get return the value at that slot only, when below start, and changes no other slot |
| OffsetMaps.Stitch | durus/shelf.py:406-411 | the stitching loop keeps start, width and size |
| OffsetMaps.GenStitch | durus/shelf.py:398-411 | gen_stitch keeps start, width and size |
| OffsetMaps.HoleMap | durus/shelf.py:358-363 | the hole map marks exactly the slots get treats as absent |
| OffsetMaps.PrevHoleSpec | durus/shelf.py:406-410 | the link a hole receives is the nearest hole below it, or the last index when there is none |
| OffsetMaps.StitchSpec | durus/shelf.py:406-411 | stitching from any index succeeds and links every hole from there on to the previous hole, keeping which slots are holes |
| OffsetMaps.LinkKeepsHoles | durus/shelf.py:409 | writing index + start into a hole leaves it a hole |
| OffsetMaps.GenStitchSpec | durus/shelf.py:398-411 | gen_stitch succeeds, links every hole into a chain and changes no answer of get |
| OffsetMaps.GenHoles | durus/shelf.py:413-423 | an empty array yields no holes |
| OffsetMaps.HolesBelowSpec | durus/shelf.py:413-423 | the holes below an index are listed each once, in descending order |
| OffsetMaps.WalkStep | durus/shelf.py:418-423 | each step of gen_holes yields the slot's link and stops after yielding the last index |
| OffsetMaps.StitchedChained | durus/shelf.py:398-423 | after gen_stitch every hole links to the hole before it, the first hole to the last index |
| OffsetMaps.WalkSpec | durus/shelf.py:418-423 | walking the chain from a hole yields the holes below it in descending order and then the last index |
| OffsetMaps.GenHolesSpec | durus/shelf.py:398-423 | when the last slot is a hole, gen_holes after gen_stitch yields exactly the holes, each once, from the highest below the last down, then the last index |
| OffsetMaps.GenHolesLastTaken | durus/shelf.py:413-423 | when the last slot holds an offset the walk either fails or starts with a negative index |
| OffsetMaps.ViewReads | durus/shelf.py:344 | the offset map reads its integer array slot for slot |
| OffsetMaps.ViewWrite | durus/shelf.py:378 | writing through the offset map is writing the integer array |
| Shelves.GetPosition | durus/shelf.py:222-237 | a name that is not 8 bytes raises ValueError; the memory index wins over the offset map; the offset map is believed only below its start |
| Shelves.ItemAt | durus/shelf.py:239-244 | a record reads as at most 8 name bytes and the rest, within the file, or raises ShortRead |
| Shelves.GetValue | durus/shelf.py:246-253 | get_value needs an 8-byte name and finds a value only where get_position finds a position |
| Shelves.Header | durus/utils.py:11-15 | the length word is 8 bytes that read back as the length |
| Shelves.StoreLoop | durus/shelf.py:202-209 | the loop yields one triple per item |
| Shelves.Store | durus/shelf.py:190-220 | store never changes the offset map or the name generator |
| Shelves.ReadPiece | durus/shelf.py:207-209 | a record written as length, name and value reads back as that name and value wherever it sits in the file |
| Shelves.LoopLayout | durus/shelf.py:202-209 | the new index holds exactly the names stored, each at a record holding its last value |
| Shelves.RecordsLayout | durus/shelf.py:202-209 | in the records of a sequence of items, wherever they sit in a file, each name given is indexed at a record that reads back the last value given for it, and no other name is indexed |
| Shelves.PositionChecked | durus/shelf.py:222-227 | get_position fails exactly on names that are not 8 bytes long, the one property of the lookup the store loop's layout depends on |
| Shelves.LoopRecords | durus/shelf.py:202-209 | the bytes and index the loop writes are those of the records of the items, so each item is writable |
| Shelves.StoreParts | durus/shelf.py:196-220 | a successful store appends the length word and the records and merges the new positions into the memory index |
| Shelves.StoreGetValue | durus/shelf.py:190-253 | after store, get_value of a stored name returns the last value stored for it |
| Shelves.StoreKeepsValue | durus/shelf.py:190-253 | after store, get_value of any name not stored is unchanged |
| Shelves.ItemAtExtend | durus/shelf.py:239-244 | appending to the file does not change a record already readable |
| Shelves.LoopTriples | durus/shelf.py:203-206 | each triple names its item and gives the position get_position had before the store; the first new position is just after the placeholder |
| Shelves.LatestSome | durus/shelf.py:205 | a name has a last value exactly when some item names it |
| Shelves.LoopOk | durus/shelf.py:202-209 | the loop succeeds exactly when every name is 8 bytes and every record length fits an int8 |
| Shelves.StoreTriples | durus/shelf.py:190-220 | store returns (name, old position or None, new position) for each item, in order |
| Shelves.StoreFailure | durus/shelf.py:210-214 | a failed store leaves the memory index unchanged and the file either as it was or, when only the length word failed, extended past the old end |
| Shelves.StoreBadName | durus/shelf.py:202-214 | a name that is not 8 bytes makes store fail with the shelf, file included, as it was |
| Shelves.Pick | durus/shelf.py:175-186 | the name generator yields only names absent from the memory index, keeping its hole list |
| Shelves.NextName | durus/shelf.py:168-188 | next_name changes neither the file, the offset map nor the memory index |
| Shelves.StitchedHolesFit | durus/shelf.py:165-176 | after gen_stitch the holes gen_holes walks are valid name numbers |
| Shelves.TakeHole | durus/shelf.py:176-179 | taking the next hole takes a number not taken before |
| Shelves.TakeNumber | durus/shelf.py:181-186 | taking the next number above the array takes a number not taken before |
| Shelves.PickSpec | durus/shelf.py:175-186 | each name yielded is 8 bytes and its number had not been yielded before |
| Shelves.NextNameSpec | durus/shelf.py:168-188 | next_name returns an 8-byte name absent from the memory index and never returned before |
| Shelves.NamesDiffer | durus/shelf.py:168-188 | two successive calls of next_name return different names |
| ShelfTransactions.ShortAt | durus/utils.py:62-82 | a short read leaves the position at or past the end of the file |
| ShelfTransactions.ReadTransactionOffsets | durus/shelf.py:289-324 | only ShortRead escapes, and only without repair; with repair a malformed transaction is truncated off the file |
| ShelfTransactions.Failed | durus/shelf.py:311-324 | a ShortRead after reading something raises without repair and truncates to the transaction start with it; at the start it returns None |
| ShelfTransactions.CleanEnd | durus/shelf.py:297-313 | at the end of the file the result is None and nothing changes |
| ShelfTransactions.RepairAgrees | durus/shelf.py:311-324 | repair changes nothing when the read succeeds; when it raises, repair instead truncates the file to the transaction start and returns None |
| ShelfTransactions.TruncatedHeader | durus/shelf.py:297-324 | a transaction cut inside its length word raises ShortRead, or with repair is cut off |
| ShelfTransactions.EntriesOfRecords | durus/shelf.py:302-307 | reading back the records store wrote finds exactly store's index |
| ShelfTransactions.EntriesStep | durus/shelf.py:303-307 | one step of the loop records the name at its position and skips the record |
| ShelfTransactions.ScanWhole | durus/shelf.py:297-310 | a whole transaction ending at its declared end yields its offsets |
| ShelfTransactions.ScanAppended | durus/shelf.py:297-310 | a transaction appended to any file, a length word and then the records of some items, reads back as those records' index |
| ShelfTransactions.StoreThenScan | durus/shelf.py:190-310 | reading the transaction store appended gives back the positions store recorded, with or without repair |
| SortedItems.GetPosition | durus/btree.py:77-81 | the position is the number of leading items whose key is below the key, and the item there (if any) has a key at least the key |
| SortedItems.PositionOfKey | durus/btree.py:83-89 | in a sorted item list, the key is present exactly when the item at get_position carries it |
| SortedItems.UpsertSorted | durus/btree.py:95-108 | replacing an equal key or inserting at get_position keeps the item list strictly sorted |
| SortedItems.UpsertMap | durus/btree.py:95-108 | the dict the item list stands for becomes the old dict with key mapped to the new value, so an existing key gets no second entry |
| SortedItems.RemoveSpec | durus/btree.py:169-174 | removing a key keeps the list sorted and removes exactly that key from the dict it stands for |
| SortedItems.SortedUnique | durus/btree.py:24-34 | two sorted item lists standing for the same dict are equal, so in-order iteration is determined by the dict model |
| SortedItems.MapSize | durus/btree.py:441-444 | a sorted item list has exactly as many items as its dict has keys |
| SortedItems.FirstLeast | durus/btree.py:142-149 | the first item of a sorted list has the least key of its dict |
| SortedItems.LastGreatest | durus/btree.py:151-158 | the last item of a sorted list has the greatest key of its dict |
| SortedItems.ReverseSorted | durus/btree.py:36-46 | reversing a sorted list gives strictly decreasing keys |
| SortedItems.InclExcl | durus/btree.py:464-476 | the items up to and including a key are the items below it followed by the item with that key when it is present |
| BNodes.TreeLevel | durus/btree.py:267-275 | every leaf of a valid tree of height h is h levels down, so get_level, following the first child, gives h |
| BNodeQueries.SearchSpec | durus/btree.py:83-93 | search returns the pair with the key when the key is in the node's dict and None otherwise |
| BNodeQueries.MinItem | durus/btree.py:142-149 | following the first children gives the first item of the in-order contents |
| BNodeQueries.MaxItem | durus/btree.py:151-158 | following the last children gives the last item of the in-order contents |
| BNodeQueries.CountSpec | durus/btree.py:249-256 | get_count equals the number of items in-order iteration yields |
| BNodeQueries.ReversedSpec | durus/btree.py:36-46 | reversed iteration yields the in-order contents in reverse |
| BNodeQueries.IterFromSpec | durus/btree.py:48-59 | iter_from yields exactly the in-order items whose key is at least the key |
| BNodeQueries.IterBackwardFromSpec | durus/btree.py:61-72 | iter_backward_from yields the items whose key is below the key, in reverse order |
| BNodeInsert.Halve | durus/btree.py:121-139 | a full node splits into a lower half, the median at index t-1 and an upper half, t-1 items each and t children each when internal, which glue back to the node |
| BNodeInsert.SplitChild | durus/btree.py:121-139 | split_child adds one item (the child's median) and one child to the parent and keeps its in-order contents |
| BNodeInsert.HalvesTree | durus/btree.py:129-139 | both halves of a full valid child are valid subtrees of the same height |
| BNodeInsert.SplitTree | durus/btree.py:121-139 | splitting a full child of a non-full valid node leaves a valid node of the same height |
| BNodeInsert.InsertSpec | durus/btree.py:95-119 | inserting into a non-full valid node gives a valid node of the same height whose contents are the old ones with the item upserted |
| BNodeInsert.InsertSplit | durus/btree.py:109-117 | when the target child is full it is split first and the item goes to the median or to the correct half, with the same result |
| BNodeInsert.InsertHit | durus/btree.py:101-103 | an item whose key is already at the position replaces it in place: the contents are the upsert and the tree stays valid |
| BNodeDelete.FixChild | durus/btree.py:205-240 | borrowing from a sibling or merging with one gives a loose node whose chosen child has at least t items, losing at most one item from the parent |
| BNodeDelete.FixChildSpec | durus/btree.py:205-240 | the fix keeps the node's in-order contents and leaves the key between the items before and after the chosen child |
| BNodeDelete.MergeContents | durus/btree.py:225-240 | merging two siblings around their separating item keeps the in-order contents |
| BNodeDelete.RotateRightContents | durus/btree.py:206-213 | shifting an item from the lower sibling through the parent keeps the in-order contents |
| BNodeDelete.RotateLeftContents | durus/btree.py:214-222 | shifting an item from the upper sibling through the parent keeps the in-order contents |
| BNodeDelete.Case2a | durus/btree.py:183-187 | replacing the key by the predecessor taken from a big lower child removes exactly the key |
| BNodeDelete.Case2b | durus/btree.py:188-192 | replacing the key by the successor taken from a big upper child removes exactly the key |
| BNodeDelete.Case2c | durus/btree.py:193-202 | with both children small, merging them around the key and deleting the key from the merged child removes exactly the key |
| BNodeDelete.DeleteHereSpec | durus/btree.py:180-203 | deleting a key found in an internal node removes exactly that key and keeps the node loose |
| BNodeDelete.DeleteBelowSpec | durus/btree.py:204-243 | deleting a key the node does not hold itself removes exactly that key from below, reports whether it was present, and keeps the node loose (children valid, at most one item lost) |
| BNodeDelete.CollapseSpec | durus/btree.py:244-247 | a root left without items takes over its only child, keeping the contents and giving a valid tree one level lower |
| BNodeDelete.DeleteSpec | durus/btree.py:160-247 | delete removes exactly the key, reports whether it was present, and leaves a valid tree of the same height or, from a one-item root, one level lower |
| BNodeDeleteAsWritten.Case2cStep | durus/btree.py:193-202 | as written, case 2c deletes the upper sibling's minimum first and then merges the shrunken sibling into the node |
| BNodeDeleteAsWritten.UpperShrinks | durus/btree.py:204-247 | with t=2, deleting the minimum of a one-item node over two one-item leaves merges the leaves and collapses the node to a single leaf |
| BNodeDeleteAsWritten.Case2cTypeError | durus/btree.py:193-202 | deleting 4 from the seven-key tree of degree 2 merges a leaf into an internal node, which then raises TypeError |
| BNodeDeleteAsWritten.Case2cCorrected | durus/btree.py:193-202 | the corrected delete removes 4 from the same tree, leaving the six other keys in a valid tree |
| BNodeDeleteAsWritten.LeafMiss | durus/btree.py:169-177 | a leaf without the key raises KeyError and is left unchanged |
| BNodeDeleteAsWritten.KeyErrorRoute | durus/btree.py:204-247 | as written, a miss below a one-item root merges its two children into the root before the leaf raises KeyError, so the collapse never runs |
| BNodeDeleteAsWritten.KeyErrorLeavesEmptyRoot | durus/btree.py:244-247 | after that KeyError the root has no items, so the tree tests false, while it still holds three items |
| BNodeDeleteAsWritten.KeyErrorCorrected | durus/btree.py:244-247 | the corrected delete reports the key absent and leaves a non-empty root holding all three items |
| BTrees.New | durus/btree.py:326-328 | a tree is created exactly for the minimum degree of BNode or one of its subclasses, empty and valid; any other degree is an AssertionError |
| BTrees.Clear | durus/btree.py:406-407 | clear leaves an empty valid tree of the same degree |
| BTrees.GrowSpec | durus/btree.py:421-426 | splitting a full root under a new root gives a valid tree one level higher with one root item and the same contents |
| BTrees.AddRootSpec | durus/btree.py:417-427 | add upserts the item, keeps the tree valid, and grows the height by one exactly when the root was full |
| BTrees.Add | durus/btree.py:370-371 | setting a key maps it to the value in the dict, keeps the tree valid and grows the height only from a full root |
| BTrees.Lookup | durus/btree.py:83-93 | the root's search finds the pair exactly when the key is in the dict |
| BTrees.GetItem | durus/btree.py:397-401 | the value for a present key, KeyError for an absent one |
| BTrees.Get | durus/btree.py:409-415 | the value for a present key, the default otherwise |
| BTrees.Contains | durus/btree.py:364-368 | true exactly when the key is in the dict |
| BTrees.SetDefault | durus/btree.py:373-378 | a present key returns its value and leaves the tree alone; an absent key is added with the value, which is returned |
| BTrees.AddAll | durus/btree.py:390-391 | adding pairs in order leaves the dict with each key mapped to its last value |
| BTrees.Update | durus/btree.py:380-395 | TypeError with more than one positional argument; otherwise the positional pairs then the keyword pairs are assigned in order |
| BTrees.Touch | durus/btree.py:499-504 | re-setting a key keeps the dict and raises KeyError for an absent key |
| BTrees.DelItem | durus/btree.py:403-404 | deleting removes exactly the key, raises KeyError for an absent key, keeps the tree valid and never grows it |
| BTrees.DeletedLevel | durus/btree.py:244-247 | whichever height delete leaves, get_level reports it and it is at most the old one |
| BTrees.Len | durus/btree.py:441-444 | len is the number of items iterated, which is the number of keys in the dict |
| BTrees.Nonzero | durus/btree.py:330-333 | a tree is true exactly when it holds an item |
| BTrees.MinItemOf | durus/btree.py:429-433 | AssertionError on an empty tree; otherwise a pair of the dict whose key is the least |
| BTrees.MaxItemOf | durus/btree.py:435-439 | AssertionError on an empty tree; otherwise a pair of the dict whose key is the greatest |
| BTrees.Depth | durus/btree.py:506-510 | the depth is one more than the tree's height |
| BTrees.Heights | durus/btree.py:267-275 | a root is valid for at most one height, the one get_level reports |
| BTrees.Items | durus/btree.py:335-348 | the items are strictly sorted, one per key, each pairing a key with its value in the dict |
| BTrees.Keys | durus/btree.py:339-351 | the keys come strictly increasing and are exactly the dict's keys |
| BTrees.Values | durus/btree.py:343-354 | the values come in key order, each the dict's value for the matching key |
| BTrees.ItemsBackward | durus/btree.py:446-451 | the items in reverse, with strictly decreasing keys |
| BTrees.ItemsFrom | durus/btree.py:453-462 | the in-order items with key at least the key, or above it when not closed |
| BTrees.ItemsBackwardFrom | durus/btree.py:464-476 | the items with key below the key, or up to it when closed, in reverse order |
| BTrees.UpToSpan | durus/btree.py:482-486 | cutting ascending items at the first key past the end gives exactly the items up to the end, inclusive only when closed |
| BTrees.DownToSpan | durus/btree.py:490-494 | cutting descending items at the first key before the end gives exactly the items down to the end, inclusive only when closed |
| BTrees.ItemsRange | durus/btree.py:478-497 | from start up to end ascending when start <= end, else from start down to end descending, each bound closed by its flag |
| Mutations.Mutate | durus/persistent_set.py:132-134 | every mutator calls _p_note_change before it touches the contents: when that call raises the contents are untouched, and contents change or a value is returned only once the object is UNSAVED |
| Mutations.SecondMutationQuiet | durus/persistent_set.py:132-134 | after one successful mutation a second one tells no connection, because the object is already UNSAVED |
| Mutations.MutationAfterCommit | durus/persistent_set.py:132-134 | a mutation of a SAVED object tells its connection exactly once and leaves it UNSAVED, whether or not the mutation itself raises |
| Mutations.Create | durus/persistent_set.py:140-141 | self.__class__(contents) is a new object, UNSAVED with no connection and no oid, and no existing object changes |
| Mutations.Access | _persistent.c:155-173 | reading the contents attribute through pb_getattro loads a ghost and notes a stale access first, raising what that raises; on a loaded, current object it is the read alone |
| Mutations.AccessStale | _persistent.c:141-153 | on a loaded object with a stale serial the read calls note_access once, stamps the connection's serial and changes nothing else |
| Mutations.AccessIsGetAttr | _persistent.c:155-173 | the contents read is pb_getattro of that name: the same world and the same error |
| Mutations.Reads | durus/persistent_list.py:74-80 | reading the operands' contents attributes in order keeps the frame |
| Mutations.Noted | durus/persistent_set.py:132-134 | _p_note_change comes first: when it raises nothing is read; otherwise the object is UNSAVED before the reads |
| Mutations.QuietMutation | durus/persistent_set.py:132-134 | on an UNSAVED, current object a mutation reading only self records its call and its reads and changes no object |
| Mutations.MutatedSettles | durus/persistent_set.py:132-134 | a successful mutation that read self leaves it UNSAVED and current |
| Mutations.ReadSelf | _persistent.c:141-172 | one read of a loaded object's contents notes the access exactly when its serial is stale, then reads |
| Mutations.Build | durus/persistent_set.py:120-130 | an operator building a new object first reads its operands; a raising read or operation builds nothing, and otherwise exactly one new UNSAVED object appears holding the result |
| Mutations.BuildCurrent | durus/persistent_set.py:120-130 | from current operands the build adds only the reads, the new object and its contents binding |
| Mutations.NotedSelf | durus/persistent_set.py:132-134 | once _p_note_change succeeds, reading self's contents raises nothing more |
| PersistentSets.Combine | durus/persistent_set.py:24-28 | &, \|, - and ^ contain exactly the members in both, in either, in the first only, in exactly one |
| PersistentSets.Binary | durus/persistent_set.py:102-106 | a binary operator accepts another PersistentSet or a plain set and raises TypeError on anything else |
| PersistentSets.BinaryNew | durus/persistent_set.py:120-130 | the operator's result is a new UNSAVED object of the same class holding the combination |
| PersistentSets.BinaryNewLoaded | durus/persistent_set.py:120-130 | on loaded, current operands the operator reads both contents and adds only the new object |
| PersistentSets.Reflected | durus/persistent_set.py:108-118 | the value a reflected operator computes: the other operand combined with this set, in that order; TypeError for an operand that is not a set |
| PersistentSets.ReflectedNew | durus/persistent_set.py:108-118 | a reflected operator reads this set's `s`; a read that raises or an operand that is not a set builds nothing, otherwise a new UNSAVED object of the same class holds `other OP self.s` |
| PersistentSets.ReflectedNewLoaded | durus/persistent_set.py:108-118 | on a loaded, current set the reflected operator reads `s` once and adds only the new object holding `other OP self.s` |
| PersistentSets.ReflectedSwaps | durus/persistent_set.py:108-118 | the reflected form is the forward form with the operands swapped, and equals the forward form for the symmetric operators |
| PersistentSets.Method | durus/persistent_set.py:155-182 | the value the named methods compute: any iterable is accepted, TypeError only on a non-iterable |
| PersistentSets.MethodNew | durus/persistent_set.py:155-182 | difference, intersection, symmetric_difference and union read `s` and the operand; a read that raises or a non-iterable builds nothing, otherwise a new UNSAVED object of the same class holds the combination |
| PersistentSets.MethodNewExtendsOperator | durus/persistent_set.py:102-182 | where the operator builds a set the method builds the same object in the same world; an iterable that is not a set makes the operator fail and the method succeed |
| PersistentSets.MethodExtendsOperator | durus/persistent_set.py:102-106 | where the operator accepts the operand the method gives the same set; an iterable that is not a set is refused by the operator and accepted by the method |
| PersistentSets.Eq | durus/persistent_set.py:33-36 | equal exactly to another PersistentSet with the same members; anything else compares unequal |
| PersistentSets.NeIsNotEq | durus/persistent_set.py:97-100 | != is the negation of == for every operand |
| PersistentSets.Compare | durus/persistent_set.py:38-46 | <=, >=, <, > compare subsets and raise TypeError unless the other is a PersistentSet |
| PersistentSets.OrderingsAgree | durus/persistent_set.py:84-95 | <= is < or ==, > is the reversed <, and >= is the reversed <= |
| PersistentSets.InPlace | durus/persistent_set.py:48-82 | an in-place operator notes the change first, returns the object itself, and on a non-set operand raises TypeError with the contents unchanged |
| PersistentSets.InPlaceAgrees | durus/persistent_set.py:48-82 | an in-place operator succeeds exactly when the binary one does and leaves the same contents |
| PersistentSets.Update | durus/persistent_set.py:158-187 | the *_update methods note the change first and leave the combination, raising only on a non-iterable |
| PersistentSets.Add | durus/persistent_set.py:132-134 | add notes the change and leaves the set with the item in it |
| PersistentSets.AddIdempotent | durus/persistent_set.py:132-134 | adding the same item twice leaves the set as adding it once, the second add only calling _p_note_change |
| PersistentSets.Clear | durus/persistent_set.py:136-138 | clear notes the change and leaves the set empty |
| PersistentSets.Discard | durus/persistent_set.py:143-145 | discard notes the change and leaves the set without the item, present or not |
| PersistentSets.Remove | durus/persistent_set.py:151-153 | remove succeeds exactly when the item is present; otherwise KeyError with the contents unchanged |
| PersistentSets.RemoveVersusDiscard | durus/persistent_set.py:143-153 | remove and discard leave the same world and contents and return the same thing exactly when the item is present |
| PersistentSets.Pop | durus/persistent_set.py:147-149 | pop fails with KeyError exactly on an empty set; otherwise it returns a member and leaves the set without it |
| PersistentSets.PopThenAdd | durus/persistent_set.py:132-149 | adding back what pop returned restores the set |
| PersistentSets.Copy | durus/persistent_set.py:140-141 | copy is a new UNSAVED object with the same members |
| PersistentSets.IsSubset | durus/persistent_set.py:169-170 | issubset is true exactly when every member is in the other, for any iterable |
| PersistentSets.IsSuperset | durus/persistent_set.py:172-173 | issuperset is true exactly when every member of the other is in this set |
| PersistentSets.SubsetIsLe | durus/persistent_set.py:84-87 | issubset and issuperset agree with <= and >= on another PersistentSet |
| PersistentLists.Items | durus/persistent_list.py:19-21 | another PersistentList gives its data, a list or iterable its elements, and a non-iterable raises TypeError |
| PersistentLists.LexLessSpec | durus/persistent_list.py:23-24 | list < is a proper prefix or a first differing position where this list is smaller |
| PersistentLists.LexTrichotomy | durus/persistent_list.py:23-39 | of two lists exactly one is smaller, or they are equal |
| PersistentLists.Compare | durus/persistent_list.py:23-39 | a list compared with itself is equal, <= and >=; against a PersistentList or list the data decide; any other object is unequal and cannot be ordered |
| PersistentLists.SelfAgrees | durus/persistent_list.py:23-39 | the identity shortcut gives the answer comparing with a copy of the data would |
| PersistentLists.ComparisonsAgree | durus/persistent_list.py:23-39 | <= is < or ==, > and >= are the reversed < and <=, != negates ==, and one of <, ==, > holds |
| PersistentLists.Index | durus/persistent_list.py:47-48 | an index is valid exactly when -n <= i < n, and a negative one counts from the end |
| PersistentLists.GetItem | durus/persistent_list.py:47-48 | the element at the index, or IndexError outside the list |
| PersistentLists.Replace | durus/persistent_list.py:50-52 | the same length, the element at the index replaced and every other kept, or IndexError |
| PersistentLists.SetItem | durus/persistent_list.py:50-52 | notes the change first; IndexError with the data unchanged outside the list |
| PersistentLists.SetThenGet | durus/persistent_list.py:47-52 | reading after a store gives the stored value at that position and the old value elsewhere |
| PersistentLists.Drop | durus/persistent_list.py:54-56 | removing position k keeps the elements before and after it and removes exactly one copy of its value |
| PersistentLists.Without | durus/persistent_list.py:54-56 | del of a valid index removes that position; any other index is an IndexError |
| PersistentLists.DelItem | durus/persistent_list.py:54-56 | notes the change first; IndexError with the data unchanged outside the list, otherwise exactly the element at the normalised index removed and the order of the rest kept |
| PersistentLists.Clamp | durus/persistent_list.py:58-72 | a slice bound is clamped to the list, a negative one counted from the end |
| PersistentLists.Entry | durus/persistent_list.py:58-72 | the bound the slice methods receive: a negative bound already has the length added |
| PersistentLists.EntryBounds | durus/persistent_list.py:58-72 | a bound from -n up reaches the position list slicing gives; one from -2n to below -n is counted from the end twice; one below -2n reaches 0 |
| PersistentLists.ShiftedTwice | durus/persistent_list.py:58-72 | p[-5:2] on [1, 2, 3] gives [2] where list slicing gives [1, 2], and del p[-5:2] leaves [1, 3] |
| PersistentLists.Slice | durus/persistent_list.py:58-59 | a slice is the run between the clamped bounds |
| PersistentLists.GetSlice | durus/persistent_list.py:58-59 | reads `data`; a read that raises builds nothing, otherwise a new UNSAVED object holds the run between the clamped bounds the method receives |
| PersistentLists.Splice | durus/persistent_list.py:61-68 | assigning a slice keeps the elements before and after it and puts the new items between |
| PersistentLists.SpliceSlice | durus/persistent_list.py:58-68 | assigning a slice its own contents changes nothing |
| PersistentLists.EntrySpliceSlice | durus/persistent_list.py:58-68 | p[i:j] = p[i:j] changes nothing: getting and setting see the same shifted bounds |
| PersistentLists.SliceSplice | durus/persistent_list.py:58-68 | the slice where items were assigned reads back as those items |
| PersistentLists.SetSlice | durus/persistent_list.py:61-68 | notes the change first; a non-iterable is a TypeError with the data unchanged, otherwise the slice between the bounds the method receives is replaced by the operand's elements |
| PersistentLists.DelSlice | durus/persistent_list.py:70-72 | notes the change first and removes the run between the clamped bounds the method receives |
| PersistentLists.AddNew | durus/persistent_list.py:74-80 | a new UNSAVED object holding the data followed by the other's elements, or TypeError |
| PersistentLists.AddNewLoaded | durus/persistent_list.py:74-80 | on loaded, current operands + reads self.data, then the other's data, and adds only the new object |
| PersistentLists.RAddNew | durus/persistent_list.py:82-88 | a new UNSAVED object holding the other's elements followed by the data, or TypeError |
| PersistentLists.RepeatItem | durus/persistent_list.py:98-99 | element k of the list repeated n times is element k mod the length |
| PersistentLists.MulNew | durus/persistent_list.py:98-101 | a new UNSAVED object of length n times the length (empty for n <= 0) cycling through the data |
| PersistentLists.IAdd | durus/persistent_list.py:90-96 | notes the change first and returns the object itself; TypeError with the data unchanged on a non-iterable |
| PersistentLists.IAddIsAdd | durus/persistent_list.py:74-96 | += leaves the data + would build |
| PersistentLists.IMul | durus/persistent_list.py:103-106 | notes the change first, returns the object itself and leaves n times the length |
| PersistentLists.Append | durus/persistent_list.py:108-110 | notes the change first and leaves the item at the end |
| PersistentLists.Insert | durus/persistent_list.py:112-114 | notes the change first and puts the item before the clamped position |
| PersistentLists.Take | durus/persistent_list.py:116-118 | pop of a valid index yields the element and the list without it; IndexError otherwise |
| PersistentLists.Pop | durus/persistent_list.py:116-118 | notes the change first; IndexError with the data unchanged outside the list, always on an empty one |
| PersistentLists.QuietPop | durus/persistent_list.py:116-118 | a pop on a loaded list whose change is already noted only calls _p_note_change and reads `data`, taking the item at the normalised index |
| PersistentLists.AppendThenPop | durus/persistent_list.py:108-118 | pop() after append returns the appended item and restores the list |
| PersistentLists.InsertThenPop | durus/persistent_list.py:112-118 | pop(i) after insert(i, x) returns x and restores the list |
| PersistentLists.Find | durus/persistent_list.py:127-128 | the first position holding the value, or none when no position holds it |
| PersistentLists.Contains | durus/persistent_list.py:41-42 | true exactly when some position holds the item |
| PersistentLists.IndexOf | durus/persistent_list.py:127-128 | the first position holding the value, or ValueError when it is absent |
| PersistentLists.Remove | durus/persistent_list.py:120-122 | notes the change first; ValueError with the data unchanged when absent, otherwise exactly the first occurrence removed and the order of the rest kept |
| PersistentLists.Count | durus/persistent_list.py:124-125 | the number of positions holding the item, zero exactly when it is absent |
| PersistentLists.Reversed | durus/persistent_list.py:130-132 | position k of the result holds the element k places from the end |
| PersistentLists.Reverse | durus/persistent_list.py:130-132 | notes the change first and leaves the data reversed |
| PersistentLists.ReverseTwice | durus/persistent_list.py:130-132 | reversing twice restores the list |
| PersistentLists.SortedItems | durus/persistent_list.py:134-136 | the result is sorted and a permutation of the input |
| PersistentLists.Sort | durus/persistent_list.py:134-136 | notes the change first and leaves a sorted permutation of the data |
| PersistentLists.Extend | durus/persistent_list.py:138-143 | notes the change first; TypeError with the data unchanged on a non-iterable, otherwise the old data is a prefix of the new |
| PersistentLists.ExtendIsIAdd | durus/persistent_list.py:90-143 | extend leaves the same data and world as += |
| PersistentDicts.GetItem | persistent_dict.py:30-31 | the value for a present key, KeyError for an absent one |
| PersistentDicts.Get | persistent_dict.py:90-91 | the value for a present key, failobj otherwise |
| PersistentDicts.SetItem | persistent_dict.py:33-35 | notes the change first and maps the key to the value |
| PersistentDicts.SetThenGet | persistent_dict.py:30-35 | reading after a store gives the stored value for that key and the old lookup for every other |
| PersistentDicts.DelItem | persistent_dict.py:37-39 | notes the change first; KeyError with the data unchanged when absent, otherwise only that key goes and the other values stay |
| PersistentDicts.Clear | persistent_dict.py:41-43 | notes the change first and leaves the dict empty |
| PersistentDicts.Pop | persistent_dict.py:100-102 | notes the change first; a present key is removed and its value returned, an absent one gives the default or KeyError |
| PersistentDicts.PopItem | persistent_dict.py:104-106 | notes the change first; KeyError exactly on an empty dict, otherwise a pair of the dict is returned and its key removed |
| PersistentDicts.SetDefault | persistent_dict.py:93-98 | a present key returns its value with no note and no change; an absent key notes the change, is set to failobj and returns it |
| PersistentDicts.SetDefaultTwice | persistent_dict.py:93-98 | a second setdefault of the same key changes nothing and returns the first value |
| PersistentDicts.SetDefaultLoaded | persistent_dict.py:93-98 | once data is read, a present key only reads it again; an absent key notes the change first and stores failobj |
| PersistentDicts.SetDefaultSettles | persistent_dict.py:93-98 | a successful setdefault leaves the key present with the value returned, and the object current |
| PersistentDicts.SetDefaultPresent | persistent_dict.py:94-98 | a present key on a current object costs two reads of data and nothing else |
| PersistentDicts.KeysOf | persistent_dict.py:85-86 | the keys a sequence of pairs assigns are exactly the first components |
| PersistentDicts.LastForIsLast | persistent_dict.py:85-86 | when a key is assigned several times the last pair's value wins |
| PersistentDicts.Assigned | persistent_dict.py:85-88 | assigning pairs adds exactly their keys to the dict's keys |
| PersistentDicts.SetEach | persistent_dict.py:85-88 | assigning pairs through self[k] = v on an UNSAVED dict makes one quiet _p_note_change call per pair and leaves the pairs assigned in order |
| PersistentDicts.AssignedCons | persistent_dict.py:85-86 | assigning the first pair and then the rest is assigning all the pairs |
| PersistentDicts.SetEachQuiet | persistent_dict.py:85-88 | those per-pair calls tell no connection and change no object |
| PersistentDicts.SetItemQuiet | persistent_dict.py:33-35 | on an UNSAVED, current dict one store records its call and its read and nothing else |
| PersistentDicts.SetEachSucceeds | persistent_dict.py:85-88 | a run of stores fails exactly when its first store fails |
| PersistentDicts.Looked | persistent_dict.py:81-83 | looking up the keys other.keys() yields gives their pairs up to the first key the mapping lacks, which is reported |
| PersistentDicts.Merge | persistent_dict.py:75-86 | a PersistentDict or dict merges its entries; keyed objects copy key by key and raise KeyError on a missing key; pair sequences assign in order |
| PersistentDicts.Update | persistent_dict.py:71-88 | notes the change first; more than one positional argument is a TypeError, otherwise the positional source is merged and then the keyword pairs assigned |
| PersistentDicts.Merged | persistent_dict.py:75-86 | the positional argument, if any, merged into the data, or TypeError on an object that is neither mapping nor iterable |
| PersistentDicts.Apply | persistent_dict.py:75-88 | after the note, the positional source is merged and then the keyword pairs are assigned in order |
| PersistentDicts.UpdateLoaded | persistent_dict.py:71-88 | update of an UNSAVED, current dict with a dict records its call, one read and one call per keyword, and leaves the merge with keywords assigned |
| PersistentDicts.MergeLoaded | persistent_dict.py:79-80 | merging a dict into a current object reads data once and leaves the union with the dict winning |
| PersistentDicts.MergeDictWins | persistent_dict.py:77-80 | on merging a dict its value wins for a shared key, and other keys keep their value |
| PersistentDicts.Copy | persistent_dict.py:45-48 | copy is a new object, not yet stored, with equal contents |
| PersistentDicts.CopyIndependent | persistent_dict.py:45-48 | storing into the original afterwards leaves the copy's object and contents untouched |
| PersistentDicts.FromKeys | persistent_dict.py:111-116 | a new object whose keys are exactly the iterable's and whose every value is the value, with one _p_note_change call per key |
| PersistentDicts.FromKeysValues | persistent_dict.py:111-116 | the pairs fromkeys assigns cover exactly the keys and each last value is the value |
| PersistentDicts.LastForValue | persistent_dict.py:113-114 | when every pair carries the same value, that is the value each key ends with |

## Left out

- BTrees.DelItem: models the corrected deletion (BNodeDelete.Delete) rather than durus/btree.py:160-247 as written; the two places where the written code differs are under "## Findings", and for a minimum degree of 3 or more the node layout after case 2c differs from the source's (the source takes the successor out of the upper sibling before merging, the model merges first), although the dictionary is the same.
- BTrees: get_node_count, set_bnode_minimum_degree and the per-node _p_note_change calls (durus/btree.py:258-265, 512-530) are not modelled; the first is a count of nodes, the second rebuilds the tree through update, which BTrees.Update covers.
- SortedItems.Key: keys are integers, standing in for arbitrary mutually comparable Python keys; only the total order is used.
- History.Sync: returns the invalidated oids as a set, as Python 2's `dict.keys()` does at history.py:91-93; under Python 3 the same lines return a live keys view that the following `clear()` empties, so the caller would see no oids.
- History: HistoryConnection (history.py:96-154) and the file I/O of HistoryFileStorage are not part of this model; only the index and previous/next/sync are.
- Proxy.GenericGet: the generic attribute machinery is modelled as the instance dictionary alone; PyObject_GenericGetAttr also finds slots and class attributes.
- Proxy.RawHas: sees only the instance dictionary, so `_hasattribute(obj, '_p_oid')`, true in the source through the class's slot, is false in the model.
- Proxy.Stale: compares the handle's serial and the connection's transaction_serial as integers, where _persistent.c:148 compares the two Python objects by identity; serials only come from the connection's counter, so the two agree for the values the connection hands out.
- Proxy: reference counting, garbage-collection traversal, deallocation and module initialisation of _persistent.c are not modelled; the handle's back-reference to its connection is an identifier into the world.
- ConnectionNotes.LoadState: which error a missing record raises is the connection's `bareKeyError` flag, chosen by the storage it was opened on; the retry get_stored_pickle makes after a ReadConflictError from storage.load (sync, handle the invalidations, load again; durus/connection.py:117-122) is not modelled, and the record is read from the stored map directly.
- Connections.Abort: which objects die when the cache drops its last hard reference is the parameter `orphans`, since it depends on the garbage collector; the same holds for Connections.Finish and Caches.Shrink.
- Connections.Commit: the serializer's walk is the parameter `news` (the objects found without an oid and the oids handed to them) and the oids storage.end() hands to _handle_invalidations are the parameter `endOids`; pickling and compression are not modelled.
- ObjectWriters.PersistentId: the oids connection.new_oid() hands out are the parameter `alloc`, and the pickler is replaced by the list of persistent objects it meets (durus/serialize.py:126-148 pickles and compresses).
- Caches: the timing and logging of shrink are not modelled.
- ObjectDictionaries: a weak reference dying is an explicit step that adds the key to `dead`; the callback machinery is not modelled.
- Storages.GenOidRecord: `requires batchSize >= 1`; with a batch_size of 0 or less, durus/storage.py:93-95 pops nothing and its `while todo` loop never ends, which a function cannot express.
- Storages.GenOidRecord: returns either every pair the walk yields or the error that stops it; the pairs a Python generator yields before raising are dropped.
- Storages: the walk is stated over a graph of records, and its completeness lemmas assume records whose references unpack (the `Consistent` predicate); a broken record makes the walk fail with its error instead.
- OffsetMaps.Walk: the gen_holes loop at durus/shelf.py:418-423 is bounded by a `fuel` count of steps, one per slot; when the fuel runs out the model returns Err(RuntimeError), where the source on a corrupted chain would loop or keep yielding. OffsetMaps.GenHoles gives Walk as many steps as there are slots, which suffices for every stitched map.
- OffsetMaps.GenHolesSpec: requires the last slot to be a hole, as OffsetMap.generate leaves it; OffsetMaps.GenHolesLastTaken states what happens otherwise.
- OffsetMaps: the constructor, generate, iteration and get_array_size (durus/shelf.py:337-356, 380-396) are not modelled apart from what get and gen_holes read.
- Shelves.NextName: on an error the generator is kept unchanged, so a retry raises the same error; in the source the generator is stored first (durus/shelf.py:187) and, having raised, gives StopIteration on the next call.
- Shelves: the constructor, has_format, generate_shelf, iterindex, iteration, `__contains__` and close (durus/shelf.py:65-166, 255-287) are file setup and thin wrappers over get_position and the offset map; they are not modelled.
- WordArrays.Header: returns Err and no file when the second or third int8 does not fit, where durus/utils.py:383-385 has already written the first eight bytes by then.
- WordArrays.Generate: on struct.error it returns Err and no file, so the header's first eight or sixteen bytes that durus/utils.py:383-385 has already written before raising are not modelled.
- WordArrays: a WordArray over a new in-memory file (`file=None`) is modelled as one over an empty byte sequence.
- IntSets.GrowAsWritten: writes the float growth `int(n*1.2)` as `6n/5` rounded down, which agrees with it for every n whose product is exact in floating point.
- Mutations.Mutate: a container's contents are kept beside the world rather than inside the object handle, so loading a GHOST container does not fill its contents from the stored record.
- Mutations.Access: only the reads of a container's contents attribute are recorded; the lookups of bound methods such as `self._p_note_change` and of the class are not, since they go through names pb_getattro exempts or through the type.
- PersistentLists.GetItem: the read-only operations (item and slice lookup, comparisons, `in`, count, index, len and iteration, and PersistentDicts.GetItem and PersistentDicts.Get) are modelled on the contents alone; the load and access note their read of `data` triggers is not part of their result.
- PersistentLists.List: list items are integers; the list operations do not depend on the element type.
- PersistentLists.GetSlice: only `p[i:j]` with two integer bounds is modelled, with the length added once to a negative bound before the method and once more by `data[i:j]`; extended slices and steps are not modelled, and the `__len__` call Python 2 makes for a negative bound (a further read of `data`) is not recorded in the trace. The same holds for PersistentLists.SetSlice and PersistentLists.DelSlice.
- PersistentLists.Compare: ordering a list against an object that is not a list raises TypeError, as Python 3 does; Python 2 would order them by type name.
- PersistentLists.Sort: the key and reverse arguments of sort are not modelled.
- PersistentLists.IndexOf: the optional start and stop arguments of index are not modelled.
- PersistentSets.Method: an iterable operand is given by the set of its elements, so its order and duplicates are not modelled.
- PersistentSets.Binary: an operand that is neither a set nor iterable is `Opaque`; the exception Python raises for it is modelled as TypeError.
- PersistentDicts.PopItem: which pair popitem removes is the parameter `pick`, since Python chooses it.
- PersistentDicts.Copy: `copy(self)` is modelled as a new object that is not yet stored, with the data copied; the rest of the shallow copy of the persistent object's slots is not modelled.
- PersistentDicts: `__cmp__`, len, keys, items, values, the iterators and has_key (persistent_dict.py:21-28, 50-69, 108-119) are thin wrappers over the dict and are not modelled.
- The top-level btree.py, connection.py, serialize.py, utils.py, storage.py, persistent_list.py and persistent_set.py are older copies of the durus/ files; only the durus/ versions are modelled.
- Network servers and clients, file storages, command-line scripts and logging are outside the modelled core.

## Findings

| source | as written | input that shows it | evidently intended | confidence | as-written member | corrected member |
|---|---|---|---|---|---|---|
| durus/btree.py:193-202 | case 2c deletes the successor from an upper sibling that holds only t-1 items; with t = 2 that sibling can collapse into a leaf (lines 244-247), and `node.nodes + upper_sibling.nodes` then adds None to a list, raising TypeError after `node.items` already holds 2t items | minimum degree 2, root [4] over [2]([1],[3]) and [6]([5],[7]); delete 4 | merge the two children around the key first, then delete the key from the merged child (section 19.3, case 2c) | not executed | BNodeDeleteAsWritten.Case2cTypeError | BNodeDeleteAsWritten.Case2cCorrected |
| durus/btree.py:244-247 | a KeyError raised below a one-item root that has just merged its two children propagates before the collapse at lines 244-247 runs, leaving a root with no items over one child; `__nonzero__` (lines 330-331) then reports a non-empty tree as empty | minimum degree 2, root [x] over [x-1] and [x+1]; delete any k > x + 1 | collapse the emptied root (or check the key) before reporting KeyError | not executed | BNodeDeleteAsWritten.KeyErrorLeavesEmptyRoot | BNodeDeleteAsWritten.KeyErrorCorrected |
| durus/utils.py:517-520 | add(n) at or beyond the capacity grows the bit array to int(n*1.2), which is n itself for n <= 4, so setting bit n raises IndexError | IntSet(0), then add(1) | grow to a capacity above n | not executed | IntSets.AddOneToEmpty | IntSets.AddSpec |

=== FILE: bits.dfy ===
/** Byte and BitArray of utils.py: eight bits of one byte, numbered from
    the most significant, and an array of bits packed eight to a byte of a
    ByteArray. */
module Bits {
  import opened Wrappers
  import ByteArrays

  /** Bit `i` of `b`, counting from the most significant, read by
      shifting it down to the lowest place: the reference the mask
      arithmetic is checked against. */
  function BitOf(b: bv8, i: nat): (r: nat)
    requires i < 8
    ensures r < 2
  {
    if (b >> (7 - i)) & 1 == 1 then 1 else 0
  }

  /** The argument of Byte(v): a byte string or a number. */
  datatype ByteArg = Str(s: Bytes) | Num(n: int)

  /** Byte(v): a one-byte string or a number from 0 to 255; anything else
      raises TypeError. */
  function NewByte(v: ByteArg): (r: Result<bv8>)
    ensures r.Ok? <==> (v.Str? && |v.s| == 1) || (v.Num? && 0 <= v.n <= 255)
    ensures r.Err? ==> r.error == TypeError
    ensures r.Ok? && v.Str? ==> r.value == v.s[0]
    ensures r.Ok? && v.Num? ==> r.value == v.n as bv8
  {
    match v
    case Str(s) => if |s| == 1 then Ok(s[0]) else Err(TypeError)
    case Num(n) => if 0 <= n <= 255 then Ok(n as bv8) else Err(TypeError)
  }

  /** Indices -8..-1 count from the end; others outside 0..7 are an
      IndexError. */
  function BitIndex(j: int): (r: Option<nat>)
    ensures r.Some? <==> -8 <= j <= 7
    ensures r.Some? ==> r.value < 8 && r.value as int == (if j < 0 then j + 8 else j)
  {
    if -8 <= j <= -1 then Some((j + 8) as nat)
    else if 0 <= j <= 7 then Some(j as nat)
    else None
  }

  /** 0x80 >> i. */
  function Mask(i: nat): (m: bv8)
    requires i < 8
  {
    (0x80 as bv8) >> i
  }

  lemma MaskValues()
    ensures Mask(0) == 0x80 && Mask(1) == 0x40 && Mask(2) == 0x20 && Mask(3) == 0x10
    ensures Mask(4) == 0x08 && Mask(5) == 0x04 && Mask(6) == 0x02 && Mask(7) == 0x01
  {
  }

  /** The mask test agrees with the reference bit. */
  lemma MaskBit(b: bv8, i: nat)
    requires i < 8
    ensures (b & Mask(i) != 0) <==> BitOf(b, i) == 1
  {
    MaskValues();
    if i == 0 { assert (b & 0x80 != 0) <==> (b >> 7) & 1 == 1; }
    else if i == 1 { assert (b & 0x40 != 0) <==> (b >> 6) & 1 == 1; }
    else if i == 2 { assert (b & 0x20 != 0) <==> (b >> 5) & 1 == 1; }
    else if i == 3 { assert (b & 0x10 != 0) <==> (b >> 4) & 1 == 1; }
    else if i == 4 { assert (b & 0x08 != 0) <==> (b >> 3) & 1 == 1; }
    else if i == 5 { assert (b & 0x04 != 0) <==> (b >> 2) & 1 == 1; }
    else if i == 6 { assert (b & 0x02 != 0) <==> (b >> 1) & 1 == 1; }
    else { assert (b & 0x01 != 0) <==> (b >> 0) & 1 == 1; }
  }

  /** Byte.__getitem__: bit j, 1 or 0. */
  function GetBit(b: bv8, j: int): (r: Result<nat>)
    ensures r.Ok? <==> -8 <= j <= 7
    ensures r.Err? ==> r.error == IndexError
    ensures r.Ok? ==> r.value == BitOf(b, BitIndex(j).value)
  {
    match BitIndex(j)
    case None => Err(IndexError)
    case Some(i) =>
      MaskBit(b, i);
      if b & Mask(i) != 0 then Ok(1) else Ok(0)
  }

  /** Byte.__setitem__: a true value sets bit j, a false one clears it. */
  function SetBit(b: bv8, j: int, v: bool): (r: Result<bv8>)
    ensures r.Ok? <==> -8 <= j <= 7
    ensures r.Err? ==> r.error == IndexError
  {
    match BitIndex(j)
    case None => Err(IndexError)
    case Some(i) => Ok(if v then b | Mask(i) else b & !Mask(i))
  }

  /** Setting or clearing one mask bit leaves the other mask bits. */
  lemma SetMaskAt(b: bv8, m: bv8, n: bv8, v: bool)
    requires m == 0x80 || m == 0x40 || m == 0x20 || m == 0x10 || m == 0x08 || m == 0x04 || m == 0x02 || m == 0x01
    requires n == 0x80 || n == 0x40 || n == 0x20 || n == 0x10 || n == 0x08 || n == 0x04 || n == 0x02 || n == 0x01
    ensures var c := if v then b | m else b & !m;
            (c & n != 0) == (if n == m then v else b & n != 0)
  {
  }

  /** The reference reading of a byte after one bit was set or cleared. */
  lemma SetBitOf(b: bv8, i: nat, v: bool, m: nat)
    requires i < 8 && m < 8
    ensures BitOf(if v then b | Mask(i) else b & !Mask(i), m)
              == if m == i then (if v then 1 else 0) else BitOf(b, m)
  {
    var c := if v then b | Mask(i) else b & !Mask(i);
    assert (c & Mask(m) != 0) <==> BitOf(c, m) == 1 by { MaskBit(c, m); }
    assert (b & Mask(m) != 0) <==> BitOf(b, m) == 1 by { MaskBit(b, m); }
    assert Mask(m) == Mask(i) <==> m == i by { MaskValues(); }
    assert (c & Mask(m) != 0) == (if Mask(m) == Mask(i) then v else b & Mask(m) != 0) by {
      MaskOneBit(i);
      MaskOneBit(m);
      SetMaskAt(b, Mask(i), Mask(m), v);
    }
  }

  lemma MaskOneBit(i: nat)
    requires i < 8
    ensures var n := Mask(i);
            n == 0x80 || n == 0x40 || n == 0x20 || n == 0x10 || n == 0x08 || n == 0x04 || n == 0x02 || n == 0x01
  {
    MaskValues();
  }

  /** Setting a bit and reading it back gives the value written, as 1 or
      0; the other seven bits are as they were. */
  lemma SetGetBit(b: bv8, j: int, v: bool, k: int)
    requires SetBit(b, j, v).Ok? && -8 <= k <= 7
    ensures GetBit(SetBit(b, j, v).value, k)
              == if BitIndex(k) == BitIndex(j) then Ok(if v then 1 else 0) else GetBit(b, k)
  {
    var i := BitIndex(j).value;
    var m := BitIndex(k).value;
    SetBitOf(b, i, v, m);
  }

  /** A BitArray: the bytes holding the bits and the number of bits. */
  datatype BitArray = BitArray(bytes: ByteArrays.ByteArray, size: int)

  /** The number of bytes set_size asks for: the size divided by eight,
      rounded up, with Python's floor division. */
  function ByteCount(n: int): (r: int)
    ensures n >= 0 ==> r >= 0 && 8 * r >= n && 8 * (r - 1) < n
  {
    var q := n / 8;
    var rem := n % 8;
    if rem != 0 then q + 1 else q
  }

  /** Every bit has its byte. */
  predicate Valid(a: BitArray)
  {
    ByteArrays.Valid(a.bytes) && a.size >= 0 && a.bytes.size == ByteCount(a.size)
  }

  /** BitArray.set_size: the byte array becomes ceil(n/8) bytes, which
      fails when that would shrink it, and succeeds whenever the byte
      array ends the file. */
  function SetSize(a: BitArray, n: int): (r: Result<BitArray>)
    requires ByteArrays.Valid(a.bytes)
    ensures ByteCount(n) < a.bytes.size ==> r == Err(AssertionError)
    ensures ByteCount(n) >= a.bytes.size && |a.bytes.file| == a.bytes.start + a.bytes.size ==> r.Ok?
    ensures r.Err? ==> r.error == AssertionError
    ensures r.Ok? ==> r.value.size == n && r.value.bytes.size == ByteCount(n) && ByteArrays.Valid(r.value.bytes)
    ensures r.Ok? && n >= 0 ==> Valid(r.value)
  {
    ByteArrays.SetSizeSpec(a.bytes, ByteCount(n), 0);
    var b := ByteArrays.SetSize(a.bytes, ByteCount(n), 0);
    if b.Err? then Err(b.error) else Ok(BitArray(b.value, n))
  }

  /** BitArray(size, file): an empty byte array where the file is, then
      set_size. */
  function Create(file: Bytes, start: nat, size: int): (r: Result<BitArray>)
    requires start <= |file|
    ensures size < -7 ==> r == Err(AssertionError)
    ensures size >= -7 && |file| == start ==> r.Ok?
    ensures r.Ok? && size >= 0 ==> Valid(r.value) && r.value.size == size
  {
    var b := ByteArrays.Create(file, start, 0);
    SetSize(BitArray(b.value, 0), size)
  }

  /** A bit index, a negative one counting from the end. */
  function Position(a: BitArray, j: int): (p: int)
  {
    if j < 0 then a.size + j else j
  }

  /** The bit at position p in the reference reading of the bytes. */
  function BitAt(a: BitArray, p: nat): (r: nat)
    requires Valid(a) && p < a.size
    ensures r < 2
  {
    BitOf(ByteArrays.Contents(a.bytes)[p / 8], p % 8)
  }

  /** BitArray.__getitem__: indices outside [-size, size) are an
      IndexError. */
  function Get(a: BitArray, j: int): (r: Result<nat>)
    requires Valid(a)
    ensures r.Ok? <==> -a.size <= j < a.size
    ensures r.Err? ==> r.error == IndexError
    ensures r.Ok? ==> r.value == BitAt(a, Position(a, j))
  {
    var p := Position(a, j);
    if 0 <= p < a.size then
      var q := p / 8;
      var byte := ByteArrays.GetItem(a.bytes, q).value;
      var b := NewByte(Str(byte)).value;
      GetBit(b, p % 8)
    else Err(IndexError)
  }

  /** BitArray.__setitem__: the byte holding the bit is read, changed and
      written back. */
  function Set(a: BitArray, j: int, v: bool): (r: Result<BitArray>)
    requires Valid(a)
    ensures r.Ok? <==> -a.size <= j < a.size
    ensures r.Err? ==> r.error == IndexError
    ensures r.Ok? ==> Valid(r.value) && r.value.size == a.size
  {
    var p := Position(a, j);
    if 0 <= p < a.size then
      var q := p / 8;
      var byte := ByteArrays.GetItem(a.bytes, q).value;
      var b := NewByte(Str(byte)).value;
      var b2 := SetBit(b, p % 8, v).value;
      var w := ByteArrays.SetItem(a.bytes, q, [b2]).value;
      Ok(a.(bytes := w))
    else Err(IndexError)
  }

  /** The byte Set writes back, and where. */
  lemma SetByte(a: BitArray, j: int, v: bool)
    requires Valid(a) && -a.size <= j < a.size
    ensures var p := Position(a, j);
            var b := ByteArrays.Contents(a.bytes)[p / 8];
            Set(a, j, v) == Ok(a.(bytes := ByteArrays.SetItem(a.bytes, p / 8, [SetBit(b, p % 8, v).value]).value))
  {
    var p := Position(a, j);
    assert ByteArrays.GetItem(a.bytes, p / 8) == Ok([ByteArrays.Contents(a.bytes)[p / 8]]);
  }

  /** Get reads the reference bit of the byte holding the position. */
  lemma GetByte(a: BitArray, k: int)
    requires Valid(a) && -a.size <= k < a.size
    ensures var m := Position(a, k);
            Get(a, k) == Ok(BitOf(ByteArrays.Contents(a.bytes)[m / 8], m % 8))
  {
  }

  /** The byte array after the byte holding bit `p` is read, has the bit
      changed and is written back. */
  function Rewritten(a: ByteArrays.ByteArray, p: nat, v: bool): (w: ByteArrays.ByteArray)
    requires ByteArrays.Valid(a) && p / 8 < a.size
    ensures ByteArrays.Valid(w) && w.size == a.size
  {
    var b := ByteArrays.Contents(a)[p / 8];
    ByteArrays.SetItem(a, p / 8, [SetBit(b, p % 8, v).value]).value
  }

  /** The byte of bit `p` is rewritten with that bit changed. */
  lemma RewrittenByte(a: ByteArrays.ByteArray, p: nat, v: bool)
    requires ByteArrays.Valid(a) && p / 8 < a.size
    ensures var b := ByteArrays.Contents(a)[p / 8];
            ByteArrays.Contents(Rewritten(a, p, v))[p / 8]
              == if v then b | Mask(p % 8) else b & !Mask(p % 8)
  {
    var b := ByteArrays.Contents(a)[p / 8];
    var b2 := SetBit(b, p % 8, v).value;
    var w := Rewritten(a, p, v);
    ByteArrays.SetGetItem(a, p / 8, [b2], p / 8);
    assert ByteArrays.GetItem(w, p / 8) == Ok([ByteArrays.Contents(w)[p / 8]]);
  }

  /** Rewriting the byte of bit `p` changes only bit `p` of it. */
  lemma RewrittenSameByte(a: ByteArrays.ByteArray, p: nat, v: bool, m: nat)
    requires ByteArrays.Valid(a) && p / 8 < a.size && m / 8 == p / 8
    ensures BitOf(ByteArrays.Contents(Rewritten(a, p, v))[m / 8], m % 8)
              == if m == p then (if v then 1 else 0) else BitOf(ByteArrays.Contents(a)[m / 8], m % 8)
  {
    var i := p % 8;
    var n := m % 8;
    assert m == p <==> n == i;
    RewrittenByte(a, p, v);
    SetBitOf(ByteArrays.Contents(a)[p / 8], i, v, n);
  }

  /** Rewriting the byte of bit `p` leaves the other bytes. */
  lemma RewrittenOtherByte(a: ByteArrays.ByteArray, p: nat, v: bool, q: nat)
    requires ByteArrays.Valid(a) && p / 8 < a.size && q < a.size && q != p / 8
    ensures ByteArrays.Contents(Rewritten(a, p, v))[q] == ByteArrays.Contents(a)[q]
  {
    var b := ByteArrays.Contents(a)[p / 8];
    var b2 := SetBit(b, p % 8, v).value;
    var w := Rewritten(a, p, v);
    ByteArrays.SetGetItem(a, p / 8, [b2], q);
    assert ByteArrays.GetItem(w, q) == Ok([ByteArrays.Contents(w)[q]]);
  }

  /** Setting a bit and reading any bit back: the one set reads as the
      value written, every other as before. */
  lemma SetGet(a: BitArray, j: int, v: bool, k: int)
    requires Valid(a) && -a.size <= j < a.size && -a.size <= k < a.size
    ensures Get(Set(a, j, v).value, k)
              == if Position(a, k) == Position(a, j) then Ok(if v then 1 else 0) else Get(a, k)
  {
    var p := Position(a, j);
    var m := Position(a, k);
    SetByte(a, j, v);
    var s := Set(a, j, v).value;
    assert s.bytes == Rewritten(a.bytes, p, v);
    GetByte(s, k);
    GetByte(a, k);
    if m / 8 == p / 8 {
      RewrittenSameByte(a.bytes, p, v, m);
    } else {
      RewrittenOtherByte(a.bytes, p, v, m / 8);
    }
  }

  /** __iter__: the bits of each byte, most significant first, up to the
      size. */
  function Iterate(a: BitArray): (r: seq<nat>)
    requires Valid(a)
    ensures |r| == a.size
  {
    var all := Unpack(ByteArrays.Contents(a.bytes));
    all[..a.size]
  }

  /** The bits of a byte string, eight per byte, most significant first. */
  function Unpack(s: Bytes): (r: seq<nat>)
    ensures |r| == 8 * |s|
  {
    if s == [] then []
    else [BitOf(s[0], 0), BitOf(s[0], 1), BitOf(s[0], 2), BitOf(s[0], 3),
          BitOf(s[0], 4), BitOf(s[0], 5), BitOf(s[0], 6), BitOf(s[0], 7)] + Unpack(s[1..])
  }

  lemma {:induction false} UnpackAt(s: Bytes, p: nat)
    requires p < 8 * |s|
    ensures Unpack(s)[p] == BitOf(s[p / 8], p % 8)
    decreases |s|
  {
    if p >= 8 {
      UnpackAt(s[1..], p - 8);
      assert (p - 8) / 8 == p / 8 - 1 && (p - 8) % 8 == p % 8;
    }
  }

  /** Iterating yields what indexing yields. */
  lemma IterateSpec(a: BitArray, p: nat)
    requires Valid(a) && p < a.size
    ensures Get(a, p) == Ok(Iterate(a)[p])
  {
    UnpackAt(ByteArrays.Contents(a.bytes), p);
  }
}

=== FILE: bnode.dfy ===
/** The nodes of durus/btree.py: a leaf holds sorted items, an internal node
    holds items separating one more child than it has items. */
module BNodes {
  import opened Wrappers
  import opened SortedItems

  datatype Node<V> =
    | Leaf(items: seq<Item<V>>)
    | Internal(items: seq<Item<V>>, children: seq<Node<V>>)

  /** In-order contents (BNode.__iter__): child 0, item 0, child 1, ... */
  function Contents<V>(n: Node<V>): seq<Item<V>>
    decreases n, 0
  {
    match n
    case Leaf(its) => its
    case Internal(its, cs) => Pre(cs, its, |its|) + Child(cs, |its|)
  }

  /** The contents of child j, empty where there is no such child. */
  function Child<V>(cs: seq<Node<V>>, j: nat): seq<Item<V>>
    decreases cs, 0
  {
    if j < |cs| then Contents(cs[j]) else []
  }

  /** Everything left of child k: child 0, item 0, ..., child k-1, item k-1. */
  function Pre<V>(cs: seq<Node<V>>, its: seq<Item<V>>, k: nat): seq<Item<V>>
    requires k <= |its|
    decreases cs, k + 1
  {
    if k == 0 then [] else Pre(cs, its, k - 1) + Child(cs, k - 1) + [its[k - 1]]
  }

  /** Everything right of child k: item k, child k+1, ..., the last child. */
  function Post<V>(cs: seq<Node<V>>, its: seq<Item<V>>, k: nat): seq<Item<V>>
    requires k <= |its|
    decreases |its| - k
  {
    if k == |its| then [] else [its[k]] + Child(cs, k + 1) + Post(cs, its, k + 1)
  }

  /** The contents of an internal node seen around its child p. */
  lemma {:induction false} Focus<V>(its: seq<Item<V>>, cs: seq<Node<V>>, p: nat)
    requires p <= |its|
    ensures Contents(Internal(its, cs)) == Pre(cs, its, p) + Child(cs, p) + Post(cs, its, p)
    decreases |its| - p
  {
    if p < |its| {
      Focus(its, cs, p + 1);
    }
  }

  lemma {:induction false} PreFrame<V>(cs: seq<Node<V>>, its: seq<Item<V>>, cs2: seq<Node<V>>, its2: seq<Item<V>>, k: nat)
    requires k <= |its| && k <= |its2|
    requires forall j :: 0 <= j < k ==> its[j] == its2[j] && Child(cs, j) == Child(cs2, j)
    ensures Pre(cs, its, k) == Pre(cs2, its2, k)
  {
    if k > 0 {
      PreFrame(cs, its, cs2, its2, k - 1);
    }
  }

  lemma {:induction false} PostFrame<V>(cs: seq<Node<V>>, its: seq<Item<V>>, k: nat,
                                        cs2: seq<Node<V>>, its2: seq<Item<V>>, k2: nat)
    requires |cs| == |its| + 1 && |cs2| == |its2| + 1 && k <= |its| && k2 <= |its2|
    requires its[k..] == its2[k2..] && cs[k + 1..] == cs2[k2 + 1..]
    ensures Post(cs, its, k) == Post(cs2, its2, k2)
    decreases |its| - k
  {
    if k < |its| {
      assert its[k] == its[k..][0] && its2[k2] == its2[k2..][0];
      assert cs[k + 1] == cs[k + 1..][0] && cs2[k2 + 1] == cs2[k2 + 1..][0];
      assert its[k + 1..] == its[k..][1..] && its2[k2 + 1..] == its2[k2..][1..];
      assert cs[k + 2..] == cs[k + 1..][1..] && cs2[k2 + 2..] == cs2[k2 + 1..][1..];
      PostFrame(cs, its, k + 1, cs2, its2, k2 + 1);
    }
  }

  /** get_level: the number of levels below this node, along the first child. */
  function Level<V>(n: Node<V>): nat
  {
    match n
    case Leaf(_) => 0
    case Internal(_, cs) => if |cs| == 0 then 1 else 1 + Level(cs[0])
  }

  /** BTree.__bool__ on the root: whether the node itself holds an item. */
  predicate Truthy<V>(n: Node<V>)
  {
    |n.items| > 0
  }

  /** The children of a node, none for a leaf (`nodes or []`). */
  function Kids<V>(n: Node<V>): seq<Node<V>>
  {
    if n.Leaf? then [] else n.children
  }

  /** One more child than items in every internal node: what the iterators
      need to never index past the children. */
  ghost predicate Shaped<V>(n: Node<V>)
  {
    match n
    case Leaf(_) => true
    case Internal(its, cs) => |cs| == |its| + 1 && forall i :: 0 <= i < |cs| ==> Shaped(cs[i])
  }

  /** A B-tree of minimum degree t whose leaves all lie h levels down: at most
      2t-1 items per node, at least t-1 below the root, at least one item and
      one more child than items in every internal node. */
  ghost predicate Tree<V>(n: Node<V>, t: nat, h: nat, root: bool)
  {
    |n.items| <= 2 * t - 1
    && (!root ==> |n.items| >= t - 1)
    && match n
       case Leaf(_) => h == 0
       case Internal(its, cs) =>
         h >= 1 && |its| >= 1 && |cs| == |its| + 1
         && forall i :: 0 <= i < |cs| ==> Tree(cs[i], t, h - 1, false)
  }

  /** A well-formed B-tree (sub)tree whose in-order contents are sorted. */
  ghost predicate Valid<V>(n: Node<V>, t: nat, h: nat, root: bool)
  {
    t >= 2 && Tree(n, t, h, root) && Sorted(Contents(n))
  }

  /** The dictionary a node denotes. */
  function ToDict<V>(n: Node<V>): map<Key, V>
  {
    ToMap(Contents(n))
  }

  /** get_level measures the height every leaf lies at. */
  lemma {:induction false} TreeLevel<V>(n: Node<V>, t: nat, h: nat, root: bool)
    requires Tree(n, t, h, root)
    ensures Level(n) == h
  {
    if n.Internal? {
      TreeLevel(n.children[0], t, h - 1, false);
    }
  }

  lemma {:induction false} TreeShaped<V>(n: Node<V>, t: nat, h: nat, root: bool)
    requires Tree(n, t, h, root)
    ensures Shaped(n)
  {
    if n.Internal? {
      forall i | 0 <= i < |n.children|
        ensures Shaped(n.children[i])
      {
        TreeShaped(n.children[i], t, h - 1, false);
      }
    }
  }

  /** Children of a valid node are valid non-root subtrees. */
  lemma {:induction false} ChildValid<V>(n: Node<V>, t: nat, h: nat, root: bool, i: nat)
    requires Valid(n, t, h, root) && n.Internal? && i < |n.children|
    ensures Valid(n.children[i], t, h - 1, false)
  {
    Window(n.items, n.children, i);
  }

  /** Contents from child p through child q: child p, item p, ..., child q. */
  function Mid<V>(cs: seq<Node<V>>, its: seq<Item<V>>, p: nat, q: nat): seq<Item<V>>
    requires p <= q <= |its|
    decreases q
  {
    if q == p then Child(cs, p) else Mid(cs, its, p, q - 1) + [its[q - 1]] + Child(cs, q)
  }

  lemma {:induction false} PreMid<V>(cs: seq<Node<V>>, its: seq<Item<V>>, p: nat, q: nat)
    requires p <= q <= |its|
    ensures Pre(cs, its, q) + Child(cs, q) == Pre(cs, its, p) + Mid(cs, its, p, q)
    decreases q
  {
    if q > p {
      PreMid(cs, its, p, q - 1);
      assert Pre(cs, its, q) + Child(cs, q)
          == (Pre(cs, its, q - 1) + Child(cs, q - 1)) + [its[q - 1]] + Child(cs, q);
    }
  }

  /** The contents of an internal node seen around the children p..q. */
  lemma MidFocus<V>(its: seq<Item<V>>, cs: seq<Node<V>>, p: nat, q: nat)
    requires p <= q <= |its|
    ensures Contents(Internal(its, cs)) == Pre(cs, its, p) + Mid(cs, its, p, q) + Post(cs, its, q)
  {
    Focus(its, cs, q);
    PreMid(cs, its, p, q);
  }

  lemma {:induction false} MidFrame<V>(cs: seq<Node<V>>, its: seq<Item<V>>, p: nat, q: nat,
                                       cs2: seq<Node<V>>, its2: seq<Item<V>>, p2: nat)
    requires p <= q <= |its| && p2 + (q - p) <= |its2|
    requires forall j :: p <= j <= q ==> Child(cs, j) == Child(cs2, j - p + p2)
    requires forall j :: p <= j < q ==> its[j] == its2[j - p + p2]
    ensures Mid(cs, its, p, q) == Mid(cs2, its2, p2, p2 + (q - p))
    decreases q
  {
    if q > p {
      MidFrame(cs, its, p, q - 1, cs2, its2, p2);
    }
  }

  /** Replacing the items p..q-1 and the children p..q of an internal node by
      a run of new items and children changes its contents only in between:
      every parent-level step of insertion and deletion is such a splice. */
  lemma Splice<V>(its: seq<Item<V>>, cs: seq<Node<V>>, p: nat, q: nat, ni: seq<Item<V>>, nk: seq<Node<V>>)
    requires |cs| == |its| + 1 && p <= q <= |its| && |nk| == |ni| + 1
    ensures Contents(Internal(its[..p] + ni + its[q..], cs[..p] + nk + cs[q + 1..]))
         == Pre(cs, its, p) + Contents(Internal(ni, nk)) + Post(cs, its, q)
  {
    var its2, cs2 := its[..p] + ni + its[q..], cs[..p] + nk + cs[q + 1..];
    MidFocus(its2, cs2, p, p + |ni|);
    SplicePre(its, cs, p, q, ni, nk);
    SplicePost(its, cs, p, q, ni, nk);
    SpliceMid(its, cs, p, q, ni, nk);
  }

  lemma SplicePre<V>(its: seq<Item<V>>, cs: seq<Node<V>>, p: nat, q: nat, ni: seq<Item<V>>, nk: seq<Node<V>>)
    requires |cs| == |its| + 1 && p <= q <= |its| && |nk| == |ni| + 1
    ensures Pre(cs[..p] + nk + cs[q + 1..], its[..p] + ni + its[q..], p) == Pre(cs, its, p)
  {
    Around(its, ni, its[q..], p);
    Around(cs, nk, cs[q + 1..], p);
    PreSame(cs[..p] + nk + cs[q + 1..], its[..p] + ni + its[q..], cs, its, p);
  }

  /** Where a spliced sequence keeps its prefix and holds the inserted run. */
  lemma Around<T>(s: seq<T>, a: seq<T>, b: seq<T>, p: nat)
    requires p <= |s|
    ensures (s[..p] + a + b)[..p] == s[..p]
    ensures (s[..p] + a + b)[p..p + |a|] == a
  {
  }

  lemma {:induction false} PreSame<V>(cs: seq<Node<V>>, its: seq<Item<V>>, cs2: seq<Node<V>>, its2: seq<Item<V>>, k: nat)
    requires k <= |its| && k <= |its2| && k <= |cs| && k <= |cs2|
    requires its[..k] == its2[..k] && cs[..k] == cs2[..k]
    ensures Pre(cs, its, k) == Pre(cs2, its2, k)
  {
    if k > 0 {
      assert its[..k - 1] == its[..k][..k - 1] && its2[..k - 1] == its2[..k][..k - 1];
      assert cs[..k - 1] == cs[..k][..k - 1] && cs2[..k - 1] == cs2[..k][..k - 1];
      assert its[k - 1] == its[..k][k - 1] && cs[k - 1] == cs[..k][k - 1];
      assert its2[k - 1] == its2[..k][k - 1] && cs2[k - 1] == cs2[..k][k - 1];
      PreSame(cs, its, cs2, its2, k - 1);
    }
  }

  lemma SplicePost<V>(its: seq<Item<V>>, cs: seq<Node<V>>, p: nat, q: nat, ni: seq<Item<V>>, nk: seq<Node<V>>)
    requires |cs| == |its| + 1 && p <= q <= |its| && |nk| == |ni| + 1
    ensures Post(cs[..p] + nk + cs[q + 1..], its[..p] + ni + its[q..], p + |ni|) == Post(cs, its, q)
  {
    var its2, cs2 := its[..p] + ni + its[q..], cs[..p] + nk + cs[q + 1..];
    var q2 := p + |ni|;
    assert its2[q2..] == its[q..];
    assert cs2[q2 + 1..] == cs[q + 1..];
    PostFrame(cs2, its2, q2, cs, its, q);
  }

  lemma SpliceMid<V>(its: seq<Item<V>>, cs: seq<Node<V>>, p: nat, q: nat, ni: seq<Item<V>>, nk: seq<Node<V>>)
    requires |cs| == |its| + 1 && p <= q <= |its| && |nk| == |ni| + 1
    ensures Mid(cs[..p] + nk + cs[q + 1..], its[..p] + ni + its[q..], p, p + |ni|) == Contents(Internal(ni, nk))
  {
    Around(its, ni, its[q..], p);
    Around(cs, nk, cs[q + 1..], p);
    MidSlice(cs[..p] + nk + cs[q + 1..], its[..p] + ni + its[q..], p, p + |ni|);
  }

  /** Children p..q with the items between them form a node of their own. */
  lemma {:induction false} MidSlice<V>(cs: seq<Node<V>>, its: seq<Item<V>>, p: nat, q: nat)
    requires p <= q <= |its| && q < |cs|
    ensures Mid(cs, its, p, q) == Contents(Internal(its[p..q], cs[p..q + 1]))
    decreases q
  {
    if q == p {
      Region1(cs[p]);
      assert cs[p..q + 1] == [cs[p]];
    } else {
      var a, b := its[p..q - 1], cs[p..q];
      MidSlice(cs, its, p, q - 1);
      assert its[p..q] == a + [its[q - 1]];
      assert cs[p..q + 1] == b + [cs[q]];
      ContentsSnoc(a, b, its[q - 1], cs[q]);
      assert Child(cs, q) == Contents(cs[q]);
    }
  }

  /** One more item and child at the right end of an internal node add
      themselves at the end of its contents. */
  lemma ContentsSnoc<V>(its: seq<Item<V>>, cs: seq<Node<V>>, x: Item<V>, c: Node<V>)
    requires |cs| == |its| + 1
    ensures Contents(Internal(its + [x], cs + [c])) == Contents(Internal(its, cs)) + [x] + Contents(c)
  {
    var its2, cs2, m := its + [x], cs + [c], |its|;
    forall j | 0 <= j < m
      ensures its2[j] == its[j] && Child(cs2, j) == Child(cs, j)
    {
      assert cs2[j] == cs[j];
    }
    PreFrame(cs2, its2, cs, its, m);
    assert cs2[m] == cs[m] && cs2[m + 1] == c;
    assert Pre(cs2, its2, m + 1) == Pre(cs2, its2, m) + Child(cs2, m) + [x];
  }

  /** The whole node is the splice of its own middle. */
  lemma SpliceSelf<V>(its: seq<Item<V>>, cs: seq<Node<V>>, p: nat, q: nat)
    requires |cs| == |its| + 1 && p <= q <= |its|
    ensures Contents(Internal(its, cs))
         == Pre(cs, its, p) + Contents(Internal(its[p..q], cs[p..q + 1])) + Post(cs, its, q)
  {
    Splice(its, cs, p, q, its[p..q], cs[p..q + 1]);
    assert its[..p] + its[p..q] + its[q..] == its;
    assert cs[..p] + cs[p..q + 1] + cs[q + 1..] == cs;
  }

  /** The two smallest regions a splice touches. */
  lemma Region1<V>(c: Node<V>)
    ensures Contents(Internal([], [c])) == Contents(c)
  {
    assert Pre([c], [], 0) == [];
  }

  lemma Region2<V>(a: Node<V>, x: Item<V>, b: Node<V>)
    ensures Contents(Internal([x], [a, b])) == Contents(a) + [x] + Contents(b)
  {
    assert Pre([a, b], [x], 1) == Pre([a, b], [x], 0) + Child([a, b], 0) + [x];
  }

  /** Two siblings and the separator between them joined into one node, the
      merge of delete's cases 2c, 3b1 and 3b2; the lower sibling decides
      whether the result is a leaf. */
  function Glue<V>(a: Node<V>, x: Item<V>, b: Node<V>): Node<V>
  {
    if a.Leaf? then Leaf(a.items + [x] + b.items)
    else Internal(a.items + [x] + b.items, a.children + Kids(b))
  }

  lemma GlueContents<V>(a: Node<V>, x: Item<V>, b: Node<V>)
    requires a.Leaf? <==> b.Leaf?
    requires a.Internal? ==> |a.children| == |a.items| + 1 && |b.children| == |b.items| + 1
    ensures Contents(Glue(a, x, b)) == Contents(a) + [x] + Contents(b)
  {
    if a.Internal? {
      var its, cs := a.items + [x] + b.items, a.children + b.children;
      Focus(its, cs, |a.items|);
      GlueLower(a, x, b);
      GlueUpper(a, x, b);
    }
  }

  lemma GlueLower<V>(a: Node<V>, x: Item<V>, b: Node<V>)
    requires a.Internal? && b.Internal? && |a.children| == |a.items| + 1
    ensures var its, cs := a.items + [x] + b.items, a.children + b.children;
            Pre(cs, its, |a.items|) + Child(cs, |a.items|) == Contents(a)
  {
    var ia, ca := a.items, a.children;
    var its, cs := ia + [x] + b.items, ca + b.children;
    assert forall j :: 0 <= j < |ia| ==> its[j] == ia[j] && Child(cs, j) == Child(ca, j);
    PreFrame(cs, its, ca, ia, |ia|);
    assert cs[|ia|] == ca[|ia|];
  }

  lemma GlueUpper<V>(a: Node<V>, x: Item<V>, b: Node<V>)
    requires a.Internal? && b.Internal? && |a.children| == |a.items| + 1 && |b.children| == |b.items| + 1
    ensures var its, cs := a.items + [x] + b.items, a.children + b.children;
            Post(cs, its, |a.items|) == [x] + Contents(b)
  {
    var ia, ib, cb := a.items, b.items, b.children;
    var its, cs := ia + [x] + ib, a.children + cb;
    var m := |ia| + 1;
    assert Post(cs, its, |ia|) == [x] + Child(cs, m) + Post(cs, its, m);
    assert cs[m] == cb[0];
    assert its[m..] == ib[0..];
    assert cs[m + 1..] == cb[1..];
    PostFrame(cs, its, m, cb, ib, 0);
    Focus(ib, cb, 0);
  }

  /** Left of the separator p-1 everything is below it; right of item p
      everything is above it. */
  lemma {:induction false} Window<V>(its: seq<Item<V>>, cs: seq<Node<V>>, p: nat)
    requires p <= |its| && Sorted(Contents(Internal(its, cs)))
    ensures Sorted(Child(cs, p))
    ensures p > 0 ==> AllAbove(Child(cs, p), its[p - 1].key)
    ensures p < |its| ==> AllBelow(Child(cs, p), its[p].key)
    ensures p > 0 ==> var a := Pre(cs, its, p);
                      forall i :: 0 <= i < |a| ==> a[i].key <= its[p - 1].key
    ensures p < |its| ==> var b := Post(cs, its, p);
                          forall i :: 0 <= i < |b| ==> b[i].key >= its[p].key
  {
    Focus(its, cs, p);
    var a, c, b := Pre(cs, its, p), Child(cs, p), Post(cs, its, p);
    assert Contents(Internal(its, cs)) == a + (c + b);
    SortedSplit(a, c + b);
    SortedSplit(c, b);
    assert forall j :: 0 <= j < |c| ==> (c + b)[j] == c[j];
    if p > 0 {
      var a0 := Pre(cs, its, p - 1) + Child(cs, p - 1);
      assert a == a0 + [its[p - 1]];
      SortedSplit(a0, [its[p - 1]]);
      assert a[|a| - 1] == its[p - 1];
    }
    if p < |its| {
      assert b[0] == its[p];
    }
  }

  /** Along the search path of k: everything left of child p = get_position
      is below k, nothing right of it is, and the child itself is sorted. */
  lemma Descend<V>(its: seq<Item<V>>, cs: seq<Node<V>>, k: Key)
    requires Sorted(Contents(Internal(its, cs)))
    ensures var p := GetPosition(its, k);
            && Contents(Internal(its, cs)) == Pre(cs, its, p) + Child(cs, p) + Post(cs, its, p)
            && Sorted(Child(cs, p))
            && AllBelow(Pre(cs, its, p), k)
            && NoneBelow(Post(cs, its, p), k)
            && (p < |its| && its[p].key != k ==> AllAbove(Post(cs, its, p), k))
  {
    var p := GetPosition(its, k);
    Focus(its, cs, p);
    Window(its, cs, p);
  }

  /** An item of an internal node splits its contents at its own key. */
  lemma Hit<V>(its: seq<Item<V>>, cs: seq<Node<V>>, p: nat)
    requires p < |its| && Sorted(Contents(Internal(its, cs)))
    ensures var a, b := Pre(cs, its, p) + Child(cs, p), Child(cs, p + 1) + Post(cs, its, p + 1);
            && Contents(Internal(its, cs)) == a + [its[p]] + b
            && AllBelow(a, its[p].key) && AllAbove(b, its[p].key)
            && Sorted(a) && Sorted(b)
  {
    HitSplit(its, cs, p);
    SortedAround(Pre(cs, its, p) + Child(cs, p), its[p], Child(cs, p + 1) + Post(cs, its, p + 1));
  }

  /** The contents of an internal node seen around its item p. */
  lemma HitSplit<V>(its: seq<Item<V>>, cs: seq<Node<V>>, p: nat)
    requires p < |its|
    ensures Contents(Internal(its, cs))
         == (Pre(cs, its, p) + Child(cs, p)) + [its[p]] + (Child(cs, p + 1) + Post(cs, its, p + 1))
  {
    Focus(its, cs, p);
  }

  /** Everything right of child p is above any key below item p. */
  lemma PostAbove<V>(its: seq<Item<V>>, cs: seq<Node<V>>, p: nat, k: Key)
    requires p < |its| && Sorted(Contents(Internal(its, cs))) && k < its[p].key
    ensures AllAbove(Post(cs, its, p), k)
  {
    Hit(its, cs, p);
    PostStep(its, cs, p);
    AboveCons(its[p], Child(cs, p + 1) + Post(cs, its, p + 1), k);
  }

  lemma PostStep<V>(its: seq<Item<V>>, cs: seq<Node<V>>, p: nat)
    requires p < |its|
    ensures Post(cs, its, p) == [its[p]] + (Child(cs, p + 1) + Post(cs, its, p + 1))
  {
  }

  /** Replacing one child changes the contents only in that child's place. */
  lemma SetChild<V>(its: seq<Item<V>>, cs: seq<Node<V>>, q: nat, c: Node<V>)
    requires |cs| == |its| + 1 && q < |cs|
    ensures Contents(Internal(its, cs[q := c])) == Pre(cs, its, q) + Contents(c) + Post(cs, its, q)
  {
    Splice(its, cs, q, q, [], [c]);
    Region1(c);
    assert its[..q] + [] + its[q..] == its;
    assert cs[..q] + [c] + cs[q + 1..] == cs[q := c];
  }

  /** Replacing one item changes the contents only in that item's place. */
  lemma SetItem<V>(its: seq<Item<V>>, cs: seq<Node<V>>, p: nat, x: Item<V>)
    requires |cs| == |its| + 1 && p < |its|
    ensures Contents(Internal(its[p := x], cs))
         == Pre(cs, its, p) + Child(cs, p) + [x] + Child(cs, p + 1) + Post(cs, its, p + 1)
  {
    Splice(its, cs, p, p + 1, [x], [cs[p], cs[p + 1]]);
    Region2(cs[p], x, cs[p + 1]);
    assert its[..p] + [x] + its[p + 1..] == its[p := x];
    assert cs[..p] + [cs[p], cs[p + 1]] + cs[p + 2..] == cs;
  }

  /** A child of a tree may be swapped for any subtree of the same height. */
  lemma SetChildTree<V>(n: Node<V>, t: nat, h: nat, root: bool, q: nat, c: Node<V>)
    requires Tree(n, t, h, root) && n.Internal? && q < |n.children| && Tree(c, t, h - 1, false)
    ensures Tree(Internal(n.items, n.children[q := c]), t, h, root)
  {
  }

  lemma SetItemTree<V>(n: Node<V>, t: nat, h: nat, root: bool, p: nat, x: Item<V>)
    requires Tree(n, t, h, root) && n.Internal? && p < |n.items|
    ensures Tree(Internal(n.items[p := x], n.children), t, h, root)
  {
  }

  /** A root-relaxed tree with enough items is a tree below the root too. */
  lemma Unroot<V>(n: Node<V>, t: nat, h: nat)
    requires Tree(n, t, h, true) && |n.items| >= t - 1
    ensures Tree(n, t, h, false)
  {
  }

  /** The children of a tree, root-relaxed or not, and the shape of a full one. */
  lemma Kid<V>(n: Node<V>, t: nat, h: nat, root: bool, i: nat)
    requires Tree(n, t, h, root) && n.Internal? && i < |n.children|
    ensures Tree(n.children[i], t, h - 1, false) && Tree(n.children[i], t, h - 1, true)
    ensures n.children[i].Internal? ==> |n.children[i].children| == |n.children[i].items| + 1
  {
  }
}

=== FILE: bnode_delete.dfy ===
/** Deletion from a BNode of durus/btree.py, following section 19.3 of
    Cormen, Leiserson and Rivest as the source's docstring says: on the way
    down every child entered holds at least t items, so it can lose one. */
module BNodeDelete {
  import opened Wrappers
  import opened SortedItems
  import opened BNodes
  import opened BNodeQueries

  /** A node of height h whose children are subtrees, whatever its own item
      count: the pieces that rotations and merges cut and glue. */
  ghost predicate Part<V>(n: Node<V>, t: nat, h: nat)
  {
    match n
    case Leaf(_) => h == 0
    case Internal(its, cs) =>
      h >= 1 && |cs| == |its| + 1 && forall i :: 0 <= i < |cs| ==> Tree(cs[i], t, h - 1, false)
  }

  /** An internal node that may have lost its last item: the root between a
      merge of its only two children and its collapse. */
  ghost predicate Loose<V>(n: Node<V>, t: nat, h: nat)
  {
    n.Internal? && |n.items| <= 2 * t - 1 && Part(n, t, h)
  }

  /** is_big: a child that can give up an item and remain a subtree. */
  predicate Big<V>(n: Node<V>, t: nat)
  {
    |n.items| >= t
  }

  lemma TreePart<V>(n: Node<V>, t: nat, h: nat, root: bool)
    requires Tree(n, t, h, root)
    ensures Part(n, t, h) && (n.Internal? ==> Loose(n, t, h))
  {
  }

  lemma PartTree<V>(n: Node<V>, t: nat, h: nat)
    requires Part(n, t, h) && t - 1 <= |n.items| <= 2 * t - 1 && (n.Internal? ==> |n.items| >= 1)
    ensures Tree(n, t, h, false) && Tree(n, t, h, true)
  {
  }

  /** A node without its last item and last child. */
  function Front<V>(n: Node<V>): Node<V>
    requires |n.items| >= 1 && (n.Internal? ==> |n.children| == |n.items| + 1)
  {
    var m := |n.items| - 1;
    match n
    case Leaf(its) => Leaf(its[..m])
    case Internal(its, cs) => Internal(its[..m], cs[..m + 1])
  }

  /** The last child of a node on its own, with no items; an empty leaf for a leaf. */
  function LastEdge<V>(n: Node<V>): Node<V>
    requires n.Internal? ==> |n.children| >= 1
  {
    if n.Leaf? then Leaf([]) else Internal([], [n.children[|n.children| - 1]])
  }

  /** A node without its first item and first child. */
  function Back<V>(n: Node<V>): Node<V>
    requires |n.items| >= 1 && (n.Internal? ==> |n.children| == |n.items| + 1)
  {
    match n
    case Leaf(its) => Leaf(its[1..])
    case Internal(its, cs) => Internal(its[1..], cs[1..])
  }

  /** The first child of a node on its own, with no items; an empty leaf for a leaf. */
  function FirstEdge<V>(n: Node<V>): Node<V>
    requires n.Internal? ==> |n.children| >= 1
  {
    if n.Leaf? then Leaf([]) else Internal([], [n.children[0]])
  }

  /** Cutting off the last item and child and gluing them back is the identity. */
  lemma FrontGlue<V>(n: Node<V>)
    requires |n.items| >= 1 && (n.Internal? ==> |n.children| == |n.items| + 1)
    ensures Glue(Front(n), n.items[|n.items| - 1], LastEdge(n)) == n
  {
    var m := |n.items| - 1;
    assert n.items[..m] + [n.items[m]] + [] == n.items;
    if n.Internal? {
      assert n.children[..m + 1] + [n.children[m + 1]] == n.children;
    }
  }

  /** Cutting off the first item and child and gluing them back is the identity. */
  lemma BackGlue<V>(n: Node<V>)
    requires |n.items| >= 1 && (n.Internal? ==> |n.children| == |n.items| + 1)
    ensures Glue(FirstEdge(n), n.items[0], Back(n)) == n
  {
    assert [] + [n.items[0]] + n.items[1..] == n.items;
    if n.Internal? {
      assert [n.children[0]] + n.children[1..] == n.children;
    }
  }

  lemma EdgesPart<V>(n: Node<V>, t: nat, h: nat)
    requires Part(n, t, h) && |n.items| >= 1
    ensures Part(Front(n), t, h) && Part(LastEdge(n), t, h)
    ensures Part(Back(n), t, h) && Part(FirstEdge(n), t, h)
  {
    if n.Internal? {
      var cs, m := n.children, |n.items| - 1;
      var front, back := cs[..m + 1], cs[1..];
      forall i | 0 <= i < |front|
        ensures Tree(front[i], t, h - 1, false)
      {
        assert front[i] == cs[i];
      }
      forall i | 0 <= i < |back|
        ensures Tree(back[i], t, h - 1, false)
      {
        assert back[i] == cs[i + 1];
      }
    }
  }

  /** Two pieces of the same height glued around an item form a subtree
      when the item count is within bounds. */
  lemma GlueTree<V>(a: Node<V>, x: Item<V>, b: Node<V>, t: nat, h: nat)
    requires Part(a, t, h) && Part(b, t, h)
    requires t - 1 <= |a.items| + 1 + |b.items| <= 2 * t - 1
    ensures Tree(Glue(a, x, b), t, h, false) && Tree(Glue(a, x, b), t, h, true)
    ensures a.Internal? ==> |Glue(a, x, b).children| == |Glue(a, x, b).items| + 1
  {
    if a.Internal? {
      var cs := a.children + b.children;
      forall i | 0 <= i < |cs|
        ensures Tree(cs[i], t, h - 1, false)
      {
        if i < |a.children| {
          assert cs[i] == a.children[i];
        } else {
          assert cs[i] == b.children[i - |a.children|];
        }
      }
    }
  }

  /** Replacing items p..q-1 and children p..q of a loose node by subtrees
      keeps it loose when the item count stays within bounds. */
  lemma SpliceLoose<V>(n: Node<V>, t: nat, h: nat, p: nat, q: nat, ni: seq<Item<V>>, nk: seq<Node<V>>)
    requires Loose(n, t, h) && p <= q <= |n.items| && |nk| == |ni| + 1
    requires forall i :: 0 <= i < |nk| ==> Tree(nk[i], t, h - 1, false)
    requires |n.items| - (q - p) + |ni| <= 2 * t - 1
    ensures Loose(Internal(n.items[..p] + ni + n.items[q..], n.children[..p] + nk + n.children[q + 1..]), t, h)
  {
    var cs := n.children;
    var cs2 := cs[..p] + nk + cs[q + 1..];
    forall i | 0 <= i < |cs2|
      ensures Tree(cs2[i], t, h - 1, false)
    {
      if i < p {
        assert cs2[i] == cs[i];
      } else if i < p + |nk| {
        assert cs2[i] == nk[i - p];
      } else {
        assert cs2[i] == cs[i - p - |nk| + q + 1];
      }
    }
  }

  /** Children i and i+1 joined around item i: the merge of cases 2c, 3b1
      and 3b2 of BNode.delete. */
  function Merge<V>(n: Node<V>, i: nat): Node<V>
    requires n.Internal? && |n.children| == |n.items| + 1 && i < |n.items|
  {
    var its, cs := n.items, n.children;
    Internal(its[..i] + its[i + 1..], cs[..i] + [Glue(cs[i], its[i], cs[i + 1])] + cs[i + 2..])
  }

  /** Case 3a1: child i+1 takes item i in front, item i becomes the last
      item of child i, and child i's last child moves over with it. */
  function RotateRight<V>(n: Node<V>, i: nat): Node<V>
    requires n.Internal? && |n.children| == |n.items| + 1 && i < |n.items|
    requires |n.children[i].items| >= 1
    requires n.children[i].Internal? ==> |n.children[i].children| == |n.children[i].items| + 1
  {
    var its, cs := n.items, n.children;
    var lo := cs[i];
    Internal(its[..i] + [lo.items[|lo.items| - 1]] + its[i + 1..],
             cs[..i] + [Front(lo), Glue(LastEdge(lo), its[i], cs[i + 1])] + cs[i + 2..])
  }

  /** Case 3a2: child i takes item i at its end, item i becomes the first
      item of child i+1, and child i+1's first child moves over with it. */
  function RotateLeft<V>(n: Node<V>, i: nat): Node<V>
    requires n.Internal? && |n.children| == |n.items| + 1 && i < |n.items|
    requires |n.children[i + 1].items| >= 1
    requires n.children[i + 1].Internal? ==> |n.children[i + 1].children| == |n.children[i + 1].items| + 1
  {
    var its, cs := n.items, n.children;
    var up := cs[i + 1];
    Internal(its[..i] + [up.items[0]] + its[i + 1..],
             cs[..i] + [Glue(cs[i], its[i], FirstEdge(up)), Back(up)] + cs[i + 2..])
  }

  /** A merge of two children with at most 2t-1 items between them keeps the
      node loose and the merged child a subtree. */
  lemma MergeLoose<V>(n: Node<V>, i: nat, t: nat, h: nat)
    requires Loose(n, t, h) && i < |n.items|
    requires |n.children[i].items| + 1 + |n.children[i + 1].items| <= 2 * t - 1
    ensures Loose(Merge(n, i), t, h) && |Merge(n, i).items| == |n.items| - 1
    ensures Merge(n, i).children[i] == Glue(n.children[i], n.items[i], n.children[i + 1])
    ensures |Merge(n, i).children[i].items| == |n.children[i].items| + 1 + |n.children[i + 1].items|
  {
    var its, cs := n.items, n.children;
    var g := Glue(cs[i], its[i], cs[i + 1]);
    assert Tree(cs[i], t, h - 1, false) && Tree(cs[i + 1], t, h - 1, false);
    TreePart(cs[i], t, h - 1, false);
    TreePart(cs[i + 1], t, h - 1, false);
    GlueTree(cs[i], its[i], cs[i + 1], t, h - 1);
    SpliceLoose(n, t, h, i, i + 1, [], [g]);
    assert its[..i] + [] + its[i + 1..] == its[..i] + its[i + 1..];
  }

  /** Rotating an item from a big child i into child i+1 keeps the node
      loose and makes child i+1 one item bigger. */
  lemma RotateRightLoose<V>(n: Node<V>, i: nat, t: nat, h: nat)
    requires t >= 2 && Loose(n, t, h) && i < |n.items|
    requires Big(n.children[i], t) && |n.children[i + 1].items| < 2 * t - 1
    ensures n.children[i].Internal? ==> |n.children[i].children| == |n.children[i].items| + 1
    ensures Loose(RotateRight(n, i), t, h) && |RotateRight(n, i).items| == |n.items|
    ensures |RotateRight(n, i).children[i + 1].items| == |n.children[i + 1].items| + 1
  {
    var its, cs := n.items, n.children;
    var lo := cs[i];
    assert Tree(lo, t, h - 1, false) && Tree(cs[i + 1], t, h - 1, false);
    TreePart(lo, t, h - 1, false);
    TreePart(cs[i + 1], t, h - 1, false);
    EdgesPart(lo, t, h - 1);
    PartTree(Front(lo), t, h - 1);
    GlueTree(LastEdge(lo), its[i], cs[i + 1], t, h - 1);
    var a, b := Front(lo), Glue(LastEdge(lo), its[i], cs[i + 1]);
    assert Tree([a, b][0], t, h - 1, false) && Tree([a, b][1], t, h - 1, false);
    SpliceLoose(n, t, h, i, i + 1, [lo.items[|lo.items| - 1]], [a, b]);
  }

  /** Rotating an item from a big child i+1 into child i keeps the node
      loose and makes child i one item bigger. */
  lemma RotateLeftLoose<V>(n: Node<V>, i: nat, t: nat, h: nat)
    requires t >= 2 && Loose(n, t, h) && i < |n.items|
    requires Big(n.children[i + 1], t) && |n.children[i].items| < 2 * t - 1
    ensures n.children[i + 1].Internal? ==> |n.children[i + 1].children| == |n.children[i + 1].items| + 1
    ensures Loose(RotateLeft(n, i), t, h) && |RotateLeft(n, i).items| == |n.items|
    ensures |RotateLeft(n, i).children[i].items| == |n.children[i].items| + 1
  {
    var its, cs := n.items, n.children;
    var up := cs[i + 1];
    assert Tree(up, t, h - 1, false) && Tree(cs[i], t, h - 1, false);
    TreePart(up, t, h - 1, false);
    TreePart(cs[i], t, h - 1, false);
    EdgesPart(up, t, h - 1);
    PartTree(Back(up), t, h - 1);
    GlueTree(cs[i], its[i], FirstEdge(up), t, h - 1);
    var a, b := Glue(cs[i], its[i], FirstEdge(up)), Back(up);
    assert Tree([a, b][0], t, h - 1, false) && Tree([a, b][1], t, h - 1, false);
    SpliceLoose(n, t, h, i, i + 1, [up.items[0]], [a, b]);
  }

  datatype Fixed<V> = Fixed(node: Node<V>, pos: nat)

  /** Case 3 of BNode.delete before descending: child p has only t-1 items,
      so take one from a big sibling (3a1, 3a2) or merge it with a sibling
      (3b1, 3b2); pos is where the key's child now is. */
  function FixChild<V>(n: Node<V>, p: nat, t: nat, ghost h: nat): (r: Fixed<V>)
    requires t >= 2 && Loose(n, t, h) && |n.items| >= 1 && p < |n.children|
    requires !Big(n.children[p], t)
    ensures Loose(r.node, t, h) && r.pos < |r.node.children| && Big(r.node.children[r.pos], t)
    ensures |r.node.items| >= |n.items| - 1
  {
    var cs := n.children;
    assert Tree(cs[p], t, h - 1, false);
    if p > 0 && Big(cs[p - 1], t) then
      RotateRightLoose(n, p - 1, t, h);
      Fixed(RotateRight(n, p - 1), p)
    else if p < |n.items| && Big(cs[p + 1], t) then
      RotateLeftLoose(n, p, t, h);
      Fixed(RotateLeft(n, p), p)
    else if p > 0 then
      assert Tree(cs[p - 1], t, h - 1, false);
      MergeLoose(n, p - 1, t, h);
      Fixed(Merge(n, p - 1), p - 1)
    else
      assert Tree(cs[p + 1], t, h - 1, false);
      MergeLoose(n, p, t, h);
      Fixed(Merge(n, p), p)
  }

  lemma Rooted<V>(n: Node<V>, t: nat, h: nat)
    requires Tree(n, t, h, false)
    ensures Tree(n, t, h, true)
  {
  }

  /** The contents of a node around children i and i+1 and item i. */
  lemma Pair<V>(its: seq<Item<V>>, cs: seq<Node<V>>, i: nat)
    requires |cs| == |its| + 1 && i < |its|
    ensures Contents(Internal(its, cs))
         == Pre(cs, its, i) + (Contents(cs[i]) + [its[i]] + Contents(cs[i + 1])) + Post(cs, its, i + 1)
  {
    SpliceSelf(its, cs, i, i + 1);
    assert its[i..i + 1] == [its[i]];
    assert cs[i..i + 2] == [cs[i], cs[i + 1]];
    Region2(cs[i], its[i], cs[i + 1]);
  }

  /** Children i and i+1 and item i replaced by two children and an item. */
  lemma Splice2<V>(its: seq<Item<V>>, cs: seq<Node<V>>, i: nat, x: Item<V>, a: Node<V>, b: Node<V>)
    requires |cs| == |its| + 1 && i < |its|
    ensures Contents(Internal(its[..i] + [x] + its[i + 1..], cs[..i] + [a, b] + cs[i + 2..]))
         == Pre(cs, its, i) + (Contents(a) + [x] + Contents(b)) + Post(cs, its, i + 1)
  {
    Splice(its, cs, i, i + 1, [x], [a, b]);
    Region2(a, x, b);
  }

  /** Children i and i+1 and item i replaced by one child. */
  lemma Splice1<V>(its: seq<Item<V>>, cs: seq<Node<V>>, i: nat, g: Node<V>)
    requires |cs| == |its| + 1 && i < |its|
    ensures Contents(Internal(its[..i] + its[i + 1..], cs[..i] + [g] + cs[i + 2..]))
         == Pre(cs, its, i) + Contents(g) + Post(cs, its, i + 1)
  {
    Splice(its, cs, i, i + 1, [], [g]);
    Region1(g);
    assert its[..i] + [] + its[i + 1..] == its[..i] + its[i + 1..];
  }

  /** Two nodes that can be glued: both leaves, or both internal with one
      more child than items. */
  predicate Gluable<V>(a: Node<V>, b: Node<V>)
  {
    (a.Leaf? <==> b.Leaf?) && (a.Internal? ==> |a.children| == |a.items| + 1 && |b.children| == |b.items| + 1)
  }

  /** Neighbouring children of a loose node can be glued, and so can each
      of them with the edge child of the other. */
  lemma Neighbours<V>(n: Node<V>, i: nat, t: nat, h: nat)
    requires Loose(n, t, h) && i < |n.items|
    ensures Gluable(n.children[i], n.children[i + 1])
    ensures n.children[i].Internal? ==> Gluable(LastEdge(n.children[i]), n.children[i + 1])
    ensures n.children[i + 1].Internal? ==> Gluable(n.children[i], FirstEdge(n.children[i + 1]))
  {
    var cs := n.children;
    assert Tree(cs[i], t, h - 1, false) && Tree(cs[i + 1], t, h - 1, false);
    TreePart(cs[i], t, h - 1, false);
    TreePart(cs[i + 1], t, h - 1, false);
  }

  /** Merging two children keeps the contents of the node. */
  lemma MergeContents<V>(n: Node<V>, i: nat, t: nat, h: nat)
    requires Loose(n, t, h) && i < |n.items|
    ensures Contents(Merge(n, i)) == Contents(n)
  {
    Neighbours(n, i, t, h);
    MergeKeeps(n.items, n.children, i);
  }

  lemma MergeKeeps<V>(its: seq<Item<V>>, cs: seq<Node<V>>, i: nat)
    requires |cs| == |its| + 1 && i < |its| && Gluable(cs[i], cs[i + 1])
    ensures Contents(Merge(Internal(its, cs), i)) == Contents(Internal(its, cs))
  {
    GlueContents(cs[i], its[i], cs[i + 1]);
    Pair(its, cs, i);
    Splice1(its, cs, i, Glue(cs[i], its[i], cs[i + 1]));
  }

  /** A rotation from child i to child i+1 keeps the contents of the node. */
  lemma RotateRightContents<V>(n: Node<V>, i: nat, t: nat, h: nat)
    requires Loose(n, t, h) && i < |n.items| && |n.children[i].items| >= 1
    ensures n.children[i].Internal? ==> |n.children[i].children| == |n.children[i].items| + 1
    ensures Contents(RotateRight(n, i)) == Contents(n)
  {
    Neighbours(n, i, t, h);
    RotateRightKeeps(n.items, n.children, i);
  }

  lemma RotateRightKeeps<V>(its: seq<Item<V>>, cs: seq<Node<V>>, i: nat)
    requires |cs| == |its| + 1 && i < |its| && |cs[i].items| >= 1 && Gluable(cs[i], cs[i + 1])
    requires cs[i].Internal? ==> Gluable(LastEdge(cs[i]), cs[i + 1])
    ensures Contents(RotateRight(Internal(its, cs), i)) == Contents(Internal(its, cs))
  {
    var lo := cs[i];
    var x := lo.items[|lo.items| - 1];
    var a, b := Front(lo), Glue(LastEdge(lo), its[i], cs[i + 1]);
    FrontGlue(lo);
    GlueContents(a, x, LastEdge(lo));
    GlueContents(LastEdge(lo), its[i], cs[i + 1]);
    var f, e, c := Contents(a), Contents(LastEdge(lo)), Contents(cs[i + 1]);
    assert Contents(lo) == f + [x] + e;
    assert Contents(b) == e + [its[i]] + c;
    assert f + [x] + (e + [its[i]] + c) == (f + [x] + e) + [its[i]] + c;
    Pair(its, cs, i);
    Splice2(its, cs, i, x, a, b);
  }

  /** A rotation from child i+1 to child i keeps the contents of the node. */
  lemma RotateLeftContents<V>(n: Node<V>, i: nat, t: nat, h: nat)
    requires Loose(n, t, h) && i < |n.items| && |n.children[i + 1].items| >= 1
    ensures n.children[i + 1].Internal? ==> |n.children[i + 1].children| == |n.children[i + 1].items| + 1
    ensures Contents(RotateLeft(n, i)) == Contents(n)
  {
    Neighbours(n, i, t, h);
    RotateLeftKeeps(n.items, n.children, i);
  }

  lemma RotateLeftKeeps<V>(its: seq<Item<V>>, cs: seq<Node<V>>, i: nat)
    requires |cs| == |its| + 1 && i < |its| && |cs[i + 1].items| >= 1 && Gluable(cs[i], cs[i + 1])
    requires cs[i + 1].Internal? ==> Gluable(cs[i], FirstEdge(cs[i + 1]))
    ensures Contents(RotateLeft(Internal(its, cs), i)) == Contents(Internal(its, cs))
  {
    var up := cs[i + 1];
    var x := up.items[0];
    var a, b := Glue(cs[i], its[i], FirstEdge(up)), Back(up);
    BackGlue(up);
    GlueContents(FirstEdge(up), x, b);
    GlueContents(cs[i], its[i], FirstEdge(up));
    var c, e, g := Contents(cs[i]), Contents(FirstEdge(up)), Contents(b);
    assert Contents(up) == e + [x] + g;
    assert Contents(a) == c + [its[i]] + e;
    assert (c + [its[i]] + e) + [x] + g == c + [its[i]] + (e + [x] + g);
    Pair(its, cs, i);
    Splice2(its, cs, i, x, a, b);
  }

  /** The last item of a node is among its contents. */
  lemma LastIn<V>(n: Node<V>, t: nat, h: nat, k: Key)
    requires Part(n, t, h) && |n.items| >= 1 && AllBelow(Contents(n), k)
    ensures n.items[|n.items| - 1].key < k
  {
    EdgesPart(n, t, h);
    var x := n.items[|n.items| - 1];
    FrontGlue(n);
    GlueContents(Front(n), x, LastEdge(n));
    assert Contents(n)[|Contents(Front(n))|] == x;
  }

  /** The first item of a node is among its contents. */
  lemma FirstIn<V>(n: Node<V>, t: nat, h: nat, k: Key)
    requires Part(n, t, h) && |n.items| >= 1 && AllAbove(Contents(n), k)
    ensures n.items[0].key > k
  {
    EdgesPart(n, t, h);
    BackGlue(n);
    GlueContents(FirstEdge(n), n.items[0], Back(n));
    assert Contents(n)[|Contents(FirstEdge(n))|] == n.items[0];
  }

  /** The items of a sorted node increase. */
  lemma Adjacent<V>(its: seq<Item<V>>, cs: seq<Node<V>>, j: nat)
    requires 0 < j < |its| && Sorted(Contents(Internal(its, cs)))
    ensures its[j - 1].key < its[j].key
  {
    Hit(its, cs, j);
    var a := Pre(cs, its, j) + Child(cs, j);
    assert Pre(cs, its, j) == Pre(cs, its, j - 1) + Child(cs, j - 1) + [its[j - 1]];
    assert a[|Pre(cs, its, j)| - 1] == its[j - 1];
  }

  /** A key strictly between items q-1 and q of a sorted node lies in the
      window of child q. */
  lemma Straddle<V>(its: seq<Item<V>>, cs: seq<Node<V>>, q: nat, k: Key)
    requires q <= |its| && Sorted(Contents(Internal(its, cs)))
    requires q > 0 ==> its[q - 1].key < k
    requires q < |its| ==> its[q].key > k
    ensures AllBelow(Pre(cs, its, q), k) && AllAbove(Post(cs, its, q), k)
  {
    Window(its, cs, q);
  }

  /** The key lies strictly between the items around child q. */
  ghost predicate Between<V>(its: seq<Item<V>>, q: nat, k: Key)
  {
    q <= |its| && (q > 0 ==> its[q - 1].key < k) && (q < |its| ==> its[q].key > k)
  }

  /** FixChild keeps the contents, and the key still lies in the window of
      the child it points at. */
  lemma FixChildSpec<V>(n: Node<V>, p: nat, k: Key, t: nat, h: nat)
    requires t >= 2 && Loose(n, t, h) && |n.items| >= 1 && Sorted(Contents(n))
    requires p == GetPosition(n.items, k) && !(p < |n.items| && n.items[p].key == k)
    requires !Big(n.children[p], t)
    ensures var r := FixChild(n, p, t, h);
            && Contents(r.node) == Contents(n)
            && AllBelow(Pre(r.node.children, r.node.items, r.pos), k)
            && AllAbove(Post(r.node.children, r.node.items, r.pos), k)
  {
    var its, cs := n.items, n.children;
    var r := FixChild(n, p, t, h);
    if p > 0 && Big(cs[p - 1], t) {
      FromLower(n, p, k, t, h);
    } else if p < |its| && Big(cs[p + 1], t) {
      FromUpper(n, p, k, t, h);
    } else if p > 0 {
      WithLower(n, p, k, t, h);
    } else {
      WithUpper(n, k, t, h);
    }
    Straddle(r.node.items, r.node.children, r.pos, k);
  }

  /** Case 3b1 keeps the key between the items around the merged child. */
  lemma WithLower<V>(n: Node<V>, p: nat, k: Key, t: nat, h: nat)
    requires Loose(n, t, h) && 0 < p <= |n.items|
    requires p == GetPosition(n.items, k) && !(p < |n.items| && n.items[p].key == k)
    ensures Contents(Merge(n, p - 1)) == Contents(n) && Between(Merge(n, p - 1).items, p - 1, k)
  {
    var its := n.items;
    MergeContents(n, p - 1, t, h);
    var r := Merge(n, p - 1);
    assert p - 1 > 0 ==> r.items[p - 2] == its[p - 2];
    assert p < |its| ==> r.items[p - 1] == its[p];
  }

  /** Case 3b2 keeps the key between the items around the merged child. */
  lemma WithUpper<V>(n: Node<V>, k: Key, t: nat, h: nat)
    requires Loose(n, t, h) && 0 < |n.items| && Sorted(Contents(n))
    requires 0 == GetPosition(n.items, k) && n.items[0].key != k
    ensures Contents(Merge(n, 0)) == Contents(n) && Between(Merge(n, 0).items, 0, k)
  {
    var its := n.items;
    MergeContents(n, 0, t, h);
    var r := Merge(n, 0);
    if 1 < |its| {
      Adjacent(its, n.children, 1);
      assert r.items[0] == its[1];
    }
  }

  /** Case 3a1 keeps the key between the items around child p. */
  lemma FromLower<V>(n: Node<V>, p: nat, k: Key, t: nat, h: nat)
    requires t >= 2 && Loose(n, t, h) && 0 < p <= |n.items| && Sorted(Contents(n))
    requires p == GetPosition(n.items, k) && !(p < |n.items| && n.items[p].key == k)
    requires Big(n.children[p - 1], t)
    ensures n.children[p - 1].Internal? ==> |n.children[p - 1].children| == |n.children[p - 1].items| + 1
    ensures Contents(RotateRight(n, p - 1)) == Contents(n) && Between(RotateRight(n, p - 1).items, p, k)
  {
    var its, cs := n.items, n.children;
    RotateRightContents(n, p - 1, t, h);
    var r := RotateRight(n, p - 1);
    Window(its, cs, p - 1);
    assert Tree(cs[p - 1], t, h - 1, false);
    LastIn(cs[p - 1], t, h - 1, its[p - 1].key);
    assert r.items[p - 1] == cs[p - 1].items[|cs[p - 1].items| - 1];
    assert p < |its| ==> r.items[p] == its[p];
  }

  /** Case 3a2 keeps the key between the items around child p. */
  lemma FromUpper<V>(n: Node<V>, p: nat, k: Key, t: nat, h: nat)
    requires t >= 2 && Loose(n, t, h) && p < |n.items| && Sorted(Contents(n))
    requires p == GetPosition(n.items, k) && n.items[p].key != k
    requires Big(n.children[p + 1], t)
    ensures n.children[p + 1].Internal? ==> |n.children[p + 1].children| == |n.children[p + 1].items| + 1
    ensures Contents(RotateLeft(n, p)) == Contents(n) && Between(RotateLeft(n, p).items, p, k)
  {
    var its, cs := n.items, n.children;
    RotateLeftContents(n, p, t, h);
    var r := RotateLeft(n, p);
    Window(its, cs, p + 1);
    assert Tree(cs[p + 1], t, h - 1, false);
    FirstIn(cs[p + 1], t, h - 1, its[p].key);
    assert p > 0 ==> r.items[p - 1] == its[p - 1];
    assert r.items[p] == cs[p + 1].items[0];
  }

  datatype Deleted<V> = Deleted(node: Node<V>, found: bool)

  /** The end of BNode.delete for an internal node: a node left without
      items (only ever the root) takes over its only child. */
  function Collapse<V>(n: Node<V>): Node<V>
    requires n.Internal? && |n.children| == |n.items| + 1
  {
    if |n.items| == 0 then n.children[0] else n
  }

  /** BNode.delete: remove the item with key k, reporting whether there was
      one (the source raises KeyError from the leaf when there is not). */
  function Delete<V>(n: Node<V>, k: Key, t: nat, ghost h: nat): Deleted<V>
    requires t >= 2 && Tree(n, t, h, true)
    decreases h, 2
  {
    var p := GetPosition(n.items, k);
    var matches := p < |n.items| && n.items[p].key == k;
    if n.Leaf? then
      if matches then Deleted(Leaf(n.items[..p] + n.items[p + 1..]), true) else Deleted(n, false)
    else
      TreePart(n, t, h, true);
      var d := if matches then DeleteHere(n, p, t, h) else DeleteBelow(n, p, k, t, h);
      Deleted(Collapse(d.node), d.found)
  }

  /** Case 2 of BNode.delete: the key is item p of this internal node. */
  function DeleteHere<V>(n: Node<V>, p: nat, t: nat, ghost h: nat): (r: Deleted<V>)
    requires t >= 2 && Loose(n, t, h) && p < |n.items|
    ensures r.node.Internal? && |r.node.children| == |r.node.items| + 1
    decreases h, 1
  {
    var its, cs := n.items, n.children;
    var c, u := cs[p], cs[p + 1];
    assert Tree(c, t, h - 1, false) && Tree(u, t, h - 1, false);
    Rooted(c, t, h - 1);
    Rooted(u, t, h - 1);
    if Big(c, t) then
      // Case 2a: the predecessor takes the key's place.
      TreeFilled(c, t, h - 1, false);
      var m := MaxItem(c);
      var d := Delete(c, m.key, t, h - 1);
      Deleted(Internal(its[p := m], cs[p := d.node]), true)
    else if Big(u, t) then
      // Case 2b: the successor takes the key's place.
      TreeFilled(u, t, h - 1, false);
      var m := MinItem(u);
      var d := Delete(u, m.key, t, h - 1);
      Deleted(Internal(its[p := m], cs[p + 1 := d.node]), true)
    else
      // Case 2c: both neighbours are minimal; merge them around the key
      // and delete it from the merged child.
      MergeLoose(n, p, t, h);
      var g := Merge(n, p);
      Rooted(g.children[p], t, h - 1);
      var d := Delete(g.children[p], its[p].key, t, h - 1);
      Deleted(Internal(g.items, g.children[p := d.node]), true)
  }

  /** Case 3 of BNode.delete: the key is not in this internal node; make
      child p big if it is not, then delete from the child holding the key. */
  function DeleteBelow<V>(n: Node<V>, p: nat, k: Key, t: nat, ghost h: nat): (r: Deleted<V>)
    requires t >= 2 && Loose(n, t, h) && |n.items| >= 1 && p < |n.children|
    ensures r.node.Internal? && |r.node.children| == |r.node.items| + 1
    decreases h, 1
  {
    var f := if Big(n.children[p], t) then Fixed(n, p) else FixChild(n, p, t, h);
    var c := f.node.children[f.pos];
    assert Tree(c, t, h - 1, false);
    Rooted(c, t, h - 1);
    var d := Delete(c, k, t, h - 1);
    Deleted(Internal(f.node.items, f.node.children[f.pos := d.node]), d.found)
  }

  /** BNode.delete removes exactly the item with key k, reports whether it
      was there, and leaves a tree of the same height that lost at most one
      item, or, when a one-item node merged its only two children, that
      merged child, one level lower. */
  lemma {:induction false} DeleteSpec<V>(n: Node<V>, k: Key, t: nat, h: nat)
    requires Valid(n, t, h, true)
    ensures var r := Delete(n, k, t, h);
            && Contents(r.node) == Remove(Contents(n), k)
            && (r.found <==> k in ToDict(n))
            && ((Tree(r.node, t, h, true) && |r.node.items| >= |n.items| - 1)
                || (n.Internal? && |n.items| == 1 && Tree(r.node, t, h - 1, true)))
    decreases h, 2
  {
    var its := n.items;
    var p := GetPosition(its, k);
    if n.Leaf? {
      PositionOfKey(its, k);
      if p < |its| && its[p].key == k {
        RemoveHit(its, k, p);
      } else {
        RemoveMiss(its, k);
      }
    } else {
      TreePart(n, t, h, true);
      if p < |its| && its[p].key == k {
        DeleteHereSpec(n, p, k, t, h);
        CollapseSpec(n, DeleteHere(n, p, t, h).node, t, h);
      } else {
        DeleteBelowSpec(n, p, k, t, h);
        CollapseSpec(n, DeleteBelow(n, p, k, t, h).node, t, h);
      }
    }
  }

  /** The collapse keeps the contents; it only fires on a node that was
      left without items, and then leaves the child one level lower. */
  lemma CollapseSpec<V>(n: Node<V>, m: Node<V>, t: nat, h: nat)
    requires Tree(n, t, h, true) && n.Internal? && Loose(m, t, h) && |m.items| >= |n.items| - 1
    ensures Contents(Collapse(m)) == Contents(m)
    ensures (Tree(Collapse(m), t, h, true) && |Collapse(m).items| >= |n.items| - 1)
            || (|n.items| == 1 && Tree(Collapse(m), t, h - 1, true))
  {
    if |m.items| == 0 {
      var c := m.children[0];
      assert m.children == [c];
      Region1(c);
      assert Tree(c, t, h - 1, false);
    }
  }

  /** Case 2 removes item p, whose key is k. */
  lemma {:induction false} DeleteHereSpec<V>(n: Node<V>, p: nat, k: Key, t: nat, h: nat)
    requires t >= 2 && Loose(n, t, h) && Sorted(Contents(n)) && p < |n.items| && n.items[p].key == k
    ensures var r := DeleteHere(n, p, t, h);
            && Contents(r.node) == Remove(Contents(n), k)
            && Loose(r.node, t, h) && |r.node.items| >= |n.items| - 1
            && r.found && k in ToDict(n)
    decreases h, 1
  {
    var its, cs := n.items, n.children;
    var c, u := cs[p], cs[p + 1];
    Hit(its, cs, p);
    LookupWindow(Pre(cs, its, p) + Child(cs, p), [its[p]], Child(cs, p + 1) + Post(cs, its, p + 1), k);
    assert Tree(c, t, h - 1, false) && Tree(u, t, h - 1, false);
    Rooted(c, t, h - 1);
    Rooted(u, t, h - 1);
    if Big(c, t) {
      TreeFilled(c, t, h - 1, false);
      var m := MaxItem(c);
      Case2a(n, p, k, t, h, m, Delete(c, m.key, t, h - 1));
    } else if Big(u, t) {
      TreeFilled(u, t, h - 1, false);
      var m := MinItem(u);
      Case2b(n, p, k, t, h, m, Delete(u, m.key, t, h - 1));
    } else {
      MergeLoose(n, p, t, h);
      Rooted(Merge(n, p).children[p], t, h - 1);
      Case2c(n, p, k, t, h, Delete(Merge(n, p).children[p], k, t, h - 1));
    }
  }

  lemma {:induction false} Case2a<V>(n: Node<V>, p: nat, k: Key, t: nat, h: nat, m: Item<V>, d: Deleted<V>)
    requires t >= 2 && Loose(n, t, h) && Sorted(Contents(n)) && p < |n.items| && n.items[p].key == k
    requires Big(n.children[p], t) && Filled(n.children[p]) && Tree(n.children[p], t, h - 1, true)
    requires m == MaxItem(n.children[p]) && d == Delete(n.children[p], m.key, t, h - 1)
    ensures var r := Internal(n.items[p := m], n.children[p := d.node]);
            Contents(r) == Remove(Contents(n), k) && Loose(r, t, h)
    decreases h, 0
  {
    var c := n.children[p];
    SortedChild(n.items, n.children, p);
    DeleteSpec(c, m.key, t, h - 1);
    DropLast(Contents(c), Contents(d.node));
    Unroot(d.node, t, h - 1);
    Predecessor(n, p, k, t, h, m, d.node);
  }

  /** Case 2a once the predecessor m has left the child before item p. */
  lemma Predecessor<V>(n: Node<V>, p: nat, k: Key, t: nat, h: nat, m: Item<V>, e: Node<V>)
    requires Loose(n, t, h) && Sorted(Contents(n)) && p < |n.items| && n.items[p].key == k
    requires Contents(e) + [m] == Contents(n.children[p]) && Tree(e, t, h - 1, false)
    ensures var r := Internal(n.items[p := m], n.children[p := e]);
            Contents(r) == Remove(Contents(n), k) && Loose(r, t, h)
  {
    var cs := n.children;
    RemoveItem(n, p, k);
    FromPredecessor(n, p, k, m, e);
    PairLoose(n, t, h, p, m, e, cs[p + 1]);
    assert cs[p := e][p + 1 := cs[p + 1]] == cs[p := e];
  }

  lemma {:induction false} Case2b<V>(n: Node<V>, p: nat, k: Key, t: nat, h: nat, m: Item<V>, d: Deleted<V>)
    requires t >= 2 && Loose(n, t, h) && Sorted(Contents(n)) && p < |n.items| && n.items[p].key == k
    requires Big(n.children[p + 1], t) && Filled(n.children[p + 1]) && Tree(n.children[p + 1], t, h - 1, true)
    requires m == MinItem(n.children[p + 1]) && d == Delete(n.children[p + 1], m.key, t, h - 1)
    ensures var r := Internal(n.items[p := m], n.children[p + 1 := d.node]);
            Contents(r) == Remove(Contents(n), k) && Loose(r, t, h)
    decreases h, 0
  {
    var u := n.children[p + 1];
    SortedChild(n.items, n.children, p + 1);
    DeleteSpec(u, m.key, t, h - 1);
    RemoveFirst(Contents(u));
    Unroot(d.node, t, h - 1);
    Successor(n, p, k, t, h, m, d.node);
  }

  /** Case 2b once the successor m has left the child after item p. */
  lemma Successor<V>(n: Node<V>, p: nat, k: Key, t: nat, h: nat, m: Item<V>, e: Node<V>)
    requires Loose(n, t, h) && Sorted(Contents(n)) && p < |n.items| && n.items[p].key == k
    requires [m] + Contents(e) == Contents(n.children[p + 1]) && Tree(e, t, h - 1, false)
    ensures var r := Internal(n.items[p := m], n.children[p + 1 := e]);
            Contents(r) == Remove(Contents(n), k) && Loose(r, t, h)
  {
    var cs := n.children;
    RemoveItem(n, p, k);
    FromSuccessor(n, p, k, m, e);
    assert Tree(cs[p], t, h - 1, false);
    PairLoose(n, t, h, p, m, cs[p], e);
    assert cs[p := cs[p]] == cs;
  }

  lemma {:induction false} Case2c<V>(n: Node<V>, p: nat, k: Key, t: nat, h: nat, d: Deleted<V>)
    requires t >= 2 && Loose(n, t, h) && Sorted(Contents(n)) && p < |n.items| && n.items[p].key == k
    requires !Big(n.children[p], t) && !Big(n.children[p + 1], t)
    requires Tree(Merge(n, p).children[p], t, h - 1, true)
    requires d == Delete(Merge(n, p).children[p], k, t, h - 1)
    ensures var g := Merge(n, p);
            var r := Internal(g.items, g.children[p := d.node]);
            Contents(r) == Remove(Contents(n), k) && Loose(r, t, h) && |r.items| == |n.items| - 1
    decreases h, 0
  {
    MergeLoose(n, p, t, h);
    var g := Merge(n, p).children[p];
    MergedSorted(n, p, t, h);
    DeleteSpec(g, k, t, h - 1);
    Unroot(d.node, t, h - 1);
    Merged(n, p, k, t, h, d.node);
  }

  /** Case 2c once k has left the child merged around item p. */
  lemma Merged<V>(n: Node<V>, p: nat, k: Key, t: nat, h: nat, e: Node<V>)
    requires Loose(n, t, h) && Sorted(Contents(n)) && p < |n.items| && n.items[p].key == k
    requires AllBelow(Contents(n.children[p]), k) && AllAbove(Contents(n.children[p + 1]), k)
    requires Contents(e) == Remove(Contents(n.children[p]) + [n.items[p]] + Contents(n.children[p + 1]), k)
    requires Tree(e, t, h - 1, false)
    ensures var g := Merge(n, p);
            var r := Internal(g.items, g.children[p := e]);
            Contents(r) == Remove(Contents(n), k) && Loose(r, t, h) && |r.items| == |n.items| - 1
  {
    FromMerged(n, p, k, e);
    OneLoose(n, t, h, p, e);
  }

  lemma SortedChild<V>(its: seq<Item<V>>, cs: seq<Node<V>>, p: nat)
    requires p < |cs| && p <= |its| && Sorted(Contents(Internal(its, cs)))
    ensures Sorted(Contents(cs[p]))
  {
    Window(its, cs, p);
  }

  /** Removing item p from a sorted node leaves everything left of it
      followed by everything right of it. */
  lemma RemoveItem<V>(n: Node<V>, p: nat, k: Key)
    requires n.Internal? && Sorted(Contents(n)) && p < |n.items| && n.items[p].key == k
    ensures Remove(Contents(n), k)
         == Pre(n.children, n.items, p) + Child(n.children, p) + Child(n.children, p + 1) + Post(n.children, n.items, p + 1)
  {
    var its, cs := n.items, n.children;
    Hit(its, cs, p);
    var a, b := Pre(cs, its, p) + Child(cs, p), Child(cs, p + 1) + Post(cs, its, p + 1);
    RemoveWindow(a, [its[p]], b, k);
    assert Remove([its[p]], k) == [];
  }

  /** Case 2a: the predecessor m, deleted from child p, replaces item p. */
  lemma FromPredecessor<V>(n: Node<V>, p: nat, k: Key, m: Item<V>, c: Node<V>)
    requires n.Internal? && |n.children| == |n.items| + 1 && p < |n.items|
    requires Remove(Contents(n), k) == Pre(n.children, n.items, p) + Child(n.children, p)
                                     + Child(n.children, p + 1) + Post(n.children, n.items, p + 1)
    requires Contents(c) + [m] == Contents(n.children[p])
    ensures Contents(Internal(n.items[p := m], n.children[p := c])) == Remove(Contents(n), k)
  {
    var its, cs := n.items, n.children;
    assert its[p := m] == its[..p] + [m] + its[p + 1..];
    assert cs[p := c] == cs[..p] + [c, cs[p + 1]] + cs[p + 2..];
    Splice2(its, cs, p, m, c, cs[p + 1]);
  }

  /** Case 2b: the successor m, deleted from child p+1, replaces item p. */
  lemma FromSuccessor<V>(n: Node<V>, p: nat, k: Key, m: Item<V>, c: Node<V>)
    requires n.Internal? && |n.children| == |n.items| + 1 && p < |n.items|
    requires Remove(Contents(n), k) == Pre(n.children, n.items, p) + Child(n.children, p)
                                     + Child(n.children, p + 1) + Post(n.children, n.items, p + 1)
    requires [m] + Contents(c) == Contents(n.children[p + 1])
    ensures Contents(Internal(n.items[p := m], n.children[p + 1 := c])) == Remove(Contents(n), k)
  {
    var its, cs := n.items, n.children;
    assert its[p := m] == its[..p] + [m] + its[p + 1..];
    assert cs[p + 1 := c] == cs[..p] + [cs[p], c] + cs[p + 2..];
    Splice2(its, cs, p, m, cs[p], c);
  }

  /** Case 2c: children p and p+1 merged around item p, which is then
      deleted from the merged child c. */
  lemma FromMerged<V>(n: Node<V>, p: nat, k: Key, c: Node<V>)
    requires n.Internal? && |n.children| == |n.items| + 1 && Sorted(Contents(n))
    requires p < |n.items| && n.items[p].key == k
    requires AllBelow(Contents(n.children[p]), k) && AllAbove(Contents(n.children[p + 1]), k)
    requires Contents(c) == Remove(Contents(n.children[p]) + [n.items[p]] + Contents(n.children[p + 1]), k)
    ensures var g := Merge(n, p);
            Contents(Internal(g.items, g.children[p := c])) == Remove(Contents(n), k)
  {
    var its, cs := n.items, n.children;
    RemoveWindow(Contents(cs[p]), [its[p]], Contents(cs[p + 1]), k);
    assert Remove([its[p]], k) == [];
    RemoveItem(n, p, k);
    assert Merge(n, p).children[p := c] == cs[..p] + [c] + cs[p + 2..];
    Splice1(its, cs, p, c);
  }

  /** Item p and children p, p+1 replaced by an item and two subtrees. */
  lemma PairLoose<V>(n: Node<V>, t: nat, h: nat, p: nat, m: Item<V>, a: Node<V>, b: Node<V>)
    requires Loose(n, t, h) && p < |n.items| && Tree(a, t, h - 1, false) && Tree(b, t, h - 1, false)
    requires a == n.children[p] || b == n.children[p + 1]
    ensures n.children[p := a][p + 1 := b] == n.children[..p] + [a, b] + n.children[p + 2..]
    ensures Loose(Internal(n.items[p := m], n.children[p := a][p + 1 := b]), t, h)
  {
    var its, cs := n.items, n.children;
    assert its[p := m] == its[..p] + [m] + its[p + 1..];
    assert cs[p := a][p + 1 := b] == cs[..p] + [a, b] + cs[p + 2..];
    var nk := [a, b];
    assert Tree(nk[0], t, h - 1, false) && Tree(nk[1], t, h - 1, false);
    SpliceLoose(n, t, h, p, p + 1, [m], nk);
  }

  /** Item p and children p, p+1 replaced by one subtree. */
  lemma OneLoose<V>(n: Node<V>, t: nat, h: nat, p: nat, c: Node<V>)
    requires Loose(n, t, h) && p < |n.items| && Tree(c, t, h - 1, false)
    ensures Loose(Internal(Merge(n, p).items, Merge(n, p).children[p := c]), t, h)
  {
    var its, cs := n.items, n.children;
    assert Merge(n, p).children[p := c] == cs[..p] + [c] + cs[p + 2..];
    assert Tree([c][0], t, h - 1, false);
    SpliceLoose(n, t, h, p, p + 1, [], [c]);
    assert its[..p] + [] + its[p + 1..] == its[..p] + its[p + 1..];
  }

  /** The child merged around item p is sorted, below and above item p on
      either side. */
  lemma MergedSorted<V>(n: Node<V>, p: nat, t: nat, h: nat)
    requires Loose(n, t, h) && Sorted(Contents(n)) && p < |n.items|
    ensures var c, x, u := n.children[p], n.items[p], n.children[p + 1];
            && Contents(Glue(c, x, u)) == Contents(c) + [x] + Contents(u)
            && Sorted(Contents(Glue(c, x, u)))
            && AllBelow(Contents(c), x.key) && AllAbove(Contents(u), x.key)
  {
    var its, cs := n.items, n.children;
    var c, u := cs[p], cs[p + 1];
    assert Tree(c, t, h - 1, false) && Tree(u, t, h - 1, false);
    TreePart(c, t, h - 1, false);
    TreePart(u, t, h - 1, false);
    GlueContents(c, its[p], u);
    Pair(its, cs, p);
    MiddleSorted(Pre(cs, its, p), Contents(Glue(c, its[p], u)), Post(cs, its, p + 1));
    Window(its, cs, p);
    Window(its, cs, p + 1);
  }

  /** A run in the middle of a sorted sequence is sorted. */
  lemma MiddleSorted<V>(a: seq<Item<V>>, x: seq<Item<V>>, b: seq<Item<V>>)
    requires Sorted(a + x + b)
    ensures Sorted(x)
  {
    SortedSplit(a + x, b);
    SortedSplit(a, x);
  }

  /** Case 3 removes the key from the child whose window holds it. */
  lemma {:induction false} DeleteBelowSpec<V>(n: Node<V>, p: nat, k: Key, t: nat, h: nat)
    requires t >= 2 && Loose(n, t, h) && |n.items| >= 1 && Sorted(Contents(n))
    requires p == GetPosition(n.items, k) && !(p < |n.items| && n.items[p].key == k)
    ensures var r := DeleteBelow(n, p, k, t, h);
            && Contents(r.node) == Remove(Contents(n), k)
            && Loose(r.node, t, h) && |r.node.items| >= |n.items| - 1
            && (r.found <==> k in ToDict(n))
    decreases h, 1
  {
    var f := if Big(n.children[p], t) then Fixed(n, p) else FixChild(n, p, t, h);
    if Big(n.children[p], t) {
      Descend(n.items, n.children, k);
    } else {
      FixChildSpec(n, p, k, t, h);
    }
    var c := f.node.children[f.pos];
    assert Tree(c, t, h - 1, false);
    Rooted(c, t, h - 1);
    DescendInto(f.node, f.pos, k, t, h, Delete(c, k, t, h - 1));
  }

  /** Deleting from child q, whose window holds the key. */
  lemma {:induction false} DescendInto<V>(m: Node<V>, q: nat, k: Key, t: nat, h: nat, d: Deleted<V>)
    requires t >= 2 && Loose(m, t, h) && Sorted(Contents(m)) && q < |m.children|
    requires AllBelow(Pre(m.children, m.items, q), k) && AllAbove(Post(m.children, m.items, q), k)
    requires Big(m.children[q], t) && Tree(m.children[q], t, h - 1, true)
    requires d == Delete(m.children[q], k, t, h - 1)
    ensures var r := Internal(m.items, m.children[q := d.node]);
            && Contents(r) == Remove(Contents(m), k)
            && Loose(r, t, h) && |r.items| == |m.items|
            && (d.found <==> k in ToDict(m))
    decreases h, 0
  {
    var its, cs := m.items, m.children;
    Focus(its, cs, q);
    Window(its, cs, q);
    DeleteSpec(cs[q], k, t, h - 1);
    LookupWindow(Pre(cs, its, q), Child(cs, q), Post(cs, its, q), k);
    WindowRemove(m, q, k, d.node);
    Unroot(d.node, t, h - 1);
    SetLoose(m, t, h, q, d.node);
  }

  /** Removing a key from the window of child q removes it from the node. */
  lemma WindowRemove<V>(m: Node<V>, q: nat, k: Key, c: Node<V>)
    requires m.Internal? && |m.children| == |m.items| + 1 && q < |m.children|
    requires AllBelow(Pre(m.children, m.items, q), k) && AllAbove(Post(m.children, m.items, q), k)
    requires Contents(c) == Remove(Contents(m.children[q]), k)
    ensures Contents(Internal(m.items, m.children[q := c])) == Remove(Contents(m), k)
  {
    var its, cs := m.items, m.children;
    Focus(its, cs, q);
    RemoveWindow(Pre(cs, its, q), Child(cs, q), Post(cs, its, q), k);
    SetChild(its, cs, q, c);
  }

  /** Child q replaced by a subtree. */
  lemma SetLoose<V>(m: Node<V>, t: nat, h: nat, q: nat, c: Node<V>)
    requires Loose(m, t, h) && q < |m.children| && Tree(c, t, h - 1, false)
    ensures Loose(Internal(m.items, m.children[q := c]), t, h)
  {
    var its, cs := m.items, m.children;
    assert Tree([c][0], t, h - 1, false);
    SpliceLoose(m, t, h, q, q, [], [c]);
    assert its[..q] + [] + its[q..] == its;
    assert cs[..q] + [c] + cs[q + 1..] == cs[q := c];
  }
}

=== FILE: bnode_delete_as_written.dfy ===
/** BNode.delete of durus/btree.py exactly as written, including the two
    places where it departs from section 19.3 of Cormen, Leiserson and
    Rivest: case 2c takes the successor out of the upper sibling before
    merging, and a KeyError raised below skips the collapse of an emptied
    root. The corrected deletion the rest of the model uses is
    BNodeDelete.Delete. */
module BNodeDeleteAsWritten {
  import opened Wrappers
  import opened SortedItems
  import opened BNodes
  import opened BNodeQueries
  import opened BNodeDelete

  /** The node as left in memory, and the exception that escaped, if any:
      the source mutates nodes in place, so a raise leaves every change
      made before it. */
  datatype Outcome<V> = Outcome(node: Node<V>, raised: Option<Error>)

  function DeleteAsWritten<V>(n: Node<V>, k: Key, t: nat, ghost h: nat): Outcome<V>
    requires t >= 2 && Tree(n, t, h, true)
    decreases h
  {
    var its := n.items;
    var p := GetPosition(its, k);
    var matches := p < |its| && its[p].key == k;
    if n.Leaf? then
      if matches then Outcome(Leaf(its[..p] + its[p + 1..]), None) else Outcome(n, Some(KeyError))
    else
      TreePart(n, t, h, true);
      var cs := n.children;
      if matches then
        var c, u := cs[p], cs[p + 1];
        assert Tree(c, t, h - 1, false) && Tree(u, t, h - 1, false);
        Rooted(c, t, h - 1);
        Rooted(u, t, h - 1);
        if Big(c, t) then
          TreeFilled(c, t, h - 1, false);
          var m := MaxItem(c);
          var d := DeleteAsWritten(c, m.key, t, h - 1);
          if d.raised.Some? then Outcome(Internal(its, cs[p := d.node]), d.raised)
          else Outcome(Internal(its[p := m], cs[p := d.node]), None)
        else
          TreeFilled(u, t, h - 1, false);
          var m := MinItem(u);
          var d := DeleteAsWritten(u, m.key, t, h - 1);
          if d.raised.Some? then Outcome(Internal(its, cs[p + 1 := d.node]), d.raised)
          else if Big(u, t) then Outcome(Internal(its[p := m], cs[p + 1 := d.node]), None)
          else Case2cAsWritten(n, p, m, d.node)
      else
        var f := if Big(cs[p], t) then Fixed(n, p) else FixChild(n, p, t, h);
        var c := f.node.children[f.pos];
        assert Tree(c, t, h - 1, false);
        Rooted(c, t, h - 1);
        var d := DeleteAsWritten(c, k, t, h - 1);
        var g := Internal(f.node.items, f.node.children[f.pos := d.node]);
        if d.raised.Some? then Outcome(g, d.raised) else Outcome(Collapse(g), None)
  }

  /** Case 2c as written, once the successor m has been deleted from the
      upper sibling, leaving u: child p absorbs m and u's items and then
      u's children; a u that collapsed into a leaf has none (None in the
      source), and concatenating it raises TypeError after child p has
      already taken the items. */
  function Case2cAsWritten<V>(n: Node<V>, p: nat, m: Item<V>, u: Node<V>): Outcome<V>
    requires n.Internal? && p < |n.items| && |n.children| == |n.items| + 1
  {
    var its, cs := n.items, n.children;
    var c := cs[p];
    var merged := c.items + [m] + u.items;
    if c.Internal? && u.Leaf? then
      Outcome(Internal(its, cs[p := Internal(merged, c.children)][p + 1 := u]), Some(TypeError))
    else
      var g := Internal(its[..p] + its[p + 1..], cs[..p] + [Glue(c, m, u)] + cs[p + 2..]);
      Outcome(Collapse(g), None)
  }

  /** DeleteAsWritten reaches case 2c when the key is item p and both
      children beside it are minimal. */
  lemma Case2cStep<V>(n: Node<V>, k: Key, t: nat, h: nat, p: nat)
    requires t >= 2 && Tree(n, t, h, true) && n.Internal?
    requires p == GetPosition(n.items, k) && p < |n.items| && n.items[p].key == k
    requires !Big(n.children[p], t) && !Big(n.children[p + 1], t)
    ensures Tree(n.children[p + 1], t, h - 1, true) && Filled(n.children[p + 1])
    ensures var u := n.children[p + 1];
            var d := DeleteAsWritten(u, MinItem(u).key, t, h - 1);
            d.raised.None? ==> DeleteAsWritten(n, k, t, h) == Case2cAsWritten(n, p, MinItem(u), d.node)
  {
    assert Tree(n.children[p + 1], t, h - 1, false);
    TreeFilled(n.children[p + 1], t, h - 1, false);
  }

  /** The contents of a node with one item and two children. */
  lemma Pair<V>(a: Node<V>, x: Item<V>, b: Node<V>)
    ensures Contents(Internal([x], [a, b])) == Contents(a) + [x] + Contents(b)
  {
    var its, cs := [x], [a, b];
    assert Pre(cs, its, 1) == Pre(cs, its, 0) + Child(cs, 0) + [x];
  }

  /** A minimal subtree of minimum degree 2: key x over leaves x-1 and x+1. */
  function Minimal(x: int): (n: Node<int>)
    ensures Tree(n, 2, 1, false) && n.Internal? && |n.children| == 2
    ensures Contents(n) == [Item(x - 1, x - 1), Item(x, x), Item(x + 1, x + 1)]
  {
    var n := Internal([Item(x, x)], [Leaf([Item(x - 1, x - 1)]), Leaf([Item(x + 1, x + 1)])]);
    Pair(n.children[0], n.items[0], n.children[1]);
    n
  }

  /** Keys 1 to 7 in a B-tree of minimum degree 2 and height 2, every
      child minimal: root [4] over [2] and [6]. */
  function SevenKeys(): (n: Node<int>)
    ensures Tree(n, 2, 2, true)
  {
    Internal([Item(4, 4)], [Minimal(2), Minimal(6)])
  }

  /** SevenKeys holds 1 to 7 in order, so it is a valid B-tree. */
  lemma SevenValid()
    ensures Valid(SevenKeys(), 2, 2, true)
    ensures Contents(SevenKeys()) == [Item(1, 1), Item(2, 2), Item(3, 3), Item(4, 4), Item(5, 5), Item(6, 6), Item(7, 7)]
  {
    var c, u := Minimal(2), Minimal(6);
    Pair(c, Item(4, 4), u);
    var s := [Item(1, 1), Item(2, 2), Item(3, 3), Item(4, 4), Item(5, 5), Item(6, 6), Item(7, 7)];
    assert Contents(c) + [Item(4, 4)] + Contents(u) == s;
    Ascending(s);
  }

  /** Case 3b2 inside Minimal(x): deleting a key at or above x + 1 merges
      both leaves around x into the only child of an emptied node. */
  lemma MergeMinimal(x: int, k: Key)
    requires k > x
    ensures var n := Minimal(x);
            var w := Leaf([Item(x - 1, x - 1), Item(x, x), Item(x + 1, x + 1)]);
            && Merge(n, 0) == Internal([], [w])
            && GetPosition(n.items, k) == 1
            && FixChild(n, 1, 2, 1) == Fixed(Internal([], [w]), 0)
  {
    var n := Minimal(x);
    var w := Leaf([Item(x - 1, x - 1), Item(x, x), Item(x + 1, x + 1)]);
    assert n.items[..0] + n.items[1..] == [];
    assert n.children[..0] + [w] + n.children[2..] == [w];
    assert Glue(n.children[0], n.items[0], n.children[1]) == w;
  }

  /** Deleting its smallest key from Minimal(x) as written: case 3b2 merges
      the leaves, the leaf loses x - 1, and the emptied node collapses into
      that leaf, one level lower. */
  lemma UpperShrinks(x: int)
    ensures Tree(Minimal(x), 2, 1, true) && Filled(Minimal(x)) && MinItem(Minimal(x)) == Item(x - 1, x - 1)
    ensures DeleteAsWritten(Minimal(x), x - 1, 2, 1) == Outcome(Leaf([Item(x, x), Item(x + 1, x + 1)]), None)
  {
    var u := Minimal(x);
    Rooted(u, 2, 1);
    TreeFilled(u, 2, 1, true);
    assert MinItem(u.children[0]) == Item(x - 1, x - 1);
    var w := Leaf([Item(x - 1, x - 1), Item(x, x), Item(x + 1, x + 1)]);
    var v := Merge(u, 0);
    assert v == Internal([], [w]) by {
      assert u.items[..0] + u.items[1..] == [];
      assert u.children[..0] + [w] + u.children[2..] == [w];
      assert Glue(u.children[0], u.items[0], u.children[1]) == w;
    }
    assert GetPosition(u.items, x - 1) == 0;
    assert FixChild(u, 0, 2, 1) == Fixed(v, 0);
    assert GetPosition(w.items, x - 1) == 0;
    var e := Leaf([Item(x, x), Item(x + 1, x + 1)]);
    assert w.items[..0] + w.items[1..] == e.items;
    assert DeleteAsWritten(w, x - 1, 2, 0) == Outcome(e, None);
    assert Collapse(Internal([], [w][0 := e])) == e;
  }

  /** Deleting 4 from SevenKeys as written goes through case 2c, with the
      upper sibling already shrunk to the leaf [6, 7]. */
  lemma SevenRoute()
    ensures DeleteAsWritten(SevenKeys(), 4, 2, 2)
            == Case2cAsWritten(SevenKeys(), 0, Item(5, 5), Leaf([Item(6, 6), Item(7, 7)]))
  {
    var n := SevenKeys();
    assert n.children[1] == Minimal(6);
    assert GetPosition(n.items, 4) == 0;
    UpperShrinks(6);
    Case2cStep(n, 4, 2, 2, 0);
  }

  /** With minimum degree 2, deleting the key held by the root of
      SevenKeys: the upper sibling [6] shrinks to the leaf [6, 7] while
      giving up 5, and case 2c raises TypeError with child 0 already
      holding four items over two children. */
  lemma Case2cTypeError()
    ensures DeleteAsWritten(SevenKeys(), 4, 2, 2)
            == Outcome(Internal([Item(4, 4)],
                                [Internal([Item(2, 2), Item(5, 5), Item(6, 6), Item(7, 7)],
                                          [Leaf([Item(1, 1)]), Leaf([Item(3, 3)])]),
                                 Leaf([Item(6, 6), Item(7, 7)])]),
                       Some(TypeError))
  {
    SevenRoute();
    var n := SevenKeys();
    var c := n.children[0];
    assert c == Minimal(2);
    var e := Leaf([Item(6, 6), Item(7, 7)]);
    var merged := [Item(2, 2), Item(5, 5), Item(6, 6), Item(7, 7)];
    assert c.items + [Item(5, 5)] + e.items == merged;
    assert n.children[0 := Internal(merged, c.children)][1 := e] == [Internal(merged, c.children), e];
  }

  /** The literal sequence the corrected case 2c leaves. */
  lemma RemoveFour()
    ensures Remove([Item(1, 1), Item(2, 2), Item(3, 3), Item(4, 4), Item(5, 5), Item(6, 6), Item(7, 7)], 4)
            == [Item(1, 1), Item(2, 2), Item(3, 3), Item(5, 5), Item(6, 6), Item(7, 7)]
  {
    var s := [Item(1, 1), Item(2, 2), Item(3, 3), Item(4, 4), Item(5, 5), Item(6, 6), Item(7, 7)];
    assert s[1..][1..][1..] == [Item(4, 4), Item(5, 5), Item(6, 6), Item(7, 7)];
  }

  /** The corrected case 2c on the same tree removes exactly the key and
      leaves a B-tree, one level lower if the root gave up its only item. */
  lemma Case2cCorrected()
    ensures var r := Delete(SevenKeys(), 4, 2, 2);
            && r.found
            && Contents(r.node) == [Item(1, 1), Item(2, 2), Item(3, 3), Item(5, 5), Item(6, 6), Item(7, 7)]
            && (Tree(r.node, 2, 2, true) || Tree(r.node, 2, 1, true))
  {
    SevenValid();
    DeleteSpec(SevenKeys(), 4, 2, 2);
    RemoveFour();
  }

  /** DeleteAsWritten on an internal node whose key is not among its items
      and whose child p is minimal: case 3 fixes the child, the deletion
      descends, and a raise below leaves the fixed node uncollapsed. */
  lemma MissStep<V>(n: Node<V>, k: Key, t: nat, h: nat, p: nat, f: Fixed<V>, d: Outcome<V>)
    requires t >= 2 && h >= 1 && Tree(n, t, h, true) && Loose(n, t, h) && n.Internal? && |n.items| >= 1
    requires p == GetPosition(n.items, k) && p < |n.children| && !(p < |n.items| && n.items[p].key == k)
    requires !Big(n.children[p], t) && f == FixChild(n, p, t, h)
    requires Tree(f.node.children[f.pos], t, h - 1, true)
    requires d == DeleteAsWritten(f.node.children[f.pos], k, t, h - 1) && d.raised.Some?
    ensures DeleteAsWritten(n, k, t, h) == Outcome(Internal(f.node.items, f.node.children[f.pos := d.node]), d.raised)
  {
  }

  /** The leaf [x-1, x, x+1] misses a key k above x + 1: as written it
      raises KeyError, and the corrected deletion reports the miss; either
      way the leaf is kept. */
  lemma LeafMiss(x: int, k: Key)
    requires k > x + 1
    ensures var w := Leaf([Item(x - 1, x - 1), Item(x, x), Item(x + 1, x + 1)]);
            && DeleteAsWritten(w, k, 2, 0) == Outcome(w, Some(KeyError))
            && Delete(w, k, 2, 0) == Deleted(w, false)
  {
    var w := Leaf([Item(x - 1, x - 1), Item(x, x), Item(x + 1, x + 1)]);
    assert GetPosition(w.items, k) == 3;
  }

  /** Deleting a key k above x + 1, which it lacks, from Minimal(x): case
      3b1 merges the two leaves into the root's only child, the leaf raises
      KeyError, and the collapse is skipped. */
  lemma KeyErrorRoute(x: int, k: Key)
    requires k > x + 1
    ensures Tree(Minimal(x), 2, 1, true)
    ensures DeleteAsWritten(Minimal(x), k, 2, 1)
            == Outcome(Internal([], [Leaf([Item(x - 1, x - 1), Item(x, x), Item(x + 1, x + 1)])]), Some(KeyError))
  {
    var n := Minimal(x);
    Rooted(n, 2, 1);
    TreePart(n, 2, 1, true);
    MergeMinimal(x, k);
    LeafMiss(x, k);
    var w := Leaf([Item(x - 1, x - 1), Item(x, x), Item(x + 1, x + 1)]);
    var f := FixChild(n, 1, 2, 1);
    MissStep(n, k, 2, 1, 1, f, DeleteAsWritten(w, k, 2, 0));
    assert [w][0 := w] == [w];
  }

  /** So the tree answers false to bool() while it still holds its three
      items: on [2] over [1] and [3], deleting 9 leaves an empty root over
      the leaf [1, 2, 3]. */
  lemma KeyErrorLeavesEmptyRoot(x: int, k: Key)
    requires k > x + 1
    ensures Tree(Minimal(x), 2, 1, true)
    ensures var r := DeleteAsWritten(Minimal(x), k, 2, 1);
            && r == Outcome(Internal([], [Leaf([Item(x - 1, x - 1), Item(x, x), Item(x + 1, x + 1)])]), Some(KeyError))
            && !Truthy(r.node) && |Contents(r.node)| == 3
  {
    KeyErrorRoute(x, k);
    var w := Leaf([Item(x - 1, x - 1), Item(x, x), Item(x + 1, x + 1)]);
    assert Contents(Internal([], [w])) == Contents(w);
  }

  /** The corrected deletion collapses the emptied root whether or not the
      key was found: on the same tree it reports the miss and leaves the
      truthy leaf of all three items. */
  lemma KeyErrorCorrected(x: int, k: Key)
    requires k > x + 1
    ensures Tree(Minimal(x), 2, 1, true)
    ensures var r := Delete(Minimal(x), k, 2, 1);
            && !r.found && r.node == Leaf([Item(x - 1, x - 1), Item(x, x), Item(x + 1, x + 1)]) && Truthy(r.node)
  {
    var n := Minimal(x);
    Rooted(n, 2, 1);
    MergeMinimal(x, k);
    LeafMiss(x, k);
    var w := Leaf([Item(x - 1, x - 1), Item(x, x), Item(x + 1, x + 1)]);
    assert [w][0 := w] == [w];
  }
}

=== FILE: bnode_insert.dfy ===
/** Insertion into a BNode of durus/btree.py: split_child and insert_item,
    proved to update the dictionary the node denotes and to keep the node a
    B-tree of the same height. */
module BNodeInsert {
  import opened SortedItems
  import opened BNodes

  datatype Halves<V> = Halves(lower: Node<V>, median: Item<V>, upper: Node<V>)

  /** split_child's cut of a full node: the first t-1 items and t children
      stay, the median moves up, the rest go to the new bigger node. */
  function Halve<V>(c: Node<V>, t: nat): (r: Halves<V>)
    requires t >= 1 && |c.items| == 2 * t - 1
    requires c.Internal? ==> |c.children| == 2 * t
    ensures Glue(r.lower, r.median, r.upper) == c
    ensures |r.lower.items| == t - 1 && |r.upper.items| == t - 1
    ensures r.lower.Leaf? == c.Leaf? && r.upper.Leaf? == c.Leaf?
    ensures c.Internal? ==> |r.lower.children| == t && |r.upper.children| == t
  {
    var m := t - 1;
    match c
    case Leaf(its) =>
      assert its[..m] + [its[m]] + its[m + 1..] == its;
      Halves(Leaf(its[..m]), its[m], Leaf(its[m + 1..]))
    case Internal(its, cs) =>
      assert its[..m] + [its[m]] + its[m + 1..] == its;
      assert cs[..m + 1] + cs[m + 1..] == cs;
      Halves(Internal(its[..m], cs[..m + 1]), its[m], Internal(its[m + 1..], cs[m + 1..]))
  }

  /** BNode.split_child: the full child p is halved and its median becomes
      item p of this node, between the two halves. */
  function SplitChild<V>(n: Node<V>, p: nat, t: nat): (r: Node<V>)
    requires t >= 1 && n.Internal? && |n.children| == |n.items| + 1 && p < |n.children|
    requires |n.items| < 2 * t - 1
    requires |n.children[p].items| == 2 * t - 1
    requires n.children[p].Internal? ==> |n.children[p].children| == 2 * t
    ensures r.Internal? && |r.items| == |n.items| + 1 && |r.children| == |r.items| + 1
    ensures Contents(r) == Contents(n)
    ensures r.items[p] == n.children[p].items[t - 1]
    ensures Glue(r.children[p], r.items[p], r.children[p + 1]) == n.children[p]
    ensures |r.children[p].items| == t - 1 && |r.children[p + 1].items| == t - 1
    ensures Pre(r.children, r.items, p) == Pre(n.children, n.items, p)
    ensures Post(r.children, r.items, p + 1) == Post(n.children, n.items, p)
  {
    var its, cs := n.items, n.children;
    var h := Halve(cs[p], t);
    SplitKeeps(its, cs, p, t);
    Internal(its[..p] + [h.median] + its[p..], cs[..p] + [h.lower, h.upper] + cs[p + 1..])
  }

  lemma SplitKeeps<V>(its: seq<Item<V>>, cs: seq<Node<V>>, p: nat, t: nat)
    requires t >= 1 && |cs| == |its| + 1 && p < |cs|
    requires |cs[p].items| == 2 * t - 1 && (cs[p].Internal? ==> |cs[p].children| == 2 * t)
    ensures var h := Halve(cs[p], t);
            var its2, cs2 := its[..p] + [h.median] + its[p..], cs[..p] + [h.lower, h.upper] + cs[p + 1..];
            && Contents(Internal(its2, cs2)) == Contents(Internal(its, cs))
            && Pre(cs2, its2, p) == Pre(cs, its, p)
            && Post(cs2, its2, p + 1) == Post(cs, its, p)
  {
    var h := Halve(cs[p], t);
    Splice(its, cs, p, p, [h.median], [h.lower, h.upper]);
    SplicePre(its, cs, p, p, [h.median], [h.lower, h.upper]);
    SplicePost(its, cs, p, p, [h.median], [h.lower, h.upper]);
    Region2(h.lower, h.median, h.upper);
    GlueContents(h.lower, h.median, h.upper);
    SetChild(its, cs, p, cs[p]);
    assert cs[p := cs[p]] == cs;
  }

  /** The halves of a full subtree are subtrees of the same height. */
  lemma HalvesTree<V>(c: Node<V>, t: nat, h: nat)
    requires t >= 2 && Tree(c, t, h, false) && |c.items| == 2 * t - 1
    ensures var r := Halve(c, t); Tree(r.lower, t, h, false) && Tree(r.upper, t, h, false)
  {
    if c.Internal? {
      var m := t - 1;
      var cs := c.children;
      var r := Halve(c, t);
      forall i | 0 <= i < |r.lower.children|
        ensures Tree(r.lower.children[i], t, h - 1, false)
      {
        assert r.lower.children[i] == cs[i];
      }
      forall i | 0 <= i < |r.upper.children|
        ensures Tree(r.upper.children[i], t, h - 1, false)
      {
        assert r.upper.children[i] == cs[m + 1 + i];
      }
    }
  }

  /** split_child keeps the node a tree of the same height. */
  lemma SplitTree<V>(n: Node<V>, p: nat, t: nat, h: nat, root: bool)
    requires t >= 2 && Tree(n, t, h, root) && n.Internal? && p < |n.children|
    requires |n.items| < 2 * t - 1 && |n.children[p].items| == 2 * t - 1
    requires n.children[p].Internal? ==> |n.children[p].children| == 2 * t
    ensures Tree(SplitChild(n, p, t), t, h, root)
  {
    Kid(n, t, h, root, p);
    var cs := n.children;
    HalvesTree(cs[p], t, h - 1);
    var r := SplitChild(n, p, t);
    var hv := Halve(cs[p], t);
    assert r.children == cs[..p] + [hv.lower, hv.upper] + cs[p + 1..];
    forall i | 0 <= i < |r.children|
      ensures Tree(r.children[i], t, h - 1, false)
    {
      if i < p {
        assert r.children[i] == cs[i];
      } else if i > p + 1 {
        assert r.children[i] == cs[i - 1];
      }
    }
  }

  /** BNode.insert_item: overwrite the item with the same key, insert into a
      leaf, or descend, first splitting a full child; the node itself must
      not be full.  h is the height of the node. */
  function InsertItem<V>(n: Node<V>, it: Item<V>, t: nat, ghost h: nat): Node<V>
    requires t >= 2 && Tree(n, t, h, true) && |n.items| < 2 * t - 1
    decreases h, 1
  {
    var p := GetPosition(n.items, it.key);
    if p < |n.items| && n.items[p].key == it.key then
      match n
      case Leaf(its) => Leaf(its[p := it])
      case Internal(its, cs) => Internal(its[p := it], cs)
    else
      match n
      case Leaf(its) => Leaf(its[..p] + [it] + its[p..])
      case Internal(its, cs) =>
        Kid(n, t, h, true, p);
        if |cs[p].items| == 2 * t - 1 then InsertFull(n, p, it, t, h)
        else Internal(its, cs[p := InsertItem(cs[p], it, t, h - 1)])
  }

  /** insert_item's branch for a full child p: split it, then either the
      new key is the median that moved up or it goes to one of the halves. */
  function InsertFull<V>(n: Node<V>, p: nat, it: Item<V>, t: nat, ghost h: nat): Node<V>
    requires t >= 2 && Tree(n, t, h, true) && |n.items| < 2 * t - 1 && n.Internal?
    requires p < |n.children| && |n.children[p].items| == 2 * t - 1
    decreases h, 0
  {
    Kid(n, t, h, true, p);
    var n1 := SplitChild(n, p, t);
    SplitTree(n, p, t, h, true);
    if it.key == n1.items[p].key then Internal(n1.items[p := it], n1.children)
    else
      var q := if it.key > n1.items[p].key then p + 1 else p;
      Kid(n1, t, h, true, q);
      Internal(n1.items, n1.children[q := InsertItem(n1.children[q], it, t, h - 1)])
  }

  /** insert_item makes the key map to the item's value and nothing else
      changes; the node stays a tree of the same height and loses no items. */
  lemma {:induction false} InsertSpec<V>(n: Node<V>, it: Item<V>, t: nat, h: nat)
    requires Valid(n, t, h, true) && |n.items| < 2 * t - 1
    ensures var r := InsertItem(n, it, t, h);
            && Contents(r) == Upsert(Contents(n), it)
            && Tree(r, t, h, true) && |r.items| >= |n.items|
    decreases h, 2
  {
    var p := GetPosition(n.items, it.key);
    if p < |n.items| && n.items[p].key == it.key {
      InsertHit(n, it, t, h, p);
    } else if n.Leaf? {
      UpsertMiss(n.items, it, p);
    } else {
      Kid(n, t, h, true, p);
      if |n.children[p].items| == 2 * t - 1 {
        InsertSplit(n, p, it, t, h);
      } else {
        Descend(n.items, n.children, it.key);
        InsertInto(n, it, t, h, p, InsertItem(n.children[p], it, t, h - 1));
      }
    }
  }

  /** The case where the child on the path is full and is split first. */
  lemma {:induction false} InsertSplit<V>(n: Node<V>, p: nat, it: Item<V>, t: nat, h: nat)
    requires Valid(n, t, h, true) && |n.items| < 2 * t - 1 && n.Internal?
    requires p == GetPosition(n.items, it.key) && !(p < |n.items| && n.items[p].key == it.key)
    requires |n.children[p].items| == 2 * t - 1
    ensures var r := InsertFull(n, p, it, t, h);
            && Contents(r) == Upsert(Contents(n), it)
            && Tree(r, t, h, true) && |r.items| >= |n.items|
    decreases h, 1
  {
    Kid(n, t, h, true, p);
    var n1 := SplitChild(n, p, t);
    SplitTree(n, p, t, h, true);
    if it.key == n1.items[p].key {
      InsertHit(n1, it, t, h, p);
    } else {
      var q := if it.key > n1.items[p].key then p + 1 else p;
      if it.key < n1.items[p].key {
        SplitLeft(n, n1, p, it.key);
      } else {
        SplitRight(n, n1, p, it.key);
      }
      Kid(n1, t, h, true, q);
      InsertInto(n1, it, t, h, q, InsertItem(n1.children[q], it, t, h - 1));
    }
  }

  /** Inserting into child q of a node whose window q holds the new key. */
  lemma {:induction false} InsertInto<V>(n: Node<V>, it: Item<V>, t: nat, h: nat, q: nat, c: Node<V>)
    requires Valid(n, t, h, true) && n.Internal? && q < |n.children|
    requires AllBelow(Pre(n.children, n.items, q), it.key) && AllAbove(Post(n.children, n.items, q), it.key)
    requires Tree(n.children[q], t, h - 1, true) && |n.children[q].items| < 2 * t - 1
    requires c == InsertItem(n.children[q], it, t, h - 1)
    ensures var r := Internal(n.items, n.children[q := c]);
            Contents(r) == Upsert(Contents(n), it) && Tree(r, t, h, true)
    decreases h, 0
  {
    ChildValid(n, t, h, true, q);
    InsertSpec(n.children[q], it, t, h - 1);
    InsertDescend(n, it, t, h, q, c);
  }

  /** Overwriting item p whose key is the inserted key. */
  lemma InsertHit<V>(n: Node<V>, it: Item<V>, t: nat, h: nat, p: nat)
    requires Valid(n, t, h, true) && p < |n.items| && n.items[p].key == it.key
    ensures n.Leaf? ==> Contents(Leaf(n.items[p := it])) == Upsert(Contents(n), it)
    ensures n.Internal? ==>
              && Contents(Internal(n.items[p := it], n.children)) == Upsert(Contents(n), it)
              && Tree(Internal(n.items[p := it], n.children), t, h, true)
  {
    if n.Leaf? {
      SortedUniqueAt(n.items, p);
      UpsertHit(n.items, it, p);
      assert n.items[..p] + [it] + n.items[p + 1..] == n.items[p := it];
    } else {
      var its, cs := n.items, n.children;
      Hit(its, cs, p);
      var a, b := Pre(cs, its, p) + Child(cs, p), Child(cs, p + 1) + Post(cs, its, p + 1);
      UpsertWindow(a, [its[p]], b, it);
      SetItem(its, cs, p, it);
      SetItemTree(n, t, h, true, p, it);
    }
  }

  /** In a sorted sequence, get_position of an item's key is that item. */
  lemma SortedUniqueAt<V>(s: seq<Item<V>>, p: nat)
    requires Sorted(s) && p < |s|
    ensures GetPosition(s, s[p].key) == p
  {
  }

  /** Descending into child q whose window holds the new key. */
  lemma InsertDescend<V>(n: Node<V>, it: Item<V>, t: nat, h: nat, q: nat, c: Node<V>)
    requires Tree(n, t, h, true) && n.Internal? && q < |n.children|
    requires AllBelow(Pre(n.children, n.items, q), it.key) && AllAbove(Post(n.children, n.items, q), it.key)
    requires Tree(c, t, h - 1, true) && |c.items| >= |n.children[q].items|
    requires Contents(c) == Upsert(Contents(n.children[q]), it)
    ensures var r := Internal(n.items, n.children[q := c]);
            Contents(r) == Upsert(Contents(n), it) && Tree(r, t, h, true)
  {
    var its, cs := n.items, n.children;
    Focus(its, cs, q);
    UpsertWindow(Pre(cs, its, q), Child(cs, q), Post(cs, its, q), it);
    SetChild(its, cs, q, c);
    Kid(n, t, h, true, q);
    Unroot(c, t, h - 1);
    SetChildTree(n, t, h, true, q, c);
  }

  /** A key below the median of the split child goes left of it. */
  lemma SplitLeft<V>(n: Node<V>, n1: Node<V>, p: nat, k: Key)
    requires Sorted(Contents(n)) && n.Internal? && n1.Internal?
    requires p == GetPosition(n.items, k) && !(p < |n.items| && n.items[p].key == k)
    requires p < |n1.items| && Contents(n1) == Contents(n)
    requires Pre(n1.children, n1.items, p) == Pre(n.children, n.items, p)
    requires k < n1.items[p].key
    ensures AllBelow(Pre(n1.children, n1.items, p), k) && AllAbove(Post(n1.children, n1.items, p), k)
  {
    Descend(n.items, n.children, k);
    PostAbove(n1.items, n1.children, p, k);
  }

  /** A key above the median of the split child goes right of it. */
  lemma SplitRight<V>(n: Node<V>, n1: Node<V>, p: nat, k: Key)
    requires Sorted(Contents(n)) && n.Internal? && n1.Internal?
    requires p == GetPosition(n.items, k) && !(p < |n.items| && n.items[p].key == k)
    requires p < |n1.items| && Contents(n1) == Contents(n)
    requires Post(n1.children, n1.items, p + 1) == Post(n.children, n.items, p)
    requires k > n1.items[p].key
    ensures AllBelow(Pre(n1.children, n1.items, p + 1), k) && AllAbove(Post(n1.children, n1.items, p + 1), k)
  {
    Descend(n.items, n.children, k);
    Hit(n1.items, n1.children, p);
    var a := Pre(n1.children, n1.items, p) + Child(n1.children, p);
    assert Pre(n1.children, n1.items, p + 1) == a + [n1.items[p]];
    BelowSnoc(a, n1.items[p], k);
  }
}

=== FILE: bnode_query.dfy ===
/** The read-only operations of BNode in durus/btree.py: search, the extreme
    items, the item count and the four iterators, each proved against the
    in-order contents of the node. */
module BNodeQueries {
  import opened Wrappers
  import opened SortedItems
  import opened BNodes

  /** BNode.search: the item with key k, looked up along one path. */
  function Search<V>(n: Node<V>, k: Key): Option<Item<V>>
    requires Shaped(n)
  {
    var p := GetPosition(n.items, k);
    if p < |n.items| && n.items[p].key == k then Some(n.items[p])
    else if n.Leaf? then None
    else Search(n.children[p], k)
  }

  /** search finds exactly the keys of the dictionary, with their values. */
  lemma {:induction false} SearchSpec<V>(n: Node<V>, k: Key)
    requires Shaped(n) && Sorted(Contents(n))
    ensures Search(n, k) == if k in ToDict(n) then Some(Item(k, ToDict(n)[k])) else None
  {
    var its := n.items;
    var p := GetPosition(its, k);
    if n.Leaf? {
      PositionOfKey(its, k);
      if p < |its| && its[p].key == k {
        MapAt(its, p);
      }
    } else if p < |its| && its[p].key == k {
      Hit(its, n.children, p);
      var a, b := Pre(n.children, its, p) + Child(n.children, p), Child(n.children, p + 1) + Post(n.children, its, p + 1);
      LookupWindow(a, [its[p]], b, k);
    } else {
      Descend(its, n.children, k);
      LookupWindow(Pre(n.children, its, p), Child(n.children, p), Post(n.children, its, p), k);
      SearchSpec(n.children[p], k);
    }
  }

  /** Every node holds an item and every internal node one more child than
      items: what get_min_item and get_max_item need to reach a leaf item. */
  ghost predicate Filled<V>(n: Node<V>)
  {
    |n.items| > 0
    && match n
       case Leaf(_) => true
       case Internal(its, cs) => |cs| == |its| + 1 && forall i :: 0 <= i < |cs| ==> Filled(cs[i])
  }

  lemma {:induction false} TreeFilled<V>(n: Node<V>, t: nat, h: nat, root: bool)
    requires t >= 2 && Tree(n, t, h, root) && |n.items| > 0
    ensures Filled(n)
  {
    if n.Internal? {
      forall i | 0 <= i < |n.children|
        ensures Filled(n.children[i])
      {
        TreeFilled(n.children[i], t, h - 1, false);
      }
    }
  }

  /** BNode.get_min_item: the first item in order. */
  function MinItem<V>(n: Node<V>): (r: Item<V>)
    requires Filled(n)
    ensures |Contents(n)| > 0 && r == Contents(n)[0]
  {
    match n
    case Leaf(its) => its[0]
    case Internal(its, cs) =>
      Focus(its, cs, 0);
      MinItem(cs[0])
  }

  /** BNode.get_max_item: the last item in order. */
  function MaxItem<V>(n: Node<V>): (r: Item<V>)
    requires Filled(n)
    ensures |Contents(n)| > 0 && r == Contents(n)[|Contents(n)| - 1]
  {
    match n
    case Leaf(its) => its[|its| - 1]
    case Internal(its, cs) => MaxItem(cs[|cs| - 1])
  }

  /** BNode.get_count: the items of the node plus those of every child. */
  function Count<V>(n: Node<V>): nat
    decreases n, 0
  {
    match n
    case Leaf(its) => |its|
    case Internal(its, cs) => |its| + CountKids(cs, |cs|)
  }

  /** The counts of the first k children. */
  function CountKids<V>(cs: seq<Node<V>>, k: nat): nat
    requires k <= |cs|
    decreases cs, k
  {
    if k == 0 then 0 else CountKids(cs, k - 1) + Count(cs[k - 1])
  }

  /** The count is the number of items iteration yields. */
  lemma {:induction false} CountSpec<V>(n: Node<V>)
    requires Shaped(n)
    ensures Count(n) == |Contents(n)|
    decreases n, 1
  {
    if n.Internal? {
      CountPre(n.children, n.items, |n.items|);
      CountSpec(n.children[|n.items|]);
      assert CountKids(n.children, |n.children|)
          == CountKids(n.children, |n.items|) + Count(n.children[|n.items|]);
    }
  }

  lemma {:induction false} CountPre<V>(cs: seq<Node<V>>, its: seq<Item<V>>, k: nat)
    requires k <= |its| && |cs| == |its| + 1 && forall i :: 0 <= i < |cs| ==> Shaped(cs[i])
    ensures CountKids(cs, k) + k == |Pre(cs, its, k)|
    decreases cs, k
  {
    if k > 0 {
      CountPre(cs, its, k - 1);
      CountSpec(cs[k - 1]);
    }
  }

  /** BNode.__reversed__: the last child backwards, then each item followed
      by its left child backwards. */
  function Reversed<V>(n: Node<V>): seq<Item<V>>
    requires Shaped(n)
    decreases n, 1
  {
    match n
    case Leaf(its) => Reverse(its)
    case Internal(its, cs) => Reversed(cs[|its|]) + RevPre(cs, its, |its|)
  }

  /** Items k-1 down to 0, each followed by its left child backwards. */
  function RevPre<V>(cs: seq<Node<V>>, its: seq<Item<V>>, k: nat): seq<Item<V>>
    requires k <= |its| && |cs| == |its| + 1 && forall i :: 0 <= i < |cs| ==> Shaped(cs[i])
    decreases cs, k
  {
    if k == 0 then [] else [its[k - 1]] + Reversed(cs[k - 1]) + RevPre(cs, its, k - 1)
  }

  /** Backward iteration is forward iteration reversed. */
  lemma {:induction false} ReversedSpec<V>(n: Node<V>)
    requires Shaped(n)
    ensures Reversed(n) == Reverse(Contents(n))
    decreases n, 2
  {
    if n.Internal? {
      var its, cs := n.items, n.children;
      ReversedSpec(cs[|its|]);
      RevPreSpec(cs, its, |its|);
      ReverseAppend(Pre(cs, its, |its|), Child(cs, |its|));
    }
  }

  lemma {:induction false} RevPreSpec<V>(cs: seq<Node<V>>, its: seq<Item<V>>, k: nat)
    requires k <= |its| && |cs| == |its| + 1 && forall i :: 0 <= i < |cs| ==> Shaped(cs[i])
    ensures RevPre(cs, its, k) == Reverse(Pre(cs, its, k))
    decreases cs, k
  {
    if k > 0 {
      var a, c := Pre(cs, its, k - 1), Child(cs, k - 1);
      RevPreSpec(cs, its, k - 1);
      ReversedSpec(cs[k - 1]);
      ReverseSnoc(a, c, its[k - 1]);
    }
  }

  /** Reversing a, then c, then x gives x, then c backwards, then a
      backwards. */
  lemma ReverseSnoc<T>(a: seq<T>, c: seq<T>, x: T)
    ensures Reverse(a + c + [x]) == [x] + Reverse(c) + Reverse(a)
  {
    ReverseAppend(a + c, [x]);
    ReverseAppend(a, c);
    assert Reverse([x]) == [x];
  }

  /** BNode.iter_from: the items from get_position on, descending into the
      child at that position first. */
  function IterFrom<V>(n: Node<V>, k: Key): seq<Item<V>>
    requires Shaped(n)
  {
    var p := GetPosition(n.items, k);
    match n
    case Leaf(its) => its[p..]
    case Internal(its, cs) => IterFrom(cs[p], k) + Post(cs, its, p)
  }

  /** iter_from yields, in order, exactly the items with key >= k. */
  lemma {:induction false} IterFromSpec<V>(n: Node<V>, k: Key)
    requires Shaped(n) && Sorted(Contents(n))
    ensures IterFrom(n, k) == Span(Contents(n), Incl(k), Unbounded)
  {
    if n.Leaf? {
      LeafSplit(n.items, k, Incl(k), Unbounded);
      SpanNone(n.items[..GetPosition(n.items, k)], Incl(k), Unbounded);
      SpanAll(n.items[GetPosition(n.items, k)..], Incl(k), Unbounded);
    } else {
      var p := GetPosition(n.items, k);
      Descend(n.items, n.children, k);
      IterFromSpec(n.children[p], k);
      IterFromStep(n.items, n.children, k);
    }
  }

  /** One level of iter_from, given the result for the child it descends to. */
  lemma IterFromStep<V>(its: seq<Item<V>>, cs: seq<Node<V>>, k: Key)
    requires Shaped(Internal(its, cs)) && Sorted(Contents(Internal(its, cs)))
    requires var p := GetPosition(its, k);
             IterFrom(cs[p], k) == Span(Contents(cs[p]), Incl(k), Unbounded)
    ensures IterFrom(Internal(its, cs), k) == Span(Contents(Internal(its, cs)), Incl(k), Unbounded)
  {
    var p := GetPosition(its, k);
    var a, c, b := Pre(cs, its, p), Child(cs, p), Post(cs, its, p);
    Descend(its, cs, k);
    FromWindow(a, c, b, k);
    assert IterFrom(Internal(its, cs), k) == IterFrom(cs[p], k) + b;
    assert c == Contents(cs[p]);
  }

  /** The items from k on, out of a window between items below k and items
      not below it: the window's own, then everything after it. */
  lemma FromWindow<V>(a: seq<Item<V>>, c: seq<Item<V>>, b: seq<Item<V>>, k: Key)
    requires AllBelow(a, k) && NoneBelow(b, k)
    ensures Span(a + c + b, Incl(k), Unbounded) == Span(c, Incl(k), Unbounded) + b
  {
    NodeSplit(a, c, b, Incl(k), Unbounded);
    SpanNone(a, Incl(k), Unbounded);
    SpanAll(b, Incl(k), Unbounded);
    assert [] + Span(c, Incl(k), Unbounded) + b == Span(c, Incl(k), Unbounded) + b;
  }

  /** A leaf's span split at get_position. */
  lemma LeafSplit<V>(its: seq<Item<V>>, k: Key, lo: Bound, hi: Bound)
    requires Sorted(its)
    ensures var p := GetPosition(its, k);
            && Span(its, lo, hi) == Span(its[..p], lo, hi) + Span(its[p..], lo, hi)
            && AllBelow(its[..p], k) && NoneBelow(its[p..], k)
  {
    var p := GetPosition(its, k);
    assert its == its[..p] + its[p..];
    SpanAppend(its[..p], its[p..], lo, hi);
    SortedFrom(its, p, k);
  }

  /** A node's span split around the child on the search path. */
  lemma NodeSplit<V>(a: seq<Item<V>>, c: seq<Item<V>>, b: seq<Item<V>>, lo: Bound, hi: Bound)
    ensures Span(a + c + b, lo, hi) == Span(a, lo, hi) + Span(c, lo, hi) + Span(b, lo, hi)
  {
    SpanAppend(a + c, b, lo, hi);
    SpanAppend(a, c, lo, hi);
  }

  /** In a sorted sequence nothing from get_position on is below the key. */
  lemma SortedFrom<V>(s: seq<Item<V>>, p: nat, k: Key)
    requires Sorted(s) && p == GetPosition(s, k)
    ensures NoneBelow(s[p..], k)
  {
    forall i | 0 <= i < |s[p..]|
      ensures s[p..][i].key >= k
    {
      assert s[p..][i] == s[p + i];
    }
  }

  /** BNode.iter_backward_from: the items before get_position, backwards,
      descending into the child at that position first. */
  function IterBackwardFrom<V>(n: Node<V>, k: Key): seq<Item<V>>
    requires Shaped(n)
  {
    var p := GetPosition(n.items, k);
    match n
    case Leaf(its) => Reverse(its[..p])
    case Internal(its, cs) => IterBackwardFrom(cs[p], k) + RevPre(cs, its, p)
  }

  /** iter_backward_from yields, backwards, exactly the items with key < k. */
  lemma {:induction false} IterBackwardFromSpec<V>(n: Node<V>, k: Key)
    requires Shaped(n) && Sorted(Contents(n))
    ensures IterBackwardFrom(n, k) == Reverse(Span(Contents(n), Unbounded, Excl(k)))
  {
    if n.Leaf? {
      LeafSplit(n.items, k, Unbounded, Excl(k));
      SpanAll(n.items[..GetPosition(n.items, k)], Unbounded, Excl(k));
      SpanNone(n.items[GetPosition(n.items, k)..], Unbounded, Excl(k));
    } else {
      var p := GetPosition(n.items, k);
      Descend(n.items, n.children, k);
      IterBackwardFromSpec(n.children[p], k);
      IterBackwardFromStep(n.items, n.children, k);
    }
  }

  lemma IterBackwardFromStep<V>(its: seq<Item<V>>, cs: seq<Node<V>>, k: Key)
    requires Shaped(Internal(its, cs)) && Sorted(Contents(Internal(its, cs)))
    requires var p := GetPosition(its, k);
             IterBackwardFrom(cs[p], k) == Reverse(Span(Contents(cs[p]), Unbounded, Excl(k)))
    ensures IterBackwardFrom(Internal(its, cs), k) == Reverse(Span(Contents(Internal(its, cs)), Unbounded, Excl(k)))
  {
    var p := GetPosition(its, k);
    var a, c, b := Pre(cs, its, p), Child(cs, p), Post(cs, its, p);
    Descend(its, cs, k);
    RevPreSpec(cs, its, p);
    NodeSplit(a, c, b, Unbounded, Excl(k));
    SpanAll(a, Unbounded, Excl(k));
    SpanNone(b, Unbounded, Excl(k));
    var sc := Span(c, Unbounded, Excl(k));
    assert a + sc + [] == a + sc;
    ReverseAppend(a, sc);
    assert IterBackwardFrom(Internal(its, cs), k) == IterBackwardFrom(cs[p], k) + RevPre(cs, its, p);
    assert c == Contents(cs[p]);
  }
}

=== FILE: btree.dfy ===
/** BTree of durus/btree.py: a dictionary kept in a B-tree of BNodes whose
    minimum degree is fixed by the node class at construction. Every
    operation is stated against the dictionary the tree denotes. */
module BTrees {
  import opened Wrappers
  import opened SortedItems
  import opened BNodes
  import opened BNodeQueries
  import opened BNodeInsert
  import opened BNodeDelete

  /** The minimum degrees of BNode and its subclasses BNode4 ... BNode512. */
  predicate NodeClass(t: nat)
  {
    t == 2 || t == 4 || t == 8 || t == 16 || t == 32 || t == 64 || t == 128 || t == 256 || t == 512
  }

  /** BTree() uses BNode16. */
  const DEFAULT_DEGREE: nat := 16

  datatype BTree<V> = BTree(root: Node<V>, degree: nat)

  /** A B-tree whose leaves all lie at the root's level and whose items are
      in strictly increasing key order. */
  ghost predicate Wf<V>(b: BTree<V>)
  {
    Valid(b.root, b.degree, Level(b.root), true)
  }

  /** The dictionary the tree denotes. */
  function Dict<V>(b: BTree<V>): map<Key, V>
  {
    ToDict(b.root)
  }

  /** BTree.__init__: an empty leaf root of the chosen node class; the
      source asserts the class is a BNode class. */
  function New<V>(t: nat): (r: Result<BTree<V>>)
    ensures r.Ok? <==> NodeClass(t)
    ensures r.Ok? ==> Wf(r.value) && r.value.degree == t && Dict(r.value) == map[]
    ensures r.Err? ==> r.error == AssertionError
  {
    if NodeClass(t) then Ok(BTree(Leaf([]), t)) else Err(AssertionError)
  }

  /** BTree.clear: a fresh empty root of the same node class. */
  function Clear<V>(b: BTree<V>): (r: BTree<V>)
    requires Wf(b)
    ensures Wf(r) && r.degree == b.degree && Dict(r) == map[]
  {
    BTree(Leaf([]), b.degree)
  }

  /** add's replacement of a full root: a new root holding only the old
      root as its child, which split_child then halves. */
  function Grow<V>(root: Node<V>, t: nat): (r: Node<V>)
    requires t >= 1 && |root.items| == 2 * t - 1
    requires root.Internal? ==> |root.children| == 2 * t
  {
    Region1(root);
    SplitChild(Internal([], [root]), 0, t)
  }

  /** Splitting a full root keeps its contents and adds one level. */
  lemma GrowSpec<V>(root: Node<V>, t: nat, h: nat)
    requires t >= 2 && Tree(root, t, h, true) && |root.items| == 2 * t - 1
    ensures root.Internal? ==> |root.children| == 2 * t
    ensures var r := Grow(root, t);
            Tree(r, t, h + 1, true) && Contents(r) == Contents(root) && |r.items| == 1
  {
    Unroot(root, t, h);
    HalvesTree(root, t, h);
    Region1(root);
    var r := Grow(root, t);
    var hv := Halve(root, t);
    assert r.children == [hv.lower, hv.upper];
    assert Tree(r.children[0], t, h, false) && Tree(r.children[1], t, h, false);
  }

  /** add on the root: split it first if it is full, then insert_item. */
  function AddRoot<V>(root: Node<V>, it: Item<V>, t: nat, ghost h: nat): Node<V>
    requires t >= 2 && Tree(root, t, h, true)
  {
    if |root.items| == 2 * t - 1 then
      GrowSpec(root, t, h);
      InsertItem(Grow(root, t), it, t, h + 1)
    else
      InsertItem(root, it, t, h)
  }

  lemma AddRootSpec<V>(root: Node<V>, it: Item<V>, t: nat, h: nat)
    requires Valid(root, t, h, true)
    ensures var r := AddRoot(root, it, t, h);
            && Valid(r, t, Level(r), true)
            && Contents(r) == Upsert(Contents(root), it)
            && Level(r) == if |root.items| == 2 * t - 1 then h + 1 else h
  {
    UpsertSorted(Contents(root), it);
    if |root.items| == 2 * t - 1 {
      GrowSpec(root, t, h);
      var g := Grow(root, t);
      assert Valid(g, t, h + 1, true);
      InsertedLevel(g, it, t, h + 1);
    } else {
      InsertedLevel(root, it, t, h);
    }
  }

  lemma InsertedLevel<V>(n: Node<V>, it: Item<V>, t: nat, h: nat)
    requires Valid(n, t, h, true) && |n.items| < 2 * t - 1
    ensures var r := InsertItem(n, it, t, h);
            && Tree(r, t, h, true) && Level(r) == h
            && Contents(r) == Upsert(Contents(n), it)
  {
    InsertSpec(n, it, t, h);
    TreeLevel(InsertItem(n, it, t, h), t, h, true);
  }

  /** BTree.add (and __setitem__): split a full root first, then insert;
      the key then maps to the value and nothing else changes. The tree
      grows one level exactly when the root was full. */
  function Add<V>(b: BTree<V>, k: Key, v: V): (r: BTree<V>)
    requires Wf(b)
    ensures Wf(r) && r.degree == b.degree
    ensures Contents(r.root) == Upsert(Contents(b.root), Item(k, v))
    ensures Dict(r) == Dict(b)[k := v]
    ensures Level(r.root) == if |b.root.items| == 2 * b.degree - 1 then Level(b.root) + 1 else Level(b.root)
  {
    UpsertMap(Contents(b.root), Item(k, v));
    AddRootSpec(b.root, Item(k, v), b.degree, Level(b.root));
    BTree(AddRoot(b.root, Item(k, v), b.degree, Level(b.root)), b.degree)
  }

  /** The search behind __getitem__, get, __contains__ and setdefault. */
  function Lookup<V>(b: BTree<V>, k: Key): (r: Option<Item<V>>)
    requires Wf(b)
    ensures r == if k in Dict(b) then Some(Item(k, Dict(b)[k])) else None
  {
    TreeShaped(b.root, b.degree, Level(b.root), true);
    SearchSpec(b.root, k);
    Search(b.root, k)
  }

  /** BTree.__getitem__: the value, or KeyError for an absent key. */
  function GetItem<V>(b: BTree<V>, k: Key): (r: Result<V>)
    requires Wf(b)
    ensures r.Ok? <==> k in Dict(b)
    ensures r.Ok? ==> r.value == Dict(b)[k]
    ensures r.Err? ==> r.error == KeyError
  {
    match Lookup(b, k)
    case None => Err(KeyError)
    case Some(it) => Ok(it.value)
  }

  /** BTree.get: the value, or the default where __getitem__ raises KeyError. */
  function Get<V>(b: BTree<V>, k: Key, default: V): (r: V)
    requires Wf(b)
    ensures r == if k in Dict(b) then Dict(b)[k] else default
  {
    match GetItem(b, k)
    case Ok(v) => v
    case Err(_) => default
  }

  /** BTree.__contains__ and has_key. */
  function Contains<V>(b: BTree<V>, k: Key): (r: bool)
    requires Wf(b)
    ensures r <==> k in Dict(b)
  {
    Lookup(b, k).Some?
  }

  datatype Defaulted<V> = Defaulted(tree: BTree<V>, value: V)

  /** BTree.setdefault: an absent key is added with the value, which is
      returned; a present key leaves the tree alone and returns its value. */
  function SetDefault<V>(b: BTree<V>, k: Key, v: V): (r: Defaulted<V>)
    requires Wf(b)
    ensures Wf(r.tree) && r.tree.degree == b.degree
    ensures k in Dict(b) ==> r.tree == b && r.value == Dict(b)[k]
    ensures k !in Dict(b) ==> Dict(r.tree) == Dict(b)[k := v] && r.value == v
  {
    match Lookup(b, k)
    case None => Defaulted(Add(b, k, v), v)
    case Some(it) => Defaulted(b, it.value)
  }

  /** A dictionary after assigning each item in turn. */
  function Assign<V>(d: map<Key, V>, items: seq<Item<V>>): map<Key, V>
    decreases |items|
  {
    if |items| == 0 then d else Assign(d[items[0].key := items[0].value], items[1..])
  }

  /** The loop of update: self[key] = value for each item in turn. */
  function AddAll<V>(b: BTree<V>, items: seq<Item<V>>): (r: BTree<V>)
    requires Wf(b)
    ensures Wf(r) && r.degree == b.degree
    ensures Dict(r) == Assign(Dict(b), items)
    decreases |items|
  {
    if |items| == 0 then b else AddAll(Add(b, items[0].key, items[0].value), items[1..])
  }

  /** BTree.update: more than one positional argument is a TypeError;
      otherwise the items of the positional argument, then the keyword
      items, are assigned in order. */
  function Update<V>(b: BTree<V>, args: seq<seq<Item<V>>>, kwargs: seq<Item<V>>): (r: Result<BTree<V>>)
    requires Wf(b)
    ensures r.Ok? <==> |args| <= 1
    ensures r.Err? ==> r.error == TypeError
    ensures r.Ok? ==> Wf(r.value) && r.value.degree == b.degree
                      && Dict(r.value) == Assign(Assign(Dict(b), if |args| == 1 then args[0] else []), kwargs)
  {
    if |args| > 1 then Err(TypeError)
    else
      var positional := if |args| == 1 then args[0] else [];
      Ok(AddAll(AddAll(b, positional), kwargs))
  }

  /** note_change_of_bnode_containing_key: self[key] = self[key]. */
  function Touch<V>(b: BTree<V>, k: Key): (r: Result<BTree<V>>)
    requires Wf(b)
    ensures r.Ok? <==> k in Dict(b)
    ensures r.Err? ==> r.error == KeyError
    ensures r.Ok? ==> Wf(r.value) && Dict(r.value) == Dict(b)
  {
    var v :- GetItem(b, k);
    assert Dict(b)[k := v] == Dict(b);
    Ok(Add(b, k, v))
  }

  datatype Removed<V> = Removed(tree: BTree<V>, raised: Option<Error>)

  /** BTree.__delitem__ with the corrected BNode.delete: the key leaves the
      dictionary and nothing else does; an absent key raises KeyError and
      leaves the dictionary as it was. The tree never grows a level. */
  function DelItem<V>(b: BTree<V>, k: Key): (r: Removed<V>)
    requires Wf(b)
    ensures Wf(r.tree) && r.tree.degree == b.degree
    ensures Contents(r.tree.root) == Remove(Contents(b.root), k)
    ensures Dict(r.tree) == Dict(b) - {k}
    ensures r.raised == if k in Dict(b) then None else Some(KeyError)
    ensures Level(r.tree.root) <= Level(b.root)
  {
    var t, h := b.degree, Level(b.root);
    var d := Delete(b.root, k, t, h);
    DeleteSpec(b.root, k, t, h);
    RemoveSpec(Contents(b.root), k);
    DeletedLevel(d.node, t, h);
    Removed(BTree(d.node, t), if d.found then None else Some(KeyError))
  }

  /** Whichever height delete leaves, get_level measures it. */
  lemma DeletedLevel<V>(n: Node<V>, t: nat, h: nat)
    requires Tree(n, t, h, true) || (h >= 1 && Tree(n, t, h - 1, true))
    ensures Tree(n, t, Level(n), true) && Level(n) <= h
  {
    if Tree(n, t, h, true) {
      TreeLevel(n, t, h, true);
    } else {
      TreeLevel(n, t, h - 1, true);
    }
  }

  /** BTree.__len__: the root's get_count, the number of keys. */
  function Len<V>(b: BTree<V>): (r: nat)
    requires Wf(b)
    ensures r == |Contents(b.root)| == |Dict(b)|
  {
    TreeShaped(b.root, b.degree, Level(b.root), true);
    CountSpec(b.root);
    MapSize(Contents(b.root));
    Count(b.root)
  }

  /** BTree.__bool__: whether the root holds an item, which for a B-tree
      is whether the dictionary is non-empty. */
  function Nonzero<V>(b: BTree<V>): (r: bool)
    requires Wf(b)
    ensures r <==> Len(b) > 0
  {
    if Truthy(b.root) then
      TreeFilled(b.root, b.degree, Level(b.root), true);
      true
    else
      false
  }

  /** BTree.get_min_item: the item with the least key; the source asserts
      the tree is not empty. */
  function MinItemOf<V>(b: BTree<V>): (r: Result<Item<V>>)
    requires Wf(b)
    ensures r.Err? <==> Dict(b) == map[]
    ensures r.Err? ==> r.error == AssertionError
    ensures r.Ok? ==> r.value.key in Dict(b) && Dict(b)[r.value.key] == r.value.value
    ensures r.Ok? ==> forall k :: k in Dict(b) ==> r.value.key <= k
  {
    if !Nonzero(b) then Err(AssertionError)
    else
      TreeFilled(b.root, b.degree, Level(b.root), true);
      FirstLeast(Contents(b.root));
      MapAt(Contents(b.root), 0);
      Ok(MinItem(b.root))
  }

  /** BTree.get_max_item: the item with the greatest key; the source
      asserts the tree is not empty. */
  function MaxItemOf<V>(b: BTree<V>): (r: Result<Item<V>>)
    requires Wf(b)
    ensures r.Err? <==> Dict(b) == map[]
    ensures r.Err? ==> r.error == AssertionError
    ensures r.Ok? ==> r.value.key in Dict(b) && Dict(b)[r.value.key] == r.value.value
    ensures r.Ok? ==> forall k :: k in Dict(b) ==> k <= r.value.key
  {
    if !Nonzero(b) then Err(AssertionError)
    else
      TreeFilled(b.root, b.degree, Level(b.root), true);
      LastGreatest(Contents(b.root));
      MapAt(Contents(b.root), |Contents(b.root)| - 1);
      Ok(MaxItem(b.root))
  }

  /** BTree.get_depth: the number of levels, the same along every path. */
  function Depth<V>(b: BTree<V>): (r: nat)
    requires Wf(b)
    ensures forall h: nat :: Tree(b.root, b.degree, h, true) ==> r == h + 1
  {
    Heights(b.root, b.degree);
    Level(b.root) + 1
  }

  lemma Heights<V>(n: Node<V>, t: nat)
    ensures forall h: nat :: Tree(n, t, h, true) ==> Level(n) == h
  {
    forall h | Tree(n, t, h, true)
      ensures Level(n) == h
    {
      TreeLevel(n, t, h, true);
    }
  }

  /** BTree.items (iteritems, __iter__ of the root): the dictionary's items
      in strictly increasing key order, each once. */
  function Items<V>(b: BTree<V>): (r: seq<Item<V>>)
    requires Wf(b)
    ensures Sorted(r) && |r| == |Dict(b)|
    ensures forall i :: 0 <= i < |r| ==> r[i].key in Dict(b) && Dict(b)[r[i].key] == r[i].value
  {
    MapSize(Contents(b.root));
    AllAt(Contents(b.root));
    Contents(b.root)
  }

  lemma AllAt<V>(s: seq<Item<V>>)
    requires Sorted(s)
    ensures forall i :: 0 <= i < |s| ==> s[i].key in ToMap(s) && ToMap(s)[s[i].key] == s[i].value
  {
    forall i | 0 <= i < |s|
      ensures s[i].key in ToMap(s) && ToMap(s)[s[i].key] == s[i].value
    {
      MapAt(s, i);
    }
  }

  lemma AllIn<V>(s: seq<Item<V>>)
    ensures forall k :: k in ToMap(s) ==> exists i :: 0 <= i < |s| && s[i].key == k
  {
    forall k | k in ToMap(s)
      ensures exists i :: 0 <= i < |s| && s[i].key == k
    {
      InMap(s, k);
    }
  }

  /** BTree.keys (iterkeys, __iter__): the keys, strictly increasing, each
      key of the dictionary once. */
  function Keys<V>(b: BTree<V>): (r: seq<Key>)
    requires Wf(b)
    ensures |r| == |Dict(b)|
    ensures forall i, j :: 0 <= i < j < |r| ==> r[i] < r[j]
    ensures forall k :: k in Dict(b) <==> k in r
  {
    var s := Items(b);
    AllIn(s);
    var r := seq(|s|, i requires 0 <= i < |s| => s[i].key);
    assert forall i :: 0 <= i < |s| ==> r[i] == s[i].key;
    r
  }

  /** BTree.values (itervalues): the values in key order. */
  function Values<V>(b: BTree<V>): (r: seq<V>)
    requires Wf(b)
    ensures |r| == |Keys(b)|
    ensures forall i :: 0 <= i < |r| ==> r[i] == Dict(b)[Keys(b)[i]]
  {
    var s := Items(b);
    seq(|s|, i requires 0 <= i < |s| => s[i].value)
  }

  /** BTree.items_backward (__reversed__ of the root): the items in
      decreasing key order. */
  function ItemsBackward<V>(b: BTree<V>): (r: seq<Item<V>>)
    requires Wf(b)
    ensures r == Reverse(Items(b)) && Descending(r)
  {
    TreeShaped(b.root, b.degree, Level(b.root), true);
    ReversedSpec(b.root);
    ReverseSorted(Contents(b.root));
    Reversed(b.root)
  }

  /** items_from's filter for an open bound: skip the item with the key. */
  function Without<V>(s: seq<Item<V>>, k: Key): seq<Item<V>>
  {
    if |s| == 0 then [] else (if s[0].key != k then [s[0]] else []) + Without(s[1..], k)
  }

  lemma {:induction false} WithoutSpan<V>(s: seq<Item<V>>, k: Key)
    ensures Without(Span(s, Incl(k), Unbounded), k) == Span(s, Excl(k), Unbounded)
  {
    if |s| > 0 {
      WithoutSpan(s[1..], k);
      var rest := Span(s[1..], Incl(k), Unbounded);
      if s[0].key >= k {
        assert Span(s, Incl(k), Unbounded) == [s[0]] + rest;
        assert ([s[0]] + rest)[1..] == rest;
        assert Without([s[0]] + rest, k) == (if s[0].key != k then [s[0]] else []) + Without(rest, k);
      } else {
        assert Span(s, Incl(k), Unbounded) == rest;
      }
    }
  }

  /** BTree.items_from: the items with key >= k (closed) or > k (open), in
      increasing order. */
  function ItemsFrom<V>(b: BTree<V>, k: Key, closed: bool): (r: seq<Item<V>>)
    requires Wf(b)
    ensures r == Span(Contents(b.root), Closed(k, closed), Unbounded)
  {
    TreeShaped(b.root, b.degree, Level(b.root), true);
    IterFromSpec(b.root, k);
    WithoutSpan(Contents(b.root), k);
    var s := IterFrom(b.root, k);
    if closed then s else Without(s, k)
  }

  /** BTree.items_backward_from: the items with key <= k (closed) or < k
      (open), in decreasing order; the closed case first yields the item
      search finds for k. */
  function ItemsBackwardFrom<V>(b: BTree<V>, k: Key, closed: bool): (r: seq<Item<V>>)
    requires Wf(b)
    ensures r == Reverse(Span(Contents(b.root), Unbounded, Closed(k, closed)))
  {
    TreeShaped(b.root, b.degree, Level(b.root), true);
    IterBackwardFromSpec(b.root, k);
    InclExcl(Contents(b.root), k);
    var below := Span(Contents(b.root), Unbounded, Excl(k));
    var found := if closed then (match Lookup(b, k) case Some(it) => [it] case None => []) else [];
    ReverseAppend(below, found);
    assert Reverse(found) == found by {
      if |found| == 1 {
        assert Reverse(found) == Reverse(found[1..]) + [found[0]];
      }
    }
    found + IterBackwardFrom(b.root, k)
  }

  /** The forward loop of items_range: stop after the end key, skip the
      end key itself unless the end is closed. */
  function UpTo<V>(s: seq<Item<V>>, end: Key, closedEnd: bool): seq<Item<V>>
  {
    if |s| == 0 || s[0].key > end then []
    else (if closedEnd || s[0].key < end then [s[0]] else []) + UpTo(s[1..], end, closedEnd)
  }

  /** The backward loop of items_range: stop before the end key, skip the
      end key itself unless the end is closed. */
  function DownTo<V>(s: seq<Item<V>>, end: Key, closedEnd: bool): seq<Item<V>>
  {
    if |s| == 0 || s[0].key < end then []
    else (if closedEnd || s[0].key > end then [s[0]] else []) + DownTo(s[1..], end, closedEnd)
  }

  /** On increasing keys, stopping at the end is filtering by it. */
  lemma {:induction false} UpToSpan<V>(s: seq<Item<V>>, end: Key, closedEnd: bool)
    requires Sorted(s)
    ensures UpTo(s, end, closedEnd) == Span(s, Unbounded, Closed(end, closedEnd))
  {
    if |s| > 0 {
      SortedTail(s);
      if s[0].key > end {
        assert forall i :: 0 <= i < |s| ==> s[i].key >= s[0].key;
        SpanNone(s, Unbounded, Closed(end, closedEnd));
      } else {
        UpToSpan(s[1..], end, closedEnd);
      }
    }
  }

  /** On decreasing keys, stopping at the end is filtering by it. */
  lemma {:induction false} DownToSpan<V>(s: seq<Item<V>>, end: Key, closedEnd: bool)
    requires Descending(s)
    ensures DownTo(s, end, closedEnd) == Span(s, Closed(end, closedEnd), Unbounded)
  {
    if |s| > 0 {
      assert Descending(s[1..]) by {
        forall i, j | 0 <= i < j < |s[1..]|
          ensures s[1..][i].key > s[1..][j].key
        {
          assert s[1..][i] == s[i + 1] && s[1..][j] == s[j + 1];
        }
      }
      if s[0].key < end {
        assert forall i :: 0 <= i < |s| ==> s[i].key <= s[0].key;
        SpanNone(s, Closed(end, closedEnd), Unbounded);
      } else {
        DownToSpan(s[1..], end, closedEnd);
      }
    }
  }

  /** BTree.items_range: from start towards end, forwards when start <= end
      and backwards otherwise; closedStart and closedEnd say whether the
      items with those keys are included. */
  function ItemsRange<V>(b: BTree<V>, start: Key, end: Key, closedStart: bool, closedEnd: bool): (r: seq<Item<V>>)
    requires Wf(b)
    ensures start <= end ==> r == Span(Contents(b.root), Closed(start, closedStart), Closed(end, closedEnd))
    ensures start > end ==> r == Reverse(Span(Contents(b.root), Closed(end, closedEnd), Closed(start, closedStart)))
  {
    var c := Contents(b.root);
    if start <= end then
      var s := ItemsFrom(b, start, closedStart);
      SpanSorted(c, Closed(start, closedStart), Unbounded);
      UpToSpan(s, end, closedEnd);
      SpanSpan(c, Closed(start, closedStart), Unbounded, Unbounded, Closed(end, closedEnd),
               Closed(start, closedStart), Closed(end, closedEnd));
      UpTo(s, end, closedEnd)
    else
      var s := ItemsBackwardFrom(b, start, closedStart);
      var below := Span(c, Unbounded, Closed(start, closedStart));
      SpanSorted(c, Unbounded, Closed(start, closedStart));
      ReverseSorted(below);
      DownToSpan(s, end, closedEnd);
      SpanReverse(below, Closed(end, closedEnd), Unbounded);
      SpanSpan(c, Unbounded, Closed(start, closedStart), Closed(end, closedEnd), Unbounded,
               Closed(end, closedEnd), Closed(start, closedStart));
      DownTo(s, end, closedEnd)
  }
}

=== FILE: byte_array.dfy ===
/** ByteArray of utils.py: an array of bytes kept in a file-like object,
    starting at the file position it was created at. The file is its
    whole contents as a byte sequence; `read` raises ShortRead when the
    file ends early, and `write` overwrites in place, extending the file
    when it runs past the end. */
module ByteArrays {
  import opened Wrappers

  /** utils.read: exactly `n` bytes at position `p`, or ShortRead. */
  function ReadAt(file: Bytes, p: nat, n: nat): (r: Result<Bytes>)
    ensures r.Ok? <==> p + n <= |file|
    ensures r.Ok? ==> |r.value| == n && forall i :: 0 <= i < n ==> r.value[i] == file[p + i]
    ensures r.Err? ==> r.error == ShortRead
  {
    if p + n <= |file| then Ok(file[p..p + n]) else Err(ShortRead)
  }

  /** utils.write at position `p` of a file at least `p` long. */
  function WriteAt(file: Bytes, p: nat, s: Bytes): (r: Bytes)
    requires p <= |file|
    ensures |r| == if p + |s| > |file| then p + |s| else |file|
    ensures forall i :: 0 <= i < |s| ==> r[p + i] == s[i]
    ensures forall i :: 0 <= i < |file| && !(p <= i < p + |s|) ==> r[i] == file[i]
  {
    if p + |s| <= |file| then file[..p] + s + file[p + |s|..] else file[..p] + s
  }

  /** A ByteArray: the backing file, where the array starts in it, and
      its size. */
  datatype ByteArray = ByteArray(file: Bytes, start: nat, size: nat)

  /** The file holds every byte of the array. */
  predicate Valid(a: ByteArray)
  {
    a.start + a.size <= |a.file|
  }

  /** The bytes of the array. */
  function Contents(a: ByteArray): (r: Bytes)
    requires Valid(a)
  {
    a.file[a.start..a.start + a.size]
  }

  /** `n` copies of one byte. */
  function Fill(b: bv8, n: nat): (r: Bytes)
    ensures |r| == n && forall i :: 0 <= i < n ==> r[i] == b
  {
    seq(n, _ => b)
  }

  /** gen_set_size and set_size: a smaller size fails the source's
      assertion; a larger one appends `init` bytes at the end of the file
      when the file is too short, which the source asserts only happens
      when the array is the last thing in the file. */
  function SetSize(a: ByteArray, size: int, init: bv8): (r: Result<ByteArray>)
    ensures r.Ok? <==>
              && size >= a.size
              && (size > a.size ==> |a.file| >= a.start + a.size)
              && (size > a.size && |a.file| < a.start + size ==> |a.file| == a.start + a.size)
    ensures r.Err? ==> r.error == AssertionError
    ensures r.Ok? ==> r.value.start == a.start && r.value.size == size
    ensures r.Ok? ==> |r.value.file| >= |a.file| && r.value.file[..|a.file|] == a.file
  {
    if size < a.size then Err(AssertionError)
    else if size == a.size then Ok(a)
    else if |a.file| < a.start + a.size then Err(AssertionError)
    else if |a.file| < a.start + size then
      if |a.file| != a.start + a.size then Err(AssertionError)
      else Ok(ByteArray(a.file + Fill(init, size - a.size), a.start, size))
    else Ok(a.(size := size))
  }

  /** Growing a valid array keeps its old bytes and makes it valid; when
      the file had to grow, the new bytes are `init`. */
  lemma SetSizeSpec(a: ByteArray, size: int, init: bv8)
    requires Valid(a)
    ensures var r := SetSize(a, size, init);
            r.Ok? ==>
              && Valid(r.value)
              && Contents(r.value)[..a.size] == Contents(a)
              && (|a.file| < a.start + size ==> forall i :: a.size <= i < size ==> Contents(r.value)[i] == init)
  {
    var r := SetSize(a, size, init);
    if r.Ok? && size > a.size && |a.file| < a.start + size {
      var c := Contents(r.value);
      forall i | a.size <= i < size
        ensures c[i] == init
      {
        assert c[i] == r.value.file[a.start + i];
      }
    }
  }

  /** ByteArray(size, file): an array of size 0 where the file is, grown to
      `size` with zero bytes. */
  function Create(file: Bytes, start: nat, size: int): (r: Result<ByteArray>)
    ensures r.Ok? && start <= |file| ==> Valid(r.value) && r.value.size == size
  {
    SetSize(ByteArray(file, start, 0), size, 0)
  }

  /** A new array over an empty file is all zero bytes. */
  lemma CreateZeroes(size: nat)
    ensures var r := Create([], 0, size);
            r.Ok? && Valid(r.value) && Contents(r.value) == Fill(0, size)
  {
    var r := Create([], 0, size);
    if size > 0 {
      assert r.value.file == Fill(0, size);
    }
  }

  /** __getitem__ with an index: the one-byte string at `j`. */
  function GetItem(a: ByteArray, j: int): (r: Result<Bytes>)
    ensures !(0 <= j < a.size) ==> r == Err(IndexError)
    ensures Valid(a) && 0 <= j < a.size ==> r == Ok([Contents(a)[j]])
  {
    if 0 <= j < a.size then
      var r := ReadAt(a.file, a.start + j, 1);
      assert Valid(a) ==> r.Ok? && r.value == [Contents(a)[j]] by {
        if Valid(a) {
          assert r.value[0] == Contents(a)[j];
        }
      }
      r
    else Err(IndexError)
  }

  /** __setitem__ with an index: the index is checked before the value's
      length. */
  function SetItem(a: ByteArray, j: int, v: Bytes): (r: Result<ByteArray>)
    requires Valid(a)
    ensures r.Ok? <==> 0 <= j < a.size && |v| == 1
    ensures !(0 <= j < a.size) ==> r == Err(IndexError)
    ensures 0 <= j < a.size && |v| != 1 ==> r == Err(ValueError)
    ensures r.Ok? ==> Valid(r.value) && r.value.start == a.start && r.value.size == a.size
  {
    if !(0 <= j < a.size) then Err(IndexError)
    else if |v| != 1 then Err(ValueError)
    else Ok(a.(file := WriteAt(a.file, a.start + j, v)))
  }

  /** Reading back a written byte gives it; every other byte is as it
      was. */
  lemma SetGetItem(a: ByteArray, j: int, v: Bytes, k: int)
    requires Valid(a) && SetItem(a, j, v).Ok?
    ensures var b := SetItem(a, j, v).value;
            GetItem(b, k) == if k == j then Ok(v) else GetItem(a, k)
  {
    var b := SetItem(a, j, v).value;
    if 0 <= k < a.size {
      assert Contents(b)[k] == b.file[a.start + k];
      assert Contents(a)[k] == a.file[a.start + k];
    }
  }

  /** __getslice__: `k - j` bytes from `j`; an empty or reversed slice is
      an IndexError as well. */
  function GetSlice(a: ByteArray, j: int, k: int): (r: Result<Bytes>)
    ensures !(0 <= j < k <= a.size) ==> r == Err(IndexError)
    ensures Valid(a) && 0 <= j < k <= a.size ==> r == Ok(Contents(a)[j..k])
  {
    if 0 <= j < k <= a.size then
      var r := ReadAt(a.file, a.start + j, k - j);
      assert Valid(a) ==> r.Ok? && r.value == Contents(a)[j..k] by {
        if Valid(a) {
          assert forall i :: 0 <= i < k - j ==> r.value[i] == Contents(a)[j..k][i];
        }
      }
      r
    else Err(IndexError)
  }

  /** __setslice__: the bounds are checked before the value's length. */
  function SetSlice(a: ByteArray, j: int, k: int, v: Bytes): (r: Result<ByteArray>)
    requires Valid(a)
    ensures r.Ok? <==> 0 <= j < k <= a.size && |v| == k - j
    ensures !(0 <= j < k <= a.size) ==> r == Err(IndexError)
    ensures 0 <= j < k <= a.size && |v| != k - j ==> r == Err(ValueError)
    ensures r.Ok? ==> Valid(r.value) && r.value.start == a.start && r.value.size == a.size
  {
    if !(0 <= j < k <= a.size) then Err(IndexError)
    else if |v| != k - j then Err(ValueError)
    else Ok(a.(file := WriteAt(a.file, a.start + j, v)))
  }

  /** A written slice reads back as written, and the bytes outside it are
      as they were. */
  lemma SetSliceSpec(a: ByteArray, j: int, k: int, v: Bytes)
    requires Valid(a) && SetSlice(a, j, k, v).Ok?
    ensures var b := SetSlice(a, j, k, v).value;
            && Contents(b)[j..k] == v
            && (forall i :: 0 <= i < a.size && !(j <= i < k) ==> Contents(b)[i] == Contents(a)[i])
  {
    var b := SetSlice(a, j, k, v).value;
    forall i | j <= i < k
      ensures Contents(b)[i] == v[i - j]
    {
      assert Contents(b)[i] == b.file[a.start + j + (i - j)];
    }
    forall i | 0 <= i < a.size && !(j <= i < k)
      ensures Contents(b)[i] == Contents(a)[i]
    {
      assert Contents(b)[i] == b.file[a.start + i];
    }
  }

  /** __iter__: each byte in turn, as a one-byte string. */
  function Iterate(a: ByteArray): (r: seq<Bytes>)
    requires Valid(a)
    ensures |r| == a.size
  {
    seq(a.size, i requires 0 <= i < a.size => [a.file[a.start + i]])
  }

  /** Iterating yields what indexing yields. */
  lemma IterateSpec(a: ByteArray)
    requires Valid(a)
    ensures forall i :: 0 <= i < a.size ==> GetItem(a, i) == Ok(Iterate(a)[i])
  {
  }
}

=== FILE: byte_order.dfy ===
/** Python's ordering of byte strings (lexicographic, a proper prefix
    first) and sorted() of a set of oids under it. */
module ByteOrder {
  import opened Wrappers

  /** a <= b as Python compares bytes. */
  predicate LexLe(a: Bytes, b: Bytes)
    decreases |a|
  {
    a == [] || (b != [] && (a[0] < b[0] || (a[0] == b[0] && LexLe(a[1..], b[1..]))))
  }

  lemma {:induction false} LexLeReflexive(a: Bytes)
    ensures LexLe(a, a)
    decreases |a|
  {
    if a != [] {
      LexLeReflexive(a[1..]);
    }
  }

  lemma {:induction false} LexLeTotal(a: Bytes, b: Bytes)
    ensures LexLe(a, b) || LexLe(b, a)
    decreases |a|
  {
    if a != [] && b != [] && a[0] == b[0] {
      LexLeTotal(a[1..], b[1..]);
    }
  }

  lemma {:induction false} LexLeAntisymmetric(a: Bytes, b: Bytes)
    requires LexLe(a, b) && LexLe(b, a)
    ensures a == b
    decreases |a|
  {
    if a != [] {
      LexLeAntisymmetric(a[1..], b[1..]);
      assert a == [a[0]] + a[1..] && b == [b[0]] + b[1..];
    }
  }

  lemma {:induction false} LexLeTransitive(a: Bytes, b: Bytes, c: Bytes)
    requires LexLe(a, b) && LexLe(b, c)
    ensures LexLe(a, c)
    decreases |a|
  {
    if a != [] && a[0] == b[0] && b[0] == c[0] {
      LexLeTransitive(a[1..], b[1..], c[1..]);
    }
  }

  /** `m` is the least element of `s`. */
  predicate IsLeast(m: Oid, s: set<Oid>)
  {
    m in s && forall x :: x in s ==> LexLe(m, x)
  }

  lemma {:induction false} LeastExists(s: set<Oid>)
    requires s != {}
    ensures exists m :: IsLeast(m, s)
    decreases |s|
  {
    var x :| x in s;
    LexLeReflexive(x);
    if s == {x} {
      assert IsLeast(x, s);
    } else {
      LeastExists(s - {x});
      var m :| IsLeast(m, s - {x});
      LexLeTotal(m, x);
      if LexLe(m, x) {
        assert IsLeast(m, s);
      } else {
        forall y | y in s
          ensures LexLe(x, y)
        {
          if y != x {
            LexLeTransitive(x, m, y);
          }
        }
        assert IsLeast(x, s);
      }
    }
  }

  lemma LeastUnique(s: set<Oid>)
    ensures forall m, n :: IsLeast(m, s) && IsLeast(n, s) ==> m == n
  {
    forall m, n | IsLeast(m, s) && IsLeast(n, s)
      ensures m == n
    {
      LexLeAntisymmetric(m, n);
    }
  }

  /** Strictly ascending. */
  predicate Ascending(xs: seq<Oid>)
  {
    forall i, j :: 0 <= i < j < |xs| ==> LexLe(xs[i], xs[j]) && xs[i] != xs[j]
  }

  /** sorted() of a set of oids. */
  function Sort(s: set<Oid>): (r: seq<Oid>)
    decreases |s|
  {
    if s == {} then []
    else
      LeastExists(s);
      LeastUnique(s);
      var m :| IsLeast(m, s);
      [m] + Sort(s - {m})
  }

  /** sorted() lists each member once, in ascending order, and nothing
      else. */
  lemma {:induction false} SortSpec(s: set<Oid>)
    ensures var r := Sort(s);
            && |r| == |s|
            && (forall x :: x in r <==> x in s)
            && Ascending(r)
    decreases |s|
  {
    if s != {} {
      LeastExists(s);
      var r := Sort(s);
      var m := r[0];
      assert IsLeast(m, s);
      SortSpec(s - {m});
      var t := Sort(s - {m});
      assert r == [m] + t;
      forall i, j | 0 <= i < j < |r|
        ensures LexLe(r[i], r[j]) && r[i] != r[j]
      {
        if i == 0 {
          assert r[j] == t[j - 1] && t[j - 1] in s - {m};
        } else {
          assert r[i] == t[i - 1] && r[j] == t[j - 1];
        }
      }
    }
  }
}

=== FILE: cache.dfy ===
/** Cache of durus/connection.py: the connection's weak object dictionary,
    its target size, get_instance, removal of an object, and shrink, which
    ghosts the least recently used SAVED objects. Which objects die once
    shrink drops its hard reference to them (garbage collection) is a
    parameter. */
module Caches {
  import opened Wrappers
  import opened PersistenceState
  import opened ObjectDictionaries

  /** Cache.__init__ with set_size: a target size of zero or less is a
      ValueError. */
  function NewCache(size: int): (r: Result<Cache>)
    ensures r.Ok? <==> size > 0
    ensures r.Ok? ==> r.value.size == size && Size(r.value.objects) == 0 && Consistent(r.value.objects)
    ensures r.Err? ==> r.error == ValueError
  {
    if size <= 0 then Err(ValueError) else Ok(Cache(EmptyDict(), {}, size, 0))
  }

  /** Cache.set_size. */
  function SetSize(c: Cache, size: int): (r: Result<Cache>)
    ensures r.Ok? <==> size > 0
    ensures r.Ok? ==> r.value == c.(size := size)
    ensures r.Err? ==> r.error == ValueError
  {
    if size <= 0 then Err(ValueError) else Ok(c.(size := size))
  }

  /** The object the cache holds for an oid, if it is live. */
  function Cached(w: World, c: ConnId, oid: Oid): Option<HandleId>
    requires c in w.conns
  {
    Lookup(w.conns[c].cache.objects, oid)
  }

  datatype Made = Made(world: World, h: HandleId)

  /** Cache.get_instance (and its inlined twin persistent_load in
      durus/serialize.py): the cached object if its class matches,
      otherwise a new GHOST of that class carrying the oid and the
      connection, registered in the cache. */
  function GetInstance(w: World, c: ConnId, oid: Oid, cls: Class): (r: Made)
    requires c in w.conns
    requires forall h :: h in w.handles ==> h < w.nextId
    ensures var o := Cached(w, c, oid);
            o.Some? && o.value in w.handles && w.handles[o.value].cls == cls ==> r == Made(w, o.value)
    ensures r.h in r.world.handles && r.world.handles[r.h].cls == cls
    ensures c in r.world.conns && Cached(r.world, c, oid) == Some(r.h)
    ensures r.world.trace == w.trace && r.world.conns.Keys == w.conns.Keys
    ensures r.world != w ==>
              && r.h == w.nextId && r.h !in w.handles
              && r.world.handles == w.handles[r.h := Handle(cls, Ghost, 0, Some(c), Some(oid), map[])]
              && r.world.nextId == w.nextId + 1
              && r.world.conns == w.conns[c := w.conns[c].(cache := r.world.conns[c].cache)]
              && r.world.conns[c].cache == w.conns[c].cache.(objects := Assign(w.conns[c].cache.objects, oid, r.h))
  {
    var o := Cached(w, c, oid);
    if o.Some? && o.value in w.handles && w.handles[o.value].cls == cls then Made(w, o.value)
    else
      var h := w.nextId;
      var x := NewHandle(cls).(oid := Some(oid), conn := Some(c), status := Ghost);
      var cn := w.conns[c];
      var cache := cn.cache.(objects := Assign(cn.cache.objects, oid, h));
      Made(World(w.handles[h := x], w.conns[c := cn.(cache := cache)], w.trace, w.nextId + 1), h)
  }

  /** get_instance keeps the arena well formed. */
  lemma GetInstanceWf(w: World, c: ConnId, oid: Oid, cls: Class)
    requires Wf(w) && c in w.conns
    ensures Wf(GetInstance(w, c, oid, cls).world)
  {
    var r := GetInstance(w, c, oid, cls);
    if r.world != w {
      forall d | d in r.world.conns
        ensures CacheRefs(r.world.conns[d].cache, r.world.handles)
      {
        if d == c {
          assert r.world.conns[c].cache.objects.mapping.Values <= w.conns[c].cache.objects.mapping.Values + {r.h};
        }
      }
    }
  }

  /** Cache.__delitem__: a live entry loses its hard reference and, once
      the object has no oid, its entry; an object that still has an oid
      fails the assertion after losing the hard reference. */
  function Evict(w: World, c: ConnId, oid: Oid): (r: Step)
    requires Sound(w, c)
    ensures Sound(r.world, c) && CacheOnly(w, c, r.world) && r.world.handles == w.handles
    ensures Cached(w, c, oid).None? ==> r == Step(w, None)
    ensures r.raised == None ==> Cached(r.world, c, oid).None?
    ensures r.raised == None ==> forall k :: k != oid ==> Cached(r.world, c, k) == Cached(w, c, k)
    ensures Cached(w, c, oid).Some? ==>
              && (r.raised == None <==> w.handles[Cached(w, c, oid).value].oid.None?)
              && r.world.conns[c].cache.recent == w.conns[c].cache.recent - {Cached(w, c, oid).value}
  {
    var cn := w.conns[c];
    match Lookup(cn.cache.objects, oid)
    case None => Step(w, None)
    case Some(h) =>
      var recent := cn.cache.recent - {h};
      if w.handles[h].oid.Some? then
        Step(PutConn(w, c, cn.(cache := cn.cache.(recent := recent))), Some(AssertionError))
      else
        RemoveSpec(cn.cache.objects, oid);
        Step(PutConn(w, c, cn.(cache := cn.cache.(recent := recent, objects := Remove(cn.cache.objects, oid)))), None)
  }

  /** A heap entry: an object's serial stamp and its oid. */
  datatype Entry = Entry(serial: int, oid: Oid)

  /** Python's ordering of byte strings. */
  predicate BytesBefore(a: Bytes, b: Bytes)
    decreases |a|
  {
    if a == [] then b != []
    else if b == [] then false
    else a[0] < b[0] || (a[0] == b[0] && BytesBefore(a[1..], b[1..]))
  }

  /** The ordering of (serial, oid) tuples heappop follows. */
  predicate EntryBefore(a: Entry, b: Entry)
  {
    a.serial < b.serial || (a.serial == b.serial && BytesBefore(a.oid, b.oid))
  }

  /** The position of the entry heappop takes: the least one. */
  function Least(heap: seq<Entry>): (r: nat)
    requires heap != []
    ensures r < |heap|
    ensures forall i :: 0 <= i < |heap| ==> !EntryBefore(heap[i], heap[r])
  {
    if |heap| == 1 then
      BytesBeforeIrreflexive(heap[0].oid);
      0
    else
      var j := Least(heap[1..]);
      if EntryBefore(heap[0], heap[1..][j]) then
        assert forall i :: 1 <= i < |heap| ==> heap[i] == heap[1..][i - 1];
        EntryBeforeAcyclic(heap[0], heap[1..][j], heap[1..]);
        BytesBeforeIrreflexive(heap[0].oid);
        0
      else
        BytesBeforeIrreflexive(heap[0].oid);
        j + 1
  }

  lemma BytesBeforeTrans(a: Bytes, b: Bytes, c: Bytes)
    requires BytesBefore(a, b) && BytesBefore(b, c)
    ensures BytesBefore(a, c)
    decreases |a|
  {
    if a != [] && b != [] && c != [] && a[0] == b[0] && b[0] == c[0] {
      BytesBeforeTrans(a[1..], b[1..], c[1..]);
    }
  }

  lemma BytesBeforeIrreflexive(a: Bytes)
    ensures !BytesBefore(a, a)
    decreases |a|
  {
    if a != [] {
      BytesBeforeIrreflexive(a[1..]);
    }
  }

  /** When heap[0] precedes the least entry of the rest, nothing in the
      rest precedes heap[0]. */
  lemma EntryBeforeAcyclic(x: Entry, m: Entry, rest: seq<Entry>)
    requires EntryBefore(x, m)
    requires forall i :: 0 <= i < |rest| ==> !EntryBefore(rest[i], m)
    ensures forall i :: 0 <= i < |rest| ==> !EntryBefore(rest[i], x)
  {
    forall i | 0 <= i < |rest|
      ensures !EntryBefore(rest[i], x)
    {
      if EntryBefore(rest[i], x) {
        if rest[i].serial == x.serial && x.serial == m.serial {
          BytesBeforeTrans(rest[i].oid, x.oid, m.oid);
        }
      }
    }
    BytesBeforeIrreflexive(x.oid);
  }

  /** Every entry whose oid is still live names an object that was not
      accessed in transaction `ts`. */
  ghost predicate Unstamped(objects: ObjDict, handles: map<HandleId, Handle>, heap: seq<Entry>, ts: int)
  {
    forall e :: e in heap && Has(objects, e.oid) ==>
      Lookup(objects, e.oid).value in handles && handles[Lookup(objects, e.oid).value].serial != ts
  }

  /** The walk of _build_heap over the live keys, starting at the finger
      and wrapping round once: every object not accessed in the current
      transaction is pushed, until the heap reaches its target size.
      Returns the heap and the number of keys visited. */
  function Collect(objects: ObjDict, handles: map<HandleId, Handle>, keys: seq<Oid>, start: nat, i: nat,
                   target: int, ts: int, heap: seq<Entry>): (r: (seq<Entry>, nat))
    requires |keys| > 0 && i <= |keys|
    requires forall k :: k in keys ==> Has(objects, k) && Lookup(objects, k).value in handles
    requires Unstamped(objects, handles, heap, ts)
    ensures heap <= r.0 && i <= r.1 <= |keys|
    ensures Unstamped(objects, handles, r.0, ts)
    ensures forall e :: e in r.0 ==> e in heap || e.oid in keys
    decreases |keys| - i
  {
    if i == |keys| then (heap, i)
    else
      var oid := keys[(start + i) % |keys|];
      assert oid in keys && Has(objects, oid);
      var h := Lookup(objects, oid).value;
      if handles[h].serial == ts then Collect(objects, handles, keys, start, i + 1, target, ts, heap)
      else
        var heap' := heap + [Entry(handles[h].serial, oid)];
        if |heap'| >= target then (heap', i + 1)
        else Collect(objects, handles, keys, start, i + 1, target, ts, heap')
  }

  /** Cache._build_heap, for a cache above its target size: drops the dead
      keys and gathers entries only for objects not accessed in the current
      transaction. */
  function BuildHeap(cache: Cache, handles: map<HandleId, Handle>, ts: int): (r: (Cache, seq<Entry>))
    requires Consistent(cache.objects) && cache.objects.mapping.Values <= handles.Keys
    requires Size(cache.objects) > 0
    ensures Consistent(r.0.objects) && r.0.objects.mapping.Values <= handles.Keys
    ensures r.0 == cache.(objects := r.0.objects, finger := r.0.finger)
    ensures forall k :: Lookup(r.0.objects, k) == Lookup(cache.objects, k)
    ensures Size(r.0.objects) == Size(cache.objects)
    ensures Unstamped(r.0.objects, handles, r.1, ts)
  {
    var n := Size(cache.objects);
    var target := (n - cache.size) * 2;
    var start := cache.finger % n;
    ClearDeadSpec(cache.objects);
    IterateSpec(cache.objects);
    var objects := ClearDead(cache.objects);
    var keys := Iterate(cache.objects);
    assert keys != [] by {
      LiveKeysIterate(cache.objects);
    }
    var walk := Collect(objects, handles, keys, start, 0, target, ts, []);
    (cache.(objects := objects, finger := (cache.finger + walk.1) % n), walk.0)
  }

  /** A consistent dictionary with live keys iterates over some key. */
  lemma LiveKeysIterate(d: ObjDict)
    requires Consistent(d) && Size(d) > 0
    ensures Iterate(d) != []
  {
    IterateSpec(d);
    SubsetCard(d.mapping.Keys, d.dead);
    var k :| k in d.mapping.Keys - d.dead;
    assert Has(d, k);
  }

  /** Only ghosting touched the objects: each is as it was, or was SAVED
      and is now a ghost with an empty dictionary. */
  ghost predicate OnlyGhosted(w: World, v: World)
  {
    && v.handles.Keys == w.handles.Keys
    && forall h :: h in w.handles ==>
         v.handles[h] == w.handles[h] || (w.handles[h].status == Saved && v.handles[h] == w.handles[h].(status := Ghost, dict := map[]))
  }

  lemma OnlyGhostedTrans(u: World, v: World, w: World)
    requires OnlyGhosted(u, v) && OnlyGhosted(v, w)
    ensures OnlyGhosted(u, w)
  {
  }

  /** Shrinking touches only the cache of its own connection. */
  ghost predicate CacheOnly(w: World, c: ConnId, v: World)
    requires c in w.conns
  {
    && c in v.conns
    && v.conns == w.conns[c := w.conns[c].(cache := v.conns[c].cache)]
    && v.conns[c].cache.size == w.conns[c].cache.size
    && v.trace == w.trace && v.nextId == w.nextId
  }

  /** The cache of `c` is consistent and refers only to existing objects. */
  ghost predicate Sound(w: World, c: ConnId)
  {
    c in w.conns && Consistent(w.conns[c].cache.objects) && w.conns[c].cache.objects.mapping.Values <= w.handles.Keys
  }

  /** One turn of the loop of Cache.shrink for the popped entry `e`: a
      SAVED object becomes a ghost, the hard reference goes, and an object
      in `orphans` dies (its key becomes dead). */
  function PopOne(w: World, c: ConnId, e: Entry, ts: int, orphans: set<HandleId>): (r: World)
    requires Sound(w, c)
    requires Has(w.conns[c].cache.objects, e.oid) ==> w.handles[Lookup(w.conns[c].cache.objects, e.oid).value].serial != ts
    ensures Sound(r, c) && CacheOnly(w, c, r) && OnlyGhosted(w, r)
    ensures forall h :: h in w.handles && w.handles[h].serial == ts ==> r.handles[h] == w.handles[h]
    ensures Size(w.conns[c].cache.objects) - 1 <= Size(r.conns[c].cache.objects) <= Size(w.conns[c].cache.objects)
    ensures forall k :: Has(r.conns[c].cache.objects, k) ==> Lookup(r.conns[c].cache.objects, k) == Lookup(w.conns[c].cache.objects, k)
  {
    var cn := w.conns[c];
    match Lookup(cn.cache.objects, e.oid)
    case None => w
    case Some(h) =>
      var w1 := if w.handles[h].status == Saved then Ghostify(w, h) else w;
      var objects := if h in orphans then Remove(cn.cache.objects, e.oid) else cn.cache.objects;
      assert Consistent(objects) && Size(objects) >= Size(cn.cache.objects) - 1
             && forall k :: Has(objects, k) ==> Lookup(objects, k) == Lookup(cn.cache.objects, k) by {
        if h in orphans {
          RemoveSpec(cn.cache.objects, e.oid);
        }
      }
      PutConn(w1, c, cn.(cache := cn.cache.(recent := cn.cache.recent - {h}, objects := objects)))
  }

  /** The loop of Cache.shrink: pop the least entry while the heap is not
      empty and the cache is above its target. */
  function Drain(w: World, c: ConnId, heap: seq<Entry>, ts: int, orphans: set<HandleId>): (r: World)
    requires Sound(w, c) && Unstamped(w.conns[c].cache.objects, w.handles, heap, ts)
    ensures Sound(r, c)
    decreases |heap|
  {
    var cn := w.conns[c];
    if heap == [] || Size(cn.cache.objects) <= cn.cache.size then w
    else
      var j := Least(heap);
      var w1 := PopOne(w, c, heap[j], ts, orphans);
      PopOneUnstamped(w, c, heap, j, ts, w1);
      Drain(w1, c, heap[..j] + heap[j + 1..], ts, orphans)
  }

  lemma CacheOnlyTrans(u: World, c: ConnId, v: World, w: World)
    requires c in u.conns && CacheOnly(u, c, v) && CacheOnly(v, c, w)
    ensures CacheOnly(u, c, w)
  {
  }

  /** What the loop of Cache.shrink changes: only its own cache and only by
      ghosting SAVED objects not accessed in transaction `ts`; it stops as
      soon as the cache is at its target size. */
  lemma {:induction false} DrainSpec(w: World, c: ConnId, heap: seq<Entry>, ts: int, orphans: set<HandleId>)
    requires Sound(w, c) && Unstamped(w.conns[c].cache.objects, w.handles, heap, ts)
    ensures var r := Drain(w, c, heap, ts, orphans);
            && CacheOnly(w, c, r) && OnlyGhosted(w, r)
            && (forall h :: h in w.handles && w.handles[h].serial == ts ==> r.handles[h] == w.handles[h])
            && (Size(w.conns[c].cache.objects) <= w.conns[c].cache.size ==> r == w)
            && (Size(w.conns[c].cache.objects) > w.conns[c].cache.size ==> Size(r.conns[c].cache.objects) >= w.conns[c].cache.size)
    decreases |heap|
  {
    var cn := w.conns[c];
    if heap != [] && Size(cn.cache.objects) > cn.cache.size {
      var j := Least(heap);
      var rest := heap[..j] + heap[j + 1..];
      var w1 := PopOne(w, c, heap[j], ts, orphans);
      PopOneUnstamped(w, c, heap, j, ts, w1);
      DrainSpec(w1, c, rest, ts, orphans);
      var r := Drain(w1, c, rest, ts, orphans);
      assert r == Drain(w, c, heap, ts, orphans);
      OnlyGhostedTrans(w, w1, r);
      CacheOnlyTrans(w, c, w1, r);
    }
  }

  /** The entries left after a pop still name unstamped objects. */
  lemma PopOneUnstamped(w: World, c: ConnId, heap: seq<Entry>, j: nat, ts: int, w1: World)
    requires Sound(w, c) && Unstamped(w.conns[c].cache.objects, w.handles, heap, ts) && j < |heap|
    requires Sound(w1, c) && OnlyGhosted(w, w1)
    requires forall k :: Has(w1.conns[c].cache.objects, k) ==> Lookup(w1.conns[c].cache.objects, k) == Lookup(w.conns[c].cache.objects, k)
    ensures Unstamped(w1.conns[c].cache.objects, w1.handles, heap[..j] + heap[j + 1..], ts)
  {
    var rest := heap[..j] + heap[j + 1..];
    forall x | x in rest && Has(w1.conns[c].cache.objects, x.oid)
      ensures Lookup(w1.conns[c].cache.objects, x.oid).value in w1.handles
      ensures w1.handles[Lookup(w1.conns[c].cache.objects, x.oid).value].serial != ts
    {
      assert x in heap;
      var h := Lookup(w.conns[c].cache.objects, x.oid).value;
      assert w1.handles[h].serial == w.handles[h].serial;
    }
  }

  /** Cache.shrink. */
  function Shrink(w: World, c: ConnId, orphans: set<HandleId>): (r: World)
    requires Sound(w, c)
    ensures Sound(r, c)
  {
    var cn := w.conns[c];
    if Size(cn.cache.objects) <= cn.cache.size || Size(cn.cache.objects) <= 0 then w
    else
      var b := BuildHeap(cn.cache, w.handles, cn.serial);
      Drain(PutConn(w, c, cn.(cache := b.0)), c, b.1, cn.serial, orphans)
  }

  /** Shrinking does nothing at or below the target size; above it, only
      SAVED objects not accessed in the current transaction are ghosted,
      and the cache never shrinks below its target. */
  lemma ShrinkSpec(w: World, c: ConnId, orphans: set<HandleId>)
    requires Sound(w, c) && w.conns[c].cache.size > 0
    ensures var r := Shrink(w, c, orphans);
            && CacheOnly(w, c, r) && OnlyGhosted(w, r)
            && (forall h :: h in w.handles && w.handles[h].serial == w.conns[c].serial ==> r.handles[h] == w.handles[h])
            && (Size(w.conns[c].cache.objects) <= w.conns[c].cache.size ==> r == w)
            && (Size(w.conns[c].cache.objects) > w.conns[c].cache.size ==> Size(r.conns[c].cache.objects) >= w.conns[c].cache.size)
  {
    var cn := w.conns[c];
    if Size(cn.cache.objects) > cn.cache.size {
      var b := BuildHeap(cn.cache, w.handles, cn.serial);
      var w1 := PutConn(w, c, cn.(cache := b.0));
      DrainSpec(w1, c, b.1, cn.serial, orphans);
      var r := Drain(w1, c, b.1, cn.serial, orphans);
      CacheOnlyTrans(w, c, w1, r);
    }
  }

  /** The part of ShrinkSpec that abort and commit rely on. */
  lemma ShrinkFrame(w: World, c: ConnId, orphans: set<HandleId>)
    requires Sound(w, c) && w.conns[c].cache.size > 0
    ensures var r := Shrink(w, c, orphans);
            CacheOnly(w, c, r) && OnlyGhosted(w, r)
  {
    ShrinkSpec(w, c, orphans);
  }
}

=== FILE: codec.dfy ===
/** Fixed-width big-endian integer codecs (durus/utils.py) and the record
    framing of durus/serialize.py: `oid + int4(len(data)) + data + refs`. */
module Codec {
  import opened Wrappers

  const NEWLINE: bv8 := 10
  /** The class name reported for a record whose state has no newline. */
  const UNKNOWN_NAME: Bytes := [63]

  function Pow256(w: nat): (r: nat)
    ensures r >= 1
  {
    if w == 0 then 1 else 256 * Pow256(w - 1)
  }

  /** The unsigned big-endian number a byte string denotes. */
  function BigEndian(s: Bytes): nat
  {
    if |s| == 0 then 0 else BigEndian(s[..|s| - 1]) * 256 + s[|s| - 1] as nat
  }

  lemma {:induction false} BigEndianBound(s: Bytes)
    ensures BigEndian(s) < Pow256(|s|)
  {
    if |s| > 0 {
      BigEndianBound(s[..|s| - 1]);
      var p := s[..|s| - 1];
      assert BigEndian(s) <= (Pow256(|p|) - 1) * 256 + 255;
    }
  }

  /** `width` big-endian bytes holding `n`; struct.pack('>Q') for width 8
      and '>L' for width 4, on arguments in range. */
  function Encode(n: nat, width: nat): (r: Bytes)
    requires n < Pow256(width)
    ensures |r| == width
    ensures BigEndian(r) == n
  {
    if width == 0 then []
    else
      DivMod256(n, width);
      var p := Encode(n / 256, width - 1);
      var b := ByteOf(n % 256);
      var r := p + [b];
      assert r[..|r| - 1] == p;
      assert BigEndian(r) == BigEndian(p) * 256 + b as nat;
      r
  }

  /** The byte holding `x`, built up by counting so that no conversion
      from an integer to a bit-vector is needed. */
  function ByteOf(x: nat): (b: bv8)
    requires x < 256
    ensures b as nat == x
    decreases x
  {
    if x == 0 then 0 else ByteOf(x - 1) + 1
  }

  /** Bytes with the same value are the same byte. */
  lemma NatInjective(a: bv8, b: bv8)
    requires a as nat == b as nat
    ensures a == b
  {
  }

  lemma DivMod256(n: nat, width: nat)
    requires width > 0 && n < Pow256(width)
    ensures n / 256 < Pow256(width - 1)
    ensures (n / 256) * 256 + n % 256 == n
  {
  }

  /** Decoding a byte string and re-encoding it gives the same bytes. */
  lemma {:induction false} EncodeBigEndian(s: Bytes)
    ensures BigEndian(s) < Pow256(|s|)
    ensures Encode(BigEndian(s), |s|) == s
  {
    BigEndianBound(s);
    if |s| > 0 {
      var p := s[..|s| - 1];
      EncodeBigEndian(p);
      assert BigEndian(s) / 256 == BigEndian(p);
      assert BigEndian(s) % 256 == s[|s| - 1] as nat;
      NatInjective(ByteOf(BigEndian(s) % 256), s[|s| - 1]);
      assert s == p + [s[|s| - 1]];
    }
  }

  /** Two byte strings of one width with the same value are equal. */
  lemma BigEndianInjective(a: Bytes, b: Bytes)
    requires |a| == |b| && BigEndian(a) == BigEndian(b)
    ensures a == b
  {
    EncodeBigEndian(a);
    EncodeBigEndian(b);
  }

  const INT8_LIMIT: nat := 0x1_0000_0000_0000_0000
  const INT4_LIMIT: nat := 0x1_0000_0000

  lemma Pow256Values()
    ensures Pow256(4) == INT4_LIMIT && Pow256(8) == INT8_LIMIT
  {
  }

  /** int8_to_str: struct.pack(">Q", n), which fails outside 0 <= n < 2**64. */
  function Int8ToStr(n: int): (r: Result<Bytes>)
    ensures r.Ok? <==> 0 <= n < INT8_LIMIT
    ensures r.Ok? ==> |r.value| == 8 && BigEndian(r.value) == n
  {
    Pow256Values();
    if 0 <= n < INT8_LIMIT then Ok(Encode(n, 8)) else Err(StructError)
  }

  /** str_to_int8: struct.unpack(">Q", s), which needs exactly 8 bytes. */
  function StrToInt8(s: Bytes): (r: Result<nat>)
    ensures r.Ok? <==> |s| == 8
    ensures r.Ok? ==> r.value < INT8_LIMIT
  {
    if |s| == 8 then
      BigEndianBound(s);
      Pow256Values();
      Ok(BigEndian(s))
    else Err(StructError)
  }

  /** int4_to_str: struct.pack(">L", v), which fails outside 0 <= v < 2**32. */
  function Int4ToStr(v: int): (r: Result<Bytes>)
    ensures r.Ok? <==> 0 <= v < INT4_LIMIT
    ensures r.Ok? ==> |r.value| == 4 && BigEndian(r.value) == v
  {
    Pow256Values();
    if 0 <= v < INT4_LIMIT then Ok(Encode(v, 4)) else Err(StructError)
  }

  /** str_to_int4: struct.unpack(">L", s), which needs exactly 4 bytes. */
  function StrToInt4(s: Bytes): (r: Result<nat>)
    ensures r.Ok? <==> |s| == 4
    ensures r.Ok? ==> r.value < INT4_LIMIT
  {
    if |s| == 4 then
      BigEndianBound(s);
      Pow256Values();
      Ok(BigEndian(s))
    else Err(StructError)
  }

  lemma Int8RoundTrip(n: int)
    requires 0 <= n < INT8_LIMIT
    ensures StrToInt8(Int8ToStr(n).value) == Ok(n)
  {
  }

  lemma Str8RoundTrip(s: Bytes)
    requires |s| == 8
    ensures Int8ToStr(StrToInt8(s).value) == Ok(s)
  {
    EncodeBigEndian(s);
  }

  lemma Int4RoundTrip(v: int)
    requires 0 <= v < INT4_LIMIT
    ensures StrToInt4(Int4ToStr(v).value) == Ok(v)
  {
  }

  lemma Str4RoundTrip(s: Bytes)
    requires |s| == 4
    ensures Int4ToStr(StrToInt4(s).value) == Ok(s)
  {
    EncodeBigEndian(s);
  }

  /** Python's s[i:j] for non-negative bounds: both ends are clamped to the
      length and an inverted range is empty. */
  function Slice(s: Bytes, i: nat, j: nat): (r: Bytes)
    ensures |r| <= |s|
    ensures i <= j <= |s| ==> r == s[i..j]
    ensures |s| <= i ==> r == []
  {
    var lo := if i <= |s| then i else |s|;
    var hi := if j <= |s| then j else |s|;
    if lo <= hi then s[lo..hi] else []
  }

  /** pack_record: an int4 length (struct.error when the data reaches 2**32
      bytes) between the oid and the data, the refs at the end. */
  function PackRecord(oid: Bytes, data: Bytes, refs: Bytes): (r: Result<Bytes>)
    ensures r.Ok? <==> |data| < INT4_LIMIT
    ensures r.Ok? ==> |r.value| == |oid| + 4 + |data| + |refs|
  {
    var len :- Int4ToStr(|data|);
    Ok(oid + len + data + refs)
  }

  datatype Record = Record(oid: Bytes, data: Bytes, refs: Bytes)

  /** unpack_record: slices with Python's clamping, so only a record too short
      to hold the 4-byte length fails; a truncated data part is silently
      shortened. */
  function UnpackRecord(record: Bytes): (r: Result<Record>)
    ensures r.Ok? <==> |record| >= 12
    ensures r.Ok? ==> r.value.oid == record[..8]
    ensures r.Ok? && 12 + BigEndian(record[8..12]) <= |record| ==>
              record == r.value.oid + record[8..12] + r.value.data + r.value.refs
                && |r.value.data| == BigEndian(record[8..12])
  {
    var n :- StrToInt4(Slice(record, 8, 12));
    var dataEnd := 12 + n;
    Ok(Record(Slice(record, 0, 8), Slice(record, 12, dataEnd), Slice(record, dataEnd, |record|)))
  }

  /** unpack_record is the inverse of pack_record for 8-byte oids. */
  lemma UnpackPack(oid: Bytes, data: Bytes, refs: Bytes)
    requires |oid| == 8 && |data| < INT4_LIMIT
    ensures PackRecord(oid, data, refs).Ok?
    ensures UnpackRecord(PackRecord(oid, data, refs).value) == Ok(Record(oid, data, refs))
  {
    var record := PackRecord(oid, data, refs).value;
    var len := Int4ToStr(|data|).value;
    assert record[..8] == oid;
    assert record[8..12] == len;
    assert record[12..12 + |data|] == data;
    assert record[12 + |data|..] == refs;
  }

  /** A record whose length field fits its size is re-assembled exactly by
      pack_record from the parts unpack_record returns. */
  lemma PackUnpack(record: Bytes)
    requires |record| >= 12 && 12 + BigEndian(record[8..12]) <= |record|
    ensures UnpackRecord(record).Ok?
    ensures var u := UnpackRecord(record).value;
            PackRecord(u.oid, u.data, u.refs) == Ok(record)
  {
    var u := UnpackRecord(record).value;
    BigEndianBound(record[8..12]);
    Pow256Values();
    Str4RoundTrip(record[8..12]);
  }

  /** The concatenation of a list of byte strings (join_bytes). */
  function Join(xs: seq<Bytes>): (r: Bytes)
  {
    if |xs| == 0 then [] else Join(xs[..|xs| - 1]) + xs[|xs| - 1]
  }

  /** The 8-byte pieces of a byte string, front to back. */
  function Chunks8(s: Bytes): (r: seq<Oid>)
    requires |s| % 8 == 0
    ensures |r| == |s| / 8
    ensures forall i :: 0 <= i < |r| ==> r[i] == s[8 * i..8 * i + 8]
    decreases |s|
  {
    if |s| == 0 then []
    else
      var r := Chunks8(s[..|s| - 8]) + [s[|s| - 8..]];
      assert forall i :: 0 <= i < |r| - 1 ==> r[i] == s[..|s| - 8][8 * i..8 * i + 8];
      r
  }

  /** split_oids: an empty string is the empty list, a length that is not a
      multiple of 8 fails the source's assertion. */
  function SplitOids(s: Bytes): (r: Result<seq<Oid>>)
    ensures r.Ok? <==> |s| % 8 == 0
    ensures r.Ok? ==> |r.value| == |s| / 8
                      && (forall i :: 0 <= i < |r.value| ==> |r.value[i]| == 8)
                      && Join(r.value) == s
  {
    if |s| == 0 then Ok([])
    else if |s| % 8 != 0 then Err(AssertionError)
    else
      var r := Chunks8(s);
      JoinChunks(s);
      Ok(r)
  }

  lemma {:induction false} JoinChunks(s: Bytes)
    requires |s| % 8 == 0
    ensures Join(Chunks8(s)) == s
    decreases |s|
  {
    if |s| > 0 {
      JoinChunks(s[..|s| - 8]);
      var c := Chunks8(s);
      assert c[..|c| - 1] == Chunks8(s[..|s| - 8]);
    }
  }

  lemma {:induction false} JoinLength(xs: seq<Bytes>)
    requires forall i :: 0 <= i < |xs| ==> |xs[i]| == 8
    ensures |Join(xs)| == 8 * |xs|
  {
    if |xs| > 0 {
      JoinLength(xs[..|xs| - 1]);
    }
  }

  /** Joining 8-byte oids and splitting the result gives the same list back. */
  lemma {:induction false} SplitJoin(xs: seq<Oid>)
    requires forall i :: 0 <= i < |xs| ==> |xs[i]| == 8
    ensures SplitOids(Join(xs)) == Ok(xs)
  {
    JoinLength(xs);
    var s := Join(xs);
    if |xs| > 0 {
      SplitJoin(xs[..|xs| - 1]);
      var r := SplitOids(s).value;
      var p := Join(xs[..|xs| - 1]);
      assert s == p + xs[|xs| - 1];
      JoinLength(xs[..|xs| - 1]);
      forall i | 0 <= i < |xs|
        ensures r[i] == xs[i]
      {
        if i < |xs| - 1 {
          var q := SplitOids(p).value;
          assert q == xs[..|xs| - 1];
          assert r[i] == s[8 * i..8 * i + 8] == p[8 * i..8 * i + 8];
          assert q[i] == p[8 * i..8 * i + 8];
        } else {
          assert r[i] == s[|p|..];
        }
      }
      assert r == xs;
    }
  }

  /** The position of the first `c` in `s`, if any. */
  function IndexOf(s: Bytes, c: bv8): (r: Option<nat>)
    ensures r.Some? ==> r.value < |s| && s[r.value] == c && c !in s[..r.value]
    ensures r.None? <==> c !in s
  {
    if |s| == 0 then None
    else if s[0] == c then Some(0)
    else
      match IndexOf(s[1..], c)
      case None => None
      case Some(k) =>
        assert s[..k + 1] == [s[0]] + s[1..][..k];
        Some(k + 1)
  }

  /** `state.split(b"\n", 2)[1]`: the text between the first newline and
      the next one (or the end); None when there is no newline, where the
      source's indexing raises IndexError. */
  function SecondLine(state: Bytes): (r: Option<Bytes>)
    ensures r.None? <==> NEWLINE !in state
    ensures r.Some? ==>
      var i := IndexOf(state, NEWLINE).value;
      var e := i + 1 + |r.value|;
      e <= |state| && r.value == state[i + 1..e] && NEWLINE !in r.value
      && (e == |state| || state[e] == NEWLINE)
  {
    match IndexOf(state, NEWLINE)
    case None => None
    case Some(i) =>
      var rest := state[i + 1..];
      match IndexOf(rest, NEWLINE)
      case None => Some(rest)
      case Some(j) =>
        assert rest[..j] == state[i + 1..i + 1 + j];
        Some(rest[..j])
  }

  /** extract_class_name: the second line of the record's state, "?" when the
      state has no newline (the caught IndexError); a record too short for
      unpack_record raises its struct.error, which the source does not catch. */
  function ExtractClassName(record: Bytes): (r: Result<Bytes>)
    ensures r.Ok? <==> |record| >= 12
    ensures r.Ok? ==> r.value == SecondLine(UnpackRecord(record).value.data).GetOr(UNKNOWN_NAME)
  {
    var rec :- UnpackRecord(record);
    match SecondLine(rec.data)
    case None => Ok(UNKNOWN_NAME)
    case Some(name) => Ok(name)
  }
}

=== FILE: computed_attribute.dfy ===
/** ComputedAttribute of persistent.py: a persistent object with no stored
    state that caches one computed value in its instance dictionary under
    the key "value". Its _p_load_state only sets SAVED. */
module ComputedAttributes {
  import opened Wrappers
  import opened PersistenceState
  import opened PersistentMethods
  import opened Proxy

  const VALUE: string := "value"

  /** Reading self.__dict__ goes through pb_getattro: "__dict__" is a
      triggering name. */
  lemma DictTriggers()
    ensures LoadTriggering("__dict__")
  {
    assert CString("__dict__") == "__dict__";
    LoadTriggeringSpec("__dict__");
  }

  /** Reading self.__dict__ on a ComputedAttribute: load, note the
      access, then the generic read of "__dict__". */
  function ReadDict(w: World, h: HandleId): (r: Step)
    requires Linked(w, h) && w.handles[h].cls.kind == Computed
    ensures Frame(w, r.world)
    ensures r.raised == None ==> r.world.handles[h].status != Ghost && !Stale(r.world, h)
    ensures r.raised == None ==> r.world.handles[h].dict == w.handles[h].dict
  {
    var a := Activate(w, h);
    ActivateEffect(w, h);
    if a.raised.Some? then a
    else
      var e := Emit(a.world, AttrRead(h, "__dict__"));
      FrameEmit(a.world, AttrRead(h, "__dict__"));
      FrameTrans(w, a.world, e);
      Step(e, None)
  }

  /** ComputedAttribute.get: the cached value if there is one; otherwise
      the outcome of calling compute, which is stored, without marking the
      object UNSAVED, when compute returns, and propagates with nothing
      stored when compute raises. */
  function Get(w: World, h: HandleId, compute: Result<Value>): (r: Fetch)
    requires Linked(w, h) && w.handles[h].cls.kind == Computed
    ensures Frame(w, r.world)
    ensures r.value.Ok? ==> VALUE in r.world.handles[h].dict && r.world.handles[h].dict[VALUE] == r.value.value
    ensures r.value.Ok? && VALUE in w.handles[h].dict ==> r.value.value == w.handles[h].dict[VALUE]
    ensures r.value.Ok? && VALUE !in w.handles[h].dict ==> compute == r.value
    ensures r.value.Ok? ==> r.world.handles[h].status == (if w.handles[h].status == Ghost then Saved else w.handles[h].status)
    ensures compute.Err? && VALUE !in w.handles[h].dict ==> r.value.Err?
    ensures r.value.Err? && VALUE !in w.handles[h].dict ==> VALUE !in r.world.handles[h].dict
  {
    var d := ReadDict(w, h);
    if d.raised.Some? then Fetch(d.world, Err(d.raised.value))
    else
      var x := d.world.handles[h];
      if VALUE in x.dict then Fetch(d.world, Ok(x.dict[VALUE]))
      else if compute.Err? then Fetch(d.world, Err(compute.error))
      else
        var v := Put(d.world, h, x.(dict := x.dict[VALUE := compute.value]));
        FramePut(d.world, v, h);
        FrameTrans(w, d.world, v);
        Fetch(v, compute)
  }

  /** The value is computed at most once: a second get returns the first
      result whatever it is asked to compute. */
  lemma GetOnce(w: World, h: HandleId, c1: Result<Value>, c2: Result<Value>)
    requires Linked(w, h) && w.handles[h].cls.kind == Computed && Get(w, h, c1).value.Ok?
    ensures var v := Get(w, h, c1).world;
            Linked(v, h) && v.handles[h].cls.kind == Computed && Get(v, h, c2).value == Get(w, h, c1).value
  {
  }

  /** A compute that raises leaves nothing cached: the next get computes
      again. */
  lemma GetRaisedRecomputes(w: World, h: HandleId, e: Error, c: Result<Value>)
    requires Linked(w, h) && w.handles[h].cls.kind == Computed && VALUE !in w.handles[h].dict
    ensures var v := Get(w, h, Err(e)).world;
            && Get(w, h, Err(e)).value.Err?
            && Linked(v, h) && v.handles[h].cls.kind == Computed
            && (Get(v, h, c).value.Ok? ==> Get(v, h, c).value == c)
  {
  }

  /** ComputedAttribute.invalidate: forget the value and note a change. */
  function Invalidate(w: World, h: HandleId): (r: Step)
    requires Linked(w, h) && w.handles[h].cls.kind == Computed
    ensures Frame(w, r.world)
    ensures r.raised == None ==> VALUE !in r.world.handles[h].dict && r.world.handles[h].status == Unsaved
  {
    var d := ReadDict(w, h);
    if d.raised.Some? then d
    else
      var x := d.world.handles[h];
      var e := Put(d.world, h, x.(dict := map[]));
      FramePut(d.world, e, h);
      FrameTrans(w, d.world, e);
      var n := NoteChangeSelf(e, h);
      FrameTrans(w, e, n.world);
      assert n.raised == None ==> n.world.handles[h].dict == map[] by {
        if x.status == Unsaved {
          assert n.world.handles == e.handles;
        } else {
          assert x.status == Saved;
        }
      }
      n
  }

  /** After a successful invalidate, the next get computes afresh. */
  lemma InvalidateRecomputes(w: World, h: HandleId, c: Result<Value>)
    requires Linked(w, h) && w.handles[h].cls.kind == Computed && Invalidate(w, h).raised == None
    ensures var v := Invalidate(w, h).world;
            && Linked(v, h) && v.handles[h].cls.kind == Computed
            && (Get(v, h, c).value.Ok? ==> Get(v, h, c).value == c)
  {
  }
}

=== FILE: connection.dfy ===
/** The transaction bookkeeping of Connection (durus/connection.py): _sync,
    abort, _handle_invalidations and commit with its rollback of newly
    stored objects on a conflict. The storage is abstracted: what its
    sync() reports and the oids its end() hands to _handle_invalidations
    are parameters, and a successful commit writes each saved object's
    state into the connection's view of the stored records. */
module Connections {
  import opened Wrappers
  import opened PersistenceState
  import opened ObjectDictionaries
  import opened PersistentMethods
  import opened Caches

  /** The status and dictionary _p_set_status_ghost leaves behind. */
  function AsGhost(x: Handle): Handle
  {
    x.(status := Ghost, dict := map[])
  }

  /** _p_set_status_ghost on every object in `hs`. */
  function GhostAll(w: World, hs: set<HandleId>): (r: World)
    ensures r.handles.Keys == w.handles.Keys && r.conns == w.conns && r.trace == w.trace && r.nextId == w.nextId
    ensures forall h :: h in w.handles && h in hs ==> r.handles[h] == AsGhost(w.handles[h])
    ensures forall h :: h in w.handles && h !in hs ==> r.handles[h] == w.handles[h]
  {
    w.(handles := map h | h in w.handles :: if h in hs then AsGhost(w.handles[h]) else w.handles[h])
  }

  /** The objects the cache holds for the given oids. */
  function CachedUnder(objects: ObjDict, oids: set<Oid>): set<HandleId>
  {
    set o | o in oids && Has(objects, o) :: Lookup(objects, o).value
  }

  /** Adds one to the transaction serial. */
  function Bump(w: World, c: ConnId): (r: World)
    requires c in w.conns
    ensures r.handles == w.handles && r.trace == w.trace && r.nextId == w.nextId
    ensures r.conns == w.conns[c := w.conns[c].(serial := w.conns[c].serial + 1)]
  {
    PutConn(w, c, w.conns[c].(serial := w.conns[c].serial + 1))
  }

  /** Connection._sync: the oids the storage reports join the invalid
      oids, every cached object under an invalid oid becomes a ghost, and
      the invalid set is emptied. */
  function Sync(w: World, c: ConnId, reported: seq<Oid>): (r: World)
    requires Sound(w, c)
    ensures Sound(r, c) && r.trace == w.trace && r.nextId == w.nextId
    ensures r.conns == w.conns[c := w.conns[c].(invalid := {})]
    ensures forall o :: (o in w.conns[c].invalid || o in reported) && Has(w.conns[c].cache.objects, o) ==>
              var h := Lookup(w.conns[c].cache.objects, o).value;
              r.handles[h] == AsGhost(w.handles[h])
    ensures r.handles.Keys == w.handles.Keys
    ensures forall h :: h in w.handles ==> r.handles[h] == w.handles[h] || r.handles[h] == AsGhost(w.handles[h])
  {
    var cn := w.conns[c];
    var invalid := cn.invalid + set o | o in reported;
    var targets := CachedUnder(cn.cache.objects, invalid);
    GhostAll(PutConn(w, c, cn.(invalid := {})), targets)
  }

  /** Connection.abort: every changed object becomes a ghost, `changed`
      is emptied, the connection syncs, the cache shrinks and the
      transaction serial goes up by exactly one. */
  function Abort(w: World, c: ConnId, reported: seq<Oid>, orphans: set<HandleId>): (r: World)
    requires Sound(w, c) && w.conns[c].cache.size > 0
    ensures Sound(r, c) && r.trace == w.trace && r.nextId == w.nextId
    ensures r.conns.Keys == w.conns.Keys
    ensures r.conns[c].changed == map[] && r.conns[c].invalid == {}
    ensures r.conns[c].serial == w.conns[c].serial + 1
    ensures r.conns[c].stored == w.conns[c].stored
    ensures r.handles.Keys == w.handles.Keys
    ensures forall h :: h in w.conns[c].changed.Values && h in w.handles ==> r.handles[h] == AsGhost(w.handles[h])
    ensures forall d :: d in w.conns && d != c ==> r.conns[d] == w.conns[d]
  {
    var cn := w.conns[c];
    var w1 := GhostAll(w, cn.changed.Values);
    var w2 := PutConn(w1, c, cn.(changed := map[]));
    var w3 := Sync(w2, c, reported);
    ShrinkFrame(w3, c, orphans);
    var w4 := Shrink(w3, c, orphans);
    assert forall h :: h in cn.changed.Values && h in w.handles ==> w4.handles[h] == AsGhost(w.handles[h]) by {
      forall h | h in cn.changed.Values && h in w.handles
        ensures w4.handles[h] == AsGhost(w.handles[h])
      {
        assert w3.handles[h] == AsGhost(w.handles[h]);
      }
    }
    Bump(w4, c)
  }

  /** The state of the sweep through the invalidated oids. */
  datatype Swept = Swept(world: World, conflicts: seq<Oid>, failed: bool)

  /** The loop of _handle_invalidations: an oid whose cached object was
      accessed in the current transaction is a conflict and becomes
      invalid; any other cached object that is not a ghost is ghosted,
      after asserting it has no uncommitted change. */
  function Sweep(w: World, c: ConnId, oids: seq<Oid>, conflicts: seq<Oid>): (r: Swept)
    requires Sound(w, c)
    ensures Sound(r.world, c) && r.world.trace == w.trace && r.world.nextId == w.nextId
    ensures r.world.handles.Keys == w.handles.Keys
    decreases |oids|
  {
    if oids == [] then Swept(w, conflicts, false)
    else
      var oid := oids[0];
      var cn := w.conns[c];
      match Lookup(cn.cache.objects, oid)
      case None => Sweep(w, c, oids[1..], conflicts)
      case Some(h) =>
        if w.handles[h].serial == cn.serial then
          Sweep(PutConn(w, c, cn.(invalid := cn.invalid + {oid})), c, oids[1..], conflicts + [oid])
        else if w.handles[h].status != Ghost then
          if Some(oid) in cn.changed then Swept(w, conflicts, true)
          else Sweep(Ghostify(w, h), c, oids[1..], conflicts)
        else Sweep(w, c, oids[1..], conflicts)
  }

  /** The oids of `oids`, in order, whose cached object carries the serial
      `ts`: the conflicts, stated independently of the sweep. */
  function Stamped(objects: ObjDict, handles: map<HandleId, Handle>, ts: int, oids: seq<Oid>): (r: seq<Oid>)
    ensures forall o :: o in r ==> o in oids
  {
    if oids == [] then []
    else
      var rest := Stamped(objects, handles, ts, oids[1..]);
      var o := oids[0];
      if Has(objects, o) && Lookup(objects, o).value in handles && handles[Lookup(objects, o).value].serial == ts
      then [o] + rest else rest
  }

  /** A cached object under one of `oids` that is not stamped with `ts`
      and whose oid has an uncommitted change. */
  ghost predicate Blocked(w: World, c: ConnId, oids: seq<Oid>)
    requires c in w.conns
  {
    exists o :: o in oids && Has(w.conns[c].cache.objects, o) && Lookup(w.conns[c].cache.objects, o).value in w.handles
      && w.handles[Lookup(w.conns[c].cache.objects, o).value].serial != w.conns[c].serial
      && Some(o) in w.conns[c].changed
  }

  /** The sweep changes only the invalid set of its connection, and each
      object either stays as it was or becomes a ghost; an object cached
      under none of the oids is untouched. */
  lemma {:induction false} SweepFrame(w: World, c: ConnId, oids: seq<Oid>, conflicts: seq<Oid>)
    requires Sound(w, c)
    ensures var r := Sweep(w, c, oids, conflicts);
            var cn := w.conns[c];
            && r.world.conns == w.conns[c := cn.(invalid := r.world.conns[c].invalid)]
            && (forall h :: h in w.handles ==> r.world.handles[h] == w.handles[h] || r.world.handles[h] == AsGhost(w.handles[h]))
            && (forall h :: h in w.handles && h !in CachedUnder(cn.cache.objects, set o | o in oids) ==> r.world.handles[h] == w.handles[h])
    decreases |oids|
  {
    var cn := w.conns[c];
    if oids != [] {
      var oid := oids[0];
      var tail := oids[1..];
      assert forall o :: o in tail ==> o in oids;
      match Lookup(cn.cache.objects, oid)
      case None =>
        SweepFrame(w, c, tail, conflicts);
      case Some(h) =>
        if w.handles[h].serial == cn.serial {
          SweepFrame(PutConn(w, c, cn.(invalid := cn.invalid + {oid})), c, tail, conflicts + [oid]);
        } else if w.handles[h].status != Ghost {
          if Some(oid) !in cn.changed {
            assert h in CachedUnder(cn.cache.objects, set o | o in oids);
            SweepFrame(Ghostify(w, h), c, tail, conflicts);
          }
        } else {
          SweepFrame(w, c, tail, conflicts);
        }
    }
  }

  /** A completed sweep collects exactly the stamped oids, in order, and
      adds them to the invalid set. */
  lemma {:induction false} SweepConflicts(w: World, c: ConnId, oids: seq<Oid>, conflicts: seq<Oid>)
    requires Sound(w, c)
    ensures var r := Sweep(w, c, oids, conflicts);
            var cn := w.conns[c];
            var stamped := Stamped(cn.cache.objects, w.handles, cn.serial, oids);
            !r.failed ==>
              && r.conflicts == conflicts + stamped
              && r.world.conns[c].invalid == cn.invalid + set o | o in stamped
    decreases |oids|
  {
    var cn := w.conns[c];
    if oids != [] {
      var oid := oids[0];
      var tail := oids[1..];
      match Lookup(cn.cache.objects, oid)
      case None =>
        SweepConflicts(w, c, tail, conflicts);
      case Some(h) =>
        if w.handles[h].serial == cn.serial {
          SweepConflicts(PutConn(w, c, cn.(invalid := cn.invalid + {oid})), c, tail, conflicts + [oid]);
        } else if w.handles[h].status != Ghost {
          if Some(oid) !in cn.changed {
            var w1 := Ghostify(w, h);
            SweepConflicts(w1, c, tail, conflicts);
            StampedFrame(cn.cache.objects, w.handles, w1.handles, cn.serial, tail);
          }
        } else {
          SweepConflicts(w, c, tail, conflicts);
        }
    }
  }

  /** The assertion of the sweep fails only for an unstamped object with
      an uncommitted change, and always fails when the first such oid is
      reached with its object not yet a ghost. */
  lemma {:induction false} SweepFails(w: World, c: ConnId, oids: seq<Oid>, conflicts: seq<Oid>)
    requires Sound(w, c)
    ensures Sweep(w, c, oids, conflicts).failed ==> Blocked(w, c, oids)
    ensures !Blocked(w, c, oids) ==> !Sweep(w, c, oids, conflicts).failed
    decreases |oids|
  {
    var cn := w.conns[c];
    if oids != [] {
      var oid := oids[0];
      var tail := oids[1..];
      assert forall o :: o in tail ==> o in oids;
      match Lookup(cn.cache.objects, oid)
      case None =>
        SweepFails(w, c, tail, conflicts);
      case Some(h) =>
        if w.handles[h].serial == cn.serial {
          var w1 := PutConn(w, c, cn.(invalid := cn.invalid + {oid}));
          SweepFails(w1, c, tail, conflicts + [oid]);
          assert Blocked(w1, c, tail) ==> Blocked(w, c, oids);
        } else if w.handles[h].status != Ghost {
          if Some(oid) !in cn.changed {
            var w1 := Ghostify(w, h);
            SweepFails(w1, c, tail, conflicts);
            assert Blocked(w1, c, tail) ==> Blocked(w, c, oids);
          } else {
            assert Blocked(w, c, oids);
          }
        } else {
          SweepFails(w, c, tail, conflicts);
        }
    }
  }

  /** A completed sweep leaves every unstamped object cached under one of
      the oids a ghost. */
  lemma {:induction false} SweepGhosts(w: World, c: ConnId, oids: seq<Oid>, conflicts: seq<Oid>)
    requires Sound(w, c)
    ensures var r := Sweep(w, c, oids, conflicts);
            var cn := w.conns[c];
            !r.failed ==> forall o :: o in oids && Has(cn.cache.objects, o) && w.handles[Lookup(cn.cache.objects, o).value].serial != cn.serial ==>
              r.world.handles[Lookup(cn.cache.objects, o).value].status == Ghost
    decreases |oids|
  {
    var cn := w.conns[c];
    if oids != [] {
      var oid := oids[0];
      var tail := oids[1..];
      var r := Sweep(w, c, oids, conflicts);
      match Lookup(cn.cache.objects, oid)
      case None =>
        SweepGhosts(w, c, tail, conflicts);
      case Some(h) =>
        if w.handles[h].serial == cn.serial {
          var w1 := PutConn(w, c, cn.(invalid := cn.invalid + {oid}));
          SweepGhosts(w1, c, tail, conflicts + [oid]);
        } else if w.handles[h].status != Ghost {
          if Some(oid) !in cn.changed {
            var w1 := Ghostify(w, h);
            SweepGhosts(w1, c, tail, conflicts);
            SweepFrame(w1, c, tail, conflicts);
          }
        } else {
          SweepGhosts(w, c, tail, conflicts);
          SweepFrame(w, c, tail, conflicts);
        }
    }
  }

  /** The conflicts depend on the objects' serials only. */
  lemma {:induction false} StampedFrame(objects: ObjDict, a: map<HandleId, Handle>, b: map<HandleId, Handle>, ts: int, oids: seq<Oid>)
    requires a.Keys == b.Keys && forall h :: h in a ==> a[h].serial == b[h].serial
    ensures Stamped(objects, a, ts, oids) == Stamped(objects, b, ts, oids)
    decreases |oids|
  {
    if oids != [] {
      StampedFrame(objects, a, b, ts, oids[1..]);
    }
  }

  /** Connection._handle_invalidations: after the sweep, any conflict is
      raised as a WriteConflictError naming the conflicting oids or, when
      a read oid is given, as a ReadConflictError naming only it. */
  function HandleInvalidations(w: World, c: ConnId, oids: seq<Oid>, readOid: Option<Oid>): (r: Step)
    requires Sound(w, c)
    ensures Sound(r.world, c) && r.world.trace == w.trace && r.world.nextId == w.nextId
    ensures r.world.handles.Keys == w.handles.Keys
    ensures var conflicts := Stamped(w.conns[c].cache.objects, w.handles, w.conns[c].serial, oids);
            && (!Blocked(w, c, oids) && conflicts == [] ==> r.raised == None)
            && (!Blocked(w, c, oids) && conflicts != [] && readOid.None? ==> r.raised == Some(WriteConflict(conflicts)))
            && (!Blocked(w, c, oids) && conflicts != [] && readOid.Some? ==> r.raised == Some(ReadConflict([readOid.value])))
            && (r.raised == Some(AssertionError) ==> Blocked(w, c, oids))
            && (!Blocked(w, c, oids) ==> r.world.conns[c].invalid == w.conns[c].invalid + set o | o in conflicts)
    ensures r.world.conns == w.conns[c := w.conns[c].(invalid := r.world.conns[c].invalid)]
    ensures r.raised == None ==> r.world.conns[c].invalid == w.conns[c].invalid
    ensures forall h :: h in w.handles ==> r.world.handles[h] == w.handles[h] || r.world.handles[h] == AsGhost(w.handles[h])
    ensures forall h :: h in w.handles && h !in CachedUnder(w.conns[c].cache.objects, set o | o in oids) ==> r.world.handles[h] == w.handles[h]
  {
    var s := Sweep(w, c, oids, []);
    SweepFrame(w, c, oids, []);
    SweepConflicts(w, c, oids, []);
    SweepFails(w, c, oids, []);
    assert !s.failed ==> s.conflicts == Stamped(w.conns[c].cache.objects, w.handles, w.conns[c].serial, oids) by {
      assert [] + Stamped(w.conns[c].cache.objects, w.handles, w.conns[c].serial, oids)
          == Stamped(w.conns[c].cache.objects, w.handles, w.conns[c].serial, oids);
    }
    if s.failed then Step(s.world, Some(AssertionError))
    else if s.conflicts == [] then Step(s.world, None)
    else if readOid.None? then Step(s.world, Some(WriteConflict(s.conflicts)))
    else Step(s.world, Some(ReadConflict([readOid.value])))
  }

  /** The state Connection stores for an object: __getstate__ is the
      instance dictionary, and nothing for a ComputedAttribute. */
  function StateOf(x: Handle): State
  {
    if x.cls.kind == Computed then map[] else x.dict
  }

  /** The new objects of a commit, paired with the fresh oids the storage
      handed out for them. */
  type News = seq<(HandleId, Oid)>

  function NewHandles(news: News): set<HandleId>
  {
    set i | 0 <= i < |news| :: news[i].0
  }

  function NewOids(news: News): set<Oid>
  {
    set i | 0 <= i < |news| :: news[i].1
  }

  /** What _persistent_id guarantees about the new objects of a commit:
      distinct objects without an oid, outside `changed`, with distinct
      oids the cache does not hold. */
  ghost predicate FreshNews(w: World, c: ConnId, news: News)
    requires c in w.conns
  {
    && (forall i :: 0 <= i < |news| ==>
          && news[i].0 in w.handles && w.handles[news[i].0].oid.None?
          && news[i].0 !in w.conns[c].changed.Values
          && Some(news[i].1) !in w.conns[c].changed
          && !Has(w.conns[c].cache.objects, news[i].1))
    && (forall i, j :: 0 <= i < j < |news| ==> news[i].0 != news[j].0 && news[i].1 != news[j].1)
  }

  /** One new object takes its oid and this connection and enters the
      cache (self.cache[oid] = obj in commit). */
  function AdoptOne(w: World, c: ConnId, h: HandleId, o: Oid): (r: World)
    requires Sound(w, c) && h in w.handles
    ensures Sound(r, c) && CacheOnly(w, c, r) && r.handles.Keys == w.handles.Keys
    ensures r.conns[c].cache.recent == w.conns[c].cache.recent
    ensures r.handles == w.handles[h := w.handles[h].(oid := Some(o), conn := Some(c))]
    ensures Lookup(r.conns[c].cache.objects, o) == Some(h)
    ensures forall k :: k != o ==> Lookup(r.conns[c].cache.objects, k) == Lookup(w.conns[c].cache.objects, k)
  {
    var cn := w.conns[c];
    AssignSpec(cn.cache.objects, o, h);
    var w1 := Put(w, h, w.handles[h].(oid := Some(o), conn := Some(c)));
    PutConn(w1, c, cn.(cache := cn.cache.(objects := Assign(cn.cache.objects, o, h))))
  }

  /** The new objects take their oids and this connection, and enter the
      cache, one after the other. */
  function Adopt(w: World, c: ConnId, news: News): (r: World)
    requires Sound(w, c) && forall i :: 0 <= i < |news| ==> news[i].0 in w.handles
    ensures Sound(r, c) && CacheOnly(w, c, r) && r.handles.Keys == w.handles.Keys
    ensures r.conns[c].cache.recent == w.conns[c].cache.recent
    ensures forall h :: h in w.handles && w.handles[h].conn == Some(c) ==> r.handles[h].conn == Some(c)
    ensures forall i :: 0 <= i < |news| ==> r.handles[news[i].0].conn == Some(c)
    decreases |news|
  {
    if news == [] then w
    else
      var w1 := AdoptOne(w, c, news[0].0, news[0].1);
      assert forall i :: 1 <= i < |news| ==> news[i] == news[1..][i - 1];
      var r := Adopt(w1, c, news[1..]);
      CacheOnlyTrans(w, c, w1, r);
      r
  }

  /** Adopting leaves objects other than the new ones as they were. */
  lemma {:induction false} AdoptOthers(w: World, c: ConnId, news: News)
    requires Sound(w, c) && forall i :: 0 <= i < |news| ==> news[i].0 in w.handles
    ensures var r := Adopt(w, c, news);
            forall h :: h in w.handles && h !in NewHandles(news) ==> r.handles[h] == w.handles[h]
    decreases |news|
  {
    if news != [] {
      var tail := news[1..];
      var w1 := AdoptOne(w, c, news[0].0, news[0].1);
      assert forall i :: 1 <= i < |news| ==> news[i] == tail[i - 1];
      AdoptOthers(w1, c, tail);
      var r := Adopt(w1, c, tail);
      forall h | h in w.handles && h !in NewHandles(news)
        ensures r.handles[h] == w.handles[h]
      {
        assert h != news[0].0;
        assert h !in NewHandles(tail);
      }
    }
  }

  /** Adopting leaves the cache entries of other oids as they were. */
  lemma {:induction false} AdoptOtherOids(w: World, c: ConnId, news: News)
    requires Sound(w, c) && forall i :: 0 <= i < |news| ==> news[i].0 in w.handles
    ensures var r := Adopt(w, c, news);
            forall k :: k !in NewOids(news) ==> Lookup(r.conns[c].cache.objects, k) == Lookup(w.conns[c].cache.objects, k)
    decreases |news|
  {
    if news != [] {
      var tail := news[1..];
      var w1 := AdoptOne(w, c, news[0].0, news[0].1);
      assert forall i :: 1 <= i < |news| ==> news[i] == tail[i - 1];
      AdoptOtherOids(w1, c, tail);
      var r := Adopt(w1, c, tail);
      forall k | k !in NewOids(news)
        ensures Lookup(r.conns[c].cache.objects, k) == Lookup(w.conns[c].cache.objects, k)
      {
        assert k != news[0].1;
        assert k !in NewOids(tail);
      }
    }
  }

  /** The new objects stay distinct and fresh once the first is adopted. */
  lemma FreshNewsTail(w: World, c: ConnId, news: News)
    requires Sound(w, c) && FreshNews(w, c, news) && news != []
    ensures FreshNews(AdoptOne(w, c, news[0].0, news[0].1), c, news[1..])
  {
    var w1 := AdoptOne(w, c, news[0].0, news[0].1);
    var tail := news[1..];
    forall i | 0 <= i < |tail|
      ensures tail[i].0 in w1.handles && w1.handles[tail[i].0].oid.None?
      ensures tail[i].0 !in w1.conns[c].changed.Values && !Has(w1.conns[c].cache.objects, tail[i].1)
      ensures Some(tail[i].1) !in w1.conns[c].changed
    {
      assert tail[i] == news[i + 1];
    }
  }

  /** A fresh new object takes exactly its oid and this connection, and
      is what the cache holds under that oid. */
  lemma {:induction false} AdoptReaches(w: World, c: ConnId, news: News, i: nat)
    requires Sound(w, c) && FreshNews(w, c, news) && i < |news|
    ensures var r := Adopt(w, c, news);
            && r.handles[news[i].0] == w.handles[news[i].0].(oid := Some(news[i].1), conn := Some(c))
            && Lookup(r.conns[c].cache.objects, news[i].1) == Some(news[i].0)
    decreases |news|
  {
    var h := news[0].0;
    var o := news[0].1;
    var tail := news[1..];
    var w1 := AdoptOne(w, c, h, o);
    FreshNewsTail(w, c, news);
    assert forall j :: 0 <= j < |tail| ==> tail[j] == news[j + 1];
    var r := Adopt(w1, c, tail);
    assert Adopt(w, c, news) == r;
    if i == 0 {
      AdoptOthers(w1, c, tail);
      AdoptOtherOids(w1, c, tail);
      assert h !in NewHandles(tail) && o !in NewOids(tail);
      assert r.handles[h] == w1.handles[h];
      assert Lookup(r.conns[c].cache.objects, o) == Lookup(w1.conns[c].cache.objects, o);
    } else {
      AdoptReaches(w1, c, tail, i - 1);
      var x := news[i].0;
      assert x != h;
      assert w1.handles[x] == w.handles[x];
    }
  }

  /** For fresh new objects, each takes exactly its oid and this
      connection and is what the cache holds under that oid. */
  lemma AdoptSpec(w: World, c: ConnId, news: News)
    requires Sound(w, c) && FreshNews(w, c, news)
    ensures var r := Adopt(w, c, news);
            forall i :: 0 <= i < |news| ==>
              && r.handles[news[i].0] == w.handles[news[i].0].(oid := Some(news[i].1), conn := Some(c))
              && Lookup(r.conns[c].cache.objects, news[i].1) == Some(news[i].0)
  {
    forall i | 0 <= i < |news|
      ensures Adopt(w, c, news).handles[news[i].0] == w.handles[news[i].0].(oid := Some(news[i].1), conn := Some(c))
      ensures Lookup(Adopt(w, c, news).conns[c].cache.objects, news[i].1) == Some(news[i].0)
    {
      AdoptReaches(w, c, news, i);
    }
  }

  /** _p_set_status_saved on every object in `hs`. */
  function SaveAll(w: World, hs: set<HandleId>): (r: World)
    ensures r.handles.Keys == w.handles.Keys && r.conns == w.conns && r.trace == w.trace && r.nextId == w.nextId
    ensures forall h :: h in w.handles && h in hs ==> r.handles[h] == w.handles[h].(status := Saved)
    ensures forall h :: h in w.handles && h !in hs ==> r.handles[h] == w.handles[h]
  {
    w.(handles := map h | h in w.handles :: if h in hs then w.handles[h].(status := Saved) else w.handles[h])
  }

  /** The records a commit writes for the changed objects. */
  function ChangedRecords(handles: map<HandleId, Handle>, changed: map<Option<Oid>, HandleId>): (r: map<Oid, State>)
    ensures forall o :: Some(o) in changed && changed[Some(o)] in handles ==> o in r && r[o] == StateOf(handles[changed[Some(o)]])
  {
    map k | k in changed.Keys && k.Some? && changed[k] in handles :: k.value := StateOf(handles[changed[k]])
  }

  /** The records a commit writes for the new objects. */
  function NewRecords(handles: map<HandleId, Handle>, news: News): (r: map<Oid, State>)
    ensures r.Keys <= NewOids(news)
    decreases |news|
  {
    if news == [] then map[]
    else
      var rest := NewRecords(handles, news[1..]);
      assert forall i :: 1 <= i < |news| ==> news[i] == news[1..][i - 1];
      assert NewOids(news) == {news[0].1} + NewOids(news[1..]);
      if news[0].0 in handles then rest[news[0].1 := StateOf(handles[news[0].0])] else rest
  }

  lemma {:induction false} NewRecordsSpec(handles: map<HandleId, Handle>, news: News)
    requires forall i, j :: 0 <= i < j < |news| ==> news[i].1 != news[j].1
    ensures forall i :: 0 <= i < |news| && news[i].0 in handles ==>
              news[i].1 in NewRecords(handles, news) && NewRecords(handles, news)[news[i].1] == StateOf(handles[news[i].0])
    decreases |news|
  {
    if news != [] {
      NewRecordsSpec(handles, news[1..]);
      assert forall i :: 1 <= i < |news| ==> news[i] == news[1..][i - 1];
    }
  }

  /** The rollback of one object first stored by a failed commit: it
      loses its oid, leaves the cache, becomes UNSAVED and loses its
      connection. */
  function Unlink(w: World, c: ConnId, h: HandleId, o: Oid): (r: Step)
    requires Sound(w, c) && Linked(w, h)
    ensures Sound(r.world, c) && r.world.handles.Keys == w.handles.Keys && r.world.conns.Keys == w.conns.Keys
    ensures forall g :: Linked(w, g) ==> Linked(r.world, g)
    ensures forall k :: Lookup(w.conns[c].cache.objects, k).None? ==> Lookup(r.world.conns[c].cache.objects, k).None?
    ensures w.handles[h].status != Ghost && Lookup(w.conns[c].cache.objects, o) == Some(h) ==>
              && r.raised == None
              && r.world.handles == w.handles[h := w.handles[h].(status := Unsaved, oid := None, conn := None)]
              && CacheOnly(w, c, r.world)
              && Lookup(r.world.conns[c].cache.objects, o).None?
              && forall k :: k != o ==> Lookup(r.world.conns[c].cache.objects, k) == Lookup(w.conns[c].cache.objects, k)
  {
    var w1 := Put(w, h, w.handles[h].(oid := None));
    assert Sound(w1, c) && Linked(w1, h);
    assert forall g :: Linked(w, g) ==> Linked(w1, g);
    var e := Evict(w1, c, o);
    assert Linked(e.world, h);
    if e.raised.Some? then e
    else
      var d := Detach(e.world, c, h);
      assert w.handles[h].status != Ghost ==> CacheOnly(w, c, d.world) by {
        if w.handles[h].status != Ghost {
          assert CacheOnly(w, c, w1) && CacheOnly(e.world, c, d.world);
          CacheOnlyTrans(w, c, w1, e.world);
          CacheOnlyTrans(w, c, e.world, d.world);
        }
      }
      d
  }

  /** Unlinking one object touches only this connection's cache. */
  lemma UnlinkConns(w: World, c: ConnId, h: HandleId, o: Oid)
    requires Sound(w, c) && Linked(w, h)
    ensures SameButCache(w.conns, c, Unlink(w, c, h, o).world.conns)
  {
    var w1 := Put(w, h, w.handles[h].(oid := None));
    var e := Evict(w1, c, o);
    assert CacheOnly(w1, c, e.world);
  }

  /** _p_set_status_unsaved, then dropping the connection. */
  function Detach(w: World, c: ConnId, h: HandleId): (r: Step)
    requires Sound(w, c) && Linked(w, h)
    ensures Sound(r.world, c) && r.world.handles.Keys == w.handles.Keys && r.world.conns == w.conns
    ensures r.world.trace == w.trace || w.handles[h].status == Ghost
    ensures r.world.nextId == w.nextId
    ensures forall g :: Linked(w, g) ==> Linked(r.world, g)
    ensures w.handles[h].status != Ghost ==>
              r == Step(Put(w, h, w.handles[h].(status := Unsaved, conn := None)), None)
  {
    var u := SetUnsaved(w, h);
    if u.raised.Some? then u
    else Step(Put(u.world, h, u.world.handles[h].(conn := None)), None)
  }

  /** Two connection tables that differ at most in the cache of `c`. */
  ghost predicate SameButCache(a: map<ConnId, Conn>, c: ConnId, b: map<ConnId, Conn>)
    requires c in a
  {
    c in b && b == a[c := a[c].(cache := b[c].cache)]
  }

  lemma SameButCacheTrans(a: map<ConnId, Conn>, c: ConnId, b: map<ConnId, Conn>, d: map<ConnId, Conn>)
    requires c in a && SameButCache(a, c, b) && SameButCache(b, c, d)
    ensures SameButCache(a, c, d)
  {
  }

  /** The rollback in commit of the objects first stored by a failed
      commit, one after the other. It touches only this connection's
      cache. */
  function Rollback(w: World, c: ConnId, news: News): (r: Step)
    requires Sound(w, c) && forall i :: 0 <= i < |news| ==> Linked(w, news[i].0)
    ensures Sound(r.world, c) && r.world.handles.Keys == w.handles.Keys && r.world.conns.Keys == w.conns.Keys
    ensures SameButCache(w.conns, c, r.world.conns)
    decreases |news|
  {
    if news == [] then Step(w, None)
    else
      var u := Unlink(w, c, news[0].0, news[0].1);
      UnlinkConns(w, c, news[0].0, news[0].1);
      if u.raised.Some? then u
      else
        assert forall i :: 1 <= i < |news| ==> news[i] == news[1..][i - 1];
        var r := Rollback(u.world, c, news[1..]);
        SameButCacheTrans(w.conns, c, u.world.conns, r.world.conns);
        r
  }

  /** What rolling back needs of the new objects: distinct objects,
      cached under distinct oids, none a ghost. */
  ghost predicate Revertible(w: World, c: ConnId, news: News)
    requires Sound(w, c)
  {
    && (forall i :: 0 <= i < |news| ==> Linked(w, news[i].0))
    && (forall i, j :: 0 <= i < j < |news| ==> news[i].0 != news[j].0 && news[i].1 != news[j].1)
    && (forall i :: 0 <= i < |news| ==>
          && news[i].0 in w.handles && w.handles[news[i].0].status != Ghost
          && Lookup(w.conns[c].cache.objects, news[i].1) == Some(news[i].0))
  }

  /** Once the first new object is rolled back, the rest still can be. */
  lemma RevertibleTail(w: World, c: ConnId, news: News)
    requires Sound(w, c) && Revertible(w, c, news) && news != []
    ensures var u := Unlink(w, c, news[0].0, news[0].1);
            u.raised == None && Sound(u.world, c) && Revertible(u.world, c, news[1..])
  {
    var u := Unlink(w, c, news[0].0, news[0].1);
    var tail := news[1..];
    forall i | 0 <= i < |tail|
      ensures Linked(u.world, tail[i].0)
      ensures tail[i].0 in u.world.handles && u.world.handles[tail[i].0].status != Ghost
      ensures Lookup(u.world.conns[c].cache.objects, tail[i].1) == Some(tail[i].0)
    {
      assert tail[i] == news[i + 1];
    }
    forall i, j | 0 <= i < j < |tail|
      ensures tail[i].0 != tail[j].0 && tail[i].1 != tail[j].1
    {
      assert tail[i] == news[i + 1] && tail[j] == news[j + 1];
    }
  }

  /** Rolling back revertible objects succeeds and changes nothing of the
      connection but its cache. */
  lemma {:induction false} RollbackSucceeds(w: World, c: ConnId, news: News)
    requires Sound(w, c) && Revertible(w, c, news)
    ensures var r := Rollback(w, c, news);
            r.raised == None && CacheOnly(w, c, r.world)
    decreases |news|
  {
    if news != [] {
      var u := Unlink(w, c, news[0].0, news[0].1);
      RevertibleTail(w, c, news);
      RollbackSucceeds(u.world, c, news[1..]);
      CacheOnlyTrans(w, c, u.world, Rollback(u.world, c, news[1..]).world);
    }
  }

  /** Rolling back revertible objects unlinks the first, which succeeds,
      then rolls back the rest. */
  lemma RollbackUnfold(w: World, c: ConnId, news: News)
    requires Sound(w, c) && Revertible(w, c, news) && news != []
    ensures var u := Unlink(w, c, news[0].0, news[0].1);
            && u.raised == None && Sound(u.world, c) && Revertible(u.world, c, news[1..])
            && u.world.handles == w.handles[news[0].0 := w.handles[news[0].0].(status := Unsaved, oid := None, conn := None)]
            && Rollback(w, c, news) == Rollback(u.world, c, news[1..])
  {
    RevertibleTail(w, c, news);
    assert forall i :: 1 <= i < |news| ==> news[i] == news[1..][i - 1];
  }

  /** An object as rolling back leaves it: UNSAVED, with neither oid nor
      connection. */
  function Reverted(x: Handle): Handle
  {
    x.(status := Unsaved, oid := None, conn := None)
  }

  /** The objects after the new ones are reverted one after the other: the
      reference for what Rollback does to the objects. */
  function RevertAll(hs: map<HandleId, Handle>, news: News): (r: map<HandleId, Handle>)
    decreases |news|
  {
    if news == [] then hs
    else
      var h := news[0].0;
      RevertAll(if h in hs then hs[h := Reverted(hs[h])] else hs, news[1..])
  }

  /** Reverting touches the new objects and nothing else; reverting twice
      is reverting once, so the order and repetitions do not matter. */
  lemma {:induction false} RevertAllSpec(hs: map<HandleId, Handle>, news: News)
    ensures RevertAll(hs, news).Keys == hs.Keys
    ensures forall h :: h in hs ==>
              RevertAll(hs, news)[h] == if h in NewHandles(news) then Reverted(hs[h]) else hs[h]
    decreases |news|
  {
    if news != [] {
      var g := news[0].0;
      var hs1 := if g in hs then hs[g := Reverted(hs[g])] else hs;
      RevertAllSpec(hs1, news[1..]);
      assert NewHandles(news) == {g} + NewHandles(news[1..]) by {
        assert forall i :: 1 <= i < |news| ==> news[i] == news[1..][i - 1];
        assert forall i :: 0 <= i < |news[1..]| ==> news[1..][i] == news[i + 1];
      }
    }
  }

  /** Rolling back revertible objects does to the objects exactly what
      RevertAll does. */
  lemma {:induction false} RollbackHandles(w: World, c: ConnId, news: News)
    requires Sound(w, c) && Revertible(w, c, news)
    ensures Rollback(w, c, news).world.handles == RevertAll(w.handles, news)
    decreases |news|
  {
    if news != [] {
      var u := Unlink(w, c, news[0].0, news[0].1).world;
      RollbackUnfold(w, c, news);
      RollbackHandles(u, c, news[1..]);
    }
  }

  /** Rolling back revertible objects leaves each of them UNSAVED with
      neither oid nor connection, and every other object as it was. */
  lemma RollbackSpec(w: World, c: ConnId, news: News)
    requires Sound(w, c) && Revertible(w, c, news)
    ensures var r := Rollback(w, c, news);
            forall i :: 0 <= i < |news| ==> r.world.handles[news[i].0] == Reverted(w.handles[news[i].0])
    ensures var r := Rollback(w, c, news);
            forall h :: h in w.handles && h !in NewHandles(news) ==> r.world.handles[h] == w.handles[h]
  {
    RollbackHandles(w, c, news);
    RevertAllSpec(w.handles, news);
    assert forall i :: 0 <= i < |news| ==> news[i].0 in NewHandles(news);
  }

  /** Rolling back revertible objects takes each of their oids out of the
      cache. */
  lemma {:induction false} RollbackUncached(w: World, c: ConnId, news: News)
    requires Sound(w, c) && Revertible(w, c, news)
    ensures var r := Rollback(w, c, news);
            forall i :: 0 <= i < |news| ==> Lookup(r.world.conns[c].cache.objects, news[i].1).None?
    decreases |news|
  {
    if news != [] {
      var o := news[0].1;
      var tail := news[1..];
      var u := Unlink(w, c, news[0].0, o);
      RevertibleTail(w, c, news);
      RollbackUncached(u.world, c, tail);
      RollbackKeeps(u.world, c, tail, o);
      forall i | 1 <= i < |news|
        ensures Lookup(Rollback(u.world, c, tail).world.conns[c].cache.objects, news[i].1).None?
      {
        assert news[i] == tail[i - 1];
      }
    }
  }

  /** Rolling back never brings an oid back into the cache. */
  lemma {:induction false} RollbackKeeps(w: World, c: ConnId, news: News, o: Oid)
    requires Sound(w, c) && forall i :: 0 <= i < |news| ==> Linked(w, news[i].0)
    requires Lookup(w.conns[c].cache.objects, o).None?
    ensures Lookup(Rollback(w, c, news).world.conns[c].cache.objects, o).None?
    decreases |news|
  {
    if news != [] {
      var u := Unlink(w, c, news[0].0, news[0].1);
      if u.raised.None? {
        assert forall i :: 1 <= i < |news| ==> news[i] == news[1..][i - 1];
        RollbackKeeps(u.world, c, news[1..], o);
      }
    }
  }

  /** The end of a commit or abort: shrink the cache and add one to the
      transaction serial. */
  function Finish(w: World, c: ConnId, orphans: set<HandleId>): (r: World)
    requires Sound(w, c) && w.conns[c].cache.size > 0
    ensures Sound(r, c) && r.handles.Keys == w.handles.Keys && r.conns.Keys == w.conns.Keys
    ensures r.conns[c] == w.conns[c].(serial := w.conns[c].serial + 1, cache := r.conns[c].cache)
    ensures OnlyGhosted(w, r)
  {
    ShrinkFrame(w, c, orphans);
    var w1 := Shrink(w, c, orphans);
    assert w1.conns[c] == w.conns[c].(cache := w1.conns[c].cache);
    Bump(w1, c)
  }

  /** Connection.commit. With nothing changed it syncs; otherwise it
      refuses while conflicted oids remain, writes the changed and new
      objects (all become SAVED), and lets the storage end the commit by
      handing `endOids` to _handle_invalidations. A conflict rolls back the
      new objects and is raised again with `changed` and the serial as
      they were; success empties `changed` and records each written
      state. Both successful paths shrink the cache and add one to the
      transaction serial. */
  function Commit(w: World, c: ConnId, news: News, endOids: seq<Oid>, reported: seq<Oid>, orphans: set<HandleId>): (r: Step)
    requires Sound(w, c) && w.conns[c].cache.size > 0
    requires forall i :: 0 <= i < |news| ==> news[i].0 in w.handles
    ensures Sound(r.world, c) && r.world.handles.Keys == w.handles.Keys
    ensures w.conns[c].changed == map[] ==> r.raised == None
    ensures w.conns[c].changed != map[] && w.conns[c].invalid != {} ==> r == Step(w, Some(AssertionError))
    ensures r.raised == None ==>
              && r.world.conns[c].serial == w.conns[c].serial + 1
              && r.world.conns[c].changed == map[]
              && r.world.conns[c].invalid == {}
    ensures r.raised != None ==>
              && r.world.conns[c].serial == w.conns[c].serial
              && r.world.conns[c].changed == w.conns[c].changed
              && r.world.conns[c].stored == w.conns[c].stored
  {
    var cn := w.conns[c];
    if cn.changed == map[] then Step(Finish(Sync(w, c, reported), c, orphans), None)
    else if cn.invalid != {} then Step(w, Some(AssertionError))
    else Store(w, c, news, endOids, orphans)
  }

  /** The objects a commit writes, SAVED, before the storage ends it. */
  function Written(w: World, c: ConnId, news: News): (r: World)
    requires Sound(w, c) && forall i :: 0 <= i < |news| ==> news[i].0 in w.handles
    ensures Sound(r, c) && CacheOnly(w, c, r) && r.handles.Keys == w.handles.Keys
    ensures forall i :: 0 <= i < |news| ==> r.handles[news[i].0].conn == Some(c)
  {
    var w1 := Adopt(w, c, news);
    SaveAll(w1, w.conns[c].changed.Values + NewHandles(news))
  }

  /** The records a commit writes: the changed objects' and the new
      objects' states under their oids. */
  function Records(handles: map<HandleId, Handle>, changed: map<Option<Oid>, HandleId>, news: News): map<Oid, State>
  {
    ChangedRecords(handles, changed) + NewRecords(handles, news)
  }

  /** The part of commit that writes: new objects are adopted, everything
      written becomes SAVED, and the storage ends the commit. */
  function Store(w: World, c: ConnId, news: News, endOids: seq<Oid>, orphans: set<HandleId>): (r: Step)
    requires Sound(w, c) && w.conns[c].cache.size > 0 && w.conns[c].invalid == {}
    requires forall i :: 0 <= i < |news| ==> news[i].0 in w.handles
    ensures Sound(r.world, c) && r.world.handles.Keys == w.handles.Keys
    ensures r.raised == None ==>
              && r.world.conns[c].serial == w.conns[c].serial + 1
              && r.world.conns[c].changed == map[]
              && r.world.conns[c].invalid == {}
              && r.world.conns[c].stored == w.conns[c].stored + Records(Written(w, c, news).handles, w.conns[c].changed, news)
    ensures r.raised != None ==>
              && r.world.conns[c].serial == w.conns[c].serial
              && r.world.conns[c].changed == w.conns[c].changed
              && r.world.conns[c].stored == w.conns[c].stored
  {
    var w2 := Written(w, c, news);
    var e := HandleInvalidations(w2, c, endOids, None);
    Ended(w, c, news, endOids);
    match e.raised
    case Some(err) =>
      if err.WriteConflict? || err.ReadConflict? then
        var rb := Rollback(e.world, c, news);
        assert rb.world.conns[c] == e.world.conns[c].(cache := rb.world.conns[c].cache);
        Step(rb.world, if rb.raised.Some? then rb.raised else e.raised)
      else e
    case None =>
      var records := Records(w2.handles, w.conns[c].changed, news);
      var cn2 := e.world.conns[c];
      Step(Finish(PutConn(e.world, c, cn2.(changed := map[], stored := cn2.stored + records)), c, orphans), None)
  }

  /** Once the objects are written and the storage has ended the commit,
      the new objects still belong to this connection, and its serial,
      `changed` and stored records are as they were (and so are its
      invalid oids, unless end() raised). */
  lemma Ended(w: World, c: ConnId, news: News, endOids: seq<Oid>)
    requires Sound(w, c) && forall i :: 0 <= i < |news| ==> news[i].0 in w.handles
    ensures var e := HandleInvalidations(Written(w, c, news), c, endOids, None);
            && (forall i :: 0 <= i < |news| ==> Linked(e.world, news[i].0))
            && e.world.conns[c].serial == w.conns[c].serial
            && e.world.conns[c].changed == w.conns[c].changed
            && e.world.conns[c].stored == w.conns[c].stored
            && (e.raised == None ==> e.world.conns[c].invalid == w.conns[c].invalid)
  {
    var w2 := Written(w, c, news);
    assert w2.conns[c] == w.conns[c].(cache := w2.conns[c].cache);
    var e := HandleInvalidations(w2, c, endOids, None);
    assert e.world.conns[c] == w2.conns[c].(invalid := e.world.conns[c].invalid);
    forall i | 0 <= i < |news|
      ensures Linked(e.world, news[i].0)
    {
      assert e.world.handles[news[i].0].conn == w2.handles[news[i].0].conn;
    }
  }

  /** A fresh new object, once written, is SAVED with its oid and this
      connection, and cached under its oid. */
  lemma WrittenNew(w: World, c: ConnId, news: News, i: nat)
    requires Sound(w, c) && FreshNews(w, c, news) && i < |news|
    ensures var r := Written(w, c, news);
            && r.handles[news[i].0] == w.handles[news[i].0].(oid := Some(news[i].1), conn := Some(c), status := Saved)
            && Lookup(r.conns[c].cache.objects, news[i].1) == Some(news[i].0)
  {
    AdoptReaches(w, c, news, i);
    assert news[i].0 in NewHandles(news);
  }

  /** Writing leaves the cache entries of oids other than the new ones as
      they were. */
  lemma WrittenOtherOids(w: World, c: ConnId, news: News, o: Oid)
    requires Sound(w, c) && (forall i :: 0 <= i < |news| ==> news[i].0 in w.handles) && o !in NewOids(news)
    ensures Lookup(Written(w, c, news).conns[c].cache.objects, o) == Lookup(w.conns[c].cache.objects, o)
  {
    AdoptOtherOids(w, c, news);
  }

  /** Writing changes no object's state. */
  lemma WrittenStates(w: World, c: ConnId, news: News, h: HandleId)
    requires Sound(w, c) && FreshNews(w, c, news) && h in w.handles
    ensures StateOf(Written(w, c, news).handles[h]) == StateOf(w.handles[h])
  {
    if h in NewHandles(news) {
      var i :| 0 <= i < |news| && news[i].0 == h;
      WrittenNew(w, c, news, i);
    } else {
      AdoptOthers(w, c, news);
    }
  }

  lemma WrittenRevertible(w: World, c: ConnId, news: News)
    requires Sound(w, c) && FreshNews(w, c, news)
    ensures Revertible(Written(w, c, news), c, news)
  {
    forall i | 0 <= i < |news|
      ensures Linked(Written(w, c, news), news[i].0)
      ensures Written(w, c, news).handles[news[i].0].status != Ghost
      ensures Lookup(Written(w, c, news).conns[c].cache.objects, news[i].1) == Some(news[i].0)
    {
      WrittenNew(w, c, news, i);
    }
  }

  /** The storage's invalidations leave revertible objects that none of
      its oids name revertible and as they were. */
  lemma InvalidationsKeep(w: World, c: ConnId, news: News, endOids: seq<Oid>)
    requires Sound(w, c) && Revertible(w, c, news)
    requires forall i :: 0 <= i < |news| ==> news[i].0 !in CachedUnder(w.conns[c].cache.objects, set o | o in endOids)
    ensures var e := HandleInvalidations(w, c, endOids, None);
            && Revertible(e.world, c, news)
            && forall i :: 0 <= i < |news| ==> e.world.handles[news[i].0] == w.handles[news[i].0]
  {
  }

  /** The write part of a commit that meets a write conflict rolls the
      new objects back and takes them out of the cache. */
  lemma StoreConflict(w: World, c: ConnId, news: News, endOids: seq<Oid>, orphans: set<HandleId>)
    requires Sound(w, c) && w.conns[c].cache.size > 0 && w.conns[c].invalid == {} && FreshNews(w, c, news)
    requires forall o :: o in endOids ==> o !in NewOids(news)
    requires forall o :: o in endOids && Has(w.conns[c].cache.objects, o) ==> Lookup(w.conns[c].cache.objects, o).value !in NewHandles(news)
    ensures var r := Store(w, c, news, endOids, orphans);
            r.raised.Some? && r.raised.value.WriteConflict? ==>
              forall i :: 0 <= i < |news| ==>
                && r.world.handles[news[i].0] == w.handles[news[i].0].(status := Unsaved, oid := None, conn := None)
                && Lookup(r.world.conns[c].cache.objects, news[i].1).None?
  {
    var w2 := Written(w, c, news);
    WrittenRevertible(w, c, news);
    forall i | 0 <= i < |news|
      ensures news[i].0 !in CachedUnder(w2.conns[c].cache.objects, set o | o in endOids)
    {
      forall o | o in endOids && Has(w2.conns[c].cache.objects, o)
        ensures Lookup(w2.conns[c].cache.objects, o).value != news[i].0
      {
        WrittenOtherOids(w, c, news, o);
        assert news[i].0 in NewHandles(news);
      }
    }
    var e := HandleInvalidations(w2, c, endOids, None);
    InvalidationsKeep(w2, c, news, endOids);
    var rb := Rollback(e.world, c, news);
    RollbackSucceeds(e.world, c, news);
    RollbackUncached(e.world, c, news);
    var r := Store(w, c, news, endOids, orphans);
    if r.raised.Some? && r.raised.value.WriteConflict? {
      assert e.raised.Some? && e.raised.value.WriteConflict?;
      assert r.world == rb.world;
      RollbackSpec(e.world, c, news);
      forall i | 0 <= i < |news|
        ensures rb.world.handles[news[i].0] == w.handles[news[i].0].(status := Unsaved, oid := None, conn := None)
      {
        WrittenNew(w, c, news, i);
      }
    }
  }

  /** The records a successful write part of a commit adds: each new
      object's and each changed object's state. */
  lemma RecordsSpec(w: World, c: ConnId, news: News)
    requires Sound(w, c) && FreshNews(w, c, news)
    ensures var rec := Records(Written(w, c, news).handles, w.conns[c].changed, news);
            && (forall i :: 0 <= i < |news| ==> news[i].1 in rec && rec[news[i].1] == StateOf(w.handles[news[i].0]))
            && (forall o :: Some(o) in w.conns[c].changed && w.conns[c].changed[Some(o)] in w.handles ==>
                  o in rec && rec[o] == StateOf(w.handles[w.conns[c].changed[Some(o)]]))
  {
    var cn := w.conns[c];
    var w2 := Written(w, c, news);
    var rec := Records(w2.handles, cn.changed, news);
    NewRecordsSpec(w2.handles, news);
    forall i | 0 <= i < |news|
      ensures news[i].1 in rec && rec[news[i].1] == StateOf(w.handles[news[i].0])
    {
      WrittenStates(w, c, news, news[i].0);
    }
    forall o | Some(o) in cn.changed && cn.changed[Some(o)] in w.handles
      ensures o in rec && rec[o] == StateOf(w.handles[cn.changed[Some(o)]])
    {
      WrittenStates(w, c, news, cn.changed[Some(o)]);
      assert o !in NewOids(news);
    }
  }

  /** On a write conflict, the objects first stored by the failed commit
      revert to UNSAVED with neither oid nor connection and leave the
      cache (Commit's own contract keeps `changed`, the serial and the
      stored records as they were). It assumes the storage reports none of the new objects as
      invalidated, which holds for oids it has just handed out. */
  lemma CommitConflictRollsBack(w: World, c: ConnId, news: News, endOids: seq<Oid>, reported: seq<Oid>, orphans: set<HandleId>)
    requires Sound(w, c) && w.conns[c].cache.size > 0 && FreshNews(w, c, news)
    requires forall o :: o in endOids ==> o !in NewOids(news)
    requires forall o :: o in endOids && Has(w.conns[c].cache.objects, o) ==> Lookup(w.conns[c].cache.objects, o).value !in NewHandles(news)
    ensures var r := Commit(w, c, news, endOids, reported, orphans);
            r.raised.Some? && r.raised.value.WriteConflict? ==>
              forall i :: 0 <= i < |news| ==>
                   && r.world.handles[news[i].0] == w.handles[news[i].0].(status := Unsaved, oid := None, conn := None)
                   && Lookup(r.world.conns[c].cache.objects, news[i].1).None?
  {
    var cn := w.conns[c];
    var r := Commit(w, c, news, endOids, reported, orphans);
    if cn.changed == map[] {
      assert r.raised == None;
    } else if cn.invalid != {} {
      assert r.raised == Some(AssertionError);
    } else {
      assert r == Store(w, c, news, endOids, orphans);
      StoreConflict(w, c, news, endOids, orphans);
    }
  }

  /** After a successful commit, the stored record of every changed object
      and every new object is the state it had when written. */
  lemma CommitStores(w: World, c: ConnId, news: News, endOids: seq<Oid>, reported: seq<Oid>, orphans: set<HandleId>)
    requires Sound(w, c) && w.conns[c].cache.size > 0 && FreshNews(w, c, news)
    requires w.conns[c].changed != map[]
    ensures var r := Commit(w, c, news, endOids, reported, orphans);
            r.raised == None ==>
              && (forall i :: 0 <= i < |news| ==>
                    news[i].1 in r.world.conns[c].stored && r.world.conns[c].stored[news[i].1] == StateOf(w.handles[news[i].0]))
              && (forall o :: Some(o) in w.conns[c].changed && w.conns[c].changed[Some(o)] in w.handles ==>
                    o in r.world.conns[c].stored && r.world.conns[c].stored[o] == StateOf(w.handles[w.conns[c].changed[Some(o)]]))
  {
    RecordsSpec(w, c, news);
  }
}

=== FILE: connection_notes.dfy ===
/** The Connection methods the proxy calls back into (durus/connection.py):
    load_state, note_access and note_change. Each records its call in the
    trace on entry. */
module ConnectionNotes {
  import opened Wrappers
  import opened PersistenceState

  /** Connection.load_state: only a ghost may be loaded; an oid still
      known to be invalid is refused; a record the storage no longer has
      becomes a ReadConflictError for that oid when the storage raises
      DurusKeyError, and escapes as the KeyError MemoryStorage.load raises
      otherwise. Otherwise the stored state is merged into the instance
      dictionary and the object is SAVED. */
  function LoadState(w: World, c: ConnId, h: HandleId): (r: Step)
    requires c in w.conns && h in w.handles
    ensures r.world.trace == w.trace + [StateLoaded(c, h)]
    ensures r.world.conns == w.conns && r.world.nextId == w.nextId
    ensures r.raised == None <==>
              && w.handles[h].status == Ghost
              && w.handles[h].oid.Some?
              && w.handles[h].oid.value !in w.conns[c].invalid
              && w.handles[h].oid.value in w.conns[c].stored
    ensures r.raised == None ==>
              r.world.handles == w.handles[h := w.handles[h].(
                status := Saved,
                dict := w.handles[h].dict + w.conns[c].stored[w.handles[h].oid.value])]
    ensures r.raised != None ==> r.world.handles == w.handles
    ensures w.handles[h].status == Ghost && w.handles[h].oid.Some? && w.handles[h].oid.value !in w.conns[c].invalid
            && w.handles[h].oid.value !in w.conns[c].stored
            ==> r.raised == Some(if w.conns[c].bareKeyError then KeyError else ReadConflict([w.handles[h].oid.value]))
  {
    var w0 := Emit(w, StateLoaded(c, h));
    var x := w.handles[h];
    var cn := w.conns[c];
    if x.status != Ghost then Step(w0, Some(AssertionError))
    else match x.oid
      case None => Step(w0, Some(KeyError))
      case Some(oid) =>
        if oid in cn.invalid then Step(w0, Some(AssertionError))
        else if oid !in cn.stored then Step(w0, Some(if cn.bareKeyError then KeyError else ReadConflict([oid])))
        else Step(Put(w0, h, x.(status := Saved, dict := x.dict + cn.stored[oid])), None)
  }

  /** Connection.note_access: the object must belong to this connection
      and have an oid; its serial is stamped with the current transaction
      serial through the raw setter and the cache keeps a hard reference
      to it. */
  function NoteAccess(w: World, c: ConnId, h: HandleId): (r: Step)
    requires c in w.conns && h in w.handles
    ensures r.world.trace == w.trace + [AccessNoted(c, h)] && r.world.nextId == w.nextId
    ensures r.raised == None <==> w.handles[h].conn == Some(c) && w.handles[h].oid.Some?
    ensures r.raised != None ==> r.world.handles == w.handles && r.world.conns == w.conns
    ensures r.raised == None ==>
              && r.world.handles == w.handles[h := w.handles[h].(serial := w.conns[c].serial)]
              && c in r.world.conns
              && r.world.conns[c].cache.recent == w.conns[c].cache.recent + {h}
              && r.world.conns == w.conns[c := r.world.conns[c]]
              && r.world.conns[c] == w.conns[c].(cache := r.world.conns[c].cache)
              && r.world.conns[c].cache == w.conns[c].cache.(recent := r.world.conns[c].cache.recent)
  {
    var w0 := Emit(w, AccessNoted(c, h));
    var x := w.handles[h];
    var cn := w.conns[c];
    if x.conn != Some(c) || x.oid.None? then Step(w0, Some(AssertionError))
    else
      var w1 := Put(w0, h, x.(serial := cn.serial));
      Step(PutConn(w1, c, cn.(cache := cn.cache.(recent := cn.cache.recent + {h}))), None)
  }

  /** Connection.note_change: remember the object under its oid as
      changed. */
  function NoteChange(w: World, c: ConnId, h: HandleId): (r: World)
    requires c in w.conns && h in w.handles
    ensures r.trace == w.trace + [ChangeNoted(c, h)]
    ensures r.handles == w.handles && r.nextId == w.nextId
    ensures c in r.conns && r.conns == w.conns[c := r.conns[c]]
    ensures r.conns[c] == w.conns[c].(changed := r.conns[c].changed)
    ensures r.conns[c].changed.Keys == w.conns[c].changed.Keys + {w.handles[h].oid}
    ensures r.conns[c].changed[w.handles[h].oid] == h
    ensures forall o :: o in w.conns[c].changed && o != w.handles[h].oid ==> r.conns[c].changed[o] == w.conns[c].changed[o]
  {
    var cn := w.conns[c];
    PutConn(Emit(w, ChangeNoted(c, h)), c, cn.(changed := cn.changed[w.handles[h].oid := h]))
  }

  /** Noting the same change twice leaves the connection as noting it
      once does; only the trace records the second call. */
  lemma NoteChangeIdempotent(w: World, c: ConnId, h: HandleId)
    requires c in w.conns && h in w.handles
    ensures var once := NoteChange(w, c, h);
            var twice := NoteChange(once, c, h);
            twice.conns == once.conns && twice.handles == once.handles
  {
    var once := NoteChange(w, c, h);
    var twice := NoteChange(once, c, h);
    assert twice.conns[c].changed == once.conns[c].changed;
  }
}

=== FILE: fallback_persistence.dfy ===
/** The pure-Python PersistentBase and ConnectionBase of persistent.py,
    used when the C extension is missing. Instead of a serial stamp an
    object remembers, in _p_touched, the connection's sync_count at its
    last access. This reduced configuration has its own objects and
    connections and never meets the serial-stamp model. The connection's
    load_state and note_change are collaborators: their calls are recorded,
    and which loads fail is a parameter. */
module FallbackPersistence {
  import opened Wrappers
  import opened PersistenceState
  import Proxy

  /** A fallback PersistentBase instance: the four __slots__ and the
      instance dictionary. */
  datatype FHandle = FHandle(
    status: Status,
    touched: int,
    conn: Option<ConnId>,
    oid: Option<Oid>,
    dict: State)

  datatype FWorld = FWorld(
    handles: map<HandleId, FHandle>,
    syncCount: map<ConnId, int>,
    trace: seq<Event>)

  /** PersistentBase.__new__: UNSAVED, untouched, unattached. */
  function NewFHandle(): (r: FHandle)
    ensures r.status == Unsaved && r.touched == 0 && r.conn == None && r.oid == None && r.dict == map[]
  {
    FHandle(Unsaved, 0, None, None, map[])
  }

  /** ConnectionBase.__new__: sync_count starts at 0. */
  function NewFConn(w: FWorld, c: ConnId): (r: FWorld)
    ensures r.syncCount == w.syncCount[c := 0]
    ensures r.handles == w.handles && r.trace == w.trace
  {
    w.(syncCount := w.syncCount[c := 0])
  }

  predicate FLinked(w: FWorld, h: HandleId)
  {
    h in w.handles && (w.handles[h].conn.Some? ==> w.handles[h].conn.value in w.syncCount)
  }

  /** Nothing but the objects' status, touched stamp and dictionary
      changes, and the trace only grows. */
  ghost predicate FFrame(w: FWorld, v: FWorld)
  {
    && v.handles.Keys == w.handles.Keys
    && v.syncCount == w.syncCount
    && (forall h :: h in w.handles ==> v.handles[h].conn == w.handles[h].conn && v.handles[h].oid == w.handles[h].oid)
    && w.trace <= v.trace
  }

  datatype FStep = FStep(world: FWorld, raised: Option<Error>)
  datatype FFetch = FFetch(world: FWorld, value: Result<Value>)

  /** Persistent._p_load_state over the fallback base: a ghost with a
      connection asks it for the state (failing for the objects in
      `failing`) and becomes SAVED. */
  function FLoad(w: FWorld, h: HandleId, failing: set<HandleId>, state: State): (r: FStep)
    requires FLinked(w, h)
    ensures FFrame(w, r.world)
    ensures r.raised == None <==> w.handles[h].status == Ghost && w.handles[h].conn.Some? && h !in failing
    ensures r.raised == None ==> r.world.handles[h] == w.handles[h].(status := Saved, dict := w.handles[h].dict + state)
    ensures r.raised != None ==> r.world.handles == w.handles
  {
    var w0 := w.(trace := w.trace + [LoadCalled(h)]);
    var x := w.handles[h];
    if x.status != Ghost then FStep(w0, Some(AssertionError))
    else match x.conn
      case None => FStep(w0, Some(AttributeError))
      case Some(c) =>
        var w1 := w0.(trace := w0.trace + [StateLoaded(c, h)]);
        if h in failing then FStep(w1, Some(ReadConflict(if x.oid.Some? then [x.oid.value] else [])))
        else FStep(w1.(handles := w.handles[h := x.(status := Saved, dict := x.dict + state)]), None)
  }

  /** Persistent._p_note_change over the fallback base. */
  function FNoteChange(w: FWorld, h: HandleId, failing: set<HandleId>, state: State): (r: FStep)
    requires FLinked(w, h)
    ensures FFrame(w, r.world)
    ensures |r.world.trace| > |w.trace| && r.world.trace[|w.trace|] == ChangeCalled(h)
    ensures w.handles[h].status == Unsaved ==> r.raised == None && r.world.handles == w.handles
    ensures r.raised == None ==> r.world.handles[h].status == Unsaved
    ensures r.raised == None && w.handles[h].status != Ghost ==> r.world.handles[h].dict == w.handles[h].dict
    ensures w.handles[h].status == Saved && w.handles[h].conn.Some? ==>
              && r.raised == None
              && r.world.trace == w.trace + [ChangeCalled(h), ChangeNoted(w.handles[h].conn.value, h)]
  {
    var w0 := w.(trace := w.trace + [ChangeCalled(h)]);
    var x := w.handles[h];
    if x.status == Unsaved then FStep(w0, None)
    else
      var l := if x.status == Ghost then FLoad(w0, h, failing, state) else FStep(w0, None);
      if l.raised.Some? then l
      else match x.conn
        case None => FStep(l.world, Some(AttributeError))
        case Some(c) =>
          var n := l.world.(trace := l.world.trace + [ChangeNoted(c, h)]);
          FStep(n.(handles := n.handles[h := n.handles[h].(status := Unsaved)]), None)
  }

  /** PersistentBase.__getattribute__: a name that is neither "_p_"-prefixed
      nor one of the three safe names loads a ghost and copies the
      connection's sync_count into _p_touched before the generic read. */
  function FGetAttr(w: FWorld, h: HandleId, name: string, failing: set<HandleId>, state: State): (r: FFetch)
    requires FLinked(w, h)
    ensures FFrame(w, r.world)
    ensures Proxy.Exempt(name) ==> r.world.handles == w.handles
    ensures !Proxy.Exempt(name) && r.value.Ok? ==>
              && r.world.handles[h].status != Ghost
              && (w.handles[h].conn.Some? ==> r.world.handles[h].touched == w.syncCount[w.handles[h].conn.value])
    ensures r.value.Ok? <==> (Proxy.Exempt(name) || w.handles[h].status != Ghost || FLoad(w, h, failing, state).raised == None)
                             && name in r.world.handles[h].dict
  {
    if !Proxy.Exempt(name) then
      var l := if w.handles[h].status == Ghost then FLoad(w, h, failing, state) else FStep(w, None);
      if l.raised.Some? then FFetch(l.world, Err(l.raised.value))
      else
        var x := l.world.handles[h];
        var t := if x.conn.Some? then l.world.(handles := l.world.handles[h := x.(touched := w.syncCount[x.conn.value])]) else l.world;
        FRead(t, h, name)
    else FRead(w, h, name)
  }

  /** The generic read on the instance dictionary. */
  function FRead(w: FWorld, h: HandleId, name: string): (r: FFetch)
    requires h in w.handles
    ensures r.world == w.(trace := w.trace + [AttrRead(h, name)])
    ensures r.value.Ok? <==> name in w.handles[h].dict
    ensures r.value.Ok? ==> r.value.value == w.handles[h].dict[name]
  {
    var w0 := w.(trace := w.trace + [AttrRead(h, name)]);
    if name in w.handles[h].dict then FFetch(w0, Ok(w.handles[h].dict[name])) else FFetch(w0, Err(AttributeError))
  }

  /** PersistentBase.__setattr__: a non-exempt name always goes through
      _p_note_change (which does nothing on an UNSAVED object); the write
      happens only if that succeeds. */
  function FSetAttr(w: FWorld, h: HandleId, name: string, v: Value, failing: set<HandleId>, state: State): (r: FStep)
    requires FLinked(w, h)
    ensures FFrame(w, r.world)
    ensures !Proxy.Exempt(name) ==> |r.world.trace| > |w.trace| && r.world.trace[|w.trace|] == ChangeCalled(h)
    ensures r.raised == None ==> name in r.world.handles[h].dict && r.world.handles[h].dict[name] == v
    ensures r.raised == None && w.handles[h].status != Ghost ==> r.world.handles[h].dict == w.handles[h].dict[name := v]
    ensures r.raised == None && !Proxy.Exempt(name) ==> r.world.handles[h].status == Unsaved
    ensures Proxy.Exempt(name) ==> r.raised == None && r.world.trace == w.trace + [AttrWritten(h, name)]
  {
    if Proxy.Exempt(name) then FStep(FWrite(w, h, name, v), None)
    else
      var n := FNoteChange(w, h, failing, state);
      if n.raised.Some? then n else FStep(FWrite(n.world, h, name, v), None)
  }

  /** The generic write on the instance dictionary. */
  function FWrite(w: FWorld, h: HandleId, name: string, v: Value): (r: FWorld)
    requires h in w.handles
    ensures r.trace == w.trace + [AttrWritten(h, name)] && r.syncCount == w.syncCount
    ensures r.handles == w.handles[h := w.handles[h].(dict := w.handles[h].dict[name := v])]
  {
    var x := w.handles[h];
    w.(handles := w.handles[h := x.(dict := x.dict[name := v])], trace := w.trace + [AttrWritten(h, name)])
  }

  /** For names without an embedded NUL, the fallback exempts exactly the
      names the C extension exempts. */
  lemma SameExemptions(name: string)
    requires '\0' !in name
    ensures Proxy.LoadTriggering(name) <==> !Proxy.Exempt(name)
  {
    Proxy.LoadTriggeringSpec(name);
  }
}

=== FILE: history.dfy ===
/** The history index of history.py: an oid-to-offset index that remembers
    every update applied to it, so that a HistoryFileStorage can step back
    and forth among its transactions. `history` holds the applied updates,
    oldest first; `future` holds the undone ones, the most recently undone
    last. */
module History {
  import opened Wrappers

  /** One transaction's offsets, or the whole index: oid to file offset. */
  type Offsets = map<Oid, int>

  datatype HistoryIndex = HistoryIndex(index: Offsets, history: seq<Offsets>, future: seq<Offsets>)

  /** The index the updates in `h` build, applied oldest first, a later
      offset replacing an earlier one: the reference for `index`. */
  function Fold(h: seq<Offsets>): (r: Offsets)
  {
    if h == [] then map[] else Fold(h[..|h| - 1]) + h[|h| - 1]
  }

  /** The offset of `oid` in the latest update of `h` that has one. */
  function Latest(h: seq<Offsets>, oid: Oid): (r: Option<int>)
  {
    if h == [] then None
    else if oid in h[|h| - 1] then Some(h[|h| - 1][oid])
    else Latest(h[..|h| - 1], oid)
  }

  /** The index always is the fold of the history. */
  predicate Inv(x: HistoryIndex)
  {
    x.index == Fold(x.history)
  }

  /** An oid is in the fold exactly when some update has it, with the
      latest update's offset. */
  lemma {:induction false} FoldLatest(h: seq<Offsets>, oid: Oid)
    ensures oid in Fold(h) <==> Latest(h, oid).Some?
    ensures oid in Fold(h) ==> Fold(h)[oid] == Latest(h, oid).value
    decreases |h|
  {
    if h != [] {
      FoldLatest(h[..|h| - 1], oid);
    }
  }

  /** update(arg): the update is remembered and applied. */
  function Update(x: HistoryIndex, arg: Offsets): (r: HistoryIndex)
    ensures r.history == x.history + [arg] && r.future == x.future
    ensures forall oid :: oid in r.index <==> oid in x.index || oid in arg
    ensures forall oid :: oid in arg ==> r.index[oid] == arg[oid]
    ensures forall oid :: oid in x.index && oid !in arg ==> r.index[oid] == x.index[oid]
  {
    x.(index := x.index + arg, history := x.history + [arg])
  }

  /** _HistoryIndex(other): an empty index with `other` as its first
      update. */
  function New(other: Offsets): (r: HistoryIndex)
    ensures r.history == [other] && r.future == [] && r.index == other
  {
    Update(HistoryIndex(map[], [], []), other)
  }

  /** The result of undoing transaction `t` on `index`, with `rest` the
      history before it: each oid of `t` (which must be in the index, else
      `del` raises KeyError) is removed and then given back the offset of
      the latest earlier update that has it. Each pass of the source's loop
      touches only its own oid, so the order of the oids does not matter. */
  function Undo(index: Offsets, t: Offsets, rest: seq<Offsets>): (r: Result<Offsets>)
    ensures r.Ok? <==> t.Keys <= index.Keys
    ensures r.Err? ==> r.error == KeyError
  {
    if !(t.Keys <= index.Keys) then Err(KeyError)
    else Ok(map oid | oid in index && (oid !in t || Latest(rest, oid).Some?) ::
              if oid in t then Latest(rest, oid).value else index[oid])
  }

  /** previous_transaction: None, with nothing changed, when there is no
      history; otherwise the last update moves to the future, is undone,
      and is returned. */
  function Previous(x: HistoryIndex): (r: Result<(Option<Offsets>, HistoryIndex)>)
    ensures x.history == [] ==> r == Ok((None, x))
    ensures r.Ok? && x.history != [] ==>
              && r.value.0 == Some(x.history[|x.history| - 1])
              && r.value.1.history == x.history[..|x.history| - 1]
              && r.value.1.future == x.future + [x.history[|x.history| - 1]]
  {
    if x.history == [] then Ok((None, x))
    else
      var t := x.history[|x.history| - 1];
      var rest := x.history[..|x.history| - 1];
      var index :- Undo(x.index, t, rest);
      Ok((Some(t), HistoryIndex(index, rest, x.future + [t])))
  }

  /** next_transaction: None, with nothing changed, when there is no
      future; otherwise the most recently undone update is applied again,
      returns to the history, and is returned. */
  function Next(x: HistoryIndex): (r: (Option<Offsets>, HistoryIndex))
    ensures x.future == [] ==> r == (None, x)
    ensures x.future != [] ==>
              && r.0 == Some(x.future[|x.future| - 1])
              && r.1.history == x.history + [x.future[|x.future| - 1]]
              && r.1.future == x.future[..|x.future| - 1]
  {
    if x.future == [] then (None, x)
    else
      var t := x.future[|x.future| - 1];
      (Some(t), HistoryIndex(x.index + t, x.history + [t], x.future[..|x.future| - 1]))
  }

  /** A new index keeps the invariant, and so does every update. */
  lemma NewInv(other: Offsets)
    ensures Inv(New(other))
  {
    assert [other][..0] == [];
  }

  lemma UpdateInv(x: HistoryIndex, arg: Offsets)
    requires Inv(x)
    ensures Inv(Update(x, arg))
  {
    assert (x.history + [arg])[..|x.history|] == x.history;
  }

  /** Stepping back keeps the invariant and never raises: afterwards the
      index is the fold of the shorter history, and each undone oid maps to
      its latest earlier offset or is gone. */
  lemma PreviousInv(x: HistoryIndex)
    requires Inv(x)
    ensures Previous(x).Ok?
    ensures Inv(Previous(x).value.1)
    ensures var y := Previous(x).value.1;
            forall oid :: x.history != [] && oid in x.history[|x.history| - 1] ==>
              (oid in y.index <==> Latest(y.history, oid).Some?)
              && (oid in y.index ==> y.index[oid] == Latest(y.history, oid).value)
  {
    if x.history != [] {
      var t := x.history[|x.history| - 1];
      var rest := x.history[..|x.history| - 1];
      assert x.index == Fold(rest) + t;
      var y := Previous(x).value.1;
      forall oid
        ensures oid in y.index <==> oid in Fold(rest)
        ensures oid in y.index ==> y.index[oid] == Fold(rest)[oid]
      {
        FoldLatest(rest, oid);
      }
    }
  }

  /** Stepping forward keeps the invariant. */
  lemma NextInv(x: HistoryIndex)
    requires Inv(x)
    ensures Inv(Next(x).1)
  {
    if x.future != [] {
      var y := Next(x).1;
      assert y.history[..|y.history| - 1] == x.history;
    }
  }

  /** Moving in either direction keeps the total number of transactions. */
  lemma MovesKeepCount(x: HistoryIndex)
    requires Inv(x)
    ensures var y := Previous(x);
            y.Ok? && |y.value.1.history| + |y.value.1.future| == |x.history| + |x.future|
    ensures var z := Next(x).1;
            |z.history| + |z.future| == |x.history| + |x.future|
  {
    PreviousInv(x);
  }

  /** previous followed by next restores the index exactly. */
  lemma PreviousThenNext(x: HistoryIndex)
    requires Inv(x) && x.history != []
    ensures Previous(x).Ok?
    ensures Next(Previous(x).value.1) == (Previous(x).value.0, x)
  {
    PreviousInv(x);
    var y := Previous(x).value.1;
    var t := x.history[|x.history| - 1];
    NextInv(y);
    assert y.history + [t] == x.history;
    assert (x.future + [t])[..|x.future|] == x.future;
  }

  /** next followed by previous restores the index exactly. */
  lemma NextThenPrevious(x: HistoryIndex)
    requires Inv(x) && x.future != []
    ensures var y := Next(x).1;
            Previous(y) == Ok((Next(x).0, x))
  {
    NextInv(x);
    var y := Next(x).1;
    PreviousInv(y);
    var z := Previous(y).value.1;
    var t := x.future[|x.future| - 1];
    assert y.history[..|y.history| - 1] == x.history;
    assert z.future == x.future;
    assert z.index == x.index;
  }

  /** The part of HistoryFileStorage modelled here: its history index and
      the oids it owes the connection as invalidations. */
  datatype Storage = Storage(index: HistoryIndex, invalid: set<Oid>)

  /** previous(): False when there is no earlier transaction; otherwise the
      oids of the undone transaction become invalidations. */
  function StoragePrevious(s: Storage): (r: Result<(bool, Storage)>)
    ensures s.index.history == [] ==> r == Ok((false, s))
  {
    var (t, index) :- Previous(s.index);
    if t.None? then Ok((false, s.(index := index)))
    else Ok((true, Storage(index, s.invalid + t.value.Keys)))
  }

  /** next(): False when there is no undone transaction; otherwise the oids
      of the reapplied transaction become invalidations. */
  function StorageNext(s: Storage): (r: (bool, Storage))
    ensures s.index.future == [] ==> r == (false, s)
  {
    var (t, index) := Next(s.index);
    if t.None? then (false, s.(index := index))
    else (true, Storage(index, s.invalid + t.value.Keys))
  }

  /** sync(): the pending invalidations, which are then cleared. */
  function Sync(s: Storage): (r: (set<Oid>, Storage))
    ensures r.1.invalid == {} && r.1.index == s.index
  {
    (s.invalid, s.(invalid := {}))
  }

  /** end(): this storage takes no commits. */
  function End(s: Storage): (r: Result<Storage>)
    ensures r == Err(RuntimeError)
  {
    Err(RuntimeError)
  }

  /** previous() answers True exactly when there was a transaction to
      undo, and the next sync reports that transaction's oids along with
      those already pending. */
  lemma StoragePreviousSpec(s: Storage)
    requires Inv(s.index)
    ensures StoragePrevious(s).Ok?
    ensures var (moved, s2) := StoragePrevious(s).value;
            && (moved <==> s.index.history != [])
            && Sync(s2).0 == s.invalid + (if moved then s.index.history[|s.index.history| - 1].Keys else {})
  {
    PreviousInv(s.index);
  }

  /** next() answers True exactly when there was a transaction to redo, and
      the next sync reports that transaction's oids along with those already
      pending. */
  lemma StorageNextSpec(s: Storage)
    ensures var (moved, s2) := StorageNext(s);
            && (moved <==> s.index.future != [])
            && Sync(s2).0 == s.invalid + (if moved then s.index.future[|s.index.future| - 1].Keys else {})
  {
  }
}

=== FILE: int_array.dfy ===
/** IntArray of utils.py: non-negative integers kept as big-endian words of
    a WordArray. A word holds the low `width` bytes of the int8 encoding;
    reading pads it back with zero bytes. A new array is filled with 0xff
    bytes, and a word of all 0xff bytes is the "blank" that `get` reports
    as missing. */
module IntArrays {
  import opened Wrappers
  import Codec
  import ByteArrays
  import WordArrays

  /** An open IntArray: its words. */
  datatype IntArray = IntArray(words: WordArrays.WordArray)

  predicate Valid(a: IntArray)
  {
    WordArrays.Valid(a.words)
  }

  /** The zero bytes that turn a word back into 8 bytes: 8 - width of
      them, none when the width is above 8, as multiplying a byte string
      by a negative number gives the empty string. */
  function Pad(width: nat): (r: Bytes)
    ensures |r| == if width <= 8 then 8 - width else 0
  {
    if width <= 8 then ByteArrays.Fill(0, 8 - width) else []
  }

  /** The blank word: all 0xff. */
  function Blank(width: nat): (r: Bytes)
  {
    ByteArrays.Fill(0xff, width)
  }

  /** Leading zero bytes do not change a big-endian value. */
  lemma {:induction false} BigEndianPadded(k: nat, s: Bytes)
    ensures Codec.BigEndian(ByteArrays.Fill(0, k) + s) == Codec.BigEndian(s)
    decreases |s|, k
  {
    var t := ByteArrays.Fill(0, k) + s;
    if |s| > 0 {
      assert t[..|t| - 1] == ByteArrays.Fill(0, k) + s[..|s| - 1];
      BigEndianPadded(k, s[..|s| - 1]);
    } else if k > 0 {
      assert t[..|t| - 1] == ByteArrays.Fill(0, k - 1) + s;
      BigEndianPadded(k - 1, s);
    }
  }

  /** All 0xff bytes: the largest value of the width. */
  lemma {:induction false} BigEndianBlank(w: nat)
    ensures Codec.BigEndian(Blank(w)) == Codec.Pow256(w) - 1
  {
    if w > 0 {
      assert Blank(w)[..w - 1] == Blank(w - 1);
      BigEndianBlank(w - 1);
      assert Codec.BigEndian(Blank(w)) == (Codec.Pow256(w - 1) - 1) * 256 + 255;
    }
  }

  /** The first byte of a big-endian string weighs 256**(len - 1). */
  lemma {:induction false} BigEndianFront(s: Bytes)
    requires |s| > 0
    ensures Codec.BigEndian(s) == s[0] as nat * Codec.Pow256(|s| - 1) + Codec.BigEndian(s[1..])
    decreases |s|
  {
    if |s| > 1 {
      var p := s[..|s| - 1];
      BigEndianFront(p);
      assert p[1..] == s[1..][..|s| - 2];
      var x := s[0] as nat;
      var q := Codec.Pow256(|s| - 2);
      var a := Codec.BigEndian(p[1..]);
      var last := s[|s| - 1] as nat;
      assert Codec.BigEndian(p) == x * q + a;
      assert Codec.BigEndian(s) == Codec.BigEndian(p) * 256 + last;
      assert Codec.BigEndian(s[1..]) == a * 256 + last;
      assert Codec.Pow256(|s| - 1) == 256 * q;
      Distribute(x, q, a);
    } else {
      assert s[..0] == [];
    }
  }

  lemma Distribute(x: nat, q: nat, a: nat)
    ensures (x * q + a) * 256 == x * (256 * q) + a * 256
  {
  }

  /** Pow256 grows with the width. */
  lemma {:induction false} Pow256Grows(a: nat, b: nat)
    requires a <= b
    ensures Codec.Pow256(a) <= Codec.Pow256(b)
    decreases b
  {
    if a < b {
      Pow256Grows(a, b - 1);
    }
  }

  /** The int8 encoding of `v` starts with the padding of a word of width
      `w` exactly when `v` fits that width. */
  lemma PadPrefix(v: nat, w: nat)
    requires w <= 8 && v < Codec.INT8_LIMIT
    ensures var s := Codec.Int8ToStr(v).value;
            s[..8 - w] == Pad(w) <==> v < Codec.Pow256(w)
  {
    var s := Codec.Int8ToStr(v).value;
    assert s == s[..8 - w] + s[8 - w..];
    if s[..8 - w] == Pad(w) {
      BigEndianPadded(8 - w, s[8 - w..]);
      Codec.BigEndianBound(s[8 - w..]);
    }
    if v < Codec.Pow256(w) {
      var t := Codec.Encode(v, w);
      BigEndianPadded(8 - w, t);
      Codec.BigEndianInjective(s, Pad(w) + t);
      assert s[..8 - w] == (Pad(w) + t)[..8 - w];
    }
  }

  /** bytes.lstrip(b'\0'). */
  function LStripZeros(s: Bytes): (r: Bytes)
    ensures |r| <= |s|
  {
    if s != [] && s[0] == 0 then LStripZeros(s[1..]) else s
  }

  /** Stripping removes only leading zero bytes and stops at a nonzero
      one. */
  lemma {:induction false} LStripSpec(s: Bytes)
    ensures var r := LStripZeros(s);
            && s == ByteArrays.Fill(0, |s| - |r|) + r
            && (r != [] ==> r[0] != 0)
    decreases |s|
  {
    if s != [] && s[0] == 0 {
      LStripSpec(s[1..]);
      var r := LStripZeros(s);
      assert s == [0] + s[1..];
      assert ByteArrays.Fill(0, |s| - |r|) == [0] + ByteArrays.Fill(0, |s| - 1 - |r|);
    } else {
      assert ByteArrays.Fill(0, 0) == [];
    }
  }

  /** IntArray.generate's word width: 8 without a maximum, otherwise the
      bytes of int8(maximum + 1) left after stripping leading zeros. */
  function WidthFor(maximum: Option<int>): (r: Result<nat>)
    ensures maximum.None? ==> r == Ok(8)
    ensures maximum.Some? ==> (r.Ok? <==> -1 <= maximum.value < Codec.INT8_LIMIT - 1)
    ensures r.Err? ==> r.error == StructError
  {
    match maximum
    case None => Ok(8)
    case Some(m) =>
      var s :- Codec.Int8ToStr(m + 1);
      Ok(|LStripZeros(s)|)
  }

  /** The width chosen for a maximum is the least that holds maximum + 1,
      so that every value up to the maximum fits and none of them is the
      blank value. */
  lemma WidthForSpec(m: int)
    requires WidthFor(Some(m)).Ok?
    ensures var w := WidthFor(Some(m)).value;
            && w <= 8
            && m + 1 < Codec.Pow256(w)
            && (w > 0 ==> Codec.Pow256(w - 1) <= m + 1)
  {
    var s := Codec.Int8ToStr(m + 1).value;
    var r := LStripZeros(s);
    assert WidthFor(Some(m)).value == |r|;
    assert Codec.BigEndian(r) == m + 1 by {
      LStripSpec(s);
      BigEndianPadded(8 - |r|, r);
    }
    assert m + 1 < Codec.Pow256(|r|) by {
      Codec.BigEndianBound(r);
    }
    if |r| > 0 {
      assert r[0] != 0 by { LStripSpec(s); }
      LeadingByte(r);
    }
  }

  /** A string with a nonzero first byte is worth at least 256**(len - 1). */
  lemma LeadingByte(r: Bytes)
    requires |r| > 0 && r[0] != 0
    ensures Codec.Pow256(|r| - 1) <= Codec.BigEndian(r)
  {
    var x := r[0] as nat;
    var q := Codec.Pow256(|r| - 1);
    var rest := Codec.BigEndian(r[1..]);
    assert Codec.BigEndian(r) == x * q + rest by { BigEndianFront(r); }
    assert x >= 1;
    AtLeastOnce(x, q);
  }

  lemma AtLeastOnce(x: nat, q: nat)
    requires x >= 1
    ensures x * q >= q
  {
  }

  /** IntArray.generate: the file must end at `start`; the words are
      initialised to 0xff bytes, so that every word is blank. */
  function Generate(file: Bytes, start: nat, count: Option<int>, maximum: Option<int>): (r: Result<Bytes>)
    requires start <= |file|
    ensures start != |file| ==> r == Err(AssertionError)
    ensures r.Ok? ==> WidthFor(maximum).Ok? && count.Some?
    ensures r.Ok? ==> r == WordArrays.Generate(file, start, Some(WidthFor(maximum).value), count, 0xff)
  {
    if start != |file| then Err(AssertionError)
    else
      var w :- WidthFor(maximum);
      WordArrays.Generate(file, start, Some(w), count, 0xff)
  }

  /** IntArray(file, count, maximum) at position `start`: a new array when
      the file ends there, then the WordArray found at `start`. */
  function Open(file: Bytes, start: nat, count: Option<int>, maximum: Option<int>): (r: Result<IntArray>)
    requires start <= |file|
    ensures r.Ok? ==> Valid(r.value)
  {
    var f :- if |file| == start then Generate(file, start, count, maximum) else Ok(file);
    var words :- WordArrays.Open(f, start, None, None);
    Ok(IntArray(words))
  }

  /** The value of a word: str_to_int8(pad + word), which fails with
      struct.error unless that is 8 bytes. */
  function Decode(width: nat, word: Bytes): (r: Result<nat>)
  {
    Codec.StrToInt8(Pad(width) + word)
  }

  /** get_blank_value. */
  function BlankValue(a: IntArray): (r: Result<nat>)
    ensures a.words.width <= 8 <==> r.Ok?
    ensures r.Ok? ==> r.value == Codec.Pow256(a.words.width) - 1
  {
    var w := a.words.width;
    BigEndianPadded(|Pad(w)|, Blank(w));
    BigEndianBlank(w);
    Decode(w, Blank(w))
  }

  /** get(j, default): None stands for the default, returned for an index
      out of range and for a blank word. */
  function Get(a: IntArray, j: int): (r: Result<Option<nat>>)
    requires Valid(a)
  {
    match WordArrays.Get(a.words, j)
    case Err(_) => Ok(None)
    case Ok(word) =>
      if word == Blank(a.words.width) then Ok(None)
      else
        var v :- Decode(a.words.width, word);
        Ok(Some(v))
  }

  /** __getitem__. */
  function GetItem(a: IntArray, j: int): (r: Result<nat>)
    requires Valid(a)
    ensures WordArrays.Get(a.words, j).Err? ==> r == Err(IndexError)
  {
    var word :- WordArrays.Get(a.words, j);
    Decode(a.words.width, word)
  }

  /** __setitem__: the value is encoded as int8 (struct.error when it is
      negative or too large), must start with the padding (ValueError when
      it is too wide for a word), and its last `width` bytes are stored. */
  function SetItem(a: IntArray, j: int, v: int): (r: Result<IntArray>)
    requires Valid(a)
    ensures r.Ok? ==> Valid(r.value) && r.value.words.width == a.words.width
                      && r.value.words.count == a.words.count
  {
    var s :- Codec.Int8ToStr(v);
    var pad := Pad(a.words.width);
    if s[..|pad|] != pad then Err(ValueError)
    else
      var words :- WordArrays.Set(a.words, j, s[|pad|..]);
      Ok(IntArray(words))
  }

  /** When a setting fails, and why: an int8 out of range first, then a
      value too wide for the word, then the index. */
  lemma SetItemErrors(a: IntArray, j: int, v: int)
    requires Valid(a) && 0 < a.words.width <= 8
    ensures var r := SetItem(a, j, v);
            var w := a.words.width;
            && (!(0 <= v < Codec.INT8_LIMIT) ==> r == Err(StructError))
            && (0 <= v < Codec.INT8_LIMIT && v >= Codec.Pow256(w) ==> r == Err(ValueError))
            && (0 <= v < Codec.Pow256(w) ==> (r.Ok? <==> -(a.words.count as int) <= j < a.words.count))
            && (0 <= v < Codec.Pow256(w) && r.Err? ==> r.error == IndexError)
  {
    var w := a.words.width;
    Pow256Grows(w, 8);
    Codec.Pow256Values();
    if 0 <= v < Codec.INT8_LIMIT {
      PadPrefix(v, w);
    }
  }

  /** The value stored reads back through __getitem__, and through get
      unless it is the blank value; other indices read as before. */
  lemma SetGet(a: IntArray, j: int, v: int, k: int)
    requires Valid(a) && SetItem(a, j, v).Ok?
    requires -(a.words.count as int) <= k < a.words.count
    ensures var b := SetItem(a, j, v).value;
            var w := a.words.width;
            if WordArrays.Position(a.words, k) == WordArrays.Position(a.words, j) then
              && GetItem(b, k) == Ok(v)
              && Get(b, k) == Ok(if v == Codec.Pow256(w) - 1 then None else Some(v))
            else GetItem(b, k) == GetItem(a, k) && Get(b, k) == Get(a, k)
  {
    var w := a.words.width;
    var s := Codec.Int8ToStr(v).value;
    var pad := Pad(w);
    var word := s[|pad|..];
    WordArrays.SetGet(a.words, j, word, k);
    var b := SetItem(a, j, v).value;
    if WordArrays.Position(a.words, k) == WordArrays.Position(a.words, j) {
      assert pad + word == s;
      Codec.Int8RoundTrip(v);
      assert GetItem(b, k) == Ok(v);
      assert w <= 8;
      BigEndianPadded(|pad|, Blank(w));
      BigEndianBlank(w);
      if word == Blank(w) {
        assert v == Codec.Pow256(w) - 1;
      } else if v == Codec.Pow256(w) - 1 {
        Codec.BigEndianInjective(s, pad + Blank(w));
        assert false;
      }
    }
  }

  /** A newly generated array holds 0xff bytes in every word. */
  lemma NewContents(file: Bytes, count: int, maximum: Option<int>)
    requires Open(file, |file|, Some(count), maximum).Ok?
    ensures var a := Open(file, |file|, Some(count), maximum).value;
            ByteArrays.Contents(a.words.bytes) == ByteArrays.Fill(0xff, WordArrays.Span(a.words.count, a.words.width))
  {
    var gen := Generate(file, |file|, Some(count), maximum);
    var w := WidthFor(maximum).value;
    assert gen.Ok? && gen == WordArrays.Generate(file, |file|, Some(w), Some(count), 0xff);
    var words := WordArrays.Open(gen.value, |file|, None, None);
    assert Open(file, |file|, Some(count), maximum) == Ok(IntArray(words.value)) by {
      assert words.Ok?;
    }
    WordArrays.ReopenGenerated(file, w, count, 0xff, None, None);
  }

  /** A newly generated array reads as blank everywhere. */
  lemma NewIsBlank(file: Bytes, count: int, maximum: Option<int>, j: int)
    requires Open(file, |file|, Some(count), maximum).Ok?
    ensures Get(Open(file, |file|, Some(count), maximum).value, j) == Ok(None)
  {
    var a := Open(file, |file|, Some(count), maximum).value;
    NewContents(file, count, maximum);
    var p := WordArrays.Position(a.words, j);
    if 0 <= p < a.words.count && a.words.width > 0 {
      WordArrays.WordOfFill(a.words, 0xff, p);
    }
  }

  /** __iter__: the value of each word in turn. */
  function Iterate(a: IntArray): (r: Result<seq<nat>>)
    requires Valid(a)
  {
    var words :- WordArrays.Iterate(a.words);
    DecodeAll(a.words.width, words)
  }

  /** The values of a sequence of words, failing at the first that does
      not decode. */
  function DecodeAll(width: nat, words: seq<Bytes>): (r: Result<seq<nat>>)
    ensures r.Ok? ==> |r.value| == |words|
  {
    if words == [] then Ok([])
    else
      var v :- Decode(width, words[0]);
      var rest :- DecodeAll(width, words[1..]);
      Ok([v] + rest)
  }

  lemma {:induction false} DecodeAllAt(width: nat, words: seq<Bytes>, i: nat)
    requires DecodeAll(width, words).Ok? && i < |words|
    ensures Decode(width, words[i]) == Ok(DecodeAll(width, words).value[i])
    decreases |words|
  {
    if i > 0 {
      DecodeAllAt(width, words[1..], i - 1);
    }
  }

  /** Iterating yields what __getitem__ yields. */
  lemma IterateSpec(a: IntArray, p: nat)
    requires Valid(a) && Iterate(a).Ok? && p < a.words.count
    ensures GetItem(a, p) == Ok(Iterate(a).value[p])
  {
    var words := WordArrays.Iterate(a.words).value;
    WordArrays.IterateSpec(a.words);
    DecodeAllAt(a.words.width, words, p);
  }

  /** iteritems: the index and value of each non-blank word. */
  function Items(a: IntArray): (r: Result<seq<(nat, nat)>>)
    requires Valid(a)
  {
    var words :- WordArrays.Iterate(a.words);
    ItemsFrom(a.words.width, words, 0)
  }

  function ItemsFrom(width: nat, words: seq<Bytes>, from: nat): (r: Result<seq<(nat, nat)>>)
    decreases |words|
  {
    if words == [] then Ok([])
    else
      var rest :- if words[0] == Blank(width) then Ok([]) else
                   var v :- Decode(width, words[0]); Ok([(from, v)]);
      var more :- ItemsFrom(width, words[1..], from + 1);
      Ok(rest + more)
  }

  /** One step of iteritems: the first word's item, if it is not blank,
      followed by the items of the rest. */
  lemma ItemsFromStep(width: nat, words: seq<Bytes>, from: nat)
    requires words != [] && ItemsFrom(width, words, from).Ok?
    ensures ItemsFrom(width, words[1..], from + 1).Ok?
    ensures words[0] != Blank(width) ==> Decode(width, words[0]).Ok?
    ensures ItemsFrom(width, words, from).value
            == (if words[0] == Blank(width) then [] else [(from, Decode(width, words[0]).value)])
               + ItemsFrom(width, words[1..], from + 1).value
  {
  }

  lemma {:induction false} ItemsFromSound(width: nat, words: seq<Bytes>, from: nat)
    requires ItemsFrom(width, words, from).Ok?
    ensures forall x :: x in ItemsFrom(width, words, from).value ==>
              from <= x.0 < from + |words| && words[x.0 - from] != Blank(width)
              && Decode(width, words[x.0 - from]) == Ok(x.1)
    decreases |words|
  {
    if words != [] {
      ItemsFromStep(width, words, from);
      ItemsFromSound(width, words[1..], from + 1);
    }
  }

  lemma {:induction false} ItemsFromComplete(width: nat, words: seq<Bytes>, from: nat)
    requires ItemsFrom(width, words, from).Ok?
    ensures forall j :: 0 <= j < |words| && words[j] != Blank(width) ==>
              exists x :: x in ItemsFrom(width, words, from).value && x.0 == from + j
    decreases |words|
  {
    if words != [] {
      ItemsFromStep(width, words, from);
      ItemsFromComplete(width, words[1..], from + 1);
      var r := ItemsFrom(width, words, from).value;
      var more := ItemsFrom(width, words[1..], from + 1).value;
      forall j | 0 <= j < |words| && words[j] != Blank(width)
        ensures exists x :: x in r && x.0 == from + j
      {
        if j == 0 {
          assert (from, Decode(width, words[0]).value) in r;
        } else {
          assert words[1..][j - 1] == words[j];
          var u :| u in more && u.0 == from + 1 + (j - 1);
          assert u in r;
        }
      }
    }
  }

  lemma {:induction false} ItemsFromAscending(width: nat, words: seq<Bytes>, from: nat)
    requires ItemsFrom(width, words, from).Ok?
    ensures var r := ItemsFrom(width, words, from).value;
            forall i, k :: 0 <= i < k < |r| ==> r[i].0 < r[k].0
    decreases |words|
  {
    if words != [] {
      ItemsFromStep(width, words, from);
      ItemsFromAscending(width, words[1..], from + 1);
      ItemsFromSound(width, words[1..], from + 1);
      var r := ItemsFrom(width, words, from).value;
      var more := ItemsFrom(width, words[1..], from + 1).value;
      if words[0] != Blank(width) {
        forall i, k | 0 <= i < k < |r| ensures r[i].0 < r[k].0 {
          assert r[k] == more[k - 1];
          if i > 0 {
            assert r[i] == more[i - 1];
          } else {
            assert r[k] in more;
          }
        }
      }
    }
  }

  /** iteritems yields exactly the non-blank positions, in ascending
      order, each with the value get reports for it. */
  lemma ItemsFromSpec(width: nat, words: seq<Bytes>, from: nat)
    requires ItemsFrom(width, words, from).Ok?
    ensures forall x :: x in ItemsFrom(width, words, from).value ==>
              from <= x.0 < from + |words| && words[x.0 - from] != Blank(width)
              && Decode(width, words[x.0 - from]) == Ok(x.1)
    ensures forall j :: 0 <= j < |words| && words[j] != Blank(width) ==>
              exists x :: x in ItemsFrom(width, words, from).value && x.0 == from + j
    ensures var r := ItemsFrom(width, words, from).value;
            forall i, k :: 0 <= i < k < |r| ==> r[i].0 < r[k].0
  {
    ItemsFromSound(width, words, from);
    ItemsFromComplete(width, words, from);
    ItemsFromAscending(width, words, from);
  }

  /** len(): the number of words. */
  function Length(a: IntArray): (r: nat)
  {
    a.words.count
  }
}

=== FILE: int_set.dfy ===
/** IntSet of utils.py: a set of non-negative integers kept as a BitArray,
    where bit n is 1 exactly when n is a member. Adding a number at or
    beyond the capacity first grows the array. */
module IntSets {
  import opened Wrappers
  import ByteArrays
  import Bits

  /** The capacity a set gets by default: 2**10 - 1. */
  const DEFAULT_SIZE: int := 1023

  datatype IntSet = IntSet(bits: Bits.BitArray)

  /** Bit `p` of the bytes, also past the capacity, up to the last byte. */
  function Bit(a: Bits.BitArray, p: nat): (r: nat)
    requires ByteArrays.Valid(a.bytes) && p < 8 * a.bytes.size
  {
    Bits.BitOf(ByteArrays.Contents(a.bytes)[p / 8], p % 8)
  }

  /** What the set's operations keep: the bit array is valid and ends its
      file, as it does on the set's own buffer, and the bits past the
      capacity in the last byte are clear. */
  predicate Clean(s: IntSet)
  {
    && Bits.Valid(s.bits)
    && |s.bits.bytes.file| == s.bits.bytes.start + s.bits.bytes.size
    && forall p: nat :: s.bits.size <= p < 8 * s.bits.bytes.size ==> Bit(s.bits, p) == 0
  }

  /** The abstract set: `m` is a member when it is below the capacity and
      its bit is 1. */
  predicate Member(s: IntSet, m: nat)
    requires Bits.Valid(s.bits)
  {
    m < s.bits.size && Bits.BitAt(s.bits, m) == 1
  }

  /** IntSet(size, file): a BitArray of that size where the file is. */
  function Create(file: Bytes, start: nat, size: int): (r: Result<IntSet>)
    requires start <= |file|
    ensures r.Ok? ==> r.value.bits.size == size
  {
    var b :- Bits.Create(file, start, size);
    Ok(IntSet(b))
  }

  lemma BitOfZero(i: nat)
    requires i < 8
    ensures Bits.BitOf(0, i) == 0
  {
  }

  /** A set made at the end of a file is empty. */
  lemma CreateEmpty(file: Bytes, size: nat)
    ensures var r := Create(file, |file|, size);
            r.Ok? && Clean(r.value) && forall m: nat :: !Member(r.value, m)
  {
    var s := Create(file, |file|, size).value;
    var a := ByteArrays.ByteArray(file, |file|, 0);
    ByteArrays.SetSizeSpec(a, Bits.ByteCount(size), 0);
    assert forall q :: 0 <= q < s.bits.bytes.size ==> ByteArrays.Contents(s.bits.bytes)[q] == 0;
    forall p: nat | p < 8 * s.bits.bytes.size
      ensures Bit(s.bits, p) == 0
    {
      BitOfZero(p % 8);
    }
  }

  /** Membership of a non-negative number through __contains__. */
  lemma ContainsSpec(s: IntSet, n: nat)
    requires Bits.Valid(s.bits)
    ensures Contains(s, n) == Ok(Member(s, n))
  {
  }

  /** __contains__: False at or beyond the capacity; otherwise the bit,
      where a negative number is an index from the end, and an IndexError
      below -capacity. */
  function Contains(s: IntSet, n: int): (r: Result<bool>)
    requires Bits.Valid(s.bits)
    ensures n >= s.bits.size ==> r == Ok(false)
    ensures n < -s.bits.size ==> r == Err(IndexError)
    ensures -s.bits.size <= n < 0 ==> r == Ok(Member(s, s.bits.size + n))
  {
    if n >= s.bits.size then Ok(false)
    else
      var b :- Bits.Get(s.bits, n);
      Ok(b == 1)
  }

  /** add(n) with the capacity `grown` taken when n is not below the
      current one; the bit is then set. */
  function AddGrowing(s: IntSet, n: int, grown: int): (r: Result<IntSet>)
    requires Bits.Valid(s.bits)
    requires n >= s.bits.size ==> grown >= 0
  {
    if n >= s.bits.size then
      var b :- Bits.SetSize(s.bits, grown);
      var c :- Bits.Set(b, n, true);
      Ok(IntSet(c))
    else
      var c :- Bits.Set(s.bits, n, true);
      Ok(IntSet(c))
  }

  /** int(n * 1.2) for the non-negative n it is applied to: the product
      truncated, as six fifths rounded down. */
  function GrowAsWritten(n: nat): (r: nat)
  {
    (6 * n) / 5
  }

  /** add(n) as written: the new capacity int(n * 1.2) is not above n
      when n < 5, and the bit it then sets is out of range. */
  function AddAsWritten(s: IntSet, n: int): (r: Result<IntSet>)
    requires Bits.Valid(s.bits)
  {
    if n >= s.bits.size then AddGrowing(s, n, GrowAsWritten(n)) else AddGrowing(s, n, 0)
  }

  /** For every n from 0 to 4 at or beyond the capacity, add(n) fails. */
  lemma AddAsWrittenFails(s: IntSet, n: int)
    requires Clean(s) && s.bits.size <= n <= 4
    ensures AddAsWritten(s, n) == Err(IndexError)
  {
    assert GrowAsWritten(n) == n;
  }

  /** The smallest case: IntSet(0) on a new buffer, then add(1). */
  lemma AddOneToEmpty()
    ensures var s := Create([], 0, 0);
            s.Ok? && AddAsWritten(s.value, 1) == Err(IndexError)
  {
    CreateEmpty([], 0);
    AddAsWrittenFails(Create([], 0, 0).value, 1);
  }

  /** The growth the code evidently intends: at least one past n. */
  function Grow(n: nat): (r: nat)
    ensures r > n
  {
    if GrowAsWritten(n) > n then GrowAsWritten(n) else n + 1
  }

  /** add(n) with that growth. */
  function Add(s: IntSet, n: int): (r: Result<IntSet>)
    requires Bits.Valid(s.bits)
  {
    if n >= s.bits.size then AddGrowing(s, n, Grow(n)) else AddGrowing(s, n, 0)
  }

  /** discard(n): clears the bit when n is below the capacity (an index
      from the end when negative); otherwise nothing happens. */
  function Discard(s: IntSet, n: int): (r: Result<IntSet>)
    requires Bits.Valid(s.bits)
    ensures n >= s.bits.size ==> r == Ok(s)
  {
    if n < s.bits.size then
      var c :- Bits.Set(s.bits, n, false);
      Ok(IntSet(c))
    else Ok(s)
  }

  /** The byte count of a larger size is not smaller. */
  lemma ByteCountGrows(n: nat, m: nat)
    requires n <= m
    ensures Bits.ByteCount(n) <= Bits.ByteCount(m)
  {
  }

  /** Setting bit `n` below the capacity keeps the set clean and changes
      that bit only. */
  lemma SetSpec(s: IntSet, n: nat, v: bool)
    requires Clean(s) && n < s.bits.size
    ensures Bits.Set(s.bits, n, v).Ok?
    ensures var t := IntSet(Bits.Set(s.bits, n, v).value);
            && Clean(t)
            && t.bits.bytes.size == s.bits.bytes.size
            && forall p: nat :: p < 8 * s.bits.bytes.size ==>
                 Bit(t.bits, p) == if p == n then (if v then 1 else 0) else Bit(s.bits, p)
  {
    var a := s.bits;
    Bits.SetByte(a, n, v);
    var t := IntSet(Bits.Set(a, n, v).value);
    assert t.bits.bytes == Bits.Rewritten(a.bytes, n, v);
    assert |t.bits.bytes.file| == |a.bytes.file|;
    forall p: nat | p < 8 * a.bytes.size
      ensures Bit(t.bits, p) == if p == n then (if v then 1 else 0) else Bit(s.bits, p)
    {
      if p / 8 == n / 8 {
        Bits.RewrittenSameByte(a.bytes, n, v, p);
      } else {
        Bits.RewrittenOtherByte(a.bytes, n, v, p / 8);
      }
    }
  }

  /** Growing a clean set to a larger capacity keeps it clean and adds
      only clear bits. */
  lemma GrowSpec(s: IntSet, g: nat)
    requires Clean(s) && s.bits.size <= g
    ensures Bits.SetSize(s.bits, g).Ok?
    ensures var t := IntSet(Bits.SetSize(s.bits, g).value);
            && Clean(t)
            && t.bits.size == g
            && t.bits.bytes.size >= s.bits.bytes.size
            && (forall p: nat :: p < 8 * s.bits.bytes.size ==> Bit(t.bits, p) == Bit(s.bits, p))
            && (forall p: nat :: 8 * s.bits.bytes.size <= p < 8 * t.bits.bytes.size ==> Bit(t.bits, p) == 0)
  {
    var a := s.bits;
    ByteCountGrows(a.size, g);
    ByteArrays.SetSizeSpec(a.bytes, Bits.ByteCount(g), 0);
    var t := IntSet(Bits.SetSize(a, g).value);
    var before := ByteArrays.Contents(a.bytes);
    var now := ByteArrays.Contents(t.bits.bytes);
    assert |t.bits.bytes.file| == t.bits.bytes.start + t.bits.bytes.size;
    forall p: nat | p < 8 * a.bytes.size
      ensures Bit(t.bits, p) == Bit(s.bits, p)
    {
      assert now[p / 8] == before[p / 8];
    }
    forall p: nat | 8 * a.bytes.size <= p < 8 * t.bits.bytes.size
      ensures Bit(t.bits, p) == 0
    {
      assert now[p / 8] == 0;
      BitOfZero(p % 8);
    }
  }

  /** A member is a set bit below the capacity. */
  lemma MemberBit(s: IntSet, m: nat)
    requires Clean(s)
    ensures Member(s, m) <==> m < 8 * s.bits.bytes.size && Bit(s.bits, m) == 1
  {
  }

  /** After add(n), the members are those before and n. */
  lemma AddSpec(s: IntSet, n: nat)
    requires Clean(s)
    ensures Add(s, n).Ok?
    ensures var t := Add(s, n).value;
            Clean(t) && forall m: nat :: Member(t, m) <==> m == n || Member(s, m)
  {
    if n >= s.bits.size {
      GrowSpec(s, Grow(n));
      var g := IntSet(Bits.SetSize(s.bits, Grow(n)).value);
      SetSpec(g, n, true);
      var t := Add(s, n).value;
      forall m: nat
        ensures Member(t, m) <==> m == n || Member(s, m)
      {
        MemberBit(s, m);
        MemberBit(g, m);
        MemberBit(t, m);
      }
    } else {
      SetSpec(s, n, true);
      var t := Add(s, n).value;
      forall m: nat
        ensures Member(t, m) <==> m == n || Member(s, m)
      {
        MemberBit(s, m);
        MemberBit(t, m);
      }
    }
  }

  /** After discard(n), the members are those before except n. */
  lemma DiscardSpec(s: IntSet, n: nat)
    requires Clean(s)
    ensures Discard(s, n).Ok?
    ensures var t := Discard(s, n).value;
            Clean(t) && forall m: nat :: Member(t, m) <==> m != n && Member(s, m)
  {
    if n < s.bits.size {
      SetSpec(s, n, false);
      var t := Discard(s, n).value;
      forall m: nat
        ensures Member(t, m) <==> m != n && Member(s, m)
      {
        MemberBit(s, m);
        MemberBit(t, m);
      }
    }
  }
}

=== FILE: memory_storage.dfy ===
/** MemoryStorage of storage.py: records kept in a dictionary, a pending
    transaction that begin() opens and end() applies, and a counter that
    hands out new oids. */
module MemoryStorages {
  import opened Wrappers
  import Codec

  /** The records, the transaction under way if any, and the last oid
      number handed out (-1 before the first). */
  datatype Memory = Memory(records: map<Oid, Bytes>, transaction: Option<map<Oid, Bytes>>, last: int)

  /** MemoryStorage(): nothing stored, no transaction, no oid handed out. */
  function New(): (m: Memory)
    ensures m.records == map[] && m.transaction.None? && m.last == -1
  {
    Memory(map[], None, -1)
  }

  /** new_oid(): the counter goes up, then its new value is packed as an
      int8; packing fails with struct.error past 2**64 - 1, after the
      counter has moved. */
  function NewOid(m: Memory): (r: (Result<Oid>, Memory))
  {
    var n := m.last + 1;
    (Codec.Int8ToStr(n), m.(last := n))
  }

  /** load(oid): the stored record, or KeyError. */
  function Load(m: Memory, oid: Oid): (r: Result<Bytes>)
    ensures r.Ok? <==> oid in m.records
    ensures r.Ok? ==> r.value == m.records[oid]
  {
    if oid in m.records then Ok(m.records[oid]) else Err(KeyError)
  }

  /** bulk_load(oids): each record in turn; the first missing one raises
      KeyError. */
  function BulkLoad(m: Memory, oids: seq<Oid>): (r: Result<seq<Bytes>>)
    ensures r.Ok? <==> forall i :: 0 <= i < |oids| ==> oids[i] in m.records
    ensures r.Ok? ==> |r.value| == |oids| && forall i :: 0 <= i < |oids| ==> Load(m, oids[i]) == Ok(r.value[i])
  {
    if oids == [] then Ok([])
    else
      var first :- Load(m, oids[0]);
      var rest :- BulkLoad(m, oids[1..]);
      assert forall i :: 1 <= i < |oids| ==> oids[i] == oids[1..][i - 1];
      Ok([first] + rest)
  }

  /** begin(): a new, empty transaction, replacing any under way. */
  function Begin(m: Memory): (r: Memory)
    ensures r.transaction == Some(map[]) && r.records == m.records && r.last == m.last
  {
    m.(transaction := Some(map[]))
  }

  /** store(oid, record): the record joins the transaction; with none under
      way the assignment into None raises TypeError. */
  function Store(m: Memory, oid: Oid, record: Bytes): (r: Result<Memory>)
    ensures r.Ok? <==> m.transaction.Some?
    ensures r.Err? ==> r.error == TypeError
    ensures r.Ok? ==> r.value.records == m.records && r.value.last == m.last
  {
    match m.transaction
    case None => Err(TypeError)
    case Some(t) => Ok(m.(transaction := Some(t[oid := record])))
  }

  /** end(): the transaction's records replace or join the stored ones and
      the transaction closes; with none under way update(None) raises
      TypeError. */
  function End(m: Memory): (r: Result<Memory>)
    ensures r.Ok? <==> m.transaction.Some?
    ensures r.Err? ==> r.error == TypeError
    ensures r.Ok? ==> r.value.transaction.None? && r.value.last == m.last
  {
    match m.transaction
    case None => Err(TypeError)
    case Some(t) => Ok(Memory(m.records + t, None, m.last))
  }

  /** sync(): no other process writes here, so nothing to invalidate. */
  function Sync(m: Memory): (r: seq<Oid>)
    ensures r == []
  {
    []
  }

  /** Stores a sequence of writes in order. */
  function StoreAll(m: Memory, writes: seq<(Oid, Bytes)>): (r: Result<Memory>)
    ensures r.Ok? <==> m.transaction.Some?
    ensures r.Ok? ==> r.value.records == m.records && r.value.last == m.last && r.value.transaction.Some?
    decreases |writes|
  {
    if writes == [] then (if m.transaction.Some? then Ok(m) else Err(TypeError))
    else
      var m1 :- Store(m, writes[0].0, writes[0].1);
      StoreAll(m1, writes[1..])
  }

  /** The record last written for `oid` in `writes`, if any. */
  function LastWrite(writes: seq<(Oid, Bytes)>, oid: Oid): (r: Option<Bytes>)
  {
    if writes == [] then None
    else if writes[|writes| - 1].0 == oid then Some(writes[|writes| - 1].1)
    else LastWrite(writes[..|writes| - 1], oid)
  }

  /** Storing writes into a transaction leaves, for each oid, its last
      write, or what the transaction held before. */
  lemma {:induction false} StoreAllTransaction(m: Memory, writes: seq<(Oid, Bytes)>)
    requires m.transaction.Some?
    ensures var t := StoreAll(m, writes).value.transaction.value;
            forall oid :: (oid in t <==> oid in m.transaction.value || LastWrite(writes, oid).Some?)
                          && (oid in t ==> t[oid] == if LastWrite(writes, oid).Some? then LastWrite(writes, oid).value
                                                  else m.transaction.value[oid])
    decreases |writes|
  {
    if writes != [] {
      var m1 := Store(m, writes[0].0, writes[0].1).value;
      StoreAllTransaction(m1, writes[1..]);
      forall oid
        ensures LastWrite(writes, oid) == (if LastWrite(writes[1..], oid).Some? then LastWrite(writes[1..], oid)
                                           else if writes[0].0 == oid then Some(writes[0].1) else None)
      {
        LastWriteFront(writes, oid);
      }
    }
  }

  /** The last write is the one in the rest, if any, else the first. */
  lemma {:induction false} LastWriteFront(writes: seq<(Oid, Bytes)>, oid: Oid)
    requires writes != []
    ensures LastWrite(writes, oid) == (if LastWrite(writes[1..], oid).Some? then LastWrite(writes[1..], oid)
                                       else if writes[0].0 == oid then Some(writes[0].1) else None)
    decreases |writes|
  {
    if |writes| > 1 {
      var n := |writes| - 1;
      assert writes[1..][..n - 1] == writes[..n][1..];
      if writes[n].0 != oid {
        LastWriteFront(writes[..n], oid);
      }
    }
  }

  /** A whole commit: begin, the writes, end. Afterwards each oid loads its
      last write, or what was stored before; before end(), nothing a store
      wrote can be loaded. */
  lemma CommitSpec(m: Memory, writes: seq<(Oid, Bytes)>)
    ensures StoreAll(Begin(m), writes).Ok?
    ensures forall oid :: Load(StoreAll(Begin(m), writes).value, oid) == Load(m, oid)
    ensures End(StoreAll(Begin(m), writes).value).Ok?
    ensures var after := End(StoreAll(Begin(m), writes).value).value;
            forall oid :: Load(after, oid) ==
              match LastWrite(writes, oid)
              case Some(record) => Ok(record)
              case None => Load(m, oid)
  {
    StoreAllTransaction(Begin(m), writes);
  }

  /** `k` successive calls of new_oid: the results, oldest first. */
  function NewOids(m: Memory, k: nat): (r: (seq<Result<Oid>>, Memory))
    ensures |r.0| == k
  {
    if k == 0 then ([], m)
    else
      var (front, m1) := NewOids(m, k - 1);
      var (oid, m2) := NewOid(m1);
      (front + [oid], m2)
  }

  /** Successive new oids are the int8 packings of the following numbers. */
  lemma {:induction false} NewOidsNumbers(m: Memory, k: nat)
    ensures NewOids(m, k).1.last == m.last + k
    ensures forall i :: 0 <= i < k ==> NewOids(m, k).0[i] == Codec.Int8ToStr(m.last + 1 + i)
    decreases k
  {
    if k > 0 {
      NewOidsNumbers(m, k - 1);
      var (front, m1) := NewOids(m, k - 1);
      assert NewOids(m, k).0 == front + [NewOid(m1).0];
    }
  }

  /** So while they fit in 64 bits they all succeed and all differ. */
  lemma NewOidsDistinct(m: Memory, k: nat)
    requires -1 <= m.last && m.last + k < Codec.INT8_LIMIT
    ensures forall i :: 0 <= i < k ==> NewOids(m, k).0[i].Ok?
    ensures forall i, j :: 0 <= i < j < k ==> NewOids(m, k).0[i].value != NewOids(m, k).0[j].value
  {
    NewOidsNumbers(m, k);
    var r := NewOids(m, k).0;
    forall i | 0 <= i < k
      ensures r[i].Ok? && Codec.BigEndian(r[i].value) == m.last + 1 + i
    {
      assert r[i] == Codec.Int8ToStr(m.last + 1 + i);
    }
  }

  /** The first oid of a new storage is the root's, int8_to_str(0). */
  lemma FirstOid()
    ensures NewOid(New()).0 == Codec.Int8ToStr(0)
    ensures NewOid(New()).1.last == 0
  {
  }
}

=== FILE: mutation.dfy ===
/** What the persistent containers (PersistentSet, PersistentList,
    PersistentDict) share. Every method reaches the contents through the
    attribute `s` or `data`, a load-triggering name, so each read of it
    goes through pb_getattro: a GHOST is loaded and a stale object notes
    its access before the slot is read. Every mutator first calls
    _p_note_change and only then reads and changes the contents; every
    operator that builds a result builds a new, UNSAVED object.

    A container's contents (the slot `s` or `data`) are kept beside the
    world, as the value the object holds once loaded; the world carries
    the objects' status and the trace of calls. Of the generic attribute
    accesses only those of the contents attribute are recorded: looking up
    a method or an exempt name such as `__class__` loads nothing and
    notes nothing. */
module Mutations {
  import opened Wrappers
  import opened PersistenceState
  import opened ConnectionNotes
  import opened PersistentMethods
  import opened Proxy

  /** What a mutator leaves: the world, the contents, and what it returned
      or raised. */
  datatype Outcome<D, R> = Outcome(world: World, data: D, result: Result<R>)

  /** What a mutator does once _p_note_change has returned: it reads the
      contents attribute of each object of `fetches`, in the order Python
      evaluates them (self, and a persistent operand's own attribute);
      then it yields the new contents and its value, or raises; and when
      it succeeds it binds the attribute again if `rebinds` (as
      `self.s &= …` and `self.data += …` do). */
  datatype Body<D, R> = Body(fetches: seq<HandleId>, op: Result<(D, R)>, rebinds: bool)

  /** A container freshly built: the world with the new object in it, the
      object, and its contents. */
  datatype Created<D> = Created(world: World, obj: HandleId, contents: D)

  /** What an operator that builds a new object leaves: the world, and the
      new object with its contents or the error raised. */
  datatype Built<D> = Built(world: World, made: Result<(HandleId, D)>)

  /** Every object's identifier is below the next fresh one. */
  ghost predicate IdsBelow(w: World)
  {
    forall h :: h in w.handles ==> h < w.nextId
  }

  /** Every object of hs exists, with its connection. */
  predicate AllLinked(w: World, hs: seq<HandleId>)
  {
    forall i :: 0 <= i < |hs| ==> Linked(w, hs[i])
  }

  /** The object is loaded and carries its connection's serial, so reading
      a triggering name calls nobody. */
  predicate Current(w: World, h: HandleId)
  {
    && h in w.handles && w.handles[h].status != Ghost
    && (w.handles[h].conn.Some? ==>
          w.handles[h].conn.value in w.conns && w.handles[h].serial == w.conns[w.handles[h].conn.value].serial)
  }

  /** Every generic attribute access among es is to the attribute `name`. */
  ghost predicate OnlyAttr(es: seq<Event>, name: string)
  {
    forall i :: 0 <= i < |es| ==> (es[i].AttrRead? || es[i].AttrWritten?) ==> es[i].name == name
  }

  /** Going from w to v changed no object outside hs, left no loaded
      object a GHOST and no UNSAVED object anything else, and changed no
      connection's serial. */
  ghost predicate Touches(w: World, v: World, hs: seq<HandleId>)
  {
    && (forall g :: g in w.handles ==>
          && g in v.handles
          && (g !in hs ==> v.handles[g] == w.handles[g])
          && (w.handles[g].status != Ghost ==> v.handles[g].status != Ghost)
          && (w.handles[g].status == Unsaved ==> v.handles[g].status == Unsaved))
    && (forall c :: c in w.conns ==> c in v.conns && v.conns[c].serial == w.conns[c].serial)
  }

  lemma TouchesTrans(u: World, v: World, w: World, hs: seq<HandleId>, ks: seq<HandleId>)
    requires Touches(u, v, hs) && Touches(v, w, ks)
    ensures Touches(u, w, hs + ks)
  {
  }

  /** A frame step keeps every object linked. */
  lemma FrameLinked(w: World, v: World, hs: seq<HandleId>)
    requires Frame(w, v) && AllLinked(w, hs)
    ensures AllLinked(v, hs)
  {
    forall i | 0 <= i < |hs|
      ensures Linked(v, hs[i])
    {
      assert hs[i] in w.handles.Keys;
      assert v.handles[hs[i]].conn == w.handles[hs[i]].conn;
      if v.handles[hs[i]].conn.Some? {
        assert v.handles[hs[i]].conn.value in w.conns.Keys;
      }
    }
  }

  /** _p_load_state changes no object but h and no serial. */
  lemma LoadTouches(w: World, h: HandleId)
    requires Linked(w, h)
    ensures Touches(w, Load(w, h).world, [h])
  {
    if w.handles[h].status == Ghost && w.handles[h].cls.kind == Plain && w.handles[h].conn.Some? {
      var w0 := Emit(w, LoadCalled(h));
      var s := LoadState(w0, w.handles[h].conn.value, h);
      if s.raised.None? {
        assert Load(w, h).world == MarkSaved(s.world, h);
      }
    }
  }

  /** pb_note_access changes only h's serial stamp and the connection's
      cache. */
  lemma NoteAccessTouches(w: World, h: HandleId)
    requires Linked(w, h)
    ensures Touches(w, NoteAccessIfStale(w, h).world, [h])
  {
    if Stale(w, h) {
      var c := w.handles[h].conn.value;
      var r := NoteAccess(w, c, h);
      if r.raised == None {
        assert forall d :: d in w.conns ==> r.world.conns[d].serial == w.conns[d].serial;
      }
    }
  }

  /** Loading and noting the access change no other object and no serial. */
  lemma ActivateTouches(w: World, h: HandleId)
    requires Linked(w, h)
    ensures Touches(w, Activate(w, h).world, [h])
  {
    var l := Load(w, h);
    LoadTouches(w, h);
    if l.raised.None? {
      assert Linked(l.world, h);
      NoteAccessTouches(l.world, h);
      TouchesTrans(w, l.world, NoteAccessIfStale(l.world, h).world, [h], [h]);
    }
  }

  /** An event alone changes no object. */
  lemma EmitTouches(w: World, e: Event)
    ensures Touches(w, Emit(w, e), [])
  {
  }

  /** Noting a change and setting the status UNSAVED change only h. */
  lemma ChangeTouches(w: World, c: ConnId, h: HandleId)
    requires c in w.conns && h in w.handles
    ensures Touches(w, SetStatus(NoteChange(w, c, h), h, Unsaved), [h])
  {
  }

  /** Reading the contents attribute `name` of h through pb_getattro: load
      a GHOST, note the access of a stale object, then read the slot. The
      slot holds the contents kept beside the world, so the read itself
      raises nothing; what can raise is the load or note_access. */
  function Access(w: World, h: HandleId, name: string): (r: Step)
    requires Linked(w, h)
    ensures Frame(w, r.world)
    ensures r.raised == Activate(w, h).raised
    ensures r.raised.None? ==> Current(r.world, h)
    ensures Current(w, h) ==> r == Step(Emit(w, AttrRead(h, name)), None)
  {
    var a := Activate(w, h);
    ActivateEffect(w, h);
    if a.raised.Some? then a
    else
      FrameEmit(a.world, AttrRead(h, name));
      FrameTrans(w, a.world, Emit(a.world, AttrRead(h, name)));
      Step(Emit(a.world, AttrRead(h, name)), None)
  }

  /** A read changes no object but the one read, and its only generic
      access is the read itself. */
  lemma AccessTouches(w: World, h: HandleId, name: string)
    requires Linked(w, h)
    ensures Touches(w, Access(w, h, name).world, [h]) && OnlyAttr(Added(w, Access(w, h, name).world), name)
  {
    AccessChanges(w, h, name);
    AccessAdds(w, h, name);
  }

  lemma AccessChanges(w: World, h: HandleId, name: string)
    requires Linked(w, h)
    ensures Touches(w, Access(w, h, name).world, [h])
  {
    var a := Activate(w, h);
    ActivateTouches(w, h);
    if a.raised.None? {
      var v := Emit(a.world, AttrRead(h, name));
      assert Access(w, h, name).world == v;
      EmitTouches(a.world, AttrRead(h, name));
      TouchesTrans(w, a.world, v, [h], []);
      assert [h] + [] == [h];
    }
  }

  lemma AccessAdds(w: World, h: HandleId, name: string)
    requires Linked(w, h)
    ensures OnlyAttr(Added(w, Access(w, h, name).world), name)
  {
    var a := Activate(w, h);
    ActivateQuiet(w, h);
    if a.raised.None? {
      var e := AttrRead(h, name);
      assert Access(w, h, name).world.trace == a.world.trace + [e];
      Extend(w.trace, a.world.trace, e);
      var added := Added(w, a.world) + [e];
      assert Added(w, Access(w, h, name).world) == added;
      forall i | 0 <= i < |added| && (added[i].AttrRead? || added[i].AttrWritten?)
        ensures added[i].name == name
      {
      }
    } else {
      assert Access(w, h, name).world == a.world;
    }
  }

  /** What a step that appends one event added. */
  lemma Extend<T>(a: seq<T>, b: seq<T>, e: T)
    requires a <= b
    ensures a <= b + [e] && (b + [e])[|a|..] == b[|a|..] + [e]
  {
  }

  /** Reading the contents of a loaded object whose serial is stale, as a
      SAVED object's is after a commit or an abort: the connection notes
      the access and stamps the serial, then the slot is read. */
  lemma AccessStale(w: World, h: HandleId, name: string)
    requires Linked(w, h) && w.handles[h].status != Ghost && Stale(w, h) && w.handles[h].oid.Some?
    ensures var r := Access(w, h, name);
            var c := w.handles[h].conn.value;
            && r.raised == None
            && r.world.trace == w.trace + [AccessNoted(c, h), AttrRead(h, name)]
            && r.world.handles == w.handles[h := w.handles[h].(serial := w.conns[c].serial)]
  {
  }

  /** Access is pb_getattro's path for the attribute, event for event. */
  lemma AccessIsGetAttr(w: World, h: HandleId, name: string)
    requires Linked(w, h) && LoadTriggering(name)
    ensures Access(w, h, name).world == GetAttr(w, h, Str(name)).world
    ensures Access(w, h, name).raised.Some? ==> GetAttr(w, h, Str(name)).value == Err(Access(w, h, name).raised.value)
  {
  }

  /** The contents attribute of each object of hs read in turn; the first
      read that raises ends the run. */
  function Reads(w: World, hs: seq<HandleId>, name: string): (r: Step)
    requires AllLinked(w, hs)
    ensures Frame(w, r.world)
    decreases |hs|
  {
    if hs == [] then Step(w, None)
    else
      var a := Access(w, hs[0], name);
      if a.raised.Some? then a
      else
        FrameLinked(w, a.world, hs[1..]);
        var r := Reads(a.world, hs[1..], name);
        FrameTrans(w, a.world, r.world);
        r
  }

  /** Reads change no object but those read, and make no generic access
      but the reads. */
  lemma {:induction false} ReadsTouches(w: World, hs: seq<HandleId>, name: string)
    requires AllLinked(w, hs)
    ensures Touches(w, Reads(w, hs, name).world, hs) && OnlyAttr(Added(w, Reads(w, hs, name).world), name)
    decreases |hs|
  {
    if hs != [] {
      var a := Access(w, hs[0], name);
      AccessTouches(w, hs[0], name);
      if a.raised.None? {
        FrameLinked(w, a.world, hs[1..]);
        var r := Reads(a.world, hs[1..], name);
        ReadsTouches(a.world, hs[1..], name);
        ReadsStep(w, a.world, r.world, hs, name);
      }
    }
  }

  /** One read, then the rest: the facts Reads states compose. */
  lemma ReadsStep(w: World, a: World, v: World, hs: seq<HandleId>, name: string)
    requires hs != []
    requires Frame(w, a) && Touches(w, a, [hs[0]]) && OnlyAttr(Added(w, a), name)
    requires Frame(a, v) && Touches(a, v, hs[1..]) && OnlyAttr(Added(a, v), name)
    ensures Touches(w, v, hs) && OnlyAttr(Added(w, v), name)
  {
    FrameTrans(w, a, v);
    TouchesTrans(w, a, v, [hs[0]], hs[1..]);
    assert [hs[0]] + hs[1..] == hs;
    assert Added(w, v) == Added(w, a) + Added(a, v);
  }

  /** Reading keeps a current object current. */
  lemma {:induction false} ReadsKeepCurrent(w: World, hs: seq<HandleId>, name: string, g: HandleId)
    requires AllLinked(w, hs) && Current(w, g)
    ensures Current(Reads(w, hs, name).world, g)
    decreases |hs|
  {
    if hs != [] {
      var a := Access(w, hs[0], name);
      AccessCurrent(w, hs[0], name);
      if a.raised.None? {
        FrameLinked(w, a.world, hs[1..]);
        ReadsKeepCurrent(a.world, hs[1..], name, g);
      }
    }
  }

  /** A run of reads that raises nothing leaves every object it read
      current. */
  lemma {:induction false} ReadsCurrent(w: World, hs: seq<HandleId>, name: string)
    requires AllLinked(w, hs)
    ensures Reads(w, hs, name).raised.None? ==> forall i :: 0 <= i < |hs| ==> Current(Reads(w, hs, name).world, hs[i])
    decreases |hs|
  {
    if hs != [] {
      var a := Access(w, hs[0], name);
      if a.raised.None? {
        FrameLinked(w, a.world, hs[1..]);
        var r := Reads(a.world, hs[1..], name);
        assert Reads(w, hs, name) == r;
        if r.raised.None? {
          ReadsCurrent(a.world, hs[1..], name);
          ReadsKeepCurrent(a.world, hs[1..], name, hs[0]);
          forall i | 1 <= i < |hs|
            ensures Current(r.world, hs[i])
          {
            assert hs[i] == hs[1..][i - 1];
          }
        }
      }
    }
  }

  /** One read keeps every current object current. */
  lemma AccessCurrent(w: World, h: HandleId, name: string)
    requires Linked(w, h)
    ensures forall g :: Current(w, g) ==> Current(Access(w, h, name).world, g)
  {
    var r := Access(w, h, name);
    AccessTouches(w, h, name);
    forall g | Current(w, g)
      ensures Current(r.world, g)
    {
      if g != h {
        assert r.world.handles[g] == w.handles[g];
      }
    }
  }

  /** `self._p_note_change()` and then the reads of the body: what a
      mutator has done by the time its own operation runs. */
  function Noted(w: World, h: HandleId, name: string, fetches: seq<HandleId>): (r: Step)
    requires Linked(w, h) && AllLinked(w, fetches)
    ensures Frame(w, r.world) && Touches(w, r.world, [h] + fetches) && OnlyAttr(Added(w, r.world), name)
    ensures |r.world.trace| > |w.trace| && r.world.trace[|w.trace|] == ChangeCalled(h)
    ensures NoteChangeSelf(w, h).raised.Some? ==> r == NoteChangeSelf(w, h)
    ensures r.raised.None? ==> NoteChangeSelf(w, h).raised.None? && r.world.handles[h].status == Unsaved
  {
    var n := NoteChangeSelf(w, h);
    NoteTouches(w, h, name);
    if n.raised.Some? then n
    else
      FrameLinked(w, n.world, fetches);
      var a := Reads(n.world, fetches, name);
      ReadsTouches(n.world, fetches, name);
      NotedCompose(w, h, n.world, a.world, fetches, name);
      a
  }

  lemma NotedCompose(w: World, h: HandleId, n: World, v: World, fetches: seq<HandleId>, name: string)
    requires Frame(w, n) && Touches(w, n, [h]) && OnlyAttr(Added(w, n), name)
    requires |n.trace| > |w.trace| && n.trace[|w.trace|] == ChangeCalled(h)
    requires Frame(n, v) && Touches(n, v, fetches) && OnlyAttr(Added(n, v), name)
    ensures Frame(w, v) && Touches(w, v, [h] + fetches) && OnlyAttr(Added(w, v), name)
    ensures |v.trace| > |w.trace| && v.trace[|w.trace|] == ChangeCalled(h)
  {
    FrameTrans(w, n, v);
    TouchesTrans(w, n, v, [h], fetches);
    assert Added(w, v) == Added(w, n) + Added(n, v);
    assert v.trace[|w.trace|] == n.trace[|w.trace|];
  }

  /** _p_note_change changes no object but h and no serial, and makes no
      generic access. */
  lemma NoteTouches(w: World, h: HandleId, name: string)
    requires Linked(w, h)
    ensures Touches(w, NoteChangeSelf(w, h).world, [h])
    ensures OnlyAttr(Added(w, NoteChangeSelf(w, h).world), name)
  {
    var n := NoteChangeSelf(w, h);
    assert NoGeneric(Added(w, n.world));
    var w0 := Emit(w, ChangeCalled(h));
    EmitTouches(w, ChangeCalled(h));
    if w.handles[h].status != Unsaved {
      var l := Load(w0, h);
      LoadTouches(w0, h);
      TouchesTrans(w, w0, l.world, [], [h]);
      if l.raised.None? && w.handles[h].conn.Some? {
        var c := w.handles[h].conn.value;
        var v := SetStatus(NoteChange(l.world, c, h), h, Unsaved);
        ChangeTouches(l.world, c, h);
        TouchesTrans(w, l.world, v, [] + [h], [h]);
        assert n.world == v;
      }
    }
  }

  /** What a mutator promises about the proxy side: it keeps the world's
      frame; its first call is _p_note_change; its only generic accesses
      are to the contents attribute; and contents changed, or a value
      returned, only once that call has left the object UNSAVED. */
  ghost predicate NotedFirst<D, R>(w: World, h: HandleId, name: string, data: D, r: Outcome<D, R>)
    requires Linked(w, h)
  {
    && Frame(w, r.world)
    && |r.world.trace| > |w.trace| && r.world.trace[|w.trace|] == ChangeCalled(h)
    && OnlyAttr(Added(w, r.world), name)
    && (r.data != data || r.result.Ok? ==>
          NoteChangeSelf(w, h).raised == None && r.world.handles[h].status == Unsaved)
  }

  /** `self._p_note_change()` followed by the body `b`. When the note or a
      read raises, the operation never runs; when the operation raises,
      the change has already been noted and the reads made. */
  function Mutate<D, R>(w: World, h: HandleId, name: string, data: D, b: Body<D, R>): (r: Outcome<D, R>)
    requires Linked(w, h) && AllLinked(w, b.fetches)
    ensures NotedFirst(w, h, name, data, r) && Linked(r.world, h)
    ensures Touches(w, r.world, [h] + b.fetches)
    ensures var p := Noted(w, h, name, b.fetches);
            && (p.raised.Some? ==> r == Outcome(p.world, data, Err(p.raised.value)))
            && (p.raised.None? ==>
                  && (b.op.Ok? ==> r.data == b.op.value.0 && r.result == Ok(b.op.value.1))
                  && (b.op.Err? ==> r.data == data && r.result == Err(b.op.error))
                  && r.world == if b.rebinds && b.op.Ok? then Emit(p.world, AttrWritten(h, name)) else p.world)
  {
    var p := Noted(w, h, name, b.fetches);
    if p.raised.Some? then Outcome(p.world, data, Err(p.raised.value))
    else match b.op
      case Err(e) => Outcome(p.world, data, Err(e))
      case Ok((d, v)) =>
        if b.rebinds then
          // `self.s = …` on an object already UNSAVED: pb_setattro goes
          // straight to the generic write.
          WriteKeeps(w, p.world, h, name, b.fetches);
          Outcome(Emit(p.world, AttrWritten(h, name)), d, Ok(v))
        else Outcome(p.world, d, Ok(v))
  }

  /** Binding the contents attribute again keeps what the note and the
      reads established. */
  lemma WriteKeeps(w: World, v: World, h: HandleId, name: string, fetches: seq<HandleId>)
    requires Frame(w, v) && Touches(w, v, [h] + fetches) && OnlyAttr(Added(w, v), name)
    requires |v.trace| > |w.trace| && v.trace[|w.trace|] == ChangeCalled(h)
    ensures var u := Emit(v, AttrWritten(h, name));
            && Frame(w, u) && Touches(w, u, [h] + fetches) && OnlyAttr(Added(w, u), name)
            && u.trace[|w.trace|] == ChangeCalled(h)
  {
    var u := Emit(v, AttrWritten(h, name));
    FrameEmit(v, AttrWritten(h, name));
    FrameTrans(w, v, u);
    assert Added(w, u) == Added(w, v) + [AttrWritten(h, name)];
  }

  /** The events of reading the attribute `name` of each object of hs. */
  function ReadEvents(hs: seq<HandleId>, name: string): seq<Event>
  {
    if hs == [] then [] else [AttrRead(hs[0], name)] + ReadEvents(hs[1..], name)
  }

  /** Reads of objects already loaded and current only read: no load, no
      note_access, and no object changes. */
  lemma {:induction false} CurrentReads(w: World, hs: seq<HandleId>, name: string)
    requires forall i :: 0 <= i < |hs| ==> Current(w, hs[i])
    ensures AllLinked(w, hs)
    ensures Reads(w, hs, name) == Step(w.(trace := w.trace + ReadEvents(hs, name)), None)
    decreases |hs|
  {
    if hs != [] {
      CurrentStep(w, hs, name);
      CurrentReads(Emit(w, AttrRead(hs[0], name)), hs[1..], name);
      TraceStep(w, hs, name);
    }
  }

  /** Recording the first read, then the rest, records them all. */
  lemma TraceStep(w: World, hs: seq<HandleId>, name: string)
    requires hs != []
    ensures var v := Emit(w, AttrRead(hs[0], name));
            v.(trace := v.trace + ReadEvents(hs[1..], name)) == w.(trace := w.trace + ReadEvents(hs, name))
  {
    var rest := ReadEvents(hs[1..], name);
    assert ReadEvents(hs, name) == [AttrRead(hs[0], name)] + rest;
    Append(w.trace, [AttrRead(hs[0], name)], rest);
  }

  lemma Append<T>(a: seq<T>, b: seq<T>, c: seq<T>)
    ensures (a + b) + c == a + (b + c)
  {
  }

  /** The first read of a current object only records the read. */
  lemma CurrentStep(w: World, hs: seq<HandleId>, name: string)
    requires hs != [] && forall i :: 0 <= i < |hs| ==> Current(w, hs[i])
    ensures var v := Emit(w, AttrRead(hs[0], name));
            && AllLinked(w, hs) && AllLinked(v, hs[1..])
            && (forall i :: 0 <= i < |hs| - 1 ==> Current(v, hs[1..][i]))
            && Reads(w, hs, name) == Reads(v, hs[1..], name)
  {
    var v := Emit(w, AttrRead(hs[0], name));
    assert Access(w, hs[0], name) == Step(v, None);
    assert forall i :: 0 <= i < |hs| - 1 ==> hs[1..][i] == hs[i + 1];
  }

  /** A mutation that got as far as its own operation leaves every object
      it read current. */
  lemma MutateCurrent<D, R>(w: World, h: HandleId, name: string, data: D, b: Body<D, R>)
    requires Linked(w, h) && AllLinked(w, b.fetches)
    ensures Noted(w, h, name, b.fetches).raised.None? ==>
              forall i :: 0 <= i < |b.fetches| ==> Current(Mutate(w, h, name, data, b).world, b.fetches[i])
  {
    var n := NoteChangeSelf(w, h);
    if n.raised.None? {
      FrameLinked(w, n.world, b.fetches);
      ReadsCurrent(n.world, b.fetches, name);
    }
  }

  /** A mutation of an object already UNSAVED and current that reads only
      itself tells no connection and changes no object: _p_note_change
      returns at once and each read only reads. */
  lemma QuietMutation<D, R>(v: World, h: HandleId, name: string, data: D, b: Body<D, R>)
    requires Current(v, h) && v.handles[h].status == Unsaved
    requires forall i :: 0 <= i < |b.fetches| ==> b.fetches[i] == h
    ensures AllLinked(v, b.fetches)
    ensures var s := Mutate(v, h, name, data, b);
            var q := v.(trace := v.trace + [ChangeCalled(h)] + ReadEvents(b.fetches, name));
            && s.world == (if b.rebinds && b.op.Ok? then Emit(q, AttrWritten(h, name)) else q)
            && s.data == (if b.op.Ok? then b.op.value.0 else data)
            && s.result == (if b.op.Ok? then Ok(b.op.value.1) else Err(b.op.error))
  {
    var n := Emit(v, ChangeCalled(h));
    assert NoteChangeSelf(v, h) == Step(n, None);
    assert Current(n, h);
    CurrentReads(n, b.fetches, name);
    assert Noted(v, h, name, b.fetches) == Step(n.(trace := n.trace + ReadEvents(b.fetches, name)), None);
  }

  /** A mutation that read self and succeeded leaves it UNSAVED and
      current. */
  lemma MutatedSettles<D, R>(w: World, h: HandleId, name: string, data: D, b: Body<D, R>)
    requires Linked(w, h) && AllLinked(w, b.fetches) && h in b.fetches
    requires Mutate(w, h, name, data, b).result.Ok?
    ensures Current(Mutate(w, h, name, data, b).world, h)
    ensures Mutate(w, h, name, data, b).world.handles[h].status == Unsaved
  {
    MutateCurrent(w, h, name, data, b);
  }

  /** Once a mutation that read self has succeeded, the next mutation
      that reads only self tells no connection: its calls are the
      _p_note_change that returns at once and the plain reads, and no
      object or connection changes. */
  lemma SecondMutationQuiet<D, R, R2>(w: World, h: HandleId, name: string, data: D, b: Body<D, R>, b2: Body<D, R2>)
    requires Linked(w, h) && AllLinked(w, b.fetches) && h in b.fetches
    requires Mutate(w, h, name, data, b).result.Ok?
    requires forall i :: 0 <= i < |b2.fetches| ==> b2.fetches[i] == h
    ensures var r := Mutate(w, h, name, data, b);
            var s := Mutate(r.world, h, name, r.data, b2);
            var q := r.world.(trace := r.world.trace + [ChangeCalled(h)] + ReadEvents(b2.fetches, name));
            && s.world == (if b2.rebinds && b2.op.Ok? then Emit(q, AttrWritten(h, name)) else q)
            && s.data == (if b2.op.Ok? then b2.op.value.0 else r.data)
            && s.result == (if b2.op.Ok? then Ok(b2.op.value.1) else Err(b2.op.error))
  {
    var r := Mutate(w, h, name, data, b);
    MutatedSettles(w, h, name, data, b);
    QuietMutation(r.world, h, name, r.data, b2);
  }

  /** One read of a loaded object's contents: a stale serial is first
      stamped by note_access, and the object ends current. */
  lemma ReadSelf(v: World, h: HandleId, name: string)
    requires Linked(v, h) && v.handles[h].status != Ghost && v.handles[h].oid.Some?
    ensures var r := Reads(v, [h], name);
            && r.raised == None && Current(r.world, h)
            && r.world.handles[h].status == v.handles[h].status
            && r.world.trace == v.trace + (if Stale(v, h) then [AccessNoted(v.handles[h].conn.value, h)] else [])
                                + [AttrRead(h, name)]
  {
    var a := Access(v, h, name);
    assert Reads(v, [h], name) == a;
    if Stale(v, h) {
      AccessStale(v, h, name);
    } else {
      assert Current(v, h);
    }
  }

  /** A mutation of a SAVED object, one loaded or committed, that reads
      only self: the connection hears of the change once; then, when the
      object's serial is stale, as it is after a commit or an abort, the
      read notes the access; the slot is read; and the object ends
      UNSAVED and current, whether or not the operation itself raises. */
  lemma MutationAfterCommit<D, R>(w: World, h: HandleId, name: string, data: D, b: Body<D, R>)
    requires Linked(w, h) && w.handles[h].status == Saved && w.handles[h].conn.Some? && w.handles[h].oid.Some?
    requires b.fetches == [h]
    ensures var r := Mutate(w, h, name, data, b);
            var c := w.handles[h].conn.value;
            && r.world.trace == w.trace + [ChangeCalled(h), ChangeNoted(c, h)]
                                + (if Stale(w, h) then [AccessNoted(c, h)] else []) + [AttrRead(h, name)]
                                + (if b.rebinds && b.op.Ok? then [AttrWritten(h, name)] else [])
            && r.world.handles[h].status == Unsaved && Current(r.world, h)
  {
    var n := NoteChangeSelf(w, h);
    var c := w.handles[h].conn.value;
    assert n.world.handles[h] == w.handles[h].(status := Unsaved);
    assert Stale(n.world, h) == Stale(w, h);
    ReadSelf(n.world, h, name);
    assert Noted(w, h, name, [h]) == Reads(n.world, [h], name);
  }

  /** self.__class__(contents): a new object, UNSAVED with neither a
      connection nor an oid, whose __init__ binds the contents attribute;
      no existing object changes. */
  function Create<D>(w: World, cls: Class, name: string, contents: D): (r: Created<D>)
    requires IdsBelow(w)
    ensures r.obj !in w.handles && r.world.handles == w.handles[r.obj := NewHandle(cls)]
    ensures r.world.conns == w.conns && r.world.trace == w.trace + [AttrWritten(r.obj, name)]
    ensures IdsBelow(r.world) && Linked(r.world, r.obj) && Current(r.world, r.obj)
    ensures r.contents == contents
  {
    var v := w.(handles := w.handles[w.nextId := NewHandle(cls)], nextId := w.nextId + 1);
    Created(Emit(v, AttrWritten(w.nextId, name)), w.nextId, contents)
  }

  /** An operator that builds a new object: the reads of its operands'
      contents attributes, then its result, or the error it raises, made
      into a new object. A raising read or operation builds nothing. */
  function Build<D>(w: World, cls: Class, name: string, fetches: seq<HandleId>, contents: Result<D>): (r: Built<D>)
    requires IdsBelow(w) && AllLinked(w, fetches)
    ensures Touches(w, r.world, fetches) && r.world.conns.Keys == w.conns.Keys
    ensures var a := Reads(w, fetches, name);
            && (a.raised.Some? ==> r == Built(a.world, Err(a.raised.value)))
            && (a.raised.None? && contents.Err? ==> r == Built(a.world, Err(contents.error)))
            && (a.raised.None? && contents.Ok? ==>
                  && r.made.Ok? && r.made.value.1 == contents.value
                  && r.made.value.0 !in w.handles
                  && r.world.handles == a.world.handles[r.made.value.0 := NewHandle(cls)]
                  && r.world.trace == a.world.trace + [AttrWritten(r.made.value.0, name)])
    ensures r.made.Ok? <==> Reads(w, fetches, name).raised.None? && contents.Ok?
  {
    var a := Reads(w, fetches, name);
    ReadsTouches(w, fetches, name);
    if a.raised.Some? then Built(a.world, Err(a.raised.value))
    else match contents
      case Err(e) => Built(a.world, Err(e))
      case Ok(d) =>
        assert IdsBelow(a.world);
        var c := Create(a.world, cls, name, d);
        Built(c.world, Ok((c.obj, c.contents)))
  }

  /** Building from operands already loaded and current only reads them:
      the world gains the reads, the new object and the binding of its
      contents attribute, and nothing else. */
  lemma BuildCurrent<D>(w: World, cls: Class, name: string, fetches: seq<HandleId>, contents: D)
    requires IdsBelow(w) && forall i :: 0 <= i < |fetches| ==> Current(w, fetches[i])
    ensures AllLinked(w, fetches)
    ensures var r := Build(w, cls, name, fetches, Ok(contents));
            && r.made == Ok((w.nextId, contents))
            && r.world == w.(handles := w.handles[w.nextId := NewHandle(cls)],
                             trace := w.trace + ReadEvents(fetches, name) + [AttrWritten(w.nextId, name)],
                             nextId := w.nextId + 1)
  {
    CurrentReads(w, fetches, name);
  }

  /** Reads of self alone, once _p_note_change has succeeded, raise only
      when a connected object has no oid: a noted object is loaded, so the
      read at most notes the access. */
  lemma NotedSelf(w: World, h: HandleId, name: string, hs: seq<HandleId>)
    requires Linked(w, h) && (w.handles[h].conn.Some? ==> w.handles[h].oid.Some?)
    requires forall i :: 0 <= i < |hs| ==> hs[i] == h
    ensures AllLinked(w, hs)
    ensures Noted(w, h, name, hs).raised == NoteChangeSelf(w, h).raised
  {
    var nc := NoteChangeSelf(w, h);
    if nc.raised.None? && hs != [] {
      FrameLinked(w, nc.world, hs);
      var a := Access(nc.world, h, name);
      assert a.raised.None?;
      CurrentReads(a.world, hs[1..], name);
    }
  }
}

=== FILE: object_dictionary.dfy ===
/** ObjectDictionary of durus/connection.py: a map of weak references by
    oid whose removals are only recorded in `dead` and carried out when the
    next iteration starts. A weak reference dying is the same step as
    `del d[k]`: its callback adds the key to `dead`. */
module ObjectDictionaries {
  import opened Wrappers
  import opened PersistenceState

  /** The iteration order lists each mapped key once, and every key that
      is marked dead is still mapped. */
  ghost predicate Consistent(d: ObjDict)
  {
    && Distinct(d.order)
    && (forall k :: k in d.mapping <==> k in d.order)
    && d.dead <= d.mapping.Keys
  }

  function EmptyDict(): (r: ObjDict)
    ensures Consistent(r) && Size(r) == 0
    ensures forall k :: Lookup(r, k) == None
  {
    ObjDict(map[], [], {})
  }

  /** ObjectDictionary.get: the object, unless the key is unknown or dead. */
  function Lookup(d: ObjDict, k: Oid): Option<HandleId>
  {
    if k in d.mapping && k !in d.dead then Some(d.mapping[k]) else None
  }

  /** __contains__. */
  predicate Has(d: ObjDict, k: Oid)
  {
    Lookup(d, k).Some?
  }

  /** __setitem__: revive the key and point it at the new object; a new
      key goes to the end of the iteration order. */
  function Assign(d: ObjDict, k: Oid, h: HandleId): ObjDict
  {
    ObjDict(d.mapping[k := h], if k in d.mapping then d.order else d.order + [k], d.dead - {k})
  }

  /** __delitem__, and the callback of a dying weak reference. */
  function Remove(d: ObjDict, k: Oid): ObjDict
  {
    d.(dead := d.dead + {k})
  }

  /** __len__: mapped keys less dead keys. */
  function Size(d: ObjDict): int
  {
    |d.mapping.Keys| - |d.dead|
  }

  /** The keys of `s` that are not in `drop`, in order. */
  function Keep(s: seq<Oid>, drop: set<Oid>): (r: seq<Oid>)
    ensures forall k :: k in r <==> k in s && k !in drop
  {
    if s == [] then []
    else (if s[0] in drop then [] else [s[0]]) + Keep(s[1..], drop)
  }

  /** clear_dead: drop every dead key from the underlying mapping. */
  function ClearDead(d: ObjDict): ObjDict
  {
    ObjDict(d.mapping - d.dead, Keep(d.order, d.dead), {})
  }

  /** __iter__: the live keys after clear_dead, in insertion order. */
  function Iterate(d: ObjDict): seq<Oid>
  {
    ClearDead(d).order
  }

  /** After `del d[k]` on a live key, get(k) yields the default and len
      drops by one; nothing else changes. */
  lemma RemoveSpec(d: ObjDict, k: Oid)
    requires Consistent(d) && Has(d, k)
    ensures Consistent(Remove(d, k))
    ensures Lookup(Remove(d, k), k) == None
    ensures Size(Remove(d, k)) == Size(d) - 1
    ensures forall j :: j != k ==> Lookup(Remove(d, k), j) == Lookup(d, j)
  {
  }

  /** Assigning a key again revives it; len grows exactly when the key
      was not live; other keys are unaffected. */
  lemma AssignSpec(d: ObjDict, k: Oid, h: HandleId)
    requires Consistent(d)
    ensures Consistent(Assign(d, k, h))
    ensures Lookup(Assign(d, k, h), k) == Some(h)
    ensures Size(Assign(d, k, h)) == Size(d) + (if Has(d, k) then 0 else 1)
    ensures forall j :: j != k ==> Lookup(Assign(d, k, h), j) == Lookup(d, j)
  {
    AssignConsistent(d, k, h);
    AssignSize(d, k, h);
  }

  lemma AssignConsistent(d: ObjDict, k: Oid, h: HandleId)
    requires Consistent(d)
    ensures Consistent(Assign(d, k, h))
  {
    var e := Assign(d, k, h);
    if k !in d.mapping {
      assert e.order == d.order + [k];
      forall i, j | 0 <= i < j < |e.order|
        ensures e.order[i] != e.order[j]
      {
        if j == |d.order| {
          assert e.order[i] == d.order[i];
          assert e.order[j] == k;
        } else {
          assert e.order[i] == d.order[i] && e.order[j] == d.order[j];
        }
      }
    }
  }

  lemma AssignSize(d: ObjDict, k: Oid, h: HandleId)
    requires Consistent(d)
    ensures Size(Assign(d, k, h)) == Size(d) + (if Has(d, k) then 0 else 1)
  {
    var e := Assign(d, k, h);
    if k in d.mapping {
      assert e.mapping.Keys == d.mapping.Keys;
      if k in d.dead {
        assert d.dead == e.dead + {k};
      } else {
        assert e.dead == d.dead;
      }
    } else {
      assert e.mapping.Keys == d.mapping.Keys + {k};
      assert e.dead == d.dead;
    }
  }

  /** Removing a subset takes exactly its elements away. */
  lemma SubsetCard<T>(a: set<T>, b: set<T>)
    requires b <= a
    ensures |a - b| == |a| - |b|
  {
    assert a == (a - b) + b;
    assert (a - b) * b == {};
  }

  /** No key occurs twice. */
  ghost predicate Distinct(s: seq<Oid>)
  {
    forall i, j :: 0 <= i < j < |s| ==> s[i] != s[j]
  }

  lemma DistinctCons(x: Oid, s: seq<Oid>)
    requires Distinct(s) && x !in s
    ensures Distinct([x] + s)
  {
    var r := [x] + s;
    forall i, j | 0 <= i < j < |r|
      ensures r[i] != r[j]
    {
      assert r[j] == s[j - 1];
      if i == 0 {
        assert s[j - 1] in s;
      } else {
        assert r[i] == s[i - 1];
      }
    }
  }

  lemma DistinctTail(s: seq<Oid>)
    requires Distinct(s) && s != []
    ensures Distinct(s[1..]) && s[0] !in s[1..]
  {
  }

  lemma {:induction false} KeepDistinct(s: seq<Oid>, drop: set<Oid>)
    requires Distinct(s)
    ensures Distinct(Keep(s, drop))
  {
    if s != [] {
      DistinctTail(s);
      KeepDistinct(s[1..], drop);
      var rest := Keep(s[1..], drop);
      if s[0] !in drop {
        DistinctCons(s[0], rest);
      } else {
        assert Keep(s, drop) == rest;
      }
    }
  }

  /** clear_dead keeps every lookup and the length, and leaves no dead key. */
  lemma ClearDeadSpec(d: ObjDict)
    requires Consistent(d)
    ensures Consistent(ClearDead(d)) && ClearDead(d).dead == {}
    ensures forall k :: Lookup(ClearDead(d), k) == Lookup(d, k)
    ensures Size(ClearDead(d)) == Size(d)
  {
    KeepDistinct(d.order, d.dead);
    ClearDeadSize(d);
  }

  lemma ClearDeadSize(d: ObjDict)
    requires d.dead <= d.mapping.Keys
    ensures Size(ClearDead(d)) == Size(d)
  {
    var e := ClearDead(d);
    assert e.mapping.Keys == d.mapping.Keys - d.dead;
    SubsetCard(d.mapping.Keys, d.dead);
  }

  /** Iteration yields every live key exactly once and nothing else. */
  lemma IterateSpec(d: ObjDict)
    requires Consistent(d)
    ensures forall k :: k in Iterate(d) <==> Has(d, k)
    ensures Distinct(Iterate(d))
  {
    assert Iterate(d) == Keep(d.order, d.dead);
    KeepDistinct(d.order, d.dead);
  }
}

=== FILE: object_writer.dfy ===
/** ObjectWriter of serialize.py, apart from pickling itself: what it does
    with each persistent object the pickler meets (_persistent_id), the
    sorted reference list get_state returns, and the gen_new_objects
    generator a commit walks. The pickler is replaced by the list of
    persistent objects it meets; the oids connection.new_oid() hands out
    are the function `alloc`, whose k-th result is the writer's k-th new
    oid. */
module ObjectWriters {
  import opened Wrappers
  import opened PersistenceState
  import opened ByteOrder
  import Codec

  /** An ObjectWriter: its connection, the objects found without an oid,
      the oids referenced by the state being pickled, how many oids it
      has taken, and whether gen_new_objects has started. */
  datatype Writer = Writer(conn: ConnId, found: seq<HandleId>, refs: set<Oid>, issued: nat, started: bool)

  function NewWriter(c: ConnId): (r: Writer)
    ensures r.conn == c && r.found == [] && r.refs == {} && r.issued == 0 && !r.started
  {
    Writer(c, [], {}, 0, false)
  }

  /** The outcome of meeting persistent objects. */
  datatype Met = Met(world: World, writer: Writer, raised: Option<Error>)

  /** _persistent_id: an object without an oid takes the next oid and this
      writer's connection and is found; one of another connection raises
      ValueError; otherwise its oid joins the references. */
  function PersistentId(w: World, wr: Writer, h: HandleId, alloc: nat -> Oid): (r: Met)
    requires h in w.handles
    ensures r.world.handles.Keys == w.handles.Keys && r.world.conns == w.conns
    ensures r.world.trace == w.trace && r.world.nextId == w.nextId
    ensures forall g :: g in w.handles && g != h ==> r.world.handles[g] == w.handles[g]
    ensures r.writer.conn == wr.conn && r.writer.started == wr.started
    ensures r.raised == None <==> w.handles[h].oid.None? || w.handles[h].conn == Some(wr.conn)
    ensures r.raised != None ==> r == Met(w, wr, Some(ValueError))
    ensures r.raised == None ==>
              && r.world.handles[h].conn == Some(wr.conn)
              && r.world.handles[h].oid.Some?
              && r.writer.refs == wr.refs + {r.world.handles[h].oid.value}
    ensures w.handles[h].oid.None? ==>
              && r.world.handles[h] == w.handles[h].(oid := Some(alloc(wr.issued)), conn := Some(wr.conn))
              && r.writer.found == wr.found + [h]
              && r.writer.issued == wr.issued + 1
    ensures w.handles[h].oid.Some? ==>
              r.world == w && r.writer.found == wr.found && r.writer.issued == wr.issued
  {
    var x := w.handles[h];
    match x.oid
    case None =>
      var o := alloc(wr.issued);
      var w1 := w.(handles := w.handles[h := x.(oid := Some(o), conn := Some(wr.conn))]);
      Met(w1, wr.(found := wr.found + [h], issued := wr.issued + 1, refs := wr.refs + {o}), None)
    case Some(o) =>
      if x.conn != Some(wr.conn) then Met(w, wr, Some(ValueError))
      else Met(w, wr.(refs := wr.refs + {o}), None)
  }

  /** Meeting an object a second time takes no oid and finds nothing. */
  lemma PersistentIdTwice(w: World, wr: Writer, h: HandleId, alloc: nat -> Oid)
    requires h in w.handles
    ensures var r := PersistentId(w, wr, h, alloc);
            r.raised == None ==>
              var s := PersistentId(r.world, r.writer, h, alloc);
              && s == Met(r.world, r.writer, None)
  {
  }

  /** The pickler meeting the persistent objects `seen`, in order; the
      first failure ends the dump. */
  function MeetAll(w: World, wr: Writer, seen: seq<HandleId>, alloc: nat -> Oid): (r: Met)
    requires forall i :: 0 <= i < |seen| ==> seen[i] in w.handles
    ensures r.world.handles.Keys == w.handles.Keys && r.world.conns == w.conns
    ensures r.world.trace == w.trace && r.world.nextId == w.nextId
    ensures r.writer.conn == wr.conn && r.writer.started == wr.started
    ensures |r.writer.found| >= |wr.found| && r.writer.found[..|wr.found|] == wr.found
    decreases |seen|
  {
    if seen == [] then Met(w, wr, None)
    else
      var m := PersistentId(w, wr, seen[0], alloc);
      if m.raised != None then m
      else
        assert forall i :: 1 <= i < |seen| ==> seen[i] == seen[1..][i - 1];
        MeetAll(m.world, m.writer, seen[1..], alloc)
  }

  /** The oids of the objects in `hs`, all of which have one. */
  function OidsOf(w: World, hs: seq<HandleId>): set<Oid>
    requires forall i :: 0 <= i < |hs| ==> hs[i] in w.handles && w.handles[hs[i]].oid.Some?
  {
    set i | 0 <= i < |hs| :: w.handles[hs[i]].oid.value
  }

  /** A successful dump leaves every object met with an oid and this
      connection, and the references are exactly the oids met. */
  lemma {:induction false} MeetAllRefs(w: World, wr: Writer, seen: seq<HandleId>, alloc: nat -> Oid)
    requires forall i :: 0 <= i < |seen| ==> seen[i] in w.handles
    ensures var r := MeetAll(w, wr, seen, alloc);
            r.raised == None ==>
              && (forall i :: 0 <= i < |seen| ==>
                    r.world.handles[seen[i]].oid.Some? && r.world.handles[seen[i]].conn == Some(wr.conn))
              && r.writer.refs == wr.refs + OidsOf(r.world, seen)
    decreases |seen|
  {
    var r := MeetAll(w, wr, seen, alloc);
    if seen != [] && r.raised == None {
      var m := PersistentId(w, wr, seen[0], alloc);
      var tail := seen[1..];
      assert forall i :: 1 <= i < |seen| ==> seen[i] == tail[i - 1];
      MeetAllRefs(m.world, m.writer, tail, alloc);
      assert r == MeetAll(m.world, m.writer, tail, alloc);
      MeetAllKeeps(m.world, m.writer, tail, alloc, seen[0]);
      assert OidsOf(r.world, seen) == {r.world.handles[seen[0]].oid.value} + OidsOf(r.world, tail) by {
        forall o | o in OidsOf(r.world, seen)
          ensures o in {r.world.handles[seen[0]].oid.value} + OidsOf(r.world, tail)
        {
          var i :| 0 <= i < |seen| && r.world.handles[seen[i]].oid.value == o;
          if i > 0 {
            assert r.world.handles[tail[i - 1]].oid.value == o;
          }
        }
        forall o | o in OidsOf(r.world, tail)
          ensures o in OidsOf(r.world, seen)
        {
          var i :| 0 <= i < |tail| && r.world.handles[tail[i]].oid.value == o;
          assert r.world.handles[seen[i + 1]].oid.value == o;
        }
      }
    }
  }

  /** Meeting objects never changes an object that already has an oid
      and this connection. */
  lemma {:induction false} MeetAllKeeps(w: World, wr: Writer, seen: seq<HandleId>, alloc: nat -> Oid, h: HandleId)
    requires forall i :: 0 <= i < |seen| ==> seen[i] in w.handles
    requires h in w.handles && w.handles[h].oid.Some? && w.handles[h].conn == Some(wr.conn)
    ensures MeetAll(w, wr, seen, alloc).world.handles[h] == w.handles[h]
    decreases |seen|
  {
    if seen != [] {
      var m := PersistentId(w, wr, seen[0], alloc);
      if m.raised == None {
        assert forall i :: 1 <= i < |seen| ==> seen[i] == seen[1..][i - 1];
        MeetAllKeeps(m.world, m.writer, seen[1..], alloc, h);
      }
    }
  }

  /** The objects a writer found while meeting `seen`. */
  function FoundDuring(w: World, wr: Writer, seen: seq<HandleId>, alloc: nat -> Oid): (r: seq<HandleId>)
    requires forall i :: 0 <= i < |seen| ==> seen[i] in w.handles
  {
    MeetAll(w, wr, seen, alloc).writer.found[|wr.found|..]
  }

  /** Splitting off the first object met. */
  lemma FoundDuringCons(w: World, wr: Writer, seen: seq<HandleId>, alloc: nat -> Oid)
    requires forall i :: 0 <= i < |seen| ==> seen[i] in w.handles
    requires seen != [] && PersistentId(w, wr, seen[0], alloc).raised == None
    ensures var m := PersistentId(w, wr, seen[0], alloc);
            && (forall i :: 0 <= i < |seen[1..]| ==> seen[1..][i] in m.world.handles)
            && MeetAll(w, wr, seen, alloc) == MeetAll(m.world, m.writer, seen[1..], alloc)
            && FoundDuring(w, wr, seen, alloc)
                 == (if w.handles[seen[0]].oid.None? then [seen[0]] else []) + FoundDuring(m.world, m.writer, seen[1..], alloc)
  {
    var m := PersistentId(w, wr, seen[0], alloc);
    assert forall i :: 1 <= i < |seen| ==> seen[i] == seen[1..][i - 1];
    var r := MeetAll(m.world, m.writer, seen[1..], alloc);
    assert MeetAll(w, wr, seen, alloc) == r;
    var pre := if w.handles[seen[0]].oid.None? then [seen[0]] else [];
    SuffixAfter(wr.found, pre, r.writer.found);
  }

  lemma SuffixAfter(a: seq<HandleId>, pre: seq<HandleId>, c: seq<HandleId>)
    requires |c| >= |a + pre| && c[..|a + pre|] == a + pre
    ensures c[|a|..] == pre + c[|a + pre|..]
  {
    assert c[|a|..] == c[|a|..|a + pre|] + c[|a + pre|..];
  }

  /** Each object found was met and had no oid before. */
  lemma {:induction false} FoundWereNew(w: World, wr: Writer, seen: seq<HandleId>, alloc: nat -> Oid)
    requires forall i :: 0 <= i < |seen| ==> seen[i] in w.handles
    ensures var added := FoundDuring(w, wr, seen, alloc);
            forall j :: 0 <= j < |added| ==> added[j] in seen && w.handles[added[j]].oid.None?
    decreases |seen|
  {
    if seen != [] {
      var m := PersistentId(w, wr, seen[0], alloc);
      if m.raised == None {
        FoundDuringCons(w, wr, seen, alloc);
        FoundWereNew(m.world, m.writer, seen[1..], alloc);
        var later := FoundDuring(m.world, m.writer, seen[1..], alloc);
        forall j | 0 <= j < |later|
          ensures later[j] in seen && w.handles[later[j]].oid.None?
        {
          assert later[j] != seen[0] ==> m.world.handles[later[j]] == w.handles[later[j]];
        }
      }
    }
  }

  /** No object is found twice. */
  lemma {:induction false} FoundOnce(w: World, wr: Writer, seen: seq<HandleId>, alloc: nat -> Oid)
    requires forall i :: 0 <= i < |seen| ==> seen[i] in w.handles
    ensures var added := FoundDuring(w, wr, seen, alloc);
            forall j, k :: 0 <= j < k < |added| ==> added[j] != added[k]
    decreases |seen|
  {
    if seen != [] {
      var m := PersistentId(w, wr, seen[0], alloc);
      if m.raised == None {
        FoundDuringCons(w, wr, seen, alloc);
        FoundOnce(m.world, m.writer, seen[1..], alloc);
        FoundWereNew(m.world, m.writer, seen[1..], alloc);
        var later := FoundDuring(m.world, m.writer, seen[1..], alloc);
        assert forall j :: 0 <= j < |later| ==> later[j] != seen[0];
      }
    }
  }

  /** A writer takes one oid per object it finds. */
  lemma {:induction false} FoundIssued(w: World, wr: Writer, seen: seq<HandleId>, alloc: nat -> Oid)
    requires forall i :: 0 <= i < |seen| ==> seen[i] in w.handles
    ensures |FoundDuring(w, wr, seen, alloc)| == MeetAll(w, wr, seen, alloc).writer.issued - wr.issued
    decreases |seen|
  {
    if seen != [] {
      var m := PersistentId(w, wr, seen[0], alloc);
      if m.raised == None {
        FoundDuringCons(w, wr, seen, alloc);
        FoundIssued(m.world, m.writer, seen[1..], alloc);
      }
    }
  }

  /** A dump that succeeds finds every object met that had no oid. */
  lemma {:induction false} FoundAll(w: World, wr: Writer, seen: seq<HandleId>, alloc: nat -> Oid)
    requires forall i :: 0 <= i < |seen| ==> seen[i] in w.handles
    ensures MeetAll(w, wr, seen, alloc).raised == None ==>
              forall i :: 0 <= i < |seen| && w.handles[seen[i]].oid.None? ==> seen[i] in FoundDuring(w, wr, seen, alloc)
    decreases |seen|
  {
    if seen != [] {
      var m := PersistentId(w, wr, seen[0], alloc);
      if m.raised == None {
        FoundDuringCons(w, wr, seen, alloc);
        FoundAll(m.world, m.writer, seen[1..], alloc);
        forall i | 1 <= i < |seen| && w.handles[seen[i]].oid.None? && seen[i] != seen[0]
          ensures m.world.handles[seen[1..][i - 1]].oid.None?
        {
        }
      }
    }
  }

  /** The reference list get_state returns for an object whose state
      refers to the persistent objects `seen`: the references are cleared
      before the dump, the object's own oid is discarded after it, and the
      rest are joined in sorted order. */
  datatype Dumped = Dumped(world: World, writer: Writer, refs: Result<Bytes>)

  function GetStateRefs(w: World, wr: Writer, h: HandleId, seen: seq<HandleId>, alloc: nat -> Oid): (r: Dumped)
    requires h in w.handles && forall i :: 0 <= i < |seen| ==> seen[i] in w.handles
    ensures r.world.handles.Keys == w.handles.Keys && r.world.conns == w.conns
    ensures r.writer.conn == wr.conn && r.writer.started == wr.started
    ensures r.refs.Err? ==> r.refs.error == ValueError
  {
    var m := MeetAll(w, wr.(refs := {}), seen, alloc);
    if m.raised != None then Dumped(m.world, m.writer, Err(ValueError))
    else
      var own := m.world.handles[h].oid;
      var refs := if own.Some? then m.writer.refs - {own.value} else m.writer.refs;
      Dumped(m.world, m.writer.(refs := refs), Ok(Codec.Join(Sort(refs))))
  }

  /** The reference list splits back into the oids the object's state
      refers to, ascending, each once, without the object's own oid. */
  lemma GetStateRefsSpec(w: World, wr: Writer, h: HandleId, seen: seq<HandleId>, alloc: nat -> Oid)
    requires h in w.handles && forall i :: 0 <= i < |seen| ==> seen[i] in w.handles
    requires forall k: nat :: |alloc(k)| == 8
    requires forall g :: g in w.handles && w.handles[g].oid.Some? ==> |w.handles[g].oid.value| == 8
    ensures var r := GetStateRefs(w, wr, h, seen, alloc);
            r.refs.Ok? ==>
              && (forall i :: 0 <= i < |seen| ==> r.world.handles[seen[i]].oid.Some?)
              && Codec.SplitOids(r.refs.value).Ok?
              && var xs := Codec.SplitOids(r.refs.value).value;
                 && Ascending(xs)
                 && (forall o :: o in xs <==>
                       o in OidsOf(r.world, seen) && Some(o) != r.world.handles[h].oid)
  {
    var r := GetStateRefs(w, wr, h, seen, alloc);
    var m := MeetAll(w, wr.(refs := {}), seen, alloc);
    if m.raised == None {
      MeetAllRefs(w, wr.(refs := {}), seen, alloc);
      MeetAllOids(w, wr.(refs := {}), seen, alloc);
      var own := m.world.handles[h].oid;
      var refs := if own.Some? then m.writer.refs - {own.value} else m.writer.refs;
      SortSpec(refs);
      var xs := Sort(refs);
      forall i | 0 <= i < |xs|
        ensures |xs[i]| == 8
      {
        assert xs[i] in refs;
        assert xs[i] in m.writer.refs;
        assert xs[i] in OidsOf(m.world, seen);
        var j :| 0 <= j < |seen| && m.world.handles[seen[j]].oid.value == xs[i];
        assert seen[j] in m.world.handles;
      }
      Codec.SplitJoin(xs);
    }
  }

  /** Meeting objects hands out only oids of eight bytes when the
      connection does. */
  lemma {:induction false} MeetAllOids(w: World, wr: Writer, seen: seq<HandleId>, alloc: nat -> Oid)
    requires forall i :: 0 <= i < |seen| ==> seen[i] in w.handles
    requires forall k: nat :: |alloc(k)| == 8
    requires forall g :: g in w.handles && w.handles[g].oid.Some? ==> |w.handles[g].oid.value| == 8
    ensures var r := MeetAll(w, wr, seen, alloc);
            forall g :: g in r.world.handles && r.world.handles[g].oid.Some? ==> |r.world.handles[g].oid.value| == 8
    decreases |seen|
  {
    if seen != [] {
      var m := PersistentId(w, wr, seen[0], alloc);
      if m.raised == None {
        assert forall i :: 1 <= i < |seen| ==> seen[i] == seen[1..][i - 1];
        assert |alloc(wr.issued)| == 8;
        assert forall g :: g in m.world.handles && m.world.handles[g].oid.Some? ==> |m.world.handles[g].oid.value| == 8;
        MeetAllOids(m.world, m.writer, seen[1..], alloc);
        assert MeetAll(w, wr, seen, alloc) == MeetAll(m.world, m.writer, seen[1..], alloc);
      }
    }
  }

  /** The generator gen_new_objects returns: the object it was asked
      about, how many objects it has yielded, and whether it has run off
      the end of objects_found (a finished generator stays finished). */
  datatype NewObjects = NewObjects(obj: HandleId, pos: nat, done: bool)

  /** gen_new_objects: once a generator of this writer has started, the
      method raises RuntimeError. */
  function GenNewObjects(wr: Writer, obj: HandleId): (r: Result<NewObjects>)
    ensures r.Ok? <==> !wr.started
    ensures r.Err? ==> r.error == RuntimeError
    ensures r.Ok? ==> r.value.obj == obj && r.value.pos == 0 && !r.value.done
  {
    if wr.started then Err(RuntimeError) else Ok(NewObjects(obj, 0, false))
  }

  datatype Yielded = Yielded(writer: Writer, item: Option<HandleId>, gen: NewObjects)

  /** next() on the generator: it yields the object, then the objects
      found, reading the list afresh each time, so that objects found
      while the commit walks it are yielded too; once it has found the
      list exhausted it is finished, and objects found later are never
      yielded. */
  function Next(wr: Writer, g: NewObjects): (r: Yielded)
    ensures r.writer == wr.(started := true)
    ensures g.done ==> r.item == None && r.gen == g
    ensures !g.done && g.pos == 0 ==> r.item == Some(g.obj)
    ensures !g.done && 0 < g.pos <= |wr.found| ==> r.item == Some(wr.found[g.pos - 1])
    ensures !g.done && g.pos > |wr.found| ==> r.item == None && r.gen == g.(done := true)
    ensures r.item.Some? ==> r.gen == g.(pos := g.pos + 1)
  {
    var wr1 := wr.(started := true);
    if g.done then Yielded(wr1, None, g)
    else if g.pos == 0 then Yielded(wr1, Some(g.obj), g.(pos := 1))
    else if g.pos <= |wr.found| then Yielded(wr1, Some(wr.found[g.pos - 1]), g.(pos := g.pos + 1))
    else Yielded(wr1, None, g.(done := true))
  }

  /** Once finished, the generator yields nothing more, whatever the
      writer finds afterwards. */
  lemma NextFinished(wr: Writer, g: NewObjects, later: Writer)
    requires !g.done && g.pos > |wr.found|
    ensures var y := Next(wr, g);
            y.item == None && Next(later, y.gen).item == None
  {
  }

  /** Running a generator to the end while the writer finds nothing
      more. */
  function Drain(wr: Writer, g: NewObjects): (r: seq<HandleId>)
    decreases if g.done || g.pos > |wr.found| then 0 else |wr.found| + 1 - g.pos
  {
    var y := Next(wr, g);
    if y.item.None? then [] else [y.item.value] + Drain(y.writer, y.gen)
  }

  /** The generator yields the object first and then every object found,
      in the order found. */
  lemma {:induction false} DrainYields(wr: Writer, g: NewObjects)
    requires !g.done && g.pos <= |wr.found| + 1
    ensures g.pos == 0 ==> Drain(wr, g) == [g.obj] + wr.found
    ensures g.pos > 0 ==> Drain(wr, g) == wr.found[g.pos - 1..]
    decreases |wr.found| + 1 - g.pos
  {
    var y := Next(wr, g);
    if y.item.Some? {
      DrainYields(y.writer, y.gen);
    }
  }

  /** Once the generator has yielded, a second gen_new_objects raises. */
  lemma GenNewObjectsOnce(wr: Writer, obj: HandleId, other: HandleId)
    requires GenNewObjects(wr, obj).Ok?
    ensures var y := Next(wr, GenNewObjects(wr, obj).value);
            y.item == Some(obj) && GenNewObjects(y.writer, other) == Err(RuntimeError)
  {
  }
}

=== FILE: offset_map.dfy ===
/** OffsetMap of shelf.py: the file offset of each oid, kept in an IntArray
    indexed by the oid's number. Offsets are below the array's own position
    `start`, so any stored value at or above `start` can serve another
    purpose: gen_stitch turns the unused slots (the holes) into a linked
    list whose links are a slot index plus `start`, and gen_holes walks
    that list to hand the holes out as free oids.

    The map is modelled over what its IntArray holds, slot by slot; the
    last part of this module shows that this view agrees with the IntArray
    model of utils.py on every read and write the map makes. */
module OffsetMaps {
  import opened Wrappers
  import Codec
  import IntArrays
  import WordArrays

  /** The position of the array in the file, the width of its words, and
      the number each slot's word denotes (a blank word, all 0xff bytes,
      denotes 256**width - 1). */
  datatype OffsetMap = OffsetMap(start: nat, width: nat, slots: seq<nat>)

  /** Words of 1 to 8 bytes, each slot a number that fits its word. */
  predicate Valid(m: OffsetMap)
  {
    && 0 < m.width <= 8
    && forall j :: 0 <= j < |m.slots| ==> m.slots[j] < Codec.Pow256(m.width)
  }

  /** The number a blank word denotes. */
  function BlankValue(m: OffsetMap): nat
  {
    Codec.Pow256(m.width) - 1
  }

  /** get_array_size: the number of slots. */
  function Size(m: OffsetMap): nat
  {
    |m.slots|
  }

  /** The slot an index names: a negative index counts from the end. */
  function Position(m: OffsetMap, j: int): int
  {
    if j < 0 then Size(m) + j else j
  }

  /** int_array[j]: the slot's number, or IndexError out of range. */
  function GetItem(m: OffsetMap, j: int): (r: Result<nat>)
    ensures r.Ok? <==> -(Size(m) as int) <= j < Size(m)
    ensures r.Err? ==> r.error == IndexError
  {
    var p := Position(m, j);
    if 0 <= p < Size(m) then Ok(m.slots[p]) else Err(IndexError)
  }

  /** int_array.get(j): None out of range and for a blank word. */
  function RawGet(m: OffsetMap, j: int): (r: Option<nat>)
    ensures r.Some? ==> GetItem(m, j) == Ok(r.value) && r.value != BlankValue(m)
  {
    var p := Position(m, j);
    if 0 <= p < Size(m) && m.slots[p] != BlankValue(m) then Some(m.slots[p]) else None
  }

  /** get(j): the stored offset; a blank word, an index out of range and a
      value at or above `start` all read as absent. */
  function Get(m: OffsetMap, j: int): (r: Option<nat>)
    ensures r.Some? ==> r.value < m.start && RawGet(m, j) == r
    ensures RawGet(m, j).Some? && RawGet(m, j).value >= m.start ==> r.None?
  {
    var v := RawGet(m, j);
    if v.None? || v.value >= m.start then None else v
  }

  /** A slot that holds no offset. */
  predicate IsHole(m: OffsetMap, j: int)
  {
    Get(m, j).None?
  }

  /** int_array[j] = v: struct.error unless v is an int8, ValueError when
      it does not fit the word, IndexError out of range. */
  function SetRaw(m: OffsetMap, j: int, v: int): (r: Result<OffsetMap>)
    ensures r.Ok? <==> 0 <= v < Codec.INT8_LIMIT && v < Codec.Pow256(m.width) && -(Size(m) as int) <= j < Size(m)
    ensures r.Ok? ==> r.value.start == m.start && r.value.width == m.width && Size(r.value) == Size(m)
  {
    if !(0 <= v < Codec.INT8_LIMIT) then Err(StructError)
    else if v >= Codec.Pow256(m.width) then Err(ValueError)
    else if !(-(Size(m) as int) <= j < Size(m)) then Err(IndexError)
    else Ok(m.(slots := m.slots[Position(m, j) := v]))
  }

  /** __setitem__(j, value): asserts that the slot holds no offset, then
      stores the value. */
  function SetItem(m: OffsetMap, j: int, value: int): (r: Result<OffsetMap>)
    ensures r.Ok? ==> IsHole(m, j)
    ensures r.Ok? ==> r.value.start == m.start && r.value.width == m.width && Size(r.value) == Size(m)
  {
    if Get(m, j).Some? then Err(AssertionError) else SetRaw(m, j, value)
  }

  /** Setting a slot that holds an offset fails on the assertion; setting
      a hole to a value that fits the word succeeds, keeps the map valid,
      the slot then reads as that value when it is an offset, and every
      other slot reads as before. */
  lemma SetItemSpec(m: OffsetMap, j: int, value: int, k: int)
    requires Valid(m) && -(Size(m) as int) <= j < Size(m)
    requires 0 <= value < BlankValue(m)
    ensures !IsHole(m, j) ==> SetItem(m, j, value) == Err(AssertionError)
    ensures IsHole(m, j) ==> SetItem(m, j, value).Ok? && Valid(SetItem(m, j, value).value)
    ensures IsHole(m, j) ==>
              Get(SetItem(m, j, value).value, k) ==
                if Position(m, k) == Position(m, j) then (if value < m.start then Some(value) else None)
                else Get(m, k)
  {
    Codec.Pow256Values();
    IntArrays.Pow256Grows(m.width, 8);
  }

  /** The loop of gen_stitch from slot `i` on, `last` being the previous
      hole (the last slot before any): each hole gets the previous hole's
      index plus `start`, written straight into the array. */
  function Stitch(m: OffsetMap, i: nat, last: int): (r: Result<OffsetMap>)
    requires i <= Size(m)
    ensures r.Ok? ==> r.value.start == m.start && r.value.width == m.width && Size(r.value) == Size(m)
    decreases Size(m) - i
  {
    if i == Size(m) then Ok(m)
    else if IsHole(m, i) then
      var m1 :- SetRaw(m, i, last + m.start);
      Stitch(m1, i + 1, i)
    else Stitch(m, i + 1, last)
  }

  /** gen_stitch, run to the end. */
  function GenStitch(m: OffsetMap): (r: Result<OffsetMap>)
    ensures r.Ok? ==> r.value.start == m.start && r.value.width == m.width && Size(r.value) == Size(m)
  {
    Stitch(m, 0, Size(m) - 1)
  }

  /** Which slots are holes. */
  function HoleMap(m: OffsetMap): (h: seq<bool>)
    ensures |h| == Size(m) && forall j :: 0 <= j < Size(m) ==> h[j] == IsHole(m, j)
  {
    seq(Size(m), j => IsHole(m, j))
  }

  /** The hole nearest below slot `j` and at or above slot `i`, or `last`
      when there is none. */
  function PrevHole(h: seq<bool>, i: nat, j: int, last: int): (p: int)
    requires j <= |h|
    decreases j
  {
    if j <= i then last
    else if h[j - 1] then j - 1
    else PrevHole(h, i, j - 1, last)
  }

  lemma {:induction false} PrevHoleSpec(h: seq<bool>, i: nat, j: int, last: int)
    requires j <= |h|
    ensures var p := PrevHole(h, i, j, last);
            || (p == last && forall x :: i <= x < j ==> !h[x])
            || (i <= p < j && h[p] && forall x :: p < x < j ==> !h[x])
    decreases j
  {
    if j > i && !h[j - 1] {
      PrevHoleSpec(h, i, j - 1, last);
    }
  }

  /** Starting one slot later gives the same previous holes, when that
      slot (if it is a hole) becomes the starting `last`. */
  lemma {:induction false} PrevHoleShift(h: seq<bool>, i: nat, j: int, lastA: int, lastB: int)
    requires i < j <= |h|
    requires h[i] ==> lastA == i
    requires !h[i] ==> lastA == lastB
    ensures PrevHole(h, i + 1, j, lastA) == PrevHole(h, i, j, lastB)
    decreases j
  {
    if j > i + 1 && !h[j - 1] {
      PrevHoleShift(h, i, j - 1, lastA, lastB);
    }
  }

  /** The slots the stitching loop leaves when started at slot `i` with
      `last` as the previous hole: each hole from `i` on holds the previous
      hole plus `start`, every other slot is as it was. */
  function Linked(m0: OffsetMap, h: seq<bool>, i: nat, last: int): (s: seq<int>)
    requires |h| == Size(m0)
  {
    seq(Size(m0), j => if 0 <= j < Size(m0) then LinkAt(m0, h, i, last, j) else 0)
  }

  /** What slot `j` holds once the loop from `i` has run. */
  function LinkAt(m0: OffsetMap, h: seq<bool>, i: nat, last: int, j: int): int
    requires |h| == Size(m0) && 0 <= j < Size(m0)
  {
    if i <= j && h[j] then PrevHole(h, i, j, last) + m0.start else m0.slots[j]
  }

  /** What gen_stitch leaves: every hole of `m0` holds the previous hole
      plus `start` (the first hole links to the last slot), and every other
      slot is as it was. */
  predicate Stitched(m0: OffsetMap, m: OffsetMap)
  {
    && m.start == m0.start
    && m.width == m0.width
    && m.slots == Linked(m0, HoleMap(m0), 0, Size(m0) - 1)
  }

  /** Passing over a slot that holds an offset changes nothing the loop
      will write. */
  lemma LinkedSkip(m0: OffsetMap, h: seq<bool>, i: nat, last: int)
    requires |h| == Size(m0) && i < Size(m0) && !h[i]
    ensures Linked(m0, h, i + 1, last) == Linked(m0, h, i, last)
  {
    forall j | i < j < Size(m0)
      ensures PrevHole(h, i + 1, j, last) == PrevHole(h, i, j, last)
    {
      PrevHoleShift(h, i, j, last, last);
    }
  }

  /** Linking hole `i` to `last` and moving on with `i` as the previous
      hole writes what the loop from `i` would. */
  lemma LinkedHole(m0: OffsetMap, h: seq<bool>, i: nat, last: int, m1: OffsetMap)
    requires |h| == Size(m0) && i < Size(m0) && h[i] && 0 <= last
    requires m1.start == m0.start && m1.slots == m0.slots[i := last + m0.start]
    ensures Linked(m1, h, i + 1, i) == Linked(m0, h, i, last)
  {
    forall j | i < j < Size(m0)
      ensures PrevHole(h, i + 1, j, i) == PrevHole(h, i, j, last)
    {
      PrevHoleShift(h, i, j, i, last);
    }
  }

  /** The stitching loop from slot `i` succeeds when every link fits a
      word, links the holes from `i` on, and leaves the holes as they
      were. */
  lemma {:induction false} StitchSpec(m0: OffsetMap, h: seq<bool>, i: nat, last: int)
    requires Valid(m0) && i <= Size(m0) && h == HoleMap(m0)
    requires i < Size(m0) ==> 0 <= last < Size(m0)
    requires m0.start + Size(m0) - 1 < Codec.Pow256(m0.width)
    ensures Stitch(m0, i, last).Ok?
    ensures var m := Stitch(m0, i, last).value;
            Valid(m) && m.slots == Linked(m0, h, i, last) && HoleMap(m) == h
    decreases Size(m0) - i, 1
  {
    if i < Size(m0) {
      if h[i] {
        StitchHole(m0, h, i, last);
      } else {
        StitchSkip(m0, h, i, last);
      }
    } else {
      assert Stitch(m0, i, last).value.slots == Linked(m0, h, i, last);
    }
  }

  /** The stitching loop at a hole. */
  lemma {:induction false} StitchHole(m0: OffsetMap, h: seq<bool>, i: nat, last: int)
    requires Valid(m0) && i < Size(m0) && h == HoleMap(m0) && h[i]
    requires 0 <= last < Size(m0)
    requires m0.start + Size(m0) - 1 < Codec.Pow256(m0.width)
    ensures Stitch(m0, i, last).Ok?
    ensures var m := Stitch(m0, i, last).value;
            Valid(m) && m.slots == Linked(m0, h, i, last) && HoleMap(m) == h
    decreases Size(m0) - i, 0
  {
    LinkKeepsHoles(m0, i, last + m0.start);
    var m1 := SetRaw(m0, i, last + m0.start).value;
    assert Stitch(m0, i, last) == Stitch(m1, i + 1, i) by {
      assert IsHole(m0, i);
    }
    StitchSpec(m1, h, i + 1, i);
    LinkedHole(m0, h, i, last, m1);
  }

  /** Writing a link, a value at or above `start` that fits the word, into
      a hole succeeds and leaves the same holes. */
  lemma LinkKeepsHoles(m0: OffsetMap, i: nat, v: int)
    requires Valid(m0) && i < Size(m0) && IsHole(m0, i)
    requires m0.start <= v < Codec.Pow256(m0.width)
    ensures SetRaw(m0, i, v).Ok?
    ensures Valid(SetRaw(m0, i, v).value) && HoleMap(SetRaw(m0, i, v).value) == HoleMap(m0)
    ensures SetRaw(m0, i, v).value.slots == m0.slots[i := v] && SetRaw(m0, i, v).value.start == m0.start
  {
    Codec.Pow256Values();
    IntArrays.Pow256Grows(m0.width, 8);
    var m1 := SetRaw(m0, i, v).value;
    assert HoleMap(m1) == HoleMap(m0);
  }

  /** The stitching loop at a slot that holds an offset. */
  lemma {:induction false} StitchSkip(m0: OffsetMap, h: seq<bool>, i: nat, last: int)
    requires Valid(m0) && i < Size(m0) && h == HoleMap(m0) && !h[i]
    requires 0 <= last < Size(m0)
    requires m0.start + Size(m0) - 1 < Codec.Pow256(m0.width)
    ensures Stitch(m0, i, last).Ok?
    ensures var m := Stitch(m0, i, last).value;
            Valid(m) && m.slots == Linked(m0, h, i, last) && HoleMap(m) == h
    decreases Size(m0) - i, 0
  {
    StitchSpec(m0, h, i + 1, last);
    LinkedSkip(m0, h, i, last);
  }

  /** gen_stitch succeeds when the largest link fits a word (as it does on
      an array from generate, whose maximum is start + size), links every
      hole, and changes nothing get reports. */
  lemma GenStitchSpec(m0: OffsetMap)
    requires Valid(m0)
    requires m0.start + Size(m0) - 1 < Codec.Pow256(m0.width)
    ensures GenStitch(m0).Ok?
    ensures var m := GenStitch(m0).value;
            && Valid(m)
            && Stitched(m0, m)
            && forall j :: Get(m, j) == Get(m0, j)
  {
    var h := HoleMap(m0);
    StitchSpec(m0, h, 0, Size(m0) - 1);
    var m := GenStitch(m0).value;
    forall j
      ensures Get(m, j) == Get(m0, j)
    {
      var p := Position(m0, j);
      if 0 <= p < Size(m0) {
        assert IsHole(m, p) == IsHole(m0, p);
      }
    }
  }

  /** The loop of gen_holes from slot `j`: each step reads the slot and
      yields its link minus `start`, stopping once that is the last slot.
      The source loops for ever on a chain that never reaches the last
      slot; here `fuel` bounds the steps. */
  function Walk(m: OffsetMap, j: int, fuel: nat): (r: Result<seq<int>>)
    decreases fuel
  {
    if fuel == 0 then Err(RuntimeError)
    else
      var v :- GetItem(m, j);
      var next := v - m.start;
      if next == Size(m) - 1 then Ok([next])
      else
        var rest :- Walk(m, next, fuel - 1);
        Ok([next] + rest)
  }

  /** gen_holes: nothing for an empty array; otherwise the walk from the
      last slot, given as many steps as there are slots. */
  function GenHoles(m: OffsetMap): (r: Result<seq<int>>)
    ensures Size(m) == 0 ==> r == Ok([])
  {
    if Size(m) == 0 then Ok([]) else Walk(m, Size(m) - 1, Size(m))
  }

  /** The holes below slot `j`, nearest first: the reference for what
      gen_holes yields. */
  function HolesBelow(h: seq<bool>, j: nat): (s: seq<int>)
    requires j <= |h|
    decreases j
  {
    if j == 0 then []
    else if h[j - 1] then [j - 1] + HolesBelow(h, j - 1)
    else HolesBelow(h, j - 1)
  }

  /** The previous hole is the first of the holes below, and the rest are
      the holes below it; with no hole below, it is `last`. */
  lemma {:induction false} HolesBelowPrev(h: seq<bool>, j: nat, last: int)
    requires j <= |h|
    ensures HolesBelow(h, j) == [] ==> PrevHole(h, 0, j, last) == last
    ensures HolesBelow(h, j) != [] ==>
              var p := PrevHole(h, 0, j, last);
              0 <= p < j && HolesBelow(h, j) == [p] + HolesBelow(h, p)
    decreases j
  {
    if j > 0 && !h[j - 1] {
      HolesBelowPrev(h, j - 1, last);
    }
  }

  /** The holes below `j` are exactly the holes, each once, in strictly
      decreasing order. */
  lemma {:induction false} HolesBelowSpec(h: seq<bool>, j: nat)
    requires j <= |h|
    ensures forall x :: x in HolesBelow(h, j) <==> 0 <= x < j && h[x]
    ensures forall a, b :: 0 <= a < b < |HolesBelow(h, j)| ==> HolesBelow(h, j)[a] > HolesBelow(h, j)[b]
    decreases j
  {
    if j > 0 {
      HolesBelowSpec(h, j - 1);
      var t := HolesBelow(h, j - 1);
      if h[j - 1] {
        var s := [j - 1] + t;
        forall a, b | 0 <= a < b < |s|
          ensures s[a] > s[b]
        {
          assert s[b] == t[b - 1] && s[b] in t;
        }
      }
    }
  }

  /** One step of the walk: reading `next` plus `start` at `j` ends the
      walk at the last slot, and otherwise continues from `next`. */
  lemma WalkStep(m: OffsetMap, j: int, fuel: nat, next: int)
    requires fuel > 0 && GetItem(m, j) == Ok(next + m.start)
    ensures next == Size(m) - 1 ==> Walk(m, j, fuel) == Ok([next])
    ensures next != Size(m) - 1 && Walk(m, next, fuel - 1).Ok? ==>
              Walk(m, j, fuel) == Ok([next] + Walk(m, next, fuel - 1).value)
  {
  }

  /** The chain gen_holes follows: `h` marks the holes, and each hole
      reads as the previous hole plus `start` (the last slot for the
      first). */
  predicate Chained(m: OffsetMap, h: seq<bool>)
  {
    && |h| == Size(m) > 0
    && forall j {:trigger GetItem(m, j)} :: 0 <= j < |h| && h[j] ==> GetItem(m, j) == Ok(PrevHole(h, 0, j, |h| - 1) + m.start)
  }

  /** A stitched map holds the chain of the original's holes. */
  lemma StitchedChained(m0: OffsetMap, m: OffsetMap)
    requires Stitched(m0, m) && Size(m0) > 0
    ensures Chained(m, HoleMap(m0))
  {
    var h := HoleMap(m0);
    forall j | 0 <= j < |h| && h[j]
      ensures GetItem(m, j) == Ok(PrevHole(h, 0, j, |h| - 1) + m.start)
    {
      StitchedAt(m0, m, h, j);
    }
  }

  lemma StitchedAt(m0: OffsetMap, m: OffsetMap, h: seq<bool>, j: nat)
    requires Stitched(m0, m) && h == HoleMap(m0) && j < |h| && h[j]
    ensures GetItem(m, j) == Ok(PrevHole(h, 0, j, |h| - 1) + m.start)
  {
    assert m.slots[j] == Linked(m0, h, 0, Size(m0) - 1)[j];
  }

  /** Walking the chain from a hole `j` yields the holes below `j`,
      nearest first, then the last slot. */
  lemma {:induction false} WalkSpec(m: OffsetMap, h: seq<bool>, j: nat, fuel: nat)
    requires Chained(m, h) && j < |h| && h[j] && fuel > j
    ensures Walk(m, j, fuel) == Ok(HolesBelow(h, j) + [|h| - 1])
    decreases j, 1
  {
    HolesBelowPrev(h, j, |h| - 1);
    if HolesBelow(h, j) != [] {
      WalkOn(m, h, j, fuel);
    } else {
      WalkStep(m, j, fuel, |h| - 1);
      assert HolesBelow(h, j) + [|h| - 1] == [|h| - 1];
    }
  }

  /** The walk from a hole with holes below it moves to the nearest. */
  lemma {:induction false} WalkOn(m: OffsetMap, h: seq<bool>, j: nat, fuel: nat)
    requires Chained(m, h) && j < |h| && h[j] && fuel > j && HolesBelow(h, j) != []
    ensures Walk(m, j, fuel) == Ok(HolesBelow(h, j) + [|h| - 1])
    decreases j, 0
  {
    var n := |h|;
    var p := PrevHole(h, 0, j, n - 1);
    HolesBelowPrev(h, j, n - 1);
    PrevHoleSpec(h, 0, j, n - 1);
    WalkSpec(m, h, p, fuel - 1);
    WalkStep(m, j, fuel, p);
    assert HolesBelow(h, j) + [n - 1] == [p] + (HolesBelow(h, p) + [n - 1]);
  }

  /** After gen_stitch, gen_holes yields every hole exactly once and
      nothing else, nearest the end first; the last slot, which generate
      always leaves blank, comes last. */
  lemma GenHolesSpec(m0: OffsetMap)
    requires Valid(m0)
    requires m0.start + Size(m0) - 1 < Codec.Pow256(m0.width)
    requires Size(m0) > 0 ==> IsHole(m0, Size(m0) - 1)
    ensures GenStitch(m0).Ok?
    ensures GenHoles(GenStitch(m0).value).Ok?
    ensures var s := GenHoles(GenStitch(m0).value).value;
            && (forall x :: x in s <==> 0 <= x < Size(m0) && IsHole(m0, x))
            && (forall a, b :: 0 <= a < b < |s| ==> s[a] != s[b])
            && (Size(m0) > 0 ==> s == HolesBelow(HoleMap(m0), Size(m0) - 1) + [Size(m0) - 1])
  {
    GenStitchSpec(m0);
    var m := GenStitch(m0).value;
    var n := Size(m0);
    var h := HoleMap(m0);
    if n > 0 {
      StitchedChained(m0, m);
      WalkSpec(m, h, n - 1, n);
      HolesBelowSpec(h, n - 1);
      HolesListed(h, HolesBelow(h, n - 1), GenHoles(m).value);
    }
  }

  /** Strictly decreasing holes below the last slot, followed by the last
      slot, which is a hole too, list every hole once. */
  lemma HolesListed(h: seq<bool>, below: seq<int>, s: seq<int>)
    requires |h| > 0 && h[|h| - 1] && s == below + [|h| - 1]
    requires forall x :: x in below <==> 0 <= x < |h| - 1 && h[x]
    requires forall a, b :: 0 <= a < b < |below| ==> below[a] > below[b]
    ensures forall x :: x in s <==> 0 <= x < |h| && h[x]
    ensures forall a, b :: 0 <= a < b < |s| ==> s[a] != s[b]
  {
    forall a, b | 0 <= a < b < |s|
      ensures s[a] != s[b]
    {
      if b < |below| {
        assert s[a] > s[b];
      } else {
        assert s[a] in below;
      }
    }
  }

  /** When the last slot holds an offset instead, the first name gen_holes
      reaches is that offset minus `start`, a negative number. */
  lemma GenHolesLastTaken(m: OffsetMap)
    requires Size(m) > 0 && !IsHole(m, Size(m) - 1)
    ensures var r := GenHoles(m);
            r.Err? || (|r.value| > 0 && r.value[0] < 0)
  {
  }

  // The IntArray underneath: the view above agrees with utils.py's model.

  /** __getitem__ succeeds on every index in range when the words hold 1
      to 8 bytes, with a number that fits the word. */
  lemma GetItemOk(a: IntArrays.IntArray, j: int)
    requires IntArrays.Valid(a) && 0 < a.words.width <= 8 && -(a.words.count as int) <= j < a.words.count
    ensures IntArrays.GetItem(a, j).Ok?
    ensures IntArrays.GetItem(a, j).value < Codec.Pow256(a.words.width)
  {
    var w := a.words.width;
    var word := WordArrays.Get(a.words, j).value;
    assert |IntArrays.Pad(w) + word| == 8;
    IntArrays.BigEndianPadded(8 - w, word);
    Codec.BigEndianBound(word);
  }

  /** The numbers of the first `k` slots. */
  function Readings(a: IntArrays.IntArray, k: nat): (r: seq<nat>)
    requires IntArrays.Valid(a) && 0 < a.words.width <= 8 && k <= a.words.count
    ensures |r| == k
  {
    if k == 0 then []
    else
      GetItemOk(a, k - 1);
      Readings(a, k - 1) + [IntArrays.GetItem(a, k - 1).value]
  }

  lemma {:induction false} ReadingAt(a: IntArrays.IntArray, k: nat, j: nat)
    requires IntArrays.Valid(a) && 0 < a.words.width <= 8 && j < k <= a.words.count
    ensures IntArrays.GetItem(a, j) == Ok(Readings(a, k)[j])
  {
    if j < k - 1 {
      ReadingAt(a, k - 1, j);
    } else {
      GetItemOk(a, j);
    }
  }

  /** The offset map over an IntArray at `start`. */
  function ViewOf(a: IntArrays.IntArray, start: nat): (m: OffsetMap)
    requires IntArrays.Valid(a) && 0 < a.words.width <= 8
    ensures m.start == start && m.width == a.words.width && Size(m) == a.words.count
  {
    OffsetMap(start, a.words.width, Readings(a, a.words.count))
  }

  /** The view is valid, and __getitem__ and get on the IntArray read what
      the view's GetItem and RawGet read. */
  lemma ViewReads(a: IntArrays.IntArray, start: nat, j: int)
    requires IntArrays.Valid(a) && 0 < a.words.width <= 8
    ensures Valid(ViewOf(a, start))
    ensures IntArrays.GetItem(a, j) == GetItem(ViewOf(a, start), j)
    ensures IntArrays.Get(a, j) == Ok(RawGet(ViewOf(a, start), j))
  {
    var m := ViewOf(a, start);
    var w := a.words.width;
    var n := a.words.count;
    forall k | 0 <= k < n
      ensures m.slots[k] < Codec.Pow256(w)
    {
      ReadingAt(a, n, k);
      GetItemOk(a, k);
    }
    var p := Position(m, j);
    if 0 <= p < n {
      ReadingAt(a, n, p);
      assert WordArrays.Position(a.words, j) == p;
      var word := WordArrays.Get(a.words, j).value;
      var pad := IntArrays.Pad(w);
      assert |pad + word| == 8;
      IntArrays.BigEndianPadded(|pad|, IntArrays.Blank(w));
      IntArrays.BigEndianBlank(w);
      assert (pad + word)[|pad|..] == word;
      assert (pad + IntArrays.Blank(w))[|pad|..] == IntArrays.Blank(w);
      if m.slots[p] == BlankValue(m) {
        Codec.BigEndianInjective(pad + word, pad + IntArrays.Blank(w));
      }
    }
  }

  /** int_array[j] = v on the IntArray fails exactly when it fails on the
      view, with the same error, and otherwise leaves the view of the
      result. */
  lemma ViewWrite(a: IntArrays.IntArray, start: nat, j: int, v: int)
    requires IntArrays.Valid(a) && 0 < a.words.width <= 8
    ensures var m := ViewOf(a, start);
            var r := IntArrays.SetItem(a, j, v);
            && (r.Ok? <==> SetRaw(m, j, v).Ok?)
            && (r.Err? ==> r.error == SetRaw(m, j, v).error)
            && (r.Ok? ==> 0 < r.value.words.width <= 8 && ViewOf(r.value, start) == SetRaw(m, j, v).value)
  {
    var m := ViewOf(a, start);
    var n := a.words.count;
    IntArrays.SetItemErrors(a, j, v);
    var r := IntArrays.SetItem(a, j, v);
    if r.Ok? {
      var b := r.value;
      var after := SetRaw(m, j, v).value;
      forall k | 0 <= k < n
        ensures Readings(b, n)[k] == after.slots[k]
      {
        IntArrays.SetGet(a, j, v, k);
        ReadingAt(a, n, k);
        ReadingAt(b, n, k);
      }
    }
  }
}

=== FILE: persistence_state.dfy ===
/** The state the persistence proxy and the connection bookkeeping share:
    persistent object handles, connections with their caches, and the
    trace of calls made to the collaborators (loading state, noting an
    access, noting a change, the generic attribute machinery). Objects and
    connections live in an arena and refer to one another by identifier. */
module PersistenceState {
  import opened Wrappers

  /** _p_status. */
  datatype Status = Saved | Unsaved | Ghost

  /** The numbers the C enum and the Python constants give each status. */
  function StatusCode(s: Status): (r: int)
    ensures -1 <= r <= 1
    ensures r == 0 <==> s == Saved
    ensures r == 1 <==> s == Unsaved
    ensures r == -1 <==> s == Ghost
  {
    match s
    case Saved => 0
    case Unsaved => 1
    case Ghost => -1
  }

  /** Reading a raw _p_status number back as a status. */
  function StatusOf(code: int): (r: Option<Status>)
    ensures r.Some? <==> -1 <= code <= 1
    ensures r.Some? ==> StatusCode(r.value) == code
  {
    if code == 0 then Some(Saved)
    else if code == 1 then Some(Unsaved)
    else if code == -1 then Some(Ghost)
    else None
  }

  type HandleId = nat
  type ConnId = nat
  type Value = int

  /** The contents of an instance's __dict__. */
  type State = map<string, Value>

  /** Persistent, or ComputedAttribute, whose _p_load_state reads nothing. */
  datatype Kind = Plain | Computed

  datatype Class = Class(id: nat, kind: Kind)

  /** A PersistentBase instance: the four C slots plus its class and its
      instance dictionary. */
  datatype Handle = Handle(
    cls: Class,
    status: Status,
    serial: int,
    conn: Option<ConnId>,
    oid: Option<Oid>,
    dict: State)

  /** pb_new: a fresh instance is UNSAVED with serial 0 and neither a
      connection nor an oid. */
  function NewHandle(cls: Class): (r: Handle)
    ensures r.cls == cls && r.status == Unsaved && r.serial == 0
    ensures r.conn == None && r.oid == None && r.dict == map[]
  {
    Handle(cls, Unsaved, 0, None, None, map[])
  }

  /** ObjectDictionary: weak references keyed by oid, whose removal is
      delayed. `order` is the iteration order of the underlying dict. */
  datatype ObjDict = ObjDict(mapping: map<Oid, HandleId>, order: seq<Oid>, dead: set<Oid>)

  /** Cache: the weak object dictionary, the hard references to recently
      used instances, the target size and the round-robin finger. */
  datatype Cache = Cache(objects: ObjDict, recent: set<HandleId>, size: int, finger: nat)

  /** A Connection: its transaction serial, the changed objects keyed by
      oid, the oids known to be invalid, its cache, the states its storage
      holds, and whether that storage's load raises a bare KeyError for a
      missing record (MemoryStorage) rather than DurusKeyError. */
  datatype Conn = Conn(
    serial: int,
    changed: map<Option<Oid>, HandleId>,
    invalid: set<Oid>,
    cache: Cache,
    stored: map<Oid, State>,
    bareKeyError: bool)

  /** cb_new: a new connection starts at transaction serial 1. */
  function NewConn(cache: Cache, stored: map<Oid, State>, bareKeyError: bool): (r: Conn)
    ensures r.serial == 1 && r.changed == map[] && r.invalid == {}
    ensures r.cache == cache && r.stored == stored && r.bareKeyError == bareKeyError
  {
    Conn(1, map[], {}, cache, stored, bareKeyError)
  }

  /** The calls the proxy makes, in the order it makes them. */
  datatype Event =
    | LoadCalled(h: HandleId)                  // self._p_load_state()
    | ChangeCalled(h: HandleId)                // self._p_note_change()
    | StateLoaded(c: ConnId, h: HandleId)      // connection.load_state(self)
    | AccessNoted(c: ConnId, h: HandleId)      // connection.note_access(self)
    | ChangeNoted(c: ConnId, h: HandleId)      // connection.note_change(self)
    | AttrRead(h: HandleId, name: string)      // PyObject_GenericGetAttr
    | AttrWritten(h: HandleId, name: string)   // PyObject_GenericSetAttr

  datatype World = World(
    handles: map<HandleId, Handle>,
    conns: map<ConnId, Conn>,
    trace: seq<Event>,
    nextId: HandleId)

  /** The outcome of a step that may raise after changing some state. */
  datatype Step = Step(world: World, raised: Option<Error>)

  /** The outcome of a step that yields a value or raises. */
  datatype Fetch = Fetch(world: World, value: Result<Value>)

  /** Every reference in the arena resolves, and the next fresh handle
      identifier is unused. */
  ghost predicate Wf(w: World)
  {
    && (forall h :: h in w.handles ==> h < w.nextId)
    && (forall h :: h in w.handles && w.handles[h].conn.Some? ==> w.handles[h].conn.value in w.conns)
    && (forall c :: c in w.conns ==> CacheRefs(w.conns[c].cache, w.handles))
    && (forall c :: c in w.conns ==> w.conns[c].changed.Values <= w.handles.Keys)
  }

  /** The object exists and its connection, if any, is one of the world's. */
  predicate Linked(w: World, h: HandleId)
  {
    h in w.handles && (w.handles[h].conn.Some? ==> w.handles[h].conn.value in w.conns)
  }

  /** What the proxy's steps never change: which objects and connections
      exist, each object's class, connection and oid; and the trace only
      grows. */
  ghost predicate Frame(w: World, v: World)
  {
    && v.handles.Keys == w.handles.Keys
    && v.conns.Keys == w.conns.Keys
    && v.nextId == w.nextId
    && (forall h {:trigger v.handles[h]} :: h in w.handles ==>
          && v.handles[h].conn == w.handles[h].conn
          && v.handles[h].oid == w.handles[h].oid
          && v.handles[h].cls == w.handles[h].cls)
    && w.trace <= v.trace
  }

  /** The events a step added on top of w's trace. */
  function Added(w: World, v: World): seq<Event>
    requires w.trace <= v.trace
  {
    v.trace[|w.trace|..]
  }

  /** A step made no generic attribute read or write. */
  ghost predicate Quiet(w: World, v: World)
  {
    w.trace <= v.trace && NoGeneric(Added(w, v))
  }

  /** No event of `es` is a generic attribute read or write. */
  ghost predicate NoGeneric(es: seq<Event>)
  {
    forall i :: 0 <= i < |es| ==> !es[i].AttrRead? && !es[i].AttrWritten?
  }

  lemma QuietTrans(u: World, v: World, w: World)
    requires Quiet(u, v) && Quiet(v, w)
    ensures Quiet(u, w) && Added(u, w) == Added(u, v) + Added(v, w)
  {
    assert Added(u, w) == Added(u, v) + Added(v, w);
  }

  /** Frames compose. */
  lemma FrameTrans(u: World, v: World, w: World)
    requires Frame(u, v) && Frame(v, w)
    ensures Frame(u, w)
  {
  }

  /** A world differing only in one object's status, serial or dictionary,
      in one existing connection, or in a longer trace, is a frame of the
      first. */
  lemma FrameChange(w: World, v: World, h: HandleId, c: ConnId)
    requires h in w.handles && c in w.conns && w.trace <= v.trace && v.nextId == w.nextId
    requires h in v.handles && v.handles == w.handles[h := v.handles[h]]
    requires v.handles[h].conn == w.handles[h].conn && v.handles[h].oid == w.handles[h].oid
    requires v.handles[h].cls == w.handles[h].cls
    requires c in v.conns && v.conns == w.conns[c := v.conns[c]]
    ensures Frame(w, v)
  {
    assert v.handles.Keys == w.handles.Keys;
    assert v.conns.Keys == w.conns.Keys;
  }

  /** The same with the connections untouched. */
  lemma FramePut(w: World, v: World, h: HandleId)
    requires h in w.handles && w.trace <= v.trace && v.nextId == w.nextId && v.conns == w.conns
    requires h in v.handles && v.handles == w.handles[h := v.handles[h]]
    requires v.handles[h].conn == w.handles[h].conn && v.handles[h].oid == w.handles[h].oid
    requires v.handles[h].cls == w.handles[h].cls
    ensures Frame(w, v)
  {
    assert v.handles.Keys == w.handles.Keys;
  }

  /** Emitting an event is a frame step. */
  lemma FrameEmit(w: World, e: Event)
    ensures Frame(w, Emit(w, e))
  {
  }

  ghost predicate CacheRefs(cache: Cache, handles: map<HandleId, Handle>)
  {
    cache.objects.mapping.Values <= handles.Keys && cache.recent <= handles.Keys
  }

  function Emit(w: World, e: Event): (r: World)
    ensures r.trace == w.trace + [e]
    ensures r.handles == w.handles && r.conns == w.conns && r.nextId == w.nextId
  {
    w.(trace := w.trace + [e])
  }

  function Put(w: World, h: HandleId, x: Handle): (r: World)
    requires h in w.handles
    ensures r.handles == w.handles[h := x]
    ensures r.conns == w.conns && r.trace == w.trace && r.nextId == w.nextId
  {
    w.(handles := w.handles[h := x])
  }

  function PutConn(w: World, c: ConnId, x: Conn): (r: World)
    requires c in w.conns
    ensures r.conns == w.conns[c := x]
    ensures r.handles == w.handles && r.trace == w.trace && r.nextId == w.nextId
  {
    w.(conns := w.conns[c := x])
  }

  /** The raw status write `self._p_status = s`: an exempt name, so it
      reaches the slot without interception. */
  function SetStatus(w: World, h: HandleId, s: Status): (r: World)
    requires h in w.handles
    ensures r.handles == w.handles[h := w.handles[h].(status := s)]
    ensures r.conns == w.conns && r.trace == w.trace && r.nextId == w.nextId
  {
    Put(w, h, w.handles[h].(status := s))
  }

  /** Persistent._p_set_status_ghost: empties the instance dictionary
      (read without interception) and sets GHOST. */
  function Ghostify(w: World, h: HandleId): (r: World)
    requires h in w.handles
    ensures r.handles == w.handles[h := w.handles[h].(status := Ghost, dict := map[])]
    ensures r.conns == w.conns && r.trace == w.trace && r.nextId == w.nextId
  {
    Put(w, h, w.handles[h].(status := Ghost, dict := map[]))
  }

  /** Persistent._p_set_status_saved. */
  function MarkSaved(w: World, h: HandleId): (r: World)
    requires h in w.handles
    ensures r.handles == w.handles[h := w.handles[h].(status := Saved)]
    ensures r.conns == w.conns && r.trace == w.trace && r.nextId == w.nextId
  {
    SetStatus(w, h, Saved)
  }
}

=== FILE: persistent_dict.dfy ===
/** PersistentDict of persistent_dict.py: a persistent object around a dict
    in the slot `data`. Reads go to the dict; every mutator notes the change
    first, except setdefault on a key already present, which only reads.
    Every use of `data`, self's or a PersistentDict argument's, is a read
    through pb_getattro, made in the order Python evaluates it. */
module PersistentDicts {
  import opened Wrappers
  import opened PersistenceState
  import opened PersistentMethods
  import opened Mutations

  /** The single positional argument of update: another PersistentDict (its
      object and its data), a plain dict, an object with keys() and item
      lookup (its key order and its mapping), an iterable of pairs, or an
      object that is none of these. */
  datatype Source<K, V> =
    | PDict(obj: HandleId, m: map<K, V>)
    | PlainDict(m: map<K, V>)
    | Keyed(keys: seq<K>, m: map<K, V>)
    | Pairs(ps: seq<(K, V)>)
    | Opaque

  /** The slot every method reads. */
  const Slot := "data"

  /** A PersistentDict argument is an object of the world. */
  predicate Bound<K, V>(w: World, src: Source<K, V>)
  {
    src.PDict? ==> Linked(w, src.obj)
  }

  // ------------------------------------------------------------ reading

  /** __getitem__. */
  function GetItem<K(==,!new), V(!new)>(d: map<K, V>, k: K): (r: Result<V>)
    ensures r.Ok? <==> k in d
    ensures r.Err? ==> r.error == KeyError
    ensures r.Ok? ==> r.value == d[k]
  {
    if k in d then Ok(d[k]) else Err(KeyError)
  }

  /** get(key, failobj=None): failobj for an absent key, never an error. */
  function Get<K(==,!new), V(!new)>(d: map<K, V>, k: K, failobj: V): (r: V)
    ensures r == match GetItem(d, k) case Ok(v) => v case Err(_) => failobj
  {
    if k in d then d[k] else failobj
  }

  // ------------------------------------------------------------ mutators

  /** __setitem__: noted, then `self.data[key] = item` reads `data` and
      stores into it. */
  function SetItem<K(==,!new), V(!new)>(w: World, h: HandleId, d: map<K, V>, k: K, v: V): (r: Outcome<map<K, V>, ()>)
    requires Linked(w, h)
    ensures NotedFirst(w, h, Slot, d, r) && Linked(r.world, h) && Touches(w, r.world, [h] + [h])
    ensures r.result.Ok? ==> r.data == d[k := v]
    ensures Noted(w, h, Slot, [h]).raised.None? ==> r.result.Ok?
  {
    Mutate(w, h, Slot, d, Body([h], Ok((d[k := v], ())), false))
  }

  /** What is stored is what is read back, and no other key changes. */
  lemma SetThenGet<K(!new), V(!new)>(w: World, h: HandleId, d: map<K, V>, k: K, v: V, j: K)
    requires Linked(w, h) && Noted(w, h, Slot, [h]).raised.None?
    ensures GetItem(SetItem(w, h, d, k, v).data, j) == if j == k then Ok(v) else GetItem(d, j)
  {
  }

  /** __delitem__: KeyError for an absent key, after the change was
      noted and `data` read. */
  function DelItem<K(==,!new), V(!new)>(w: World, h: HandleId, d: map<K, V>, k: K): (r: Outcome<map<K, V>, ()>)
    requires Linked(w, h)
    ensures NotedFirst(w, h, Slot, d, r)
    ensures Noted(w, h, Slot, [h]).raised.None? ==>
              && (r.result.Ok? <==> k in d)
              && (r.result.Err? ==> r.result.error == KeyError && r.data == d)
              && (r.result.Ok? ==> r.data.Keys == d.Keys - {k} && forall j :: j in r.data ==> r.data[j] == d[j])
  {
    Mutate(w, h, Slot, d, Body([h], if k in d then Ok((d - {k}, ())) else Err(KeyError), false))
  }

  /** clear. */
  function Clear<K(==,!new), V(!new)>(w: World, h: HandleId, d: map<K, V>): (r: Outcome<map<K, V>, ()>)
    requires Linked(w, h)
    ensures NotedFirst(w, h, Slot, d, r)
    ensures Noted(w, h, Slot, [h]).raised.None? ==> r.result.Ok? && r.data == map[]
  {
    Mutate(w, h, Slot, d, Body([h], Ok((map[], ())), false))
  }

  /** pop(key[, default]): the value removed; for an absent key the default
      if one was given, KeyError if not — the change noted either way. */
  function Pop<K(==,!new), V(!new)>(w: World, h: HandleId, d: map<K, V>, k: K, default: Option<V>): (r: Outcome<map<K, V>, V>)
    requires Linked(w, h)
    ensures NotedFirst(w, h, Slot, d, r)
    ensures Noted(w, h, Slot, [h]).raised.None? ==>
              && (r.result.Ok? <==> k in d || default.Some?)
              && (r.result.Err? ==> r.result.error == KeyError && r.data == d)
              && (k in d ==> r.result == Ok(d[k]) && r.data == d - {k})
              && (k !in d && default.Some? ==> r.result == Ok(default.value) && r.data == d)
  {
    Mutate(w, h, Slot, d, Body([h],
      if k in d then Ok((d - {k}, d[k]))
      else if default.Some? then Ok((d, default.value))
      else Err(KeyError), false))
  }

  /** popitem: some pair is removed and returned; which one is the
      dict's choice, given here as `pick`. An empty dict raises KeyError. */
  function PopItem<K(==,!new), V(!new)>(w: World, h: HandleId, d: map<K, V>, pick: K): (r: Outcome<map<K, V>, (K, V)>)
    requires Linked(w, h)
    requires d != map[] ==> pick in d
    ensures NotedFirst(w, h, Slot, d, r)
    ensures Noted(w, h, Slot, [h]).raised.None? ==>
              && (r.result.Ok? <==> d != map[])
              && (r.result.Err? ==> r.result.error == KeyError && r.data == d)
              && (r.result.Ok? ==> && r.result.value.0 in d && d[r.result.value.0] == r.result.value.1
                                   && r.data == d - {r.result.value.0})
  {
    Mutate(w, h, Slot, d, Body([h], if pick in d then Ok((d - {pick}, (pick, d[pick]))) else Err(KeyError), false))
  }

  /** setdefault: `key not in self.data` reads `data` first; a read that
      raises ends it. */
  function SetDefault<K(==,!new), V(!new)>(w: World, h: HandleId, d: map<K, V>, k: K, failobj: V): (r: Outcome<map<K, V>, V>)
    requires Linked(w, h)
    ensures var a := Reads(w, [h], Slot);
            && (a.raised.Some? ==> r == Outcome(a.world, d, Err(a.raised.value)))
            && (a.raised.None? ==> Current(a.world, h) && r == SetDefaultLoaded(a.world, h, d, k, failobj))
  {
    var a := Reads(w, [h], Slot);
    if a.raised.Some? then Outcome(a.world, d, Err(a.raised.value))
    else
      ReadsCurrent(w, [h], Slot);
      SetDefaultLoaded(a.world, h, d, k, failobj)
  }

  /** setdefault once `data` was read: a present key is read again and
      returned, and no change is noted; an absent key is stored with
      failobj after the change was noted. */
  function SetDefaultLoaded<K(==,!new), V(!new)>(v: World, h: HandleId, d: map<K, V>, k: K, failobj: V): (r: Outcome<map<K, V>, V>)
    requires Current(v, h)
    ensures k in d ==> r == Outcome(Emit(v, AttrRead(h, Slot)), d, Ok(d[k]))
    ensures k !in d ==> && NotedFirst(v, h, Slot, d, r)
                        && (r.result.Ok? ==> r.data == d[k := failobj] && r.result.value == failobj)
                        && (Noted(v, h, Slot, [h]).raised.None? ==> r.result.Ok?)
  {
    if k in d then
      var b := Access(v, h, Slot);
      Outcome(b.world, d, Ok(d[k]))
    else Mutate(v, h, Slot, d, Body([h], Ok((d[k := failobj], failobj)), false))
  }

  /** A successful setdefault leaves the key present, with the value it
      returned, and the object loaded and current. */
  lemma SetDefaultSettles<K(!new), V(!new)>(w: World, h: HandleId, d: map<K, V>, k: K, a: V)
    requires Linked(w, h) && SetDefault(w, h, d, k, a).result.Ok?
    ensures var r := SetDefault(w, h, d, k, a);
            Current(r.world, h) && k in r.data && r.result.value == r.data[k]
  {
    var s := Reads(w, [h], Slot);
    if k !in d {
      FrameLinked(w, s.world, [h]);
      MutatedSettles(s.world, h, Slot, d, Body([h], Ok((d[k := a], a)), false));
    }
  }

  /** setdefault of a present key on a loaded, current object only reads
      `data` twice. */
  lemma SetDefaultPresent<K(!new), V(!new)>(v: World, h: HandleId, d: map<K, V>, k: K, b: V)
    requires Current(v, h) && k in d
    ensures SetDefault(v, h, d, k, b) == Outcome(v.(trace := v.trace + [AttrRead(h, Slot), AttrRead(h, Slot)]), d, Ok(d[k]))
  {
    CurrentReads(v, [h], Slot);
    assert ReadEvents([h], Slot) == [AttrRead(h, Slot)];
    var u := Emit(v, AttrRead(h, Slot));
    assert Reads(v, [h], Slot) == Step(u, None);
    assert Current(u, h);
    Append(v.trace, [AttrRead(h, Slot)], [AttrRead(h, Slot)]);
  }

  /** A second setdefault of the same key returns what the first one did,
      notes no change and changes no object: it only reads `data` twice. */
  lemma SetDefaultTwice<K(!new), V(!new)>(w: World, h: HandleId, d: map<K, V>, k: K, a: V, b: V)
    requires Linked(w, h) && SetDefault(w, h, d, k, a).result.Ok?
    ensures var r := SetDefault(w, h, d, k, a);
            && Linked(r.world, h)
            && SetDefault(r.world, h, r.data, k, b)
               == Outcome(r.world.(trace := r.world.trace + [AttrRead(h, Slot), AttrRead(h, Slot)]), r.data, r.result)
  {
    var r := SetDefault(w, h, d, k, a);
    SetDefaultSettles(w, h, d, k, a);
    SetDefaultPresent(r.world, h, r.data, k, b);
  }

  // ------------------------------------------------------------- update

  /** The keys a sequence of pairs assigns. */
  function KeysOf<K(==,!new), V(!new)>(ps: seq<(K, V)>): (r: set<K>)
    ensures forall i :: 0 <= i < |ps| ==> ps[i].0 in r
    ensures forall k :: k in r ==> exists i :: 0 <= i < |ps| && ps[i].0 == k
    decreases |ps|
  {
    if ps == [] then {}
    else
      var rest := KeysOf(ps[1..]);
      assert forall i :: 1 <= i < |ps| ==> ps[i].0 == ps[1..][i - 1].0;
      {ps[0].0} + rest
  }

  /** The value the last pair for k assigns. */
  function LastFor<K(==,!new), V(!new)>(ps: seq<(K, V)>, k: K): V
    requires k in KeysOf(ps)
    decreases |ps|
  {
    if ps[0].0 == k && k !in KeysOf(ps[1..]) then ps[0].1 else LastFor(ps[1..], k)
  }

  /** LastFor is what its name says: the pair at i for k, with no later
      pair for k, gives the value. */
  lemma {:induction false} LastForIsLast<K(!new), V(!new)>(ps: seq<(K, V)>, i: nat)
    requires i < |ps| && forall j :: i < j < |ps| ==> ps[j].0 != ps[i].0
    ensures LastFor(ps, ps[i].0) == ps[i].1
    decreases |ps|
  {
    if i > 0 {
      assert ps[i].0 == ps[1..][i - 1].0;
      LastForIsLast(ps[1..], i - 1);
    }
  }

  /** The dict after `self[k] = v` for each pair in order: a key the pairs
      assign holds the value of its last pair; any other key is kept. */
  function Assigned<K(==,!new), V(!new)>(d: map<K, V>, ps: seq<(K, V)>): (r: map<K, V>)
    ensures r.Keys == d.Keys + KeysOf(ps)
  {
    map k | k in d.Keys + KeysOf(ps) :: if k in KeysOf(ps) then LastFor(ps, k) else d[k]
  }

  /** Assigning no pairs changes nothing. */
  lemma AssignedNone<K(!new), V(!new)>(d: map<K, V>)
    ensures Assigned(d, []) == d
  {
    assert KeysOf<K, V>([]) == {};
  }

  /** Assigning the first pair, then the rest, is assigning them all. */
  lemma AssignedCons<K(!new), V(!new)>(d: map<K, V>, ps: seq<(K, V)>)
    requires ps != []
    ensures Assigned(d[ps[0].0 := ps[0].1], ps[1..]) == Assigned(d, ps)
  {
    var a, b := Assigned(d[ps[0].0 := ps[0].1], ps[1..]), Assigned(d, ps);
    assert a.Keys == b.Keys;
    forall k | k in a.Keys
      ensures a[k] == b[k]
    {
    }
  }

  /** Two steps that each touch only h, and record no generic access but to
      `data`, together touch only h. */
  lemma Chain(u: World, v: World, w: World, h: HandleId)
    requires Frame(u, v) && Touches(u, v, [h]) && OnlyAttr(Added(u, v), Slot)
    requires Frame(v, w) && Touches(v, w, [h]) && OnlyAttr(Added(v, w), Slot)
    ensures Frame(u, w) && Touches(u, w, [h]) && OnlyAttr(Added(u, w), Slot)
  {
    FrameTrans(u, v, w);
    TouchesTrans(u, v, w, [h], [h]);
    Narrow(u, w, h);
    assert Added(u, w) == Added(u, v) + Added(v, w);
  }

  /** Touching h twice is touching h. */
  lemma Narrow(u: World, w: World, h: HandleId)
    requires Touches(u, w, [h] + [h])
    ensures Touches(u, w, [h])
  {
  }

  /** `self[k] = v` for each pair in order; the first assignment that
      raises ends the run. */
  function SetEach<K(==,!new), V(!new)>(w: World, h: HandleId, d: map<K, V>, ps: seq<(K, V)>): (r: Outcome<map<K, V>, ()>)
    requires Linked(w, h)
    ensures Frame(w, r.world) && Touches(w, r.world, [h]) && OnlyAttr(Added(w, r.world), Slot) && Linked(r.world, h)
    ensures r.result.Ok? ==> r.data == Assigned(d, ps)
    decreases |ps|
  {
    if ps == [] then
      AssignedNone(d);
      Outcome(w, d, Ok(()))
    else
      var s := SetItem(w, h, d, ps[0].0, ps[0].1);
      Narrow(w, s.world, h);
      if s.result.Err? then s
      else
        var r := SetEach(s.world, h, s.data, ps[1..]);
        Chain(w, s.world, r.world, h);
        AssignedCons(d, ps);
        r
  }

  /** The calls n assignments make on an object already UNSAVED and
      current: each one's _p_note_change, which returns at once, and its
      read of `data`. */
  function SetCalls(h: HandleId, n: nat): seq<Event>
  {
    if n == 0 then [] else [ChangeCalled(h), AttrRead(h, Slot)] + SetCalls(h, n - 1)
  }

  /** The world after one quiet assignment: its call and its read. */
  function Quietly(w: World, h: HandleId): (v: World)
    ensures v.handles == w.handles && v.conns == w.conns
  {
    w.(trace := w.trace + [ChangeCalled(h), AttrRead(h, Slot)])
  }

  /** On an object already UNSAVED and current, one assignment stores the
      pair and only records its call and its read. */
  lemma SetItemQuiet<K(!new), V(!new)>(w: World, h: HandleId, d: map<K, V>, k: K, v: V)
    requires Current(w, h) && w.handles[h].status == Unsaved
    ensures SetItem(w, h, d, k, v) == Outcome(Quietly(w, h), d[k := v], Ok(()))
  {
    QuietMutation(w, h, Slot, d, Body([h], Ok((d[k := v], ())), false));
    assert ReadEvents([h], Slot) == [AttrRead(h, Slot)];
    Append(w.trace, [ChangeCalled(h)], [AttrRead(h, Slot)]);
  }

  /** On an object already UNSAVED and current, a run of assignments
      stores every pair and changes no object: it only records its calls. */
  lemma {:induction false} SetEachQuiet<K(!new), V(!new)>(w: World, h: HandleId, d: map<K, V>, ps: seq<(K, V)>)
    requires Current(w, h) && w.handles[h].status == Unsaved
    ensures SetEach(w, h, d, ps) == Outcome(w.(trace := w.trace + SetCalls(h, |ps|)), Assigned(d, ps), Ok(()))
    decreases |ps|
  {
    if ps == [] {
      AssignedNone(d);
    } else {
      var e := d[ps[0].0 := ps[0].1];
      var v := Quietly(w, h);
      SetItemQuiet(w, h, d, ps[0].0, ps[0].1);
      assert Current(v, h) && v.handles[h].status == Unsaved;
      SetEachQuiet(v, h, e, ps[1..]);
      assert SetEach(w, h, d, ps) == SetEach(v, h, e, ps[1..]);
      AssignedCons(d, ps);
      Append(w.trace, [ChangeCalled(h), AttrRead(h, Slot)], SetCalls(h, |ps| - 1));
    }
  }

  /** A run of assignments fails only where its first one does: that one
      leaves the object loaded, current and UNSAVED, and the rest are
      quiet. */
  lemma SetEachSucceeds<K(!new), V(!new)>(w: World, h: HandleId, d: map<K, V>, ps: seq<(K, V)>)
    requires Linked(w, h)
    ensures SetEach(w, h, d, ps).result.Ok? <==> ps == [] || SetItem(w, h, d, ps[0].0, ps[0].1).result.Ok?
  {
    if ps != [] {
      var s := SetItem(w, h, d, ps[0].0, ps[0].1);
      if s.result.Ok? {
        MutatedSettles(w, h, Slot, d, Body([h], Ok((d[ps[0].0 := ps[0].1], ())), false));
        SetEachQuiet(s.world, h, s.data, ps[1..]);
      }
    }
  }

  /** The pairs an object with keys() yields: (k, other[k]) for each of
      its keys up to the first one the lookup fails on, and whether one
      failed (KeyError). */
  function Looked<K(==,!new), V(!new)>(keys: seq<K>, m: map<K, V>): (r: (seq<(K, V)>, bool))
    ensures |r.0| <= |keys|
    ensures forall i :: 0 <= i < |r.0| ==> keys[i] in m && r.0[i] == (keys[i], m[keys[i]])
    ensures r.1 <==> exists i :: 0 <= i < |keys| && keys[i] !in m
    ensures r.1 ==> |r.0| < |keys| && keys[|r.0|] !in m
    ensures !r.1 ==> |r.0| == |keys|
    decreases |keys|
  {
    if keys == [] then ([], false)
    else if keys[0] !in m then ([], true)
    else
      var (ps, failed) := Looked(keys[1..], m);
      assert forall i :: 1 <= i < |keys| ==> keys[i] == keys[1..][i - 1];
      ([(keys[0], m[keys[0]])] + ps, failed)
  }

  /** The objects whose `data` merging reads: self's, then a PersistentDict
      argument's (`self.data.update(other.data)`). */
  function MergeFetches<K, V>(h: HandleId, src: Source<K, V>): (r: seq<HandleId>)
    ensures (src.PDict? ==> r == [h, src.obj]) && (!src.PDict? ==> r == [h])
  {
    if src.PDict? then [h, src.obj] else [h]
  }

  /** The positional argument of update merged in: a dict is merged at once
      after the reads of `data`; keys() objects and pairs go through
      __setitem__ one at a time, a failing lookup ending the run with
      KeyError; anything else raises TypeError before any read. */
  function Merge<K(==,!new), V(!new)>(w: World, h: HandleId, d: map<K, V>, src: Source<K, V>): (r: Outcome<map<K, V>, ()>)
    requires Linked(w, h) && Bound(w, src)
    ensures AllLinked(w, MergeFetches(h, src))
    ensures Frame(w, r.world) && Touches(w, r.world, MergeFetches(h, src)) && OnlyAttr(Added(w, r.world), Slot)
    ensures Linked(r.world, h)
    ensures (src.PDict? || src.PlainDict?) ==>
              var a := Reads(w, MergeFetches(h, src), Slot);
              && r.world == a.world
              && (r.result.Ok? <==> a.raised.None?)
              && (r.result.Ok? ==> r.data == d + src.m)
              && (r.result.Err? ==> r.data == d && r.result.error == a.raised.value)
    ensures src.Pairs? ==> (r.result.Ok? <==> SetEach(w, h, d, src.ps).result.Ok?)
    ensures src.Pairs? && r.result.Ok? ==> r.data == Assigned(d, src.ps)
    ensures src.Keyed? ==>
              var s := SetEach(w, h, d, Looked(src.keys, src.m).0);
              && (r.result.Ok? <==> s.result.Ok? && forall i :: 0 <= i < |src.keys| ==> src.keys[i] in src.m)
              && (s.result.Ok? ==> r.data == Assigned(d, Looked(src.keys, src.m).0))
              && (s.result.Ok? && r.result.Err? ==> r.result.error == KeyError)
    ensures src.Opaque? ==> r == Outcome(w, d, Err(TypeError))
  {
    var fs := MergeFetches(h, src);
    assert AllLinked(w, fs);
    match src
    case PDict(_, m) =>
      var a := Reads(w, fs, Slot);
      ReadsTouches(w, fs, Slot);
      FrameLinked(w, a.world, [h]);
      if a.raised.Some? then Outcome(a.world, d, Err(a.raised.value)) else Outcome(a.world, d + m, Ok(()))
    case PlainDict(m) =>
      var a := Reads(w, fs, Slot);
      ReadsTouches(w, fs, Slot);
      FrameLinked(w, a.world, [h]);
      if a.raised.Some? then Outcome(a.world, d, Err(a.raised.value)) else Outcome(a.world, d + m, Ok(()))
    case Keyed(keys, m) =>
      var (ps, failed) := Looked(keys, m);
      var s := SetEach(w, h, d, ps);
      if failed && s.result.Ok? then s.(result := Err(KeyError)) else s
    case Pairs(ps) => SetEach(w, h, d, ps)
    case Opaque =>
      assert Added(w, w) == [];
      Outcome(w, d, Err(TypeError))
  }

  /** The objects whose `data` the positional argument of update has read:
      self's, and a PersistentDict argument's. */
  function Positional<K, V>(h: HandleId, others: seq<Source<K, V>>): seq<HandleId>
  {
    if others == [] then [h] else MergeFetches(h, others[0])
  }

  /** The objects update reads after its note: those of the positional
      argument, then self's `data` again for the keyword arguments. */
  function UpdateFetches<K, V>(h: HandleId, others: seq<Source<K, V>>): seq<HandleId>
  {
    Positional(h, others) + [h]
  }

  /** The contents after the positional argument of update was merged in
      without error. */
  function Positioned<K(==,!new), V(!new)>(d: map<K, V>, others: seq<Source<K, V>>): map<K, V>
  {
    if others == [] then d
    else match others[0]
      case PDict(_, m) => d + m
      case PlainDict(m) => d + m
      case Keyed(keys, m) => Assigned(d, Looked(keys, m).0)
      case Pairs(ps) => Assigned(d, ps)
      case Opaque => d
  }

  /** The positional argument of update, if any, merged in. */
  function Merged<K(==,!new), V(!new)>(v: World, h: HandleId, d: map<K, V>, others: seq<Source<K, V>>): (s: Outcome<map<K, V>, ()>)
    requires Linked(v, h) && |others| <= 1 && (others != [] ==> Bound(v, others[0]))
    ensures Frame(v, s.world) && Touches(v, s.world, Positional(h, others)) && OnlyAttr(Added(v, s.world), Slot)
    ensures Linked(s.world, h)
    ensures s.result.Ok? ==> s.data == Positioned(d, others)
    ensures others != [] && others[0].Opaque? ==> s == Outcome(v, d, Err(TypeError))
  {
    if others == [] then
      assert Added(v, v) == [];
      Outcome(v, d, Ok(()))
    else Merge(v, h, d, others[0])
  }

  /** A step that touches hs, then one that touches h, together touch
      hs + [h]; neither records a generic access but to `data`. */
  lemma Compose(u: World, v: World, w: World, hs: seq<HandleId>, h: HandleId)
    requires Frame(u, v) && Touches(u, v, hs) && OnlyAttr(Added(u, v), Slot)
    requires Frame(v, w) && Touches(v, w, [h]) && OnlyAttr(Added(v, w), Slot)
    ensures Frame(u, w) && Touches(u, w, hs + [h]) && OnlyAttr(Added(u, w), Slot)
  {
    FrameTrans(u, v, w);
    TouchesTrans(u, v, w, hs, [h]);
    assert Added(u, w) == Added(u, v) + Added(v, w);
  }

  /** Touching some objects is touching them among more. */
  lemma Widen(u: World, w: World, hs: seq<HandleId>, ks: seq<HandleId>)
    requires Touches(u, w, hs)
    ensures Touches(u, w, hs + ks)
  {
  }

  /** update once the change was noted and the arguments counted: the
      positional argument merged, then the keyword arguments stored one at a
      time through __setitem__. */
  function Apply<K(==,!new), V(!new)>(v: World, h: HandleId, d: map<K, V>, others: seq<Source<K, V>>, kwargs: seq<(K, V)>)
    : (r: Outcome<map<K, V>, ()>)
    requires Linked(v, h) && |others| <= 1 && (others != [] ==> Bound(v, others[0]))
    ensures Frame(v, r.world) && Touches(v, r.world, UpdateFetches(h, others)) && OnlyAttr(Added(v, r.world), Slot)
    ensures r.result.Ok? ==> r.data == Assigned(Positioned(d, others), kwargs)
    ensures others != [] && others[0].Opaque? ==> r == Outcome(v, d, Err(TypeError))
  {
    var s := Merged(v, h, d, others);
    if s.result.Err? then
      Widen(v, s.world, Positional(h, others), [h]);
      s
    else
      var r := SetEach(s.world, h, s.data, kwargs);
      Compose(v, s.world, r.world, Positional(h, others), h);
      r
  }

  /** update(*others, **kwargs): the change is noted first; more than one
      positional argument raises TypeError; then the positional argument is
      merged and the keyword arguments are stored one at a time through
      __setitem__. */
  function Update<K(==,!new), V(!new)>(w: World, h: HandleId, d: map<K, V>, others: seq<Source<K, V>>, kwargs: seq<(K, V)>)
    : (r: Outcome<map<K, V>, ()>)
    requires Linked(w, h) && (|others| == 1 ==> Bound(w, others[0]))
    ensures NotedFirst(w, h, Slot, d, r)
    ensures var n := NoteChangeSelf(w, h);
            n.raised.None? ==>
              && (|others| > 1 ==> r == Outcome(n.world, d, Err(TypeError)))
              && (|others| <= 1 ==> r == Apply(n.world, h, d, others, kwargs))
  {
    var n := NoteChangeSelf(w, h);
    NoteTouches(w, h, Slot);
    if n.raised.Some? then Outcome(n.world, d, Err(n.raised.value))
    else if |others| > 1 then Outcome(n.world, d, Err(TypeError))
    else
      assert others != [] ==> Bound(n.world, others[0]) by {
        if others != [] && others[0].PDict? {
          FrameLinked(w, n.world, [others[0].obj]);
        }
      }
      var r := Apply(n.world, h, d, others, kwargs);
      NotedCompose(w, h, n.world, r.world, UpdateFetches(h, others), Slot);
      r
  }

  /** Merging a dict gives each key the dict's value, and any other key
      keeps its own, once the note and the read of `data` succeeded. */
  lemma MergeDictWins<K(!new), V(!new)>(w: World, h: HandleId, d: map<K, V>, m: map<K, V>, k: K)
    requires Linked(w, h) && Noted(w, h, Slot, [h]).raised.None? && (k in d || k in m)
    ensures var r := Update(w, h, d, [PlainDict(m)], []);
            r.result.Ok? && k in r.data && r.data[k] == if k in m then m[k] else d[k]
  {
    var n := NoteChangeSelf(w, h);
    assert Apply(n.world, h, d, [PlainDict(m)], []).result.Ok?;
    AssignedNone(d + m);
  }

  /** On an object already loaded, current and UNSAVED, update with a dict
      and keyword arguments tells no connection and changes no object: it
      records its own _p_note_change, one read of `data`, and the calls of
      each keyword assignment. */
  lemma UpdateLoaded<K(!new), V(!new)>(w: World, h: HandleId, d: map<K, V>, m: map<K, V>, kwargs: seq<(K, V)>)
    requires Current(w, h) && w.handles[h].status == Unsaved
    ensures Update(w, h, d, [PlainDict(m)], kwargs)
            == Outcome(w.(trace := w.trace + [ChangeCalled(h), AttrRead(h, Slot)] + SetCalls(h, |kwargs|)),
                       Assigned(d + m, kwargs), Ok(()))
  {
    var n := Emit(w, ChangeCalled(h));
    assert NoteChangeSelf(w, h) == Step(n, None);
    assert Update(w, h, d, [PlainDict(m)], kwargs) == Apply(n, h, d, [PlainDict(m)], kwargs);
    var v := MergeLoaded(n, h, d, m);
    assert Apply(n, h, d, [PlainDict(m)], kwargs) == SetEach(v, h, d + m, kwargs);
    SetEachQuiet(v, h, d + m, kwargs);
    Append(w.trace, [ChangeCalled(h)], [AttrRead(h, Slot)]);
    assert v.trace == w.trace + [ChangeCalled(h), AttrRead(h, Slot)];
    assert v.(trace := v.trace + SetCalls(h, |kwargs|))
        == w.(trace := w.trace + [ChangeCalled(h), AttrRead(h, Slot)] + SetCalls(h, |kwargs|));
  }

  /** Merging a dict into a loaded, current object only reads `data`. */
  lemma MergeLoaded<K(!new), V(!new)>(n: World, h: HandleId, d: map<K, V>, m: map<K, V>) returns (v: World)
    requires Current(n, h)
    ensures v == n.(trace := n.trace + [AttrRead(h, Slot)]) && Current(v, h)
    ensures Merged(n, h, d, [PlainDict(m)]) == Outcome(v, d + m, Ok(()))
  {
    v := n.(trace := n.trace + [AttrRead(h, Slot)]);
    CurrentReads(n, [h], Slot);
    assert ReadEvents([h], Slot) == [AttrRead(h, Slot)];
    assert Reads(n, [h], Slot) == Step(v, None);
  }

  // ----------------------------------------------------- new dictionaries

  /** copy: `copy(self)` reads `__dict__` through __getstate__, a
      load-triggering read; then `self.data.copy()` reads `data`, and the
      new object, not yet stored, gets `data` bound to the copy. */
  function Copy<K(==,!new), V(!new)>(w: World, cls: Class, h: HandleId, d: map<K, V>): (r: Built<map<K, V>>)
    requires IdsBelow(w) && Linked(w, h)
    ensures Linked(r.world, h)
    ensures var g := Access(w, h, "__dict__");
            && (r.made.Ok? <==> g.raised.None?)
            && (g.raised.Some? ==> r == Built(g.world, Err(g.raised.value)))
            && (r.made.Ok? ==>
                  && r.made.value.0 !in w.handles && r.made.value.1 == d
                  && r.world.handles == g.world.handles[r.made.value.0 := NewHandle(cls)]
                  && r.world.conns == g.world.conns
                  && r.world.trace == g.world.trace + [AttrRead(h, Slot), AttrWritten(r.made.value.0, Slot)])
  {
    var g := Access(w, h, "__dict__");
    FrameLinked(w, g.world, [h]);
    if g.raised.Some? then Built(g.world, Err(g.raised.value))
    else
      BuildCurrent(g.world, cls, Slot, [h], d);
      assert ReadEvents([h], Slot) == [AttrRead(h, Slot)];
      Build(g.world, cls, Slot, [h], Ok(d))
  }

  /** The copy is independent: storing into the original leaves the copy's
      object and contents alone, so a new value makes them differ. */
  lemma CopyIndependent<K(!new), V(!new)>(w: World, cls: Class, h: HandleId, d: map<K, V>, k: K, v: V)
    requires IdsBelow(w) && Linked(w, h) && Copy(w, cls, h, d).made.Ok?
    requires Noted(Copy(w, cls, h, d).world, h, Slot, [h]).raised.None?
    requires k !in d || d[k] != v
    ensures var c := Copy(w, cls, h, d);
            var s := SetItem(c.world, h, d, k, v);
            && c.made.value.0 != h
            && s.world.handles[c.made.value.0] == c.world.handles[c.made.value.0]
            && s.data != c.made.value.1
  {
    var c := Copy(w, cls, h, d);
    var s := SetItem(c.world, h, d, k, v);
    assert c.made.value.0 in c.world.handles;
    assert s.data[k] == v;
  }

  /** fromkeys(iterable, value=None): `cls()` binds `data` of a new object,
      then `d[key] = value` for each key in turn; the new object is UNSAVED,
      so each assignment only records its calls. */
  function FromKeys<K(==,!new), V(!new)>(w: World, cls: Class, keys: seq<K>, value: V): (r: Created<map<K, V>>)
    requires IdsBelow(w)
    ensures r.obj !in w.handles && r.world.handles == w.handles[r.obj := NewHandle(cls)] && r.world.conns == w.conns
    ensures r.world.trace == w.trace + [AttrWritten(r.obj, Slot)] + SetCalls(r.obj, |keys|)
    ensures r.contents.Keys == set i | 0 <= i < |keys| :: keys[i]
    ensures forall k :: k in r.contents ==> r.contents[k] == value
  {
    var c := Create<map<K, V>>(w, cls, Slot, map[]);
    var ps := PairsWith(keys, value);
    SetEachQuiet(c.world, c.obj, map[], ps);
    var s := SetEach(c.world, c.obj, map[], ps);
    FromKeysValues(keys, value, ps);
    Created(s.world, c.obj, s.data)
  }

  /** Each key paired with the value. */
  function PairsWith<K, V>(keys: seq<K>, value: V): (ps: seq<(K, V)>)
    ensures |ps| == |keys| && forall i :: 0 <= i < |keys| ==> ps[i] == (keys[i], value)
  {
    seq(|keys|, i requires 0 <= i < |keys| => (keys[i], value))
  }

  lemma FromKeysValues<K(!new), V(!new)>(keys: seq<K>, value: V, ps: seq<(K, V)>)
    requires |ps| == |keys| && forall i :: 0 <= i < |keys| ==> ps[i] == (keys[i], value)
    ensures KeysOf(ps) == set i | 0 <= i < |keys| :: keys[i]
    ensures forall k :: k in KeysOf(ps) ==> LastFor(ps, k) == value
  {
    forall k | k in KeysOf(ps)
      ensures LastFor(ps, k) == value
    {
      LastForValue(ps, k, value);
    }
  }

  /** When every pair carries the same value, so does the last one for
      any key. */
  lemma {:induction false} LastForValue<K(!new), V(!new)>(ps: seq<(K, V)>, k: K, value: V)
    requires k in KeysOf(ps) && forall i :: 0 <= i < |ps| ==> ps[i].1 == value
    ensures LastFor(ps, k) == value
    decreases |ps|
  {
    if !(ps[0].0 == k && k !in KeysOf(ps[1..])) {
      LastForValue(ps[1..], k, value);
    }
  }
}

=== FILE: persistent_list.dfy ===
/** PersistentList of durus/persistent_list.py: a persistent object around a
    list in the slot `data`, here of integers. Reads go to the list; every
    mutator notes the change first. Indices, slices, insert and pop follow
    the built-in list: negative indices count from the end, slice bounds
    are clamped, and a bad index raises IndexError. Every use of `data`,
    self's or a PersistentList operand's, is a read through pb_getattro,
    made in the order Python evaluates it. */
module PersistentLists {
  import opened Wrappers
  import opened PersistenceState
  import opened PersistentMethods
  import opened Mutations
  import opened Proxy

  type List = seq<int>

  /** The other operand: the list itself (`self is other`), another
      PersistentList (its object and its data), a plain list, an iterable
      that is not a list (given by what it yields), or an object that
      cannot be iterated. */
  datatype Operand = Self | PList(obj: HandleId, d: List) | PlainList(d: List) | Iterable(d: List) | Opaque

  /** The slot every method reads. */
  const Slot := "data"

  /** A PersistentList operand is an object of the world. */
  predicate Bound(w: World, other: Operand)
  {
    other.PList? ==> Linked(w, other.obj)
  }

  /** The object whose `data` the expression `other.data` reads: the other
      PersistentList, or self when the operand is self. */
  function Source(h: HandleId, other: Operand): HandleId
  {
    if other.PList? then other.obj else h
  }

  /** Reads of `data` when self's is read first: `self.data += other.data`
      and `self.data.extend(other.data)` read self's, then a PersistentList
      operand's; otherwise only self's is read before list(other) runs. */
  function SelfFirst(h: HandleId, other: Operand): seq<HandleId>
  {
    if other.PList? || other.Self? then [h, Source(h, other)] else [h]
  }

  /** Reads of `data` when the operand's is read first:
      `self.data[i:j] = other.data` and `other.data + self.data` read the
      operand's, then self's; for any other operand the isinstance test
      against `type(self.data)` reads self's, and self's is read again once
      list(other) has succeeded. */
  function OtherFirst(h: HandleId, other: Operand): seq<HandleId>
  {
    if other.PList? || other.Self? then [Source(h, other), h]
    else if other.Opaque? then [h]
    else [h, h]
  }

  lemma FetchesLinked(w: World, h: HandleId, other: Operand)
    requires Linked(w, h) && Bound(w, other)
    ensures AllLinked(w, SelfFirst(h, other)) && AllLinked(w, OtherFirst(h, other))
    ensures AllLinked(w, [h, Source(h, other)]) && AllLinked(w, [h])
  {
  }

  /** The elements list(other) or other.data gives, for operands that have
      them; `self` stands for the list's own data. */
  function Items(self: List, other: Operand): (r: Result<List>)
    ensures r.Err? <==> other.Opaque?
    ensures r.Err? ==> r.error == TypeError
    ensures other.Self? ==> r == Ok(self)
  {
    match other
    case Self => Ok(self)
    case PList(_, d) => Ok(d)
    case PlainList(d) => Ok(d)
    case Iterable(d) => Ok(d)
    case Opaque => Err(TypeError)
  }

  // ---------------------------------------------------------------- order

  /** Lexicographic `<` of two lists. */
  function LexLess(a: List, b: List): (r: bool)
    decreases |a|
  {
    if a == [] then b != []
    else if b == [] then false
    else if a[0] != b[0] then a[0] < b[0]
    else LexLess(a[1..], b[1..])
  }

  /** The order's own description: `a` is a proper prefix of `b`, or at
      the first place they differ `a` holds the smaller element. */
  lemma {:induction false} LexLessSpec(a: List, b: List)
    ensures LexLess(a, b) <==>
              (|a| < |b| && a == b[..|a|]) ||
              (exists k :: 0 <= k < |a| && k < |b| && a[..k] == b[..k] && a[k] < b[k])
    decreases |a|
  {
    if a != [] && b != [] {
      LexLessSpec(a[1..], b[1..]);
      if a[0] == b[0] {
        if LexLess(a, b) && !(|a| < |b| && a == b[..|a|]) {
          var k :| 0 <= k < |a| - 1 && k < |b| - 1 && a[1..][..k] == b[1..][..k] && a[1..][k] < b[1..][k];
          assert a[..k + 1] == [a[0]] + a[1..][..k] && b[..k + 1] == [b[0]] + b[1..][..k];
        }
        if exists k :: 0 <= k < |a| && k < |b| && a[..k] == b[..k] && a[k] < b[k] {
          var k :| 0 <= k < |a| && k < |b| && a[..k] == b[..k] && a[k] < b[k];
          assert k > 0;
          assert a[1..][..k - 1] == a[1..k] == b[1..k] == b[1..][..k - 1];
        }
        if |a| < |b| && a == b[..|a|] {
          assert a[1..] == b[1..][..|a| - 1];
        }
      } else {
        if exists k :: 0 <= k < |a| && k < |b| && a[..k] == b[..k] && a[k] < b[k] {
          var k :| 0 <= k < |a| && k < |b| && a[..k] == b[..k] && a[k] < b[k];
        }
        assert a[..0] == b[..0];
      }
    }
  }

  /** Exactly one of `a < b`, `a == b`, `b < a`. */
  lemma {:induction false} LexTrichotomy(a: List, b: List)
    ensures LexLess(a, b) || a == b || LexLess(b, a)
    ensures !(LexLess(a, b) && LexLess(b, a)) && !(LexLess(a, b) && a == b)
    decreases |a|
  {
    if a != [] && b != [] && a[0] == b[0] {
      LexTrichotomy(a[1..], b[1..]);
      if a[1..] == b[1..] {
        assert a == [a[0]] + a[1..] && b == [b[0]] + b[1..];
      }
    }
  }

  /** The comparisons. */
  datatype Cmp = Lt | Le | Eq | Ne | Gt | Ge

  /** __lt__ … __ge__: identity decides first (a list is equal to itself);
      otherwise the data is compared with other.data or with other. Lists
      compare lexicographically; any other object is unequal to a list and
      cannot be ordered against one. */
  function Compare(c: Cmp, self: List, other: Operand): (r: Result<bool>)
    ensures other.Self? ==> r == Ok(c == Le || c == Eq || c == Ge)
    ensures (other.Iterable? || other.Opaque?) ==>
              r == (if c == Eq then Ok(false) else if c == Ne then Ok(true) else Err(TypeError))
    ensures (other.PList? || other.PlainList?) ==> r.Ok?
  {
    match other
    case Self => Ok(c == Le || c == Eq || c == Ge)
    case PList(_, d) => Ok(Lists(c, self, d))
    case PlainList(d) => Ok(Lists(c, self, d))
    case _ => if c == Eq then Ok(false) else if c == Ne then Ok(true) else Err(TypeError)
  }

  /** The built-in comparison of two lists. */
  function Lists(c: Cmp, a: List, b: List): bool
  {
    match c
    case Lt => LexLess(a, b)
    case Le => LexLess(a, b) || a == b
    case Eq => a == b
    case Ne => a != b
    case Gt => LexLess(b, a)
    case Ge => LexLess(b, a) || a == b
  }

  /** Identity forces the answer equal data would give: comparing a list
      with itself agrees with comparing it with a copy of its data. */
  lemma SelfAgrees(c: Cmp, h: HandleId, self: List)
    ensures Compare(c, self, Self) == Compare(c, self, PList(h, self))
  {
    LexTrichotomy(self, self);
  }

  /** `<=` is `<` or `==`; `>` is `<` turned round; `!=` is not `==`; and
      exactly one of `<`, `==`, `>` holds between two lists. */
  lemma ComparisonsAgree(x: HandleId, a: List, y: HandleId, b: List)
    ensures Compare(Le, a, PList(y, b)).value == (Compare(Lt, a, PList(y, b)).value || Compare(Eq, a, PList(y, b)).value)
    ensures Compare(Gt, a, PList(y, b)) == Compare(Lt, b, PList(x, a))
    ensures Compare(Ge, a, PList(y, b)) == Compare(Le, b, PList(x, a))
    ensures Compare(Ne, a, PList(y, b)).value == !Compare(Eq, a, PList(y, b)).value
    ensures Compare(Lt, a, PList(y, b)).value || Compare(Eq, a, PList(y, b)).value || Compare(Gt, a, PList(y, b)).value
  {
    LexTrichotomy(a, b);
  }

  // ------------------------------------------------------------- indices

  /** Whether i names an item of a list of length n, counting from the
      end when negative. */
  predicate InRange(i: int, n: int)
  {
    -n <= i < n
  }

  /** An index into a list of length n: a negative one counts from the
      end; outside the list it is None (IndexError). */
  function Index(i: int, n: nat): (r: Option<nat>)
    ensures r.Some? <==> InRange(i, n)
    ensures r.Some? ==> r.value < n && r.value as int == (if i < 0 then i + n else i)
  {
    var k := if i < 0 then i + n else i;
    if 0 <= k < n then Some(k as nat) else None
  }

  /** __getitem__ with an integer. */
  function GetItem(d: List, i: int): (r: Result<int>)
    ensures r.Ok? <==> InRange(i, |d|)
    ensures r.Err? ==> r.error == IndexError
    ensures r.Ok? ==> r.value == d[if i < 0 then i + |d| else i]
  {
    match Index(i, |d|)
    case None => Err(IndexError)
    case Some(k) => Ok(d[k])
  }

  /** The list with item i replaced. */
  function Replace(d: List, i: int, x: int): (r: Result<List>)
    ensures r.Ok? <==> InRange(i, |d|)
    ensures r.Err? ==> r.error == IndexError
    ensures r.Ok? ==> |r.value| == |d|
    ensures r.Ok? ==> forall k :: 0 <= k < |d| ==> r.value[k] == if k == Index(i, |d|).value then x else d[k]
  {
    match Index(i, |d|)
    case None => Err(IndexError)
    case Some(k) => Ok(d[k := x])
  }

  /** __setitem__: noted, then item i replaced; a bad index raises
      IndexError after the change was noted. */
  function SetItem(w: World, h: HandleId, d: List, i: int, x: int): (r: Outcome<List, ()>)
    requires Linked(w, h)
    ensures NotedFirst(w, h, Slot, d, r)
    ensures Noted(w, h, Slot, [h]).raised.None? ==>
              && (r.result.Ok? <==> InRange(i, |d|))
              && (r.result.Err? ==> r.result.error == IndexError && r.data == d)
  {
    Mutate(w, h, Slot, d, Body([h], var e :- Replace(d, i, x); Ok((e, ())), false))
  }

  /** Reading back what was written: the item set is the item read, and
      the others are unchanged. */
  lemma SetThenGet(w: World, h: HandleId, d: List, i: int, x: int, j: int)
    requires Linked(w, h) && Noted(w, h, Slot, [h]).raised.None? && InRange(i, |d|) && InRange(j, |d|)
    ensures var r := SetItem(w, h, d, i, x);
            GetItem(r.data, j) == if Index(j, |d|) == Index(i, |d|) then Ok(x) else GetItem(d, j)
  {
  }

  /** The list without the item at position k. */
  function Drop(d: List, k: nat): (r: List)
    requires k < |d|
    ensures |r| == |d| - 1 && r[..k] == d[..k] && r[k..] == d[k + 1..]
    ensures multiset(r) == multiset(d) - multiset{d[k]}
  {
    assert d == d[..k] + [d[k]] + d[k + 1..];
    d[..k] + d[k + 1..]
  }

  /** The list with item i removed. */
  function Without(d: List, i: int): (r: Result<List>)
    ensures r.Ok? <==> InRange(i, |d|)
    ensures r.Err? ==> r.error == IndexError
    ensures r.Ok? ==> r.value == Drop(d, Index(i, |d|).value)
  {
    match Index(i, |d|)
    case None => Err(IndexError)
    case Some(k) => Ok(Drop(d, k))
  }

  /** __delitem__. */
  function DelItem(w: World, h: HandleId, d: List, i: int): (r: Outcome<List, ()>)
    requires Linked(w, h)
    ensures NotedFirst(w, h, Slot, d, r)
    ensures Noted(w, h, Slot, [h]).raised.None? ==>
              && (r.result.Ok? <==> InRange(i, |d|))
              && (r.result.Err? ==> r.result.error == IndexError && r.data == d)
              && (r.result.Ok? ==> |r.data| == |d| - 1 && r.data == Drop(d, Index(i, |d|).value))
  {
    Mutate(w, h, Slot, d, Body([h], var e :- Without(d, i); Ok((e, ())), false))
  }

  // -------------------------------------------------------------- slices

  /** A slice bound: a negative one counts from the end, and either is
      clamped into 0..n. */
  function Clamp(i: int, n: nat): (r: nat)
    ensures r <= n
    ensures 0 <= i <= n ==> r == i
    ensures i < 0 <= i + n ==> r == i + n
    ensures i > n ==> r == n
    ensures i + n < 0 ==> r == 0
  {
    if i < 0 then (if i + n < 0 then 0 else i + n) else if i > n then n else i
  }

  /** The positions data[i:j] covers: from `lo` up to `hi`, never below. */
  function Bounds(i: int, j: int, n: nat): (r: (nat, nat))
    ensures r.0 <= r.1 <= n
  {
    var lo := Clamp(i, n);
    var hi := Clamp(j, n);
    (lo, if hi < lo then lo else hi)
  }

  /** The bound Python 2 hands __getslice__, __setslice__ and
      __delslice__ for the bound i written in p[i:j]: PySequence_GetSlice
      and PySequence_SetSlice have already added the length to a negative
      bound, and `data[i:j]` in the method then treats what it receives
      as a bound of its own, so a bound below -n is counted from the end
      twice. */
  function Entry(i: int, n: nat): (r: int)
    ensures r >= i && (r == i <==> i >= 0 || n == 0)
  {
    if i < 0 then i + n else i
  }

  /** The positions p[i:j] reaches in the method: a bound from -n up is
      the position Python's own slicing would give, and a bound from -2n up
      to below -n is counted from the end a second time. */
  lemma EntryBounds(i: int, n: nat)
    ensures i + n >= 0 ==> Clamp(Entry(i, n), n) == Clamp(i, n)
    ensures i + n < 0 <= i + 2 * n ==> Clamp(Entry(i, n), n) == i + 2 * n
    ensures i + 2 * n < 0 ==> Clamp(Entry(i, n), n) == 0
  {
  }

  /** p[-5:2] of a PersistentList holding [1, 2, 3]: __getslice__ receives
      (-2, 2) and gives [2], where slicing the list itself gives [1, 2];
      `del p[-5:2]` leaves [1, 3]. */
  lemma ShiftedTwice()
    ensures Slice([1, 2, 3], Entry(-5, 3), Entry(2, 3)) == [2]
    ensures Slice([1, 2, 3], -5, 2) == [1, 2]
    ensures Splice([1, 2, 3], Entry(-5, 3), Entry(2, 3), []) == [1, 3]
  {
    assert Entry(-5, 3) == -2 && Bounds(-2, 2, 3) == (1, 2);
    assert [1, 2, 3][..1] + [] + [1, 2, 3][2..] == [1, 3];
  }

  /** data[i:j]. */
  function Slice(d: List, i: int, j: int): (r: List)
    ensures var (lo, hi) := Bounds(i, j, |d|); r == d[lo..hi]
  {
    var (lo, hi) := Bounds(i, j, |d|);
    d[lo..hi]
  }

  /** p[i:j] through __getslice__: `data` read, and data[i:j], at the
      bounds Python 2 hands the method, built into a new PersistentList; a
      read that raises builds nothing. */
  function GetSlice(w: World, cls: Class, h: HandleId, d: List, i: int, j: int): (r: Built<List>)
    requires IdsBelow(w) && Linked(w, h)
    ensures var rd := Reads(w, [h], Slot);
            && (r.made.Ok? <==> rd.raised.None?)
            && (r.made.Ok? ==>
                  && r.made.value.0 !in w.handles
                  && r.world.handles == rd.world.handles[r.made.value.0 := NewHandle(cls)]
                  && var (lo, hi) := Bounds(Entry(i, |d|), Entry(j, |d|), |d|); r.made.value.1 == d[lo..hi])
  {
    Build(w, cls, Slot, [h], Ok(Slice(d, Entry(i, |d|), Entry(j, |d|))))
  }

  /** data[i:j] = items. */
  function Splice(d: List, i: int, j: int, items: List): (r: List)
    ensures var (lo, hi) := Bounds(i, j, |d|);
            && |r| == |d| - (hi - lo) + |items|
            && r[..lo] == d[..lo] && r[lo..lo + |items|] == items && r[lo + |items|..] == d[hi..]
  {
    var (lo, hi) := Bounds(i, j, |d|);
    var r := d[..lo] + items + d[hi..];
    assert r[lo..lo + |items|] == items;
    r
  }

  /** Putting a slice back where it came from changes nothing. */
  lemma SpliceSlice(d: List, i: int, j: int)
    ensures Splice(d, i, j, Slice(d, i, j)) == d
  {
    var (lo, hi) := Bounds(i, j, |d|);
    assert d == d[..lo] + d[lo..hi] + d[hi..];
  }

  /** p[i:j] = p[i:j] changes nothing: both methods see the same shifted
      bounds. */
  lemma EntrySpliceSlice(d: List, i: int, j: int)
    ensures var (a, b) := (Entry(i, |d|), Entry(j, |d|));
            Splice(d, a, b, Slice(d, a, b)) == d
  {
    SpliceSlice(d, Entry(i, |d|), Entry(j, |d|));
  }

  /** What was spliced in reads back as the slice at its place. */
  lemma SliceSplice(d: List, i: int, j: int, items: List)
    ensures var lo := Bounds(i, j, |d|).0;
            Slice(Splice(d, i, j, items), lo, lo + |items|) == items
  {
  }

  /** p[i:j] = other through __setslice__: noted, then data[i:j], at the
      bounds Python 2 hands the method, replaced by the other's data, a
      list, or list(other). */
  function SetSlice(w: World, h: HandleId, d: List, i: int, j: int, other: Operand): (r: Outcome<List, ()>)
    requires Linked(w, h) && Bound(w, other)
    ensures AllLinked(w, OtherFirst(h, other))
    ensures NotedFirst(w, h, Slot, d, r)
    ensures Noted(w, h, Slot, OtherFirst(h, other)).raised.None? ==>
              && (r.result.Ok? <==> !other.Opaque?)
              && (r.result.Err? ==> r.result.error == TypeError && r.data == d)
              && (r.result.Ok? ==> r.data == Splice(d, Entry(i, |d|), Entry(j, |d|), Items(d, other).value))
  {
    FetchesLinked(w, h, other);
    Mutate(w, h, Slot, d, Body(OtherFirst(h, other),
      var items :- Items(d, other); Ok((Splice(d, Entry(i, |d|), Entry(j, |d|), items), ())), false))
  }

  /** del p[i:j] through __delslice__: data[i:j], at the bounds Python 2
      hands the method, removed. */
  function DelSlice(w: World, h: HandleId, d: List, i: int, j: int): (r: Outcome<List, ()>)
    requires Linked(w, h)
    ensures NotedFirst(w, h, Slot, d, r)
    ensures Noted(w, h, Slot, [h]).raised.None? ==>
              var (lo, hi) := Bounds(Entry(i, |d|), Entry(j, |d|), |d|);
              r.result.Ok? && r.data == d[..lo] + d[hi..]
  {
    Mutate(w, h, Slot, d, Body([h], Ok((Splice(d, Entry(i, |d|), Entry(j, |d|), []), ())), false))
  }

  // ---------------------------------------------------------- arithmetic

  /** __add__: a new PersistentList of the data followed by the other's
      items; the operands do not change. `self.data + other.data` reads
      self's `data`, then the operand's; for any other operand `data` is
      read by the isinstance test and again before list(other). */
  function AddNew(w: World, cls: Class, h: HandleId, d: List, other: Operand): (r: Built<List>)
    requires IdsBelow(w) && Linked(w, h) && Bound(w, other)
    ensures AllLinked(w, [h, Source(h, other)])
    ensures var rd := Reads(w, [h, Source(h, other)], Slot);
            && (r.made.Ok? <==> rd.raised.None? && !other.Opaque?)
            && (rd.raised.Some? ==> r == Built(rd.world, Err(rd.raised.value)))
            && (rd.raised.None? && r.made.Err? ==> r == Built(rd.world, Err(TypeError)))
            && (r.made.Ok? ==>
                  && r.made.value.0 !in w.handles
                  && r.world.handles == rd.world.handles[r.made.value.0 := NewHandle(cls)]
                  && r.made.value.1 == d + Items(d, other).value)
  {
    FetchesLinked(w, h, other);
    Build(w, cls, Slot, [h, Source(h, other)], var items :- Items(d, other); Ok(d + items))
  }

  /** With self and a PersistentList operand already loaded and current,
      `+` only reads the two `data` slots and builds the new object: no
      object changes and no connection is told. */
  lemma AddNewLoaded(w: World, cls: Class, h: HandleId, d: List, other: Operand)
    requires IdsBelow(w) && Current(w, h) && (other.PList? ==> Current(w, other.obj)) && !other.Opaque?
    ensures Bound(w, other)
    ensures var r := AddNew(w, cls, h, d, other);
            && r.made == Ok((w.nextId, d + Items(d, other).value))
            && r.world.handles == w.handles[w.nextId := NewHandle(cls)] && r.world.conns == w.conns
            && r.world.trace == w.trace + [AttrRead(h, Slot), AttrRead(Source(h, other), Slot), AttrWritten(w.nextId, Slot)]
  {
    var o := Source(h, other);
    BuildCurrent(w, cls, Slot, [h, o], d + Items(d, other).value);
    assert [h, o][1..] == [o];
    assert ReadEvents([o], Slot) == [AttrRead(o, Slot)];
  }

  /** __radd__: the other's items first. `other.data + self.data` reads the
      operand's `data`, then self's; otherwise self's is read by the
      isinstance test, and again once list(other) has succeeded. */
  function RAddNew(w: World, cls: Class, h: HandleId, d: List, other: Operand): (r: Built<List>)
    requires IdsBelow(w) && Linked(w, h) && Bound(w, other)
    ensures AllLinked(w, OtherFirst(h, other))
    ensures var rd := Reads(w, OtherFirst(h, other), Slot);
            && (r.made.Ok? <==> rd.raised.None? && !other.Opaque?)
            && (rd.raised.Some? ==> r == Built(rd.world, Err(rd.raised.value)))
            && (rd.raised.None? && r.made.Err? ==> r == Built(rd.world, Err(TypeError)))
            && (r.made.Ok? ==>
                  && r.made.value.0 !in w.handles
                  && r.world.handles == rd.world.handles[r.made.value.0 := NewHandle(cls)]
                  && r.made.value.1 == Items(d, other).value + d)
  {
    FetchesLinked(w, h, other);
    Build(w, cls, Slot, OtherFirst(h, other), var items :- Items(d, other); Ok(items + d))
  }

  /** data * n: n copies in a row; none for n <= 0. */
  function Repeat(d: List, n: int): (r: List)
    ensures |r| == if n <= 0 then 0 else |d| * n
    decreases if n <= 0 then 0 else n
  {
    if n <= 0 then [] else d + Repeat(d, n - 1)
  }

  /** Item k of data * n is item k mod len(data) of data. */
  lemma {:induction false} RepeatItem(d: List, n: int, k: nat)
    requires k < |Repeat(d, n)|
    ensures Repeat(d, n)[k] == d[k % |d|]
    decreases if n <= 0 then 0 else n
  {
    if k >= |d| {
      RepeatItem(d, n - 1, k - |d|);
      ModShift(k, |d|);
    }
  }

  lemma ModShift(k: int, m: int)
    requires 0 < m <= k
    ensures (k - m) % m == k % m
  {
    var q, r := k / m, k % m;
    assert k == q * m + r;
    assert k - m == (q - 1) * m + r;
    ModUnique(k - m, m, q - 1, r);
  }

  /** The remainder of a = q * m + r with 0 <= r < m is r. */
  lemma ModUnique(a: int, m: int, q: int, r: int)
    requires 0 < m && 0 <= r < m && a == q * m + r
    ensures a % m == r
  {
    var q2, r2 := a / m, a % m;
    assert a == q2 * m + r2;
    if q > q2 {
      MulAtLeast(q - q2, m);
      assert false;
    } else if q < q2 {
      MulAtLeast(q2 - q, m);
      assert false;
    }
  }

  lemma MulAtLeast(x: int, m: int)
    requires x >= 1 && m > 0
    ensures x * m >= m
  {
  }

  /** __mul__ and __rmul__: `data` read, and n copies of it built into a
      new PersistentList. */
  function MulNew(w: World, cls: Class, h: HandleId, d: List, n: int): (r: Built<List>)
    requires IdsBelow(w) && Linked(w, h)
    ensures var rd := Reads(w, [h], Slot);
            && (r.made.Ok? <==> rd.raised.None?)
            && (r.made.Ok? ==>
                  && r.made.value.0 !in w.handles
                  && r.world.handles == rd.world.handles[r.made.value.0 := NewHandle(cls)]
                  && |r.made.value.1| == (if n <= 0 then 0 else |d| * n)
                  && forall k :: 0 <= k < |r.made.value.1| ==> r.made.value.1[k] == d[k % |d|])
  {
    forall k | 0 <= k < |Repeat(d, n)| {
      RepeatItem(d, n, k);
    }
    Build(w, cls, Slot, [h], Ok(Repeat(d, n)))
  }

  /** __iadd__: noted, then extended in place; returns self. */
  function IAdd(w: World, h: HandleId, d: List, other: Operand): (r: Outcome<List, HandleId>)
    requires Linked(w, h) && Bound(w, other)
    ensures AllLinked(w, SelfFirst(h, other))
    ensures NotedFirst(w, h, Slot, d, r)
    ensures r.result.Ok? ==> r.result.value == h && r.world.trace[|r.world.trace| - 1] == AttrWritten(h, Slot)
    ensures Noted(w, h, Slot, SelfFirst(h, other)).raised.None? ==>
              && (r.result.Ok? <==> !other.Opaque?)
              && (r.result.Err? ==> r.result.error == TypeError && r.data == d)
              && (r.result.Ok? ==> |r.data| >= |d| && r.data[..|d|] == d)
  {
    FetchesLinked(w, h, other);
    Mutate(w, h, Slot, d, Body(SelfFirst(h, other), var items :- Items(d, other); Ok((d + items, h)), true))
  }

  /** `+=` leaves the list holding what `+` would have built from the same
      operands, whenever both get past their reads. */
  lemma IAddIsAdd(w: World, h: HandleId, d: List, other: Operand, cls: Class)
    requires Linked(w, h) && IdsBelow(w) && Bound(w, other) && !other.Opaque?
    requires AllLinked(w, SelfFirst(h, other)) && Noted(w, h, Slot, SelfFirst(h, other)).raised.None?
    ensures AllLinked(w, [h, Source(h, other)])
    ensures IAdd(w, h, d, other).result == Ok(h)
    ensures var n := AddNew(w, cls, h, d, other);
            n.made.Ok? ==> IAdd(w, h, d, other).data == n.made.value.1
    ensures Reads(w, [h, Source(h, other)], Slot).raised.None? ==> AddNew(w, cls, h, d, other).made.Ok?
  {
    FetchesLinked(w, h, other);
  }

  /** __imul__: noted, then repeated in place; returns self. */
  function IMul(w: World, h: HandleId, d: List, n: int): (r: Outcome<List, HandleId>)
    requires Linked(w, h)
    ensures NotedFirst(w, h, Slot, d, r)
    ensures r.result.Ok? ==> r.result.value == h && r.world.trace[|r.world.trace| - 1] == AttrWritten(h, Slot)
    ensures Noted(w, h, Slot, [h]).raised.None? ==>
              && r.result.Ok? && |r.data| == (if n <= 0 then 0 else |d| * n)
              && forall k :: 0 <= k < |r.data| ==> r.data[k] == d[k % |d|]
  {
    forall k | 0 <= k < |Repeat(d, n)| {
      RepeatItem(d, n, k);
    }
    Mutate(w, h, Slot, d, Body([h], Ok((Repeat(d, n), h)), true))
  }

  // ------------------------------------------------------------ mutators

  /** append. */
  function Append(w: World, h: HandleId, d: List, x: int): (r: Outcome<List, ()>)
    requires Linked(w, h)
    ensures NotedFirst(w, h, Slot, d, r)
    ensures Noted(w, h, Slot, [h]).raised.None? ==> r.result.Ok? && r.data == d + [x]
  {
    Mutate(w, h, Slot, d, Body([h], Ok((d + [x], ())), false))
  }

  /** insert: the position is bounded as a slice bound is, so a bad index
      never raises. */
  function Insert(w: World, h: HandleId, d: List, i: int, x: int): (r: Outcome<List, ()>)
    requires Linked(w, h)
    ensures NotedFirst(w, h, Slot, d, r)
    ensures Noted(w, h, Slot, [h]).raised.None? ==>
              var k := Clamp(i, |d|);
              r.result.Ok? && r.data == d[..k] + [x] + d[k..]
  {
    var k := Clamp(i, |d|);
    Mutate(w, h, Slot, d, Body([h], Ok((d[..k] + [x] + d[k..], ())), false))
  }

  /** The item pop(i) takes out and what is left. */
  function Take(d: List, i: int): (r: Result<(List, int)>)
    ensures r.Ok? <==> InRange(i, |d|)
    ensures r.Err? ==> r.error == IndexError
    ensures r.Ok? ==> var k := Index(i, |d|).value; r.value == (Drop(d, k), d[k])
  {
    match Index(i, |d|)
    case None => Err(IndexError)
    case Some(k) => Ok((Drop(d, k), d[k]))
  }

  /** pop(i=-1): an empty list or a bad index raises IndexError after the
      change was noted. */
  function Pop(w: World, h: HandleId, d: List, i: int): (r: Outcome<List, int>)
    requires Linked(w, h)
    ensures NotedFirst(w, h, Slot, d, r)
    ensures Noted(w, h, Slot, [h]).raised.None? ==>
              && (r.result.Ok? <==> InRange(i, |d|))
              && (r.result.Err? ==> r.result.error == IndexError && r.data == d)
              && (d == [] ==> r.result == Err(IndexError))
  {
    Mutate(w, h, Slot, d, Body([h], Take(d, i), false))
  }

  /** pop() takes back what append added, and the pop tells no
      connection: the append left the list loaded and noted, so the pop
      only calls _p_note_change, which returns at once, and reads `data`. */
  lemma AppendThenPop(w: World, h: HandleId, d: List, x: int)
    requires Linked(w, h) && Noted(w, h, Slot, [h]).raised.None?
    ensures var a := Append(w, h, d, x);
            var p := Pop(a.world, h, a.data, -1);
            && p.data == d && p.result == Ok(x)
            && p.world.handles == a.world.handles && p.world.conns == a.world.conns
            && p.world.trace == a.world.trace + [ChangeCalled(h), AttrRead(h, Slot)]
  {
    var a := Append(w, h, d, x);
    assert a.data == d + [x];
    PopAppended(d, x);
    MutatedSettles(w, h, Slot, d, Body([h], Ok((d + [x], ())), false));
    QuietPop(a.world, h, a.data, -1);
  }

  /** pop(i) takes back what insert(i, x) put in, for an index inside the
      list, and the pop tells no connection. */
  lemma InsertThenPop(w: World, h: HandleId, d: List, i: int, x: int)
    requires Linked(w, h) && Noted(w, h, Slot, [h]).raised.None? && 0 <= i <= |d|
    ensures var a := Insert(w, h, d, i, x);
            var p := Pop(a.world, h, a.data, i);
            && p.data == d && p.result == Ok(x)
            && p.world.handles == a.world.handles && p.world.conns == a.world.conns
            && p.world.trace == a.world.trace + [ChangeCalled(h), AttrRead(h, Slot)]
  {
    var a := Insert(w, h, d, i, x);
    assert a.data == d[..i] + [x] + d[i..];
    PopInserted(d, i, x);
    MutatedSettles(w, h, Slot, d, Body([h], Ok((d[..i] + [x] + d[i..], ())), false));
    QuietPop(a.world, h, a.data, i);
  }

  /** Taking the last item of d + [x] gives back x and d. */
  /** A pop on a list that is loaded and already noted calls only
      _p_note_change and reads `data`. */
  lemma QuietPop(v: World, h: HandleId, e: List, i: int)
    requires Current(v, h) && v.handles[h].status == Unsaved
    ensures var p := Pop(v, h, e, i);
            && p.world == v.(trace := v.trace + [ChangeCalled(h), AttrRead(h, Slot)])
            && (Take(e, i).Ok? ==> p.data == Take(e, i).value.0 && p.result == Ok(Take(e, i).value.1))
  {
    QuietMutation(v, h, Slot, e, Body([h], Take(e, i), false));
    assert ReadEvents([h], Slot) == [AttrRead(h, Slot)];
  }

  lemma PopAppended(d: List, x: int)
    ensures Take(d + [x], -1) == Ok((d, x))
  {
    var e := d + [x];
    assert e[..|d|] == d && e[|d| + 1..] == [];
    assert Drop(e, |d|) == d;
  }

  /** Taking item i of a list x was inserted at gives back x and the list. */
  lemma PopInserted(d: List, i: int, x: int)
    requires 0 <= i <= |d|
    ensures Take(d[..i] + [x] + d[i..], i) == Ok((d, x))
  {
    var e := d[..i] + [x] + d[i..];
    assert e[..i] == d[..i] && e[i + 1..] == d[i..];
    assert d == d[..i] + d[i..];
  }

  /** The first position holding x, if any. */
  function Find(d: List, x: int): (r: Option<nat>)
    ensures r.Some? ==> r.value < |d| && d[r.value] == x && forall k :: 0 <= k < r.value ==> d[k] != x
    ensures r.None? ==> forall k :: 0 <= k < |d| ==> d[k] != x
    decreases |d|
  {
    if d == [] then None
    else if d[0] == x then Some(0)
    else match Find(d[1..], x)
      case None => None
      case Some(k) => Some(k + 1)
  }

  /** __contains__: x is in the list exactly when some position holds it. */
  function Contains(d: List, x: int): (r: bool)
    ensures r <==> Find(d, x).Some?
  {
    x in d
  }

  /** index: the first position of x; ValueError when x is absent. */
  function IndexOf(d: List, x: int): (r: Result<nat>)
    ensures r.Ok? <==> x in d
    ensures r.Err? ==> r.error == ValueError
    ensures r.Ok? ==> r.value < |d| && d[r.value] == x && x !in d[..r.value]
  {
    match Find(d, x)
    case None => Err(ValueError)
    case Some(k) => Ok(k)
  }

  /** remove: the first occurrence of x goes; ValueError when absent,
      after the change was noted. */
  function Remove(w: World, h: HandleId, d: List, x: int): (r: Outcome<List, ()>)
    requires Linked(w, h)
    ensures NotedFirst(w, h, Slot, d, r)
    ensures Noted(w, h, Slot, [h]).raised.None? ==>
              && (r.result.Ok? <==> x in d)
              && (r.result.Err? ==> r.result.error == ValueError && r.data == d)
              && (r.result.Ok? ==> multiset(r.data) == multiset(d) - multiset{x})
              && (r.result.Ok? ==> r.data == Drop(d, IndexOf(d, x).value))
  {
    Mutate(w, h, Slot, d, Body([h], var k :- IndexOf(d, x); Ok((Drop(d, k), ())), false))
  }

  /** count: how many items equal x. */
  function Count(d: List, x: int): (r: nat)
    ensures r == multiset(d)[x]
    ensures r == 0 <==> x !in d
    decreases |d|
  {
    if d == [] then 0
    else
      assert d == [d[0]] + d[1..];
      (if d[0] == x then 1 else 0) + Count(d[1..], x)
  }

  /** reverse. */
  function Reversed(d: List): (r: List)
    ensures |r| == |d|
    ensures forall k :: 0 <= k < |d| ==> r[k] == d[|d| - 1 - k]
    decreases |d|
  {
    if d == [] then [] else Reversed(d[1..]) + [d[0]]
  }

  function Reverse(w: World, h: HandleId, d: List): (r: Outcome<List, ()>)
    requires Linked(w, h)
    ensures NotedFirst(w, h, Slot, d, r)
    ensures Noted(w, h, Slot, [h]).raised.None? ==> r.result.Ok? && r.data == Reversed(d)
  {
    Mutate(w, h, Slot, d, Body([h], Ok((Reversed(d), ())), false))
  }

  /** Reversing twice restores the list. */
  lemma ReverseTwice(d: List)
    ensures Reversed(Reversed(d)) == d
  {
  }

  predicate Sorted(d: List)
  {
    forall i, j :: 0 <= i < j < |d| ==> d[i] <= d[j]
  }

  /** x put into a sorted list at its place. */
  function InsertSorted(d: List, x: int): (r: List)
    requires Sorted(d)
    ensures Sorted(r) && multiset(r) == multiset(d) + multiset{x}
    decreases |d|
  {
    if d == [] then [x]
    else if x <= d[0] then
      SortedCons(x, d);
      [x] + d
    else
      assert d == [d[0]] + d[1..];
      var rest := InsertSorted(d[1..], x);
      InsertedAbove(d[0], d[1..], x, rest);
      SortedCons(d[0], rest);
      [d[0]] + rest
  }

  /** What is inserted among items no smaller than a is no smaller. */
  lemma InsertedAbove(a: int, d: List, x: int, rest: List)
    requires a <= x && (forall y | y in d :: a <= y) && multiset(rest) == multiset(d) + multiset{x}
    ensures forall y | y in rest :: a <= y
  {
    forall y | y in rest
      ensures a <= y
    {
      assert y in multiset(rest);
      if y != x {
        assert y in multiset(d);
        assert y in d;
      }
    }
  }

  /** A sorted list with a smallest item put in front is sorted. */
  lemma SortedCons(a: int, d: List)
    requires Sorted(d) && forall y | y in d :: a <= y
    ensures Sorted([a] + d)
  {
    var r := [a] + d;
    forall i, j | 0 <= i < j < |r|
      ensures r[i] <= r[j]
    {
      assert r[j] == d[j - 1] && d[j - 1] in d;
    }
  }

  /** The items in ascending order. */
  function SortedItems(d: List): (r: List)
    ensures Sorted(r) && multiset(r) == multiset(d)
    decreases |d|
  {
    if d == [] then []
    else
      assert d == [d[0]] + d[1..];
      InsertSorted(SortedItems(d[1..]), d[0])
  }

  /** sort: noted, then the items rearranged into ascending order. */
  function Sort(w: World, h: HandleId, d: List): (r: Outcome<List, ()>)
    requires Linked(w, h)
    ensures NotedFirst(w, h, Slot, d, r)
    ensures Noted(w, h, Slot, [h]).raised.None? ==>
              r.result.Ok? && Sorted(r.data) && multiset(r.data) == multiset(d)
  {
    Mutate(w, h, Slot, d, Body([h], Ok((SortedItems(d), ())), false))
  }

  /** extend: like `+=`, but returns None. */
  function Extend(w: World, h: HandleId, d: List, other: Operand): (r: Outcome<List, ()>)
    requires Linked(w, h) && Bound(w, other)
    ensures AllLinked(w, SelfFirst(h, other))
    ensures NotedFirst(w, h, Slot, d, r)
    ensures Noted(w, h, Slot, SelfFirst(h, other)).raised.None? ==>
              && (r.result.Ok? <==> !other.Opaque?)
              && (r.result.Err? ==> r.result.error == TypeError && r.data == d)
              && (r.result.Ok? ==> |r.data| >= |d| && r.data[..|d|] == d)
  {
    FetchesLinked(w, h, other);
    Mutate(w, h, Slot, d, Body(SelfFirst(h, other), var items :- Items(d, other); Ok((d + items, ())), false))
  }

  /** extend and `+=` make the same calls and leave the same contents;
      `+=` alone binds `data` again once the items were added. */
  lemma ExtendIsIAdd(w: World, h: HandleId, d: List, other: Operand)
    requires Linked(w, h) && Bound(w, other)
    ensures var e := Extend(w, h, d, other);
            var a := IAdd(w, h, d, other);
            && e.data == a.data
            && (e.result.Ok? <==> a.result.Ok?)
            && a.world == if e.result.Ok? then Emit(e.world, AttrWritten(h, Slot)) else e.world
  {
  }
}

=== FILE: persistent_methods.dfy ===
/** The methods of Persistent (persistent.py) that the proxy and the
    connection call: _p_load_state, _p_note_change, the _p_set_status_*
    transitions, the _p_is_* tests and the _p_changed property. Each
    method records its own call in the trace on entry. */
module PersistentMethods {
  import opened Wrappers
  import opened PersistenceState
  import opened ConnectionNotes

  /** Persistent._p_load_state, and ComputedAttribute's override, which
      reads nothing and only sets SAVED. The plain version insists on a
      ghost and asks the object's connection for the stored state. */
  function LoadSelf(w: World, h: HandleId): (r: Step)
    requires Linked(w, h)
    ensures Frame(w, r.world)
    ensures |r.world.trace| > |w.trace| && r.world.trace[|w.trace|] == LoadCalled(h)
    ensures Quiet(w, r.world)
    ensures r.raised == None ==> r.world.handles[h].status == Saved
    ensures w.handles[h].cls.kind == Plain && w.handles[h].status != Ghost ==> r.raised == Some(AssertionError)
    ensures w.handles[h].cls.kind == Computed ==>
              r.raised == None && r.world.handles == w.handles[h := w.handles[h].(status := Saved)]
    ensures r.raised != None ==> r.world.handles == w.handles
    ensures r.world.conns == w.conns
  {
    var w0 := Emit(w, LoadCalled(h));
    var x := w.handles[h];
    match x.cls.kind
    case Computed =>
      var v := MarkSaved(w0, h);
      FramePut(w, v, h);
      Step(v, None)
    case Plain =>
      if x.status != Ghost then Step(w0, Some(AssertionError))
      else match x.conn
        case None => Step(w0, Some(AttributeError))
        case Some(c) =>
          var l := LoadState(w0, c, h);
          if l.raised.Some? then l
          else
            var v := MarkSaved(l.world, h);
            FramePut(w, v, h);
            Step(v, None)
  }

  /** The plain _p_load_state of a ghost whose connection has its record:
      the stored state is merged in and the calls go to the object and
      then its connection. */
  lemma LoadSelfSpec(w: World, h: HandleId, c: ConnId)
    requires Linked(w, h) && w.handles[h].cls.kind == Plain
    requires w.handles[h].status == Ghost && w.handles[h].conn == Some(c)
    requires w.handles[h].oid.Some? && w.handles[h].oid.value in w.conns[c].stored
    requires w.handles[h].oid.value !in w.conns[c].invalid
    ensures var r := LoadSelf(w, h);
            && r.raised == None
            && r.world.trace == w.trace + [LoadCalled(h), StateLoaded(c, h)]
            && r.world.handles[h].dict == w.handles[h].dict + w.conns[c].stored[w.handles[h].oid.value]
            && r.world.conns == w.conns
  {
  }

  /** Persistent._p_note_change: nothing happens to an UNSAVED object;
      otherwise a ghost is loaded first, the connection is told once and
      the object becomes UNSAVED. */
  function NoteChangeSelf(w: World, h: HandleId): (r: Step)
    requires Linked(w, h)
    ensures Frame(w, r.world) && Quiet(w, r.world)
    ensures |r.world.trace| > |w.trace| && r.world.trace[|w.trace|] == ChangeCalled(h)
    ensures w.handles[h].status == Unsaved ==> r == Step(Emit(w, ChangeCalled(h)), None)
    ensures r.raised == None ==> r.world.handles[h].status == Unsaved
    ensures w.handles[h].status == Saved && w.handles[h].conn.Some? ==>
              && r.raised == None
              && r.world.trace == w.trace + [ChangeCalled(h), ChangeNoted(w.handles[h].conn.value, h)]
              && r.world.handles == w.handles[h := w.handles[h].(status := Unsaved)]
    ensures w.handles[h].status != Unsaved && w.handles[h].conn.None? ==> r.raised.Some?
  {
    var w0 := Emit(w, ChangeCalled(h));
    assert Quiet(w, w0) by {
      assert Added(w, w0) == [ChangeCalled(h)];
    }
    if w.handles[h].status == Unsaved then Step(w0, None)
    else
      var r := NoteChangeBody(w0, h);
      NoteChangeBodySpec(w0, h);
      FrameTrans(w, w0, r.world);
      QuietTrans(w, w0, r.world);
      r
  }

  /** The body of _p_note_change for an object that is not UNSAVED. */
  function NoteChangeBody(w: World, h: HandleId): (r: Step)
    requires Linked(w, h) && w.handles[h].status != Unsaved
    ensures Frame(w, r.world)
  {
    var x := w.handles[h];
    var l := if x.status == Ghost then LoadSelf(w, h) else Step(w, None);
    if l.raised.Some? then l
    else match x.conn
      case None => Step(l.world, Some(AttributeError))
      case Some(c) =>
        var v := SetStatus(NoteChange(l.world, c, h), h, Unsaved);
        FrameChange(l.world, v, h, c);
        FrameTrans(w, l.world, v);
        Step(v, None)
  }

  /** The body makes no generic read or write; when it succeeds the object
      is UNSAVED; a SAVED object with a connection only has its change
      noted; without a connection it fails. */
  lemma NoteChangeBodySpec(w: World, h: HandleId)
    requires Linked(w, h) && w.handles[h].status != Unsaved
    ensures var r := NoteChangeBody(w, h);
            && Quiet(w, r.world)
            && (r.raised == None ==> r.world.handles[h].status == Unsaved)
            && (w.handles[h].conn.None? ==> r.raised.Some?)
    ensures var r := NoteChangeBody(w, h);
            w.handles[h].status == Saved && w.handles[h].conn.Some? ==>
              && r.raised == None
              && r.world.trace == w.trace + [ChangeNoted(w.handles[h].conn.value, h)]
              && r.world.handles == w.handles[h := w.handles[h].(status := Unsaved)]
  {
    var x := w.handles[h];
    var l := if x.status == Ghost then LoadSelf(w, h) else Step(w, None);
    assert Quiet(w, l.world) by {
      if x.status != Ghost {
        assert Added(w, l.world) == [];
      }
    }
    if l.raised.None? && x.conn.Some? {
      var c := x.conn.value;
      var n := NoteChange(l.world, c, h);
      assert Quiet(l.world, n) by {
        assert Added(l.world, n) == [ChangeNoted(c, h)];
      }
      QuietTrans(w, l.world, n);
    }
  }

  /** _p_note_change on a ghost whose state can be loaded: the ghost is
      loaded first, then the connection is told exactly once, and the
      object ends UNSAVED with the stored state merged in. */
  lemma NoteChangeGhost(w: World, h: HandleId, c: ConnId)
    requires Linked(w, h) && w.handles[h].cls.kind == Plain
    requires w.handles[h].status == Ghost && w.handles[h].conn == Some(c)
    requires w.handles[h].oid.Some? && w.handles[h].oid.value in w.conns[c].stored
    requires w.handles[h].oid.value !in w.conns[c].invalid
    ensures var r := NoteChangeSelf(w, h);
            && r.raised == None
            && r.world.trace == w.trace + [ChangeCalled(h), LoadCalled(h), StateLoaded(c, h), ChangeNoted(c, h)]
            && r.world.handles == w.handles[h := w.handles[h].(
                 status := Unsaved,
                 dict := w.handles[h].dict + w.conns[c].stored[w.handles[h].oid.value])]
  {
    var w0 := Emit(w, ChangeCalled(h));
    LoadSelfSpec(w0, h, c);
  }

  /** _p_note_change on a ghost whose state cannot be loaded raises before
      the connection hears of the change, and leaves every object as it
      was. */
  lemma NoteChangeGhostFails(w: World, h: HandleId)
    requires Linked(w, h) && w.handles[h].cls.kind == Plain && w.handles[h].status == Ghost
    requires !(&& w.handles[h].conn.Some?
               && w.handles[h].oid.Some?
               && w.handles[h].oid.value in w.conns[w.handles[h].conn.value].stored
               && w.handles[h].oid.value !in w.conns[w.handles[h].conn.value].invalid)
    ensures var r := NoteChangeSelf(w, h);
            && r.raised.Some?
            && r.world.handles == w.handles
            && forall i :: |w.trace| <= i < |r.world.trace| ==> !r.world.trace[i].ChangeNoted?
  {
  }

  /** Persistent._p_set_status_unsaved: a ghost is loaded first. */
  function SetUnsaved(w: World, h: HandleId): (r: Step)
    requires Linked(w, h)
    ensures Frame(w, r.world) && r.world.conns == w.conns
    ensures r.raised == None ==> r.world.handles[h].status == Unsaved
    ensures w.handles[h].status != Ghost ==>
              r == Step(SetStatus(w, h, Unsaved), None)
    ensures w.handles[h].status == Ghost ==> LoadCalled(h) in r.world.trace[|w.trace|..]
  {
    var x := w.handles[h];
    if x.status == Ghost then
      var l := LoadSelf(w, h);
      assert l.world.trace[|w.trace|..][0] == LoadCalled(h);
      if l.raised.Some? then l
      else
        var v := SetStatus(l.world, h, Unsaved);
        FramePut(l.world, v, h);
        FrameTrans(w, l.world, v);
        Step(v, None)
    else
      var v := SetStatus(w, h, Unsaved);
      FramePut(w, v, h);
      Step(v, None)
  }

  /** _p_is_ghost, _p_is_unsaved, _p_is_saved: exactly one holds. */
  predicate IsGhost(x: Handle) { x.status == Ghost }
  predicate IsUnsaved(x: Handle) { x.status == Unsaved }
  predicate IsSaved(x: Handle) { x.status == Saved }

  lemma ExactlyOneStatus(x: Handle)
    ensures IsGhost(x) || IsUnsaved(x) || IsSaved(x)
    ensures !(IsGhost(x) && IsUnsaved(x)) && !(IsGhost(x) && IsSaved(x)) && !(IsUnsaved(x) && IsSaved(x))
  {
  }

  /** Reading _p_changed: whether the object is UNSAVED. */
  predicate Changed(x: Handle)
  {
    x.status == Unsaved
  }

  /** Assigning _p_changed: a false value does nothing, a true value
      calls _p_note_change. */
  function SetChanged(w: World, h: HandleId, value: bool): (r: Step)
    requires Linked(w, h)
    ensures Frame(w, r.world)
    ensures !value ==> r == Step(w, None)
    ensures value ==> r == NoteChangeSelf(w, h)
    ensures value && r.raised == None ==> Changed(r.world.handles[h])
  {
    if value then NoteChangeSelf(w, h) else Step(w, None)
  }
}

=== FILE: persistent_set.dfy ===
/** PersistentSet of durus/persistent_set.py: a persistent object around a
    set in the slot `s`. Its operators take the other operand as a
    PersistentSet (whose `s` is used), a plain set, some other iterable, or
    an object that is none of these; its mutators note the change before
    touching `s`. Every use of `s`, self's or a PersistentSet operand's, is
    a read through pb_getattro, made in the order Python evaluates it. */
module PersistentSets {
  import opened Wrappers
  import opened PersistenceState
  import opened PersistentMethods
  import opened Mutations
  import opened Proxy

  /** The other operand of an operator or method. A PersistentSet is given
      by its object and its contents; `Iterable` is an iterable that is not
      a set (a list, a generator), given by the elements it yields;
      `Opaque` is an object that cannot even be iterated. */
  datatype Operand<T> = PSet(obj: HandleId, s: set<T>) | PlainSet(s: set<T>) | Iterable(s: set<T>) | Opaque

  /** The slot every method reads. */
  const Slot := "s"

  /** A PersistentSet operand is an object of the world. */
  predicate Bound<T>(w: World, other: Operand<T>)
  {
    other.PSet? ==> Linked(w, other.obj)
  }

  /** The reads of `s` an operation makes: self's, then, for a
      PersistentSet operand, the operand's (`self.s & other.s`, or the
      iteration of `other` by a method). */
  function Fetches<T>(h: HandleId, other: Operand<T>): (r: seq<HandleId>)
    ensures 1 <= |r| <= 2 && r[0] == h && (other.PSet? <==> |r| == 2) && (other.PSet? ==> r[1] == other.obj)
  {
    if other.PSet? then [h, other.obj] else [h]
  }

  lemma FetchesLinked<T>(w: World, h: HandleId, other: Operand<T>)
    requires Linked(w, h) && Bound(w, other)
    ensures AllLinked(w, Fetches(h, other))
  {
  }

  /** The operators `&`, `|`, `-`, `^`. */
  datatype SetOp = And | Or | Sub | Xor

  /** The set operation itself. */
  function Combine<T(!new)>(op: SetOp, a: set<T>, b: set<T>): (r: set<T>)
    ensures op == And ==> forall x :: x in r <==> x in a && x in b
    ensures op == Or ==> forall x :: x in r <==> x in a || x in b
    ensures op == Sub ==> forall x :: x in r <==> x in a && x !in b
    ensures op == Xor ==> forall x :: x in r <==> (x in a) != (x in b)
  {
    match op
    case And => a * b
    case Or => a + b
    case Sub => a - b
    case Xor => (a - b) + (b - a)
  }

  /** `self.s OP other`, or `self.s OP other.s` for a PersistentSet: only
      sets take part; anything else raises TypeError. */
  function Binary<T(!new)>(op: SetOp, a: set<T>, other: Operand<T>): (r: Result<set<T>>)
    ensures r.Ok? <==> other.PSet? || other.PlainSet?
    ensures r.Err? ==> r.error == TypeError
    ensures r.Ok? ==> r.value == Combine(op, a, other.s)
  {
    match other
    case PSet(_, b) => Ok(Combine(op, a, b))
    case PlainSet(b) => Ok(Combine(op, a, b))
    case _ => Err(TypeError)
  }

  /** __and__, __or__, __sub__, __xor__ of the set h holding a:
      `self.__class__(self.s & other.s)` reads self's `s`, then a
      PersistentSet operand's, and builds a new PersistentSet holding the
      result; neither operand changes. A read that raises, or an operand
      that is not a set, builds nothing. */
  function BinaryNew<T(!new)>(w: World, cls: Class, h: HandleId, op: SetOp, a: set<T>, other: Operand<T>): (r: Built<set<T>>)
    requires IdsBelow(w) && Linked(w, h) && Bound(w, other)
    ensures AllLinked(w, Fetches(h, other))
    ensures var rd := Reads(w, Fetches(h, other), Slot);
            && (r.made.Ok? <==> rd.raised.None? && (other.PSet? || other.PlainSet?))
            && (rd.raised.Some? ==> r == Built(rd.world, Err(rd.raised.value)))
            && (rd.raised.None? && r.made.Err? ==> r == Built(rd.world, Err(TypeError)))
            && (r.made.Ok? ==>
                  && r.made.value.0 !in w.handles
                  && r.world.handles == rd.world.handles[r.made.value.0 := NewHandle(cls)]
                  && r.made.value.1 == Combine(op, a, other.s))
  {
    FetchesLinked(w, h, other);
    Build(w, cls, Slot, Fetches(h, other), Binary(op, a, other))
  }

  /** With self and a PersistentSet operand already loaded and current, an
      operator only reads the two `s` slots and builds the new object: no
      object changes and no connection is told. */
  lemma BinaryNewLoaded<T(!new)>(w: World, cls: Class, h: HandleId, op: SetOp, a: set<T>, other: Operand<T>)
    requires IdsBelow(w) && Current(w, h) && (other.PSet? ==> Current(w, other.obj))
    requires other.PSet? || other.PlainSet?
    ensures Bound(w, other)
    ensures var r := BinaryNew(w, cls, h, op, a, other);
            && r.made == Ok((w.nextId, Combine(op, a, other.s)))
            && r.world.handles == w.handles[w.nextId := NewHandle(cls)] && r.world.conns == w.conns
            && r.world.trace == w.trace + ReadEvents(Fetches(h, other), Slot) + [AttrWritten(w.nextId, Slot)]
  {
    BuildCurrent(w, cls, Slot, Fetches(h, other), Combine(op, a, other.s));
  }

  /** __rand__, __ror__, __rsub__, __rxor__: `other OP self.s`, reached when
      the left operand's own operator declined; a PersistentSet on the left
      works through its own operator, anything but a set raises TypeError. */
  function Reflected<T(!new)>(op: SetOp, a: set<T>, other: Operand<T>): (r: Result<set<T>>)
    ensures r.Ok? <==> other.PSet? || other.PlainSet?
    ensures r.Err? ==> r.error == TypeError
    ensures r.Ok? ==> r.value == Combine(op, other.s, a)
  {
    match other
    case PSet(_, b) => Ok(Combine(op, b, a))
    case PlainSet(b) => Ok(Combine(op, b, a))
    case _ => Err(TypeError)
  }

  /** __rand__, __ror__, __rsub__, __rxor__ as called:
      `self.__class__(other OP self.s)` reads self's `s` and builds a new
      PersistentSet holding the result; a read that raises, or an operand
      that is not a set, builds nothing. */
  function ReflectedNew<T(!new)>(w: World, cls: Class, h: HandleId, op: SetOp, a: set<T>, other: Operand<T>): (r: Built<set<T>>)
    requires IdsBelow(w) && Linked(w, h)
    ensures AllLinked(w, [h])
    ensures var rd := Reads(w, [h], Slot);
            && (r.made.Ok? <==> rd.raised.None? && (other.PSet? || other.PlainSet?))
            && (rd.raised.Some? ==> r == Built(rd.world, Err(rd.raised.value)))
            && (rd.raised.None? && r.made.Err? ==> r == Built(rd.world, Err(TypeError)))
            && (r.made.Ok? ==>
                  && r.made.value.0 !in w.handles
                  && r.world.handles == rd.world.handles[r.made.value.0 := NewHandle(cls)]
                  && r.made.value.1 == Combine(op, other.s, a))
  {
    Build(w, cls, Slot, [h], Reflected(op, a, other))
  }

  /** With self loaded and current, a reflected operator only reads `s`
      and builds the new object. */
  lemma ReflectedNewLoaded<T(!new)>(w: World, cls: Class, h: HandleId, op: SetOp, a: set<T>, b: set<T>)
    requires IdsBelow(w) && Current(w, h)
    ensures var r := ReflectedNew(w, cls, h, op, a, PlainSet(b));
            && r.made == Ok((w.nextId, Combine(op, b, a)))
            && r.world.handles == w.handles[w.nextId := NewHandle(cls)] && r.world.conns == w.conns
            && r.world.trace == w.trace + [AttrRead(h, Slot), AttrWritten(w.nextId, Slot)]
  {
    BuildCurrent(w, cls, Slot, [h], Combine(op, b, a));
    assert ReadEvents([h], Slot) == [AttrRead(h, Slot)];
  }

  /** A reflected operator gives what the plain operator gives with the
      operands swapped; for `&`, `|` and `^` the order does not matter. */
  lemma ReflectedSwaps<T(!new)>(op: SetOp, a: set<T>, b: set<T>)
    ensures Reflected(op, a, PlainSet(b)) == Binary(op, b, PlainSet(a))
    ensures op != Sub ==> Reflected(op, a, PlainSet(b)) == Binary(op, a, PlainSet(b))
  {
    if op != Sub {
      assert Combine(op, b, a) == Combine(op, a, b);
    }
  }

  /** The methods difference, intersection, symmetric_difference, union
      and their _update forms take any iterable. */
  function Elements<T(!new)>(other: Operand<T>): (r: Result<set<T>>)
    ensures r.Ok? <==> !other.Opaque?
    ensures r.Err? ==> r.error == TypeError
    ensures r.Ok? ==> r.value == other.s
  {
    if other.Opaque? then Err(TypeError) else Ok(other.s)
  }

  /** difference, intersection, symmetric_difference, union. */
  function Method<T(!new)>(op: SetOp, a: set<T>, other: Operand<T>): (r: Result<set<T>>)
    ensures r.Ok? <==> !other.Opaque?
    ensures r.Err? ==> r.error == TypeError
    ensures r.Ok? ==> r.value == Combine(op, a, other.s)
  {
    var b :- Elements(other);
    Ok(Combine(op, a, b))
  }

  /** difference, intersection, symmetric_difference, union as called:
      `self.__class__(self.s.difference(other))` reads self's `s`, then
      iterates a PersistentSet operand through its `s`, and builds a new
      PersistentSet holding the result; a read that raises, or an operand
      that cannot be iterated, builds nothing. */
  function MethodNew<T(!new)>(w: World, cls: Class, h: HandleId, op: SetOp, a: set<T>, other: Operand<T>): (r: Built<set<T>>)
    requires IdsBelow(w) && Linked(w, h) && Bound(w, other)
    ensures AllLinked(w, Fetches(h, other))
    ensures var rd := Reads(w, Fetches(h, other), Slot);
            && (r.made.Ok? <==> rd.raised.None? && !other.Opaque?)
            && (rd.raised.Some? ==> r == Built(rd.world, Err(rd.raised.value)))
            && (rd.raised.None? && r.made.Err? ==> r == Built(rd.world, Err(TypeError)))
            && (r.made.Ok? ==>
                  && r.made.value.0 !in w.handles
                  && r.world.handles == rd.world.handles[r.made.value.0 := NewHandle(cls)]
                  && r.made.value.1 == Combine(op, a, other.s))
  {
    FetchesLinked(w, h, other);
    Build(w, cls, Slot, Fetches(h, other), Method(op, a, other))
  }

  /** Where the operator accepts the operand, the method builds the same
      object after the same reads; an iterable that is not a set is
      refused by the operator and built from by the method. */
  lemma MethodNewExtendsOperator<T(!new)>(w: World, cls: Class, h: HandleId, op: SetOp, a: set<T>, other: Operand<T>)
    requires IdsBelow(w) && Linked(w, h) && Bound(w, other)
    ensures BinaryNew(w, cls, h, op, a, other).made.Ok? ==>
              MethodNew(w, cls, h, op, a, other) == BinaryNew(w, cls, h, op, a, other)
    ensures other.Iterable? && Reads(w, Fetches(h, other), Slot).raised.None? ==>
              BinaryNew(w, cls, h, op, a, other).made.Err? && MethodNew(w, cls, h, op, a, other).made.Ok?
  {
    MethodExtendsOperator(op, a, other);
  }

  /** The methods agree with the operators where both accept the operand,
      and accept more: an iterable that is not a set. */
  lemma MethodExtendsOperator<T(!new)>(op: SetOp, a: set<T>, other: Operand<T>)
    ensures Binary(op, a, other).Ok? ==> Method(op, a, other) == Binary(op, a, other)
    ensures other.Iterable? ==> Binary(op, a, other).Err? && Method(op, a, other).Ok?
  {
  }

  /** __eq__: equal only to a PersistentSet with the same elements. */
  function Eq<T(==,!new)>(a: set<T>, other: Operand<T>): (r: bool)
    ensures r <==> other.PSet? && other.s == a
  {
    match other
    case PSet(_, b) => a == b
    case _ => false
  }

  /** __ne__. */
  function Ne<T(==,!new)>(a: set<T>, other: Operand<T>): (r: bool)
    ensures !other.PSet? ==> r
  {
    match other
    case PSet(_, b) => a != b
    case _ => true
  }

  lemma NeIsNotEq<T(!new)>(a: set<T>, other: Operand<T>)
    ensures Ne(a, other) == !Eq(a, other)
  {
  }

  /** The orderings `<`, `<=`, `>`, `>=`. */
  datatype Order = Lt | Le | Gt | Ge

  /** The orderings compare by inclusion, and only against a PersistentSet;
      anything else, a plain set too, raises TypeError. */
  function Compare<T(==,!new)>(o: Order, a: set<T>, other: Operand<T>): (r: Result<bool>)
    ensures r.Ok? <==> other.PSet?
    ensures r.Err? ==> r.error == TypeError
    ensures r.Ok? && o == Le ==> (r.value <==> forall x :: x in a ==> x in other.s)
    ensures r.Ok? && o == Ge ==> (r.value <==> forall x :: x in other.s ==> x in a)
    ensures r.Ok? && o == Lt ==> (r.value <==> (forall x :: x in a ==> x in other.s) && a != other.s)
    ensures r.Ok? && o == Gt ==> (r.value <==> (forall x :: x in other.s ==> x in a) && a != other.s)
  {
    match other
    case PSet(_, b) =>
      Ok(match o
         case Lt => a < b
         case Le => a <= b
         case Gt => a > b
         case Ge => a >= b)
    case _ => Err(TypeError)
  }

  /** `<=` is `<` or `==`; `>` and `>=` are `<` and `<=` turned round. */
  lemma OrderingsAgree<T(!new)>(x: HandleId, a: set<T>, y: HandleId, b: set<T>)
    ensures Compare(Le, a, PSet(y, b)) == Ok(Compare(Lt, a, PSet(y, b)).value || Eq(a, PSet(y, b)))
    ensures Compare(Gt, a, PSet(y, b)) == Compare(Lt, b, PSet(x, a))
    ensures Compare(Ge, a, PSet(y, b)) == Compare(Le, b, PSet(x, a))
  {
  }

  /** The in-place operators `&=`, `|=`, `-=`, `^=`: the change is noted;
      then `self.s &= other.s` reads self's `s`, a PersistentSet operand's,
      and binds `s` again; self is returned. An operand that is not a set
      raises TypeError after the change was noted and self's `s` read. */
  function InPlace<T(!new)>(w: World, h: HandleId, op: SetOp, a: set<T>, other: Operand<T>): (r: Outcome<set<T>, HandleId>)
    requires Linked(w, h) && Bound(w, other)
    ensures AllLinked(w, Fetches(h, other))
    ensures NotedFirst(w, h, Slot, a, r)
    ensures r.result.Ok? ==> r.result.value == h && r.world.trace[|r.world.trace| - 1] == AttrWritten(h, Slot)
    ensures Noted(w, h, Slot, Fetches(h, other)).raised.None? ==>
              && (r.result.Ok? <==> other.PSet? || other.PlainSet?)
              && (r.result.Ok? ==> r.data == Combine(op, a, other.s))
              && (r.result.Err? ==> r.result.error == TypeError && r.data == a)
  {
    FetchesLinked(w, h, other);
    Mutate(w, h, Slot, a, Body(Fetches(h, other), var b :- Binary(op, a, other); Ok((b, h)), true))
  }

  /** An in-place operator ends with the contents the plain operator
      builds, and fails exactly where it fails, once the note and the reads
      succeeded. */
  lemma InPlaceAgrees<T(!new)>(w: World, cls: Class, h: HandleId, op: SetOp, a: set<T>, other: Operand<T>)
    requires IdsBelow(w) && Linked(w, h) && Bound(w, other)
    requires AllLinked(w, Fetches(h, other)) && Noted(w, h, Slot, Fetches(h, other)).raised.None?
    ensures var r := InPlace(w, h, op, a, other);
            var n := BinaryNew(w, cls, h, op, a, other);
            && (r.result.Ok? <==> Binary(op, a, other).Ok?)
            && (r.result.Ok? ==> r.data == Binary(op, a, other).value)
            && (Reads(w, Fetches(h, other), Slot).raised.None? ==>
                  (r.result.Ok? <==> n.made.Ok?) && (r.result.Ok? ==> r.data == n.made.value.1))
  {
  }

  /** difference_update, intersection_update, symmetric_difference_update
      and update: noted, then `self.s` read and updated from any iterable
      (a PersistentSet operand iterated through its own `s`); they return
      None. */
  function Update<T(!new)>(w: World, h: HandleId, op: SetOp, a: set<T>, other: Operand<T>): (r: Outcome<set<T>, ()>)
    requires Linked(w, h) && Bound(w, other)
    ensures AllLinked(w, Fetches(h, other))
    ensures NotedFirst(w, h, Slot, a, r)
    ensures Noted(w, h, Slot, Fetches(h, other)).raised.None? ==>
              && (r.result.Ok? <==> !other.Opaque?)
              && (r.result.Ok? ==> r.data == Combine(op, a, other.s))
    ensures r.world.handles == Noted(w, h, Slot, Fetches(h, other)).world.handles
  {
    FetchesLinked(w, h, other);
    Mutate(w, h, Slot, a, Body(Fetches(h, other), var b :- Elements(other); Ok((Combine(op, a, b), ())), false))
  }

  /** add: noted, then `self.s.add(item)` reads `s` and adds to it. */
  function Add<T(!new)>(w: World, h: HandleId, a: set<T>, item: T): (r: Outcome<set<T>, ()>)
    requires Linked(w, h)
    ensures NotedFirst(w, h, Slot, a, r)
    ensures Noted(w, h, Slot, [h]).raised.None? ==> r.result.Ok? && r.data == a + {item}
  {
    Mutate(w, h, Slot, a, Body([h], Ok((a + {item}, ())), false))
  }

  /** Adding twice leaves the contents as adding once does, and the second
      add tells no connection: it only calls _p_note_change, which returns
      at once, and reads `s`. */
  lemma AddIdempotent<T(!new)>(w: World, h: HandleId, a: set<T>, item: T)
    requires Linked(w, h) && Add(w, h, a, item).result.Ok?
    ensures var once := Add(w, h, a, item);
            var twice := Add(once.world, h, once.data, item);
            && twice.data == once.data && twice.result == Ok(())
            && twice.world.handles == once.world.handles && twice.world.conns == once.world.conns
            && twice.world.trace == once.world.trace + [ChangeCalled(h), AttrRead(h, Slot)]
  {
    var once := Add(w, h, a, item);
    MutatedSettles(w, h, Slot, a, Body([h], Ok((a + {item}, ())), false));
    QuietMutation(once.world, h, Slot, once.data, Body([h], Ok((once.data + {item}, ())), false));
    assert ReadEvents([h], Slot) == [AttrRead(h, Slot)];
    assert once.data + {item} == once.data;
  }

  /** clear. */
  function Clear<T(!new)>(w: World, h: HandleId, a: set<T>): (r: Outcome<set<T>, ()>)
    requires Linked(w, h)
    ensures NotedFirst(w, h, Slot, a, r)
    ensures Noted(w, h, Slot, [h]).raised.None? ==> r.result.Ok? && r.data == {}
  {
    Mutate(w, h, Slot, a, Body([h], Ok(({}, ())), false))
  }

  /** discard: removes the item if present, and never raises for an
      absent one. */
  function Discard<T(!new)>(w: World, h: HandleId, a: set<T>, item: T): (r: Outcome<set<T>, ()>)
    requires Linked(w, h)
    ensures NotedFirst(w, h, Slot, a, r)
    ensures Noted(w, h, Slot, [h]).raised.None? ==> r.result.Ok? && r.data == a - {item}
  {
    Mutate(w, h, Slot, a, Body([h], Ok((a - {item}, ())), false))
  }

  /** remove: like discard, but an absent item raises KeyError, after the
      change was noted. */
  function Remove<T(!new)>(w: World, h: HandleId, a: set<T>, item: T): (r: Outcome<set<T>, ()>)
    requires Linked(w, h)
    ensures NotedFirst(w, h, Slot, a, r)
    ensures Noted(w, h, Slot, [h]).raised.None? ==>
              && (r.result.Ok? <==> item in a)
              && (r.result.Err? ==> r.result.error == KeyError && r.data == a)
              && (r.result.Ok? ==> r.data == a - {item})
  {
    Mutate(w, h, Slot, a, Body([h], if item in a then Ok((a - {item}, ())) else Err(KeyError), false))
  }

  /** remove and discard differ only on an absent item, where remove raises
      KeyError and discard does nothing; both note the change and read `s`
      alike. */
  lemma RemoveVersusDiscard<T(!new)>(w: World, h: HandleId, a: set<T>, item: T)
    requires Linked(w, h) && Noted(w, h, Slot, [h]).raised.None?
    ensures var r := Remove(w, h, a, item);
            var d := Discard(w, h, a, item);
            && r.world == d.world && r.data == d.data
            && (item in a <==> r.result == d.result)
            && (item !in a ==> r.result == Err(KeyError) && d.result == Ok(()) && d.data == a)
  {
    var p := Noted(w, h, Slot, [h]);
    assert Remove(w, h, a, item).world == p.world;
    assert Discard(w, h, a, item).world == p.world;
  }

  /** pop: removes and returns an element, `pick`, the one the set's
      iteration happens to give first; an empty set raises KeyError, after
      the change was noted. */
  function Pop<T(!new)>(w: World, h: HandleId, a: set<T>, pick: T): (r: Outcome<set<T>, T>)
    requires Linked(w, h)
    requires a != {} ==> pick in a
    ensures NotedFirst(w, h, Slot, a, r)
    ensures Noted(w, h, Slot, [h]).raised.None? ==>
              && (r.result.Ok? <==> a != {})
              && (r.result.Err? ==> r.result.error == KeyError)
              && (r.result.Ok? ==> r.result.value in a && r.data == a - {r.result.value})
  {
    Mutate(w, h, Slot, a, Body([h], if a == {} then Err(KeyError) else Ok((a - {pick}, pick)), false))
  }

  /** Adding back what pop returned restores the contents. */
  lemma PopThenAdd<T(!new)>(w: World, h: HandleId, a: set<T>, pick: T)
    requires Linked(w, h) && (a != {} ==> pick in a)
    requires Pop(w, h, a, pick).result.Ok?
    ensures var p := Pop(w, h, a, pick);
            var q := Add(p.world, h, p.data, p.result.value);
            q.data == a && q.result == Ok(())
  {
    var p := Pop(w, h, a, pick);
    MutatedSettles(w, h, Slot, a, Body([h], Ok((a - {pick}, pick)), false));
    QuietMutation(p.world, h, Slot, p.data, Body([h], Ok((p.data + {pick}, ())), false));
    assert p.data + {pick} == a;
  }

  /** copy: `self.__class__(self.s)` reads `s` and builds a new
      PersistentSet with the same elements. */
  function Copy<T(!new)>(w: World, cls: Class, h: HandleId, a: set<T>): (r: Built<set<T>>)
    requires IdsBelow(w) && Linked(w, h)
    ensures var rd := Reads(w, [h], Slot);
            && (r.made.Ok? <==> rd.raised.None?)
            && (r.made.Ok? ==>
                  && r.made.value.0 !in w.handles && r.made.value.1 == a
                  && r.world.handles == rd.world.handles[r.made.value.0 := NewHandle(cls)])
  {
    Build(w, cls, Slot, [h], Ok(a))
  }

  /** issubset and issuperset: any iterable is accepted. */
  function IsSubset<T(==,!new)>(a: set<T>, other: Operand<T>): (r: Result<bool>)
    ensures r.Ok? <==> !other.Opaque?
    ensures r.Ok? ==> (r.value <==> forall x :: x in a ==> x in other.s)
  {
    var b :- Elements(other);
    Ok(a <= b)
  }

  function IsSuperset<T(==,!new)>(a: set<T>, other: Operand<T>): (r: Result<bool>)
    ensures r.Ok? <==> !other.Opaque?
    ensures r.Ok? ==> (r.value <==> forall x :: x in other.s ==> x in a)
  {
    var b :- Elements(other);
    Ok(b <= a)
  }

  /** issubset of a PersistentSet is `<=`. */
  lemma SubsetIsLe<T(!new)>(a: set<T>, y: HandleId, b: set<T>)
    ensures IsSubset(a, PSet(y, b)) == Compare(Le, a, PSet(y, b))
    ensures IsSuperset(a, PSet(y, b)) == Compare(Ge, a, PSet(y, b))
  {
  }
}

=== FILE: proxy.dfy ===
/** The attribute interception of PersistentBase in _persistent.c: which
    names trigger loading, what a read (pb_getattro) and a write
    (pb_setattro) do before reaching the generic attribute machinery, the
    raw accessors that bypass interception, and call_if_persistent. */
module Proxy {
  import opened Wrappers
  import opened PersistenceState
  import opened ConnectionNotes
  import opened PersistentMethods

  /** An attribute name as Python passes it: a string or something else. */
  datatype Name = Str(s: string) | NotStr

  /** The C string a Python string converts to: it ends at the first NUL. */
  function CString(s: string): (r: string)
    ensures '\0' !in r && r <= s
    ensures '\0' !in s ==> r == s
  {
    if s == [] || s[0] == '\0' then [] else [s[0]] + CString(s[1..])
  }

  /** The character at position i of a C string; the terminating NUL past
      its end. */
  function At(c: string, i: nat): char
  {
    if i < |c| then c[i] else '\0'
  }

  /** load_triggering_name, walking the C string as the C code does. */
  function LoadTriggering(s: string): bool
  {
    var c := CString(s);
    if At(c, 0) != '_' then true
    else if At(c, 1) == 'p' then At(c, 2) != '_'
    else if At(c, 1) == '_' then
      if At(c, 2) == 'r' then c[2..] != "repr__"
      else if At(c, 2) == 'c' then c[2..] != "class__"
      else if At(c, 2) == 's' then c[2..] != "setstate__"
      else true
    else true
  }

  /** The names exempt from interception: those starting with "_p_" and
      exactly "__repr__", "__class__" and "__setstate__". */
  predicate Exempt(n: string)
  {
    (|n| >= 3 && n[..3] == "_p_") || n == "__repr__" || n == "__class__" || n == "__setstate__"
  }

  /** A name triggers loading exactly when its C string is not exempt. In
      particular "_p" not followed by "_" triggers. */
  lemma LoadTriggeringSpec(s: string)
    ensures LoadTriggering(s) <==> !Exempt(CString(s))
  {
    var c := CString(s);
    if At(c, 0) == '_' && At(c, 1) == '_' {
      Dunder(c, "repr__");
      Dunder(c, "class__");
      Dunder(c, "setstate__");
      assert "__" + "repr__" == "__repr__" && "__" + "class__" == "__class__" && "__" + "setstate__" == "__setstate__";
    } else if At(c, 0) == '_' && At(c, 1) == 'p' {
      assert Exempt(c) <==> At(c, 2) == '_' by {
        if At(c, 2) == '_' {
          assert c[..3] == "_p_";
        }
      }
    }
  }

  /** A C string that starts with two underscores is "__" + t exactly when
      the rest of it is t. */
  lemma Dunder(c: string, t: string)
    requires '\0' !in c && At(c, 0) == '_' && At(c, 1) == '_'
    ensures c == "__" + t <==> c[2..] == t
  {
    assert c == "__" + c[2..];
  }

  /** pb_load: a ghost calls _p_load_state; anything else is left alone. */
  function Load(w: World, h: HandleId): (r: Step)
    requires Linked(w, h)
    ensures Frame(w, r.world)
    ensures w.handles[h].status != Ghost ==> r == Step(w, None)
    ensures w.handles[h].status == Ghost ==> r == LoadSelf(w, h)
  {
    if w.handles[h].status == Ghost then LoadSelf(w, h) else Step(w, None)
  }

  /** Whether pb_note_access calls the connection: the object has a
      connection and its serial stamp differs from the connection's
      current transaction serial. */
  predicate Stale(w: World, h: HandleId)
    requires Linked(w, h)
  {
    w.handles[h].conn.Some? && w.handles[h].serial != w.conns[w.handles[h].conn.value].serial
  }

  /** pb_note_access. */
  function NoteAccessIfStale(w: World, h: HandleId): (r: Step)
    requires Linked(w, h)
    ensures Frame(w, r.world)
    ensures !Stale(w, h) ==> r == Step(w, None)
    ensures Stale(w, h) ==> r == NoteAccess(w, w.handles[h].conn.value, h)
  {
    if Stale(w, h) then NoteAccess(w, w.handles[h].conn.value, h) else Step(w, None)
  }

  /** The part of pb_getattro before the generic read, for a triggering
      name: load a ghost, then note the access. */
  function Activate(w: World, h: HandleId): (r: Step)
    requires Linked(w, h)
    ensures Frame(w, r.world)
  {
    var l := Load(w, h);
    if l.raised.Some? then l
    else
      var a := NoteAccessIfStale(l.world, h);
      FrameTrans(w, l.world, a.world);
      a
  }

  /** Activation makes no generic read or write. */
  lemma ActivateQuiet(w: World, h: HandleId)
    requires Linked(w, h)
    ensures Quiet(w, Activate(w, h).world)
  {
    var l := Load(w, h);
    assert Quiet(w, l.world) by {
      if w.handles[h].status != Ghost {
        assert Added(w, l.world) == [];
      }
    }
    if l.raised.None? {
      var a := NoteAccessIfStale(l.world, h);
      assert Quiet(l.world, a.world) by {
        if Stale(l.world, h) {
          assert Added(l.world, a.world) == [AccessNoted(w.handles[h].conn.value, h)];
        } else {
          assert Added(l.world, a.world) == [];
        }
      }
      QuietTrans(w, l.world, a.world);
    }
  }

  /** When activation succeeds the object is no longer a ghost and no
      longer stale; and it leaves a ComputedAttribute's dictionary alone. */
  lemma ActivateEffect(w: World, h: HandleId)
    requires Linked(w, h)
    ensures var r := Activate(w, h);
            && (r.raised == None ==> r.world.handles[h].status != Ghost && !Stale(r.world, h))
            && (w.handles[h].cls.kind == Computed ==> r.world.handles[h].dict == w.handles[h].dict)
  {
  }

  /** PyObject_GenericGetAttr on the instance dictionary. */
  function GenericGet(w: World, h: HandleId, name: string): (r: Fetch)
    requires h in w.handles
    ensures r.world == Emit(w, AttrRead(h, name))
    ensures r.value.Ok? <==> name in w.handles[h].dict
    ensures r.value.Ok? ==> r.value.value == w.handles[h].dict[name]
    ensures r.value.Err? ==> r.value.error == AttributeError
  {
    var w0 := Emit(w, AttrRead(h, name));
    if name in w.handles[h].dict then Fetch(w0, Ok(w.handles[h].dict[name]))
    else Fetch(w0, Err(AttributeError))
  }

  /** pb_getattro. A name that is not a string fails with TypeError before
      anything else; a triggering name first loads and notes the access,
      and a failure there fails the read without performing it. */
  function GetAttr(w: World, h: HandleId, name: Name): (r: Fetch)
    requires Linked(w, h)
    ensures Frame(w, r.world)
    ensures name.NotStr? ==> r == Fetch(w, Err(TypeError))
    ensures name.Str? && !LoadTriggering(name.s) ==>
              r.world == Emit(w, AttrRead(h, name.s))
  {
    match name
    case NotStr => Fetch(w, Err(TypeError))
    case Str(s) =>
      if LoadTriggering(s) then
        var a := Activate(w, h);
        if a.raised.Some? then Fetch(a.world, Err(a.raised.value))
        else
          FrameEmit(a.world, AttrRead(h, s));
          FrameTrans(w, a.world, Emit(a.world, AttrRead(h, s)));
          GenericGet(a.world, h, s)
      else GenericGet(w, h, s)
  }

  /** Reading a triggering name on a ghost whose record is stored and whose
      serial is stale makes, in order, the _p_load_state call, the
      connection's load_state, note_access and finally the generic read,
      which sees the loaded state. */
  lemma GhostReadOrder(w: World, h: HandleId, s: string, c: ConnId)
    requires Linked(w, h) && LoadTriggering(s)
    requires w.handles[h].cls.kind == Plain && w.handles[h].status == Ghost
    requires w.handles[h].conn == Some(c) && w.handles[h].serial != w.conns[c].serial
    requires w.handles[h].oid.Some? && w.handles[h].oid.value in w.conns[c].stored
    requires w.handles[h].oid.value !in w.conns[c].invalid
    ensures var r := GetAttr(w, h, Str(s));
            && r.world.trace == w.trace + [LoadCalled(h), StateLoaded(c, h), AccessNoted(c, h), AttrRead(h, s)]
            && r.value.Ok? == (s in (w.handles[h].dict + w.conns[c].stored[w.handles[h].oid.value]))
  {
    LoadSelfSpec(w, h, c);
  }

  /** If loading or noting the access fails, the read fails with that
      error and the generic read never happens. */
  lemma FailedActivationSkipsRead(w: World, h: HandleId, s: string)
    requires Linked(w, h) && LoadTriggering(s) && Activate(w, h).raised.Some?
    ensures var r := GetAttr(w, h, Str(s));
            && r.value == Err(Activate(w, h).raised.value)
            && Quiet(w, r.world)
  {
    ActivateQuiet(w, h);
  }

  /** On an object that is not a ghost, a triggering read calls
      note_access exactly when the object is stale, and then reads. */
  lemma LoadedReadNotes(w: World, h: HandleId, s: string)
    requires Linked(w, h) && LoadTriggering(s) && w.handles[h].status != Ghost
    ensures Stale(w, h) ==>
              GetAttr(w, h, Str(s)).world.trace[..|w.trace| + 1] == w.trace + [AccessNoted(w.handles[h].conn.value, h)]
    ensures !Stale(w, h) ==>
              GetAttr(w, h, Str(s)).world.trace == w.trace + [AttrRead(h, s)]
  {
    if Stale(w, h) {
      var c := w.handles[h].conn.value;
      var a := Activate(w, h);
      assert a.world.trace == w.trace + [AccessNoted(c, h)];
    }
  }

  /** After one successful load-and-access, every further triggering read
      of the object makes only the generic read: no load, no note_access. */
  lemma SecondReadQuiet(w: World, h: HandleId, s: string, t: Name)
    requires Linked(w, h) && LoadTriggering(s) && Activate(w, h).raised == None
    ensures var v := GetAttr(w, h, Str(s)).world;
            Linked(v, h) && (t.Str? ==> GetAttr(v, h, t).world.trace == v.trace + [AttrRead(h, t.s)])
  {
    var a := Activate(w, h);
    ActivateEffect(w, h);
    var v := GetAttr(w, h, Str(s)).world;
    assert v == Emit(a.world, AttrRead(h, s));
    assert v.handles == a.world.handles && v.conns == a.world.conns;
    if t.Str? && LoadTriggering(t.s) {
      assert Activate(v, h) == Step(v, None);
    }
  }

  /** PyObject_GenericSetAttr on the instance dictionary. */
  function GenericSet(w: World, h: HandleId, name: string, v: Value): (r: World)
    requires h in w.handles
    ensures r.trace == w.trace + [AttrWritten(h, name)]
    ensures r.handles == w.handles[h := w.handles[h].(dict := w.handles[h].dict[name := v])]
    ensures r.conns == w.conns && r.nextId == w.nextId
  {
    Put(Emit(w, AttrWritten(h, name)), h, w.handles[h].(dict := w.handles[h].dict[name := v]))
  }

  /** pb_setattro. A name that is not a string fails with TypeError; a
      triggering name on an object that is not UNSAVED calls
      _p_note_change first, and the write happens only if that succeeds. */
  function SetAttr(w: World, h: HandleId, name: Name, v: Value): (r: Step)
    requires Linked(w, h)
    ensures Frame(w, r.world)
    ensures name.NotStr? ==> r == Step(w, Some(TypeError))
    ensures name.Str? && (!LoadTriggering(name.s) || w.handles[h].status == Unsaved) ==>
              r == Step(GenericSet(w, h, name.s, v), None)
    ensures name.Str? ==>
              (ChangeCalled(h) in Added(w, r.world) <==> LoadTriggering(name.s) && w.handles[h].status != Unsaved)
    ensures name.Str? ==> (AttrWritten(h, name.s) in Added(w, r.world) <==> r.raised == None)
    ensures name.Str? && LoadTriggering(name.s) && r.raised == None ==> r.world.handles[h].status == Unsaved
  {
    match name
    case NotStr => Step(w, Some(TypeError))
    case Str(s) =>
      if LoadTriggering(s) && w.handles[h].status != Unsaved then NotedWrite(w, h, s, v)
      else
        var g := GenericSet(w, h, s, v);
        assert Added(w, g) == [AttrWritten(h, s)];
        Step(g, None)
  }

  /** pb_setattro's path through _p_note_change. */
  function NotedWrite(w: World, h: HandleId, s: string, v: Value): (r: Step)
    requires Linked(w, h) && w.handles[h].status != Unsaved
    ensures Frame(w, r.world)
    ensures ChangeCalled(h) in Added(w, r.world)
    ensures AttrWritten(h, s) in Added(w, r.world) <==> r.raised == None
    ensures r.raised == None ==> r.world.handles[h].status == Unsaved
  {
    var n := NoteChangeSelf(w, h);
    assert Added(w, n.world)[0] == ChangeCalled(h);
    if n.raised.Some? then
      assert AttrWritten(h, s) !in Added(w, n.world);
      n
    else
      var g := GenericSet(n.world, h, s, v);
      assert Added(w, g) == Added(w, n.world) + [AttrWritten(h, s)];
      FramePut(n.world, g, h);
      FrameTrans(w, n.world, g);
      Step(g, None)
  }

  /** A second consecutive write of a triggering name notifies nobody: it
      only writes. */
  lemma SecondWriteQuiet(w: World, h: HandleId, s: string, v: Value, s2: string, v2: Value)
    requires Linked(w, h) && LoadTriggering(s) && SetAttr(w, h, Str(s), v).raised == None
    ensures var u := SetAttr(w, h, Str(s), v).world;
            Linked(u, h) && SetAttr(u, h, Str(s2), v2) == Step(GenericSet(u, h, s2, v2), None)
  {
  }

  /** Persistent.__delattr__: _p_note_change first, then pb_setattro with
      no value, which by then finds the object UNSAVED and deletes from
      the instance dictionary (AttributeError when the name is missing). A
      raising note deletes nothing. */
  function DelAttr(w: World, h: HandleId, name: Name): (r: Step)
    requires Linked(w, h)
    ensures Frame(w, r.world)
    ensures |r.world.trace| > |w.trace| && r.world.trace[|w.trace|] == ChangeCalled(h)
    ensures var n := NoteChangeSelf(w, h);
            && (n.raised.Some? ==> r == n)
            && (n.raised.None? ==>
                  && (r.raised == None <==> name.Str? && name.s in n.world.handles[h].dict)
                  && r.world.handles[h].status == Unsaved
                  && (r.raised == None ==> r.world.handles[h].dict == n.world.handles[h].dict - {name.s}))
  {
    var n := NoteChangeSelf(w, h);
    if n.raised.Some? then n
    else
      var r := RawDel(n.world, h, name);
      FrameTrans(w, n.world, r.world);
      r
  }

  /** Deleting an attribute of a SAVED object tells its connection once,
      before the delete, and leaves it UNSAVED. */
  lemma DelAttrSaved(w: World, h: HandleId, s: string)
    requires Linked(w, h) && w.handles[h].status == Saved && w.handles[h].conn.Some?
    requires s in w.handles[h].dict
    ensures var r := DelAttr(w, h, Str(s));
            && r.raised == None
            && r.world.trace == w.trace + [ChangeCalled(h), ChangeNoted(w.handles[h].conn.value, h), AttrWritten(h, s)]
            && r.world.handles[h] == w.handles[h].(status := Unsaved, dict := w.handles[h].dict - {s})
  {
  }

  /** _getattribute: the generic read with no interception. */
  function RawGet(w: World, h: HandleId, name: Name): (r: Fetch)
    requires h in w.handles
    ensures name.NotStr? ==> r == Fetch(w, Err(TypeError))
    ensures name.Str? ==> r.world.handles == w.handles && r.world.conns == w.conns
    ensures r.world.trace == w.trace + (if name.Str? then [AttrRead(h, name.s)] else [])
  {
    match name
    case NotStr => Fetch(w, Err(TypeError))
    case Str(s) => GenericGet(w, h, s)
  }

  /** _setattribute: the generic write with no interception. */
  function RawSet(w: World, h: HandleId, name: Name, v: Value): (r: Step)
    requires h in w.handles
    ensures Frame(w, r.world)
    ensures name.NotStr? ==> r == Step(w, Some(TypeError))
    ensures name.Str? ==> r.raised == None && r.world.handles[h].dict == w.handles[h].dict[name.s := v]
    ensures name.Str? ==> r.world.handles[h].status == w.handles[h].status
  {
    match name
    case NotStr => Step(w, Some(TypeError))
    case Str(s) => Step(GenericSet(w, h, s, v), None)
  }

  /** _delattribute: the generic delete with no interception; a missing
      attribute raises AttributeError. */
  function RawDel(w: World, h: HandleId, name: Name): (r: Step)
    requires h in w.handles
    ensures Frame(w, r.world)
    ensures r.raised == None <==> name.Str? && name.s in w.handles[h].dict
    ensures r.raised == None ==> r.world.handles[h].dict == w.handles[h].dict - {name.s}
    ensures r.raised != None ==> r.world.handles == w.handles
  {
    match name
    case NotStr => Step(w, Some(TypeError))
    case Str(s) =>
      var w0 := Emit(w, AttrWritten(h, s));
      if s in w.handles[h].dict then
        Step(Put(w0, h, w.handles[h].(dict := w.handles[h].dict - {s})), None)
      else Step(w0, Some(AttributeError))
  }

  /** _hasattribute: whether the generic read would succeed; it yields a
      bool and never raises, whatever the name. */
  function RawHas(w: World, h: HandleId, name: Name): (r: bool)
    requires h in w.handles
    ensures r <==> RawGet(w, h, name).value.Ok?
  {
    name.Str? && name.s in w.handles[h].dict
  }

  /** An argument to call_if_persistent: a PersistentBase instance or any
      other object. */
  datatype Arg = Persistent(h: HandleId) | Other(v: Value)

  /** call_if_persistent(f, x): f(x) when x is a PersistentBase, None
      otherwise. */
  function CallIfPersistent<T>(f: HandleId -> T, x: Arg): (r: Option<T>)
    ensures r.Some? <==> x.Persistent?
    ensures x.Persistent? ==> r.value == f(x.h)
  {
    match x
    case Persistent(h) => Some(f(h))
    case Other(_) => None
  }
}

=== FILE: shelf.dfy ===
/** Shelf of shelf.py: a file of transactions holding name/value records,
    the OffsetMap giving the position of each name written before the
    shelf was opened, an in-memory index of the positions written since,
    and the generator that hands out names nobody uses.

    The file is its bytes; writing appends at the end. A record is an int8
    length followed by the 8-byte name and the value; a transaction is an
    int8 length followed by its records. */
module Shelves {
  import opened Wrappers
  import Codec
  import OffsetMaps

  /** The state of next_name's generator: the holes gen_holes yielded, how
      many of them have been tried, the array size where the names beyond
      the map begin, and the next number to try beyond it. */
  datatype Names = Names(holes: seq<int>, i: nat, base: nat, j: nat)

  /** The file's bytes, the offset map (already stitched when the shelf
      was opened), the memory index, and the name generator once
      next_name has created it. */
  datatype Shelf = Shelf(file: Bytes, offsets: OffsetMaps.OffsetMap, memory: map<Bytes, nat>, gen: Option<Names>)

  /** One entry of store's result: the name, where its previous value was,
      and where the new one is. */
  datatype Triple = Triple(name: Bytes, prior: Option<nat>, pos: nat)

  /** get_position(name): ValueError unless the name has 8 bytes; then the
      memory index, and failing that the offset map, whose values at or
      above its start are links, not positions. */
  function GetPosition(s: Shelf, name: Bytes): (r: Result<Option<nat>>)
    ensures r.Ok? <==> |name| == 8
    ensures r.Err? ==> r.error == ValueError
    ensures r.Ok? && name in s.memory ==> r.value == Some(s.memory[name])
    ensures r.Ok? && name !in s.memory && r.value.Some? ==>
              r.value.value < s.offsets.start && OffsetMaps.RawGet(s.offsets, Codec.BigEndian(name)) == r.value
  {
    if |name| != 8 then Err(ValueError)
    else if name in s.memory then Ok(Some(s.memory[name]))
    else Ok(OffsetMaps.Get(s.offsets, Codec.BigEndian(name)))
  }

  /** get_item_at_position(p): read_int8_str at p, an int8 length and that
      many bytes, ShortRead if the file ends first; the record splits into
      its first 8 bytes and the rest. */
  function ItemAt(file: Bytes, p: nat): (r: Result<(Bytes, Bytes)>)
    ensures r.Err? ==> r.error == ShortRead
    ensures r.Ok? ==> |r.value.0| <= 8 && p + 8 + |r.value.0| + |r.value.1| <= |file|
  {
    if p + 8 > |file| then Err(ShortRead)
    else
      var n := Codec.BigEndian(file[p..p + 8]);
      if p + 8 + n > |file| then Err(ShortRead)
      else
        var record := file[p + 8..p + 8 + n];
        Ok((Codec.Slice(record, 0, 8), Codec.Slice(record, 8, |record|)))
  }

  /** get_value(name): None for a name without a position; otherwise the
      value of the record there, whose name must be this one. */
  function GetValue(s: Shelf, name: Bytes): (r: Result<Option<Bytes>>)
    ensures r.Ok? ==> |name| == 8
    ensures r.Ok? && r.value.Some? ==> GetPosition(s, name).value.Some?
  {
    var p :- GetPosition(s, name);
    if p.None? then Ok(None)
    else
      var item :- ItemAt(s.file, p.value);
      if item.0 != name then Err(AssertionError) else Ok(Some(item.1))
  }

  /** The int8 zero store writes where the transaction's length goes. */
  const Placeholder: Bytes := [0, 0, 0, 0, 0, 0, 0, 0]

  /** The bytes write_int8(n) writes, n being known to fit. */
  function Header(n: nat): (h: Bytes)
    requires n < Codec.INT8_LIMIT
    ensures |h| == 8 && Codec.BigEndian(h) == n
  {
    Codec.Int8ToStr(n).value
  }

  /** get_position on a shelf, as a function of the name. */
  function PositionOf(s: Shelf): Bytes -> Result<Option<nat>>
  {
    name => GetPosition(s, name)
  }

  /** A lookup that, like get_position, fails exactly on names that are
      not 8 bytes long. */
  ghost predicate NameChecked(pos: Bytes -> Result<Option<nat>>)
  {
    forall name :: pos(name).Ok? <==> |name| == 8
  }

  /** get_position is such a lookup. */
  lemma PositionChecked(s: Shelf)
    ensures NameChecked(PositionOf(s))
  {
  }

  /** The loop of store, the records being written from `at` on: each item
      looks up its old position with `pos` (get_position on the shelf as it
      was, not on the records of this loop), then writes its length, name
      and value. The triples and the bytes written, or the first error. */
  function StoreLoop(pos: Bytes -> Result<Option<nat>>, items: seq<(Bytes, Bytes)>, at: nat): (r: Result<(seq<Triple>, Bytes)>)
    ensures r.Ok? ==> |r.value.0| == |items|
    decreases |items|
  {
    if items == [] then Ok(([], []))
    else
      var name, value := items[0].0, items[0].1;
      match pos(name)
      case Err(e) => Err(e)
      case Ok(prior) =>
        match Codec.Int8ToStr(|name| + |value|)
        case Err(e) => Err(e)
        case Ok(head) =>
          var piece := head + name + value;
          match StoreLoop(pos, items[1..], at + |piece|)
          case Err(e) => Err(e)
          case Ok(rest) => Ok(([Triple(name, prior, at)] + rest.0, piece + rest.1))
  }

  /** The positions a transaction's triples record, a later triple for the
      same name winning. */
  function IndexOf(ts: seq<Triple>): map<Bytes, nat>
  {
    if ts == [] then map[] else map[ts[0].name := ts[0].pos] + IndexOf(ts[1..])
  }

  /** store(items): an int8 placeholder at the end of the file, the
      records, then the transaction's length over the placeholder, and the
      memory index takes the new positions. An error in the loop truncates
      the file back to where the transaction began; an error writing the
      length, after the loop, leaves the file as it is. */
  function Store(s: Shelf, items: seq<(Bytes, Bytes)>): (r: (Result<seq<Triple>>, Shelf))
    ensures r.1.offsets == s.offsets && r.1.gen == s.gen
  {
    var start := |s.file|;
    match StoreLoop(PositionOf(s), items, start + 8)
    case Err(e) => (Err(e), s)
    case Ok((ts, chunk)) =>
      match Codec.Int8ToStr(|chunk|)
      case Err(e) => (Err(e), s.(file := s.file + Placeholder + chunk))
      case Ok(len) => (Ok(ts), s.(file := s.file + len + chunk, memory := s.memory + IndexOf(ts)))
  }

  /** The value last given for `name` in `items`, if any. */
  function Latest(items: seq<(Bytes, Bytes)>, name: Bytes): Option<Bytes>
    decreases |items|
  {
    if items == [] then None
    else
      var later := Latest(items[1..], name);
      if later.Some? then later
      else if items[0].0 == name then Some(items[0].1)
      else None
  }

  /** A record written at the position `|pre|` reads back as its name and
      value, whatever follows it. */
  lemma ReadPiece(pre: Bytes, h: Bytes, name: Bytes, value: Bytes, post: Bytes)
    requires |h| == 8 && Codec.BigEndian(h) == 8 + |value| && |name| == 8
    ensures ItemAt(pre + (h + name + value) + post, |pre|) == Ok((name, value))
  {
    var record := name + value;
    assert h + name + value == h + record;
    PieceSlices(pre, h, record, post);
    assert record[0..8] == name && record[8..|record|] == value;
  }

  /** The length word and the body of a record written at `|pre|`. */
  lemma PieceSlices(pre: Bytes, h: Bytes, body: Bytes, post: Bytes)
    requires |h| == 8
    ensures (pre + (h + body) + post)[|pre|..|pre| + 8] == h
    ensures (pre + (h + body) + post)[|pre| + 8..|pre| + 8 + |body|] == body
  {
    var f := pre + (h + body) + post;
    assert f[|pre|..] == h + body + post;
    assert (h + body + post)[..8] == h;
    assert (h + body + post)[8..8 + |body|] == body;
  }

  /** The records the loop writes, placed at `|pre|` in any file: the
      triples index exactly the names the items give, and each such name
      reads back the latest value given for it. */
  lemma LoopLayout(pos: Bytes -> Result<Option<nat>>, items: seq<(Bytes, Bytes)>, pre: Bytes, post: Bytes, at: nat,
                   ts: seq<Triple>, chunk: Bytes, f: Bytes, name: Bytes)
    requires NameChecked(pos)
    requires at == |pre| && StoreLoop(pos, items, at) == Ok((ts, chunk)) && f == pre + chunk + post
    ensures name in IndexOf(ts) <==> Latest(items, name).Some?
    ensures name in IndexOf(ts) ==> |name| == 8 && ItemAt(f, IndexOf(ts)[name]) == Ok((name, Latest(items, name).value))
  {
    LoopRecords(pos, items, at, ts, chunk);
    assert Records(items, at) == (chunk, IndexOf(ts));
    RecordsLayout(items, pre, post, at, chunk, IndexOf(ts), f, name);
  }

  /** The layout of `items` placed at `|pre|` in any file: its index holds
      exactly the names the items give, and each reads back the latest
      value given for it. */
  lemma {:induction false} RecordsLayout(items: seq<(Bytes, Bytes)>, pre: Bytes, post: Bytes, at: nat,
                                         chunk: Bytes, index: map<Bytes, nat>, f: Bytes, name: Bytes)
    requires Writable(items) && at == |pre| && f == pre + chunk + post
    requires Records(items, at) == (chunk, index)
    ensures name in index <==> Latest(items, name).Some?
    ensures name in index ==> |name| == 8 && ItemAt(f, index[name]) == Ok((name, Latest(items, name).value))
    decreases |items|
  {
    if items != [] {
      var h, rchunk, rindex := RecordsFirst(items, at, chunk, index);
      var piece := h + items[0].0 + items[0].1;
      Regroup(pre, piece, rchunk, post, chunk, f);
      RecordsLayout(items[1..], pre + piece, post, at + 16 + |items[0].1|, rchunk, rindex, f, name);
      LayoutStep(items, pre, post, at, chunk, index, f, name, h, rchunk, rindex);
    }
  }

  /** One step of the layout: if the records of the rest, placed after the
      first record, read back as the rest of the items give them, the
      records of all the items read back as they give them. */
  lemma LayoutStep(items: seq<(Bytes, Bytes)>, pre: Bytes, post: Bytes, at: nat, chunk: Bytes, index: map<Bytes, nat>,
                   f: Bytes, name: Bytes, h: Bytes, rchunk: Bytes, rindex: map<Bytes, nat>)
    requires items != [] && |items[0].0| == 8 && |h| == 8 && Codec.BigEndian(h) == 8 + |items[0].1|
    requires at == |pre| && chunk == (h + items[0].0 + items[0].1) + rchunk
    requires f == pre + (h + items[0].0 + items[0].1) + (rchunk + post)
    requires index == map[items[0].0 := at] + rindex
    requires name in rindex <==> Latest(items[1..], name).Some?
    requires name in rindex ==> |name| == 8 && ItemAt(f, rindex[name]) == Ok((name, Latest(items[1..], name).value))
    ensures name in index <==> Latest(items, name).Some?
    ensures name in index ==> |name| == 8 && ItemAt(f, index[name]) == Ok((name, Latest(items, name).value))
  {
    if name !in rindex && name == items[0].0 {
      ReadPiece(pre, h, items[0].0, items[0].1, rchunk + post);
    }
  }

  /** The first step of the loop: its record, then the rest of the loop. */
  lemma LoopFirst(pos: Bytes -> Result<Option<nat>>, items: seq<(Bytes, Bytes)>, at: nat, ts: seq<Triple>, chunk: Bytes)
      returns (piece: Bytes, rts: seq<Triple>, rchunk: Bytes)
    requires NameChecked(pos)
    requires StoreLoop(pos, items, at) == Ok((ts, chunk)) && items != []
    ensures |items[0].0| == 8 && 8 + |items[0].1| < Codec.INT8_LIMIT
    ensures piece == Header(8 + |items[0].1|) + items[0].0 + items[0].1
    ensures StoreLoop(pos, items[1..], at + |piece|) == Ok((rts, rchunk))
    ensures chunk == piece + rchunk && IndexOf(ts) == map[items[0].0 := at] + IndexOf(rts)
  {
    var head;
    head, piece, rts, rchunk := LoopHead(pos, items, at, ts, chunk);
    FirstRecord(pos, items, at, ts, chunk, head, rts, rchunk);
  }

  /** The first turn's record is the layout's: an 8-byte name, and the
      length word of the name and value. */
  lemma FirstRecord(pos: Bytes -> Result<Option<nat>>, items: seq<(Bytes, Bytes)>, at: nat, ts: seq<Triple>, chunk: Bytes,
                    head: Bytes, rts: seq<Triple>, rchunk: Bytes)
    requires NameChecked(pos) && items != []
    requires pos(items[0].0).Ok? && Codec.Int8ToStr(|items[0].0| + |items[0].1|) == Ok(head)
    requires ts == [Triple(items[0].0, pos(items[0].0).value, at)] + rts
    ensures |items[0].0| == 8 && 8 + |items[0].1| < Codec.INT8_LIMIT
    ensures head == Header(8 + |items[0].1|)
    ensures IndexOf(ts) == map[items[0].0 := at] + IndexOf(rts)
  {
    assert ts[0].name == items[0].0 && ts[0].pos == at && ts[1..] == rts;
  }

  /** One turn of the loop, read off its definition: the lookup and the
      length word succeed, and the rest of the loop follows the record. */
  lemma LoopHead(pos: Bytes -> Result<Option<nat>>, items: seq<(Bytes, Bytes)>, at: nat, ts: seq<Triple>, chunk: Bytes)
      returns (head: Bytes, piece: Bytes, rts: seq<Triple>, rchunk: Bytes)
    requires StoreLoop(pos, items, at) == Ok((ts, chunk)) && items != []
    ensures pos(items[0].0).Ok? && Codec.Int8ToStr(|items[0].0| + |items[0].1|) == Ok(head)
    ensures piece == head + items[0].0 + items[0].1
    ensures StoreLoop(pos, items[1..], at + |piece|) == Ok((rts, rchunk))
    ensures ts == [Triple(items[0].0, pos(items[0].0).value, at)] + rts
    ensures chunk == piece + rchunk
  {
    head := Codec.Int8ToStr(|items[0].0| + |items[0].1|).value;
    piece := head + items[0].0 + items[0].1;
    var r := StoreLoop(pos, items[1..], at + |piece|).value;
    rts, rchunk := r.0, r.1;
  }

  /** Every item has an 8-byte name and a record length that fits an int8. */
  predicate Writable(items: seq<(Bytes, Bytes)>)
    decreases |items|
  {
    items == [] || (|items[0].0| == 8 && 8 + |items[0].1| < Codec.INT8_LIMIT && Writable(items[1..]))
  }

  /** The records of `items` written from `at` on, and the position of
      each name's last record: the layout, apart from any shelf. */
  function Records(items: seq<(Bytes, Bytes)>, at: nat): (r: (Bytes, map<Bytes, nat>))
    requires Writable(items)
    decreases |items|
  {
    if items == [] then ([], map[])
    else
      var (name, value) := items[0];
      var piece := Header(8 + |value|) + name + value;
      var rest := Records(items[1..], at + |piece|);
      (piece + rest.0, map[name := at] + rest.1)
  }

  /** The first record of a layout and the layout of the rest. */
  lemma RecordsFirst(items: seq<(Bytes, Bytes)>, at: nat, chunk: Bytes, index: map<Bytes, nat>)
    returns (h: Bytes, rchunk: Bytes, rindex: map<Bytes, nat>)
    requires Writable(items) && items != [] && Records(items, at) == (chunk, index)
    ensures |h| == 8 && |items[0].0| == 8 && Codec.BigEndian(h) == 8 + |items[0].1|
    ensures Writable(items[1..])
    ensures Records(items[1..], at + 16 + |items[0].1|) == (rchunk, rindex)
    ensures chunk == (h + items[0].0 + items[0].1) + rchunk
    ensures index == map[items[0].0 := at] + rindex
  {
    h := Header(8 + |items[0].1|);
    var rest := Records(items[1..], at + 16 + |items[0].1|);
    rchunk, rindex := rest.0, rest.1;
  }

  /** What the loop writes and indexes is that layout. */
  lemma {:induction false} LoopRecords(pos: Bytes -> Result<Option<nat>>, items: seq<(Bytes, Bytes)>, at: nat,
                                       ts: seq<Triple>, chunk: Bytes)
    requires NameChecked(pos)
    requires StoreLoop(pos, items, at) == Ok((ts, chunk))
    ensures Writable(items) && chunk == Records(items, at).0 && IndexOf(ts) == Records(items, at).1
    decreases |items|
  {
    if items != [] {
      var piece, rts, rchunk := LoopRecordsFirst(pos, items, at, ts, chunk);
      LoopRecords(pos, items[1..], at + |piece|, rts, rchunk);
    }
  }

  /** The loop's first step lays out its record: if the rest of the loop
      writes and indexes the layout of the rest, the whole loop writes and
      indexes the layout of all the items. */
  lemma LoopRecordsFirst(pos: Bytes -> Result<Option<nat>>, items: seq<(Bytes, Bytes)>, at: nat, ts: seq<Triple>, chunk: Bytes)
      returns (piece: Bytes, rts: seq<Triple>, rchunk: Bytes)
    requires NameChecked(pos)
    requires StoreLoop(pos, items, at) == Ok((ts, chunk)) && items != []
    ensures StoreLoop(pos, items[1..], at + |piece|) == Ok((rts, rchunk))
    ensures (Writable(items[1..]) && rchunk == Records(items[1..], at + |piece|).0
             && IndexOf(rts) == Records(items[1..], at + |piece|).1)
            ==>
            (Writable(items) && chunk == Records(items, at).0 && IndexOf(ts) == Records(items, at).1)
  {
    piece, rts, rchunk := LoopFirst(pos, items, at, ts, chunk);
    if Writable(items[1..]) && rchunk == Records(items[1..], at + |piece|).0 && IndexOf(rts) == Records(items[1..], at + |piece|).1 {
      RecordsStep(items, at, piece, rts, rchunk, ts, chunk);
    }
  }

  /** One step of the layout: the loop's first record and index entry
      before the layout of the rest are the layout of all the items. */
  lemma RecordsStep(items: seq<(Bytes, Bytes)>, at: nat, piece: Bytes, rts: seq<Triple>, rchunk: Bytes,
                    ts: seq<Triple>, chunk: Bytes)
    requires items != [] && |items[0].0| == 8 && 8 + |items[0].1| < Codec.INT8_LIMIT && Writable(items[1..])
    requires piece == Header(8 + |items[0].1|) + items[0].0 + items[0].1
    requires rchunk == Records(items[1..], at + |piece|).0 && IndexOf(rts) == Records(items[1..], at + |piece|).1
    requires chunk == piece + rchunk && IndexOf(ts) == map[items[0].0 := at] + IndexOf(rts)
    ensures Writable(items) && chunk == Records(items, at).0 && IndexOf(ts) == Records(items, at).1
  {
  }

  /** Concatenation regrouped the ways the layout needs. */
  lemma Regroup(pre: Bytes, piece: Bytes, rest: Bytes, post: Bytes, chunk: Bytes, f: Bytes)
    requires chunk == piece + rest && f == pre + chunk + post
    ensures f == (pre + piece) + rest + post == pre + piece + (rest + post)
    ensures |pre + piece| == |pre| + |piece|
  {
  }

  /** The parts of a store that succeeds: the loop's triples and bytes,
      and the transaction's length. */
  lemma StoreParts(s: Shelf, items: seq<(Bytes, Bytes)>) returns (ts: seq<Triple>, chunk: Bytes, len: Bytes)
    requires Store(s, items).0.Ok?
    ensures StoreLoop(PositionOf(s), items, |s.file| + 8) == Ok((ts, chunk)) && Codec.Int8ToStr(|chunk|) == Ok(len)
    ensures Store(s, items).0 == Ok(ts)
    ensures Store(s, items).1 == s.(file := s.file + len + chunk, memory := s.memory + IndexOf(ts))
  {
    var r := StoreLoop(PositionOf(s), items, |s.file| + 8).value;
    ts, chunk := r.0, r.1;
    len := Codec.Int8ToStr(|chunk|).value;
  }

  /** The round trip of store and get_value: after a store that succeeds,
      each name written reads back its latest value. */
  lemma StoreGetValue(s: Shelf, items: seq<(Bytes, Bytes)>, name: Bytes)
    requires Store(s, items).0.Ok? && Latest(items, name).Some?
    ensures GetValue(Store(s, items).1, name) == Ok(Some(Latest(items, name).value))
  {
    var ts, chunk, len := StoreParts(s, items);
    var s' := Store(s, items).1;
    assert s'.file == (s.file + len) + chunk + [];
    PositionChecked(s);
    LoopLayout(PositionOf(s), items, s.file + len, [], |s.file| + 8, ts, chunk, s'.file, name);
    var p := IndexOf(ts)[name];
    assert GetPosition(s', name) == Ok(Some(p));
  }

  /** And every other name that could be read before reads the same. */
  lemma StoreKeepsValue(s: Shelf, items: seq<(Bytes, Bytes)>, name: Bytes)
    requires Store(s, items).0.Ok? && Latest(items, name).None? && GetValue(s, name).Ok?
    ensures GetValue(Store(s, items).1, name) == GetValue(s, name)
  {
    var ts, chunk, len := StoreParts(s, items);
    var s' := Store(s, items).1;
    assert s'.file == s.file + (len + chunk);
    PositionChecked(s);
    NotIndexed(PositionOf(s), items, s.file + len, [], ts, chunk, name);
    var p := GetPosition(s, name).value;
    assert GetPosition(s', name) == Ok(p);
    if p.Some? {
      ItemAtExtend(s.file, len + chunk, p.value);
    }
  }

  /** A name no item gives is not indexed. */
  lemma NotIndexed(pos: Bytes -> Result<Option<nat>>, items: seq<(Bytes, Bytes)>, pre: Bytes, post: Bytes, ts: seq<Triple>, chunk: Bytes, name: Bytes)
    requires NameChecked(pos)
    requires StoreLoop(pos, items, |pre|) == Ok((ts, chunk)) && Latest(items, name).None?
    ensures name !in IndexOf(ts)
  {
    LoopLayout(pos, items, pre, post, |pre|, ts, chunk, pre + chunk + post, name);
  }

  /** A record that could be read is read the same once the file grows. */
  lemma ItemAtExtend(file: Bytes, more: Bytes, p: nat)
    requires ItemAt(file, p).Ok?
    ensures ItemAt(file + more, p) == ItemAt(file, p)
  {
    var f := file + more;
    assert f[p..p + 8] == file[p..p + 8];
    var n := Codec.BigEndian(file[p..p + 8]);
    assert f[p + 8..p + 8 + n] == file[p + 8..p + 8 + n];
  }

  /** Triple k names item k, with the position get_position gave before
      the store; the first record comes at `at`. */
  lemma {:induction false} LoopTriples(pos: Bytes -> Result<Option<nat>>, items: seq<(Bytes, Bytes)>, at: nat, k: nat)
    requires NameChecked(pos)
    requires StoreLoop(pos, items, at).Ok? && k < |items|
    ensures var ts := StoreLoop(pos, items, at).value.0;
            ts[k].name == items[k].0 && Ok(ts[k].prior) == pos(items[k].0) && ts[0].pos == at
    decreases k
  {
    if k > 0 {
      var (name, value) := items[0];
      var at' := at + 16 + |value|;
      LoopTriples(pos, items[1..], at', k - 1);
      assert items[1..][k - 1] == items[k];
    }
  }

  /** Some value is the latest for a name exactly when an item gives it. */
  lemma {:induction false} LatestSome(items: seq<(Bytes, Bytes)>, name: Bytes)
    ensures Latest(items, name).Some? <==> exists k :: 0 <= k < |items| && items[k].0 == name
    decreases |items|
  {
    if items != [] {
      LatestSome(items[1..], name);
      if Latest(items[1..], name).Some? {
        var k :| 0 <= k < |items[1..]| && items[1..][k].0 == name;
        assert items[k + 1].0 == name;
      } else {
        forall k | 1 <= k < |items|
          ensures items[k].0 != name
        {
          assert items[k] == items[1..][k - 1];
        }
      }
    }
  }

  /** The loop gets through every item exactly when each name has 8 bytes
      and each record's length fits an int8. */
  lemma {:induction false} LoopOk(pos: Bytes -> Result<Option<nat>>, items: seq<(Bytes, Bytes)>, at: nat)
    requires NameChecked(pos)
    ensures StoreLoop(pos, items, at).Ok? <==>
              forall k :: 0 <= k < |items| ==> |items[k].0| == 8 && 8 + |items[k].1| < Codec.INT8_LIMIT
    decreases |items|
  {
    if items != [] {
      var (name, value) := items[0];
      LoopOk(pos, items[1..], at + |name| + 8 + |value|);
      assert forall k :: 1 <= k < |items| ==> items[k] == items[1..][k - 1];
    }
  }

  /** The triples name each item, with its old position and, in order,
      positions that start right after the transaction's length. */
  lemma StoreTriples(s: Shelf, items: seq<(Bytes, Bytes)>)
    requires Store(s, items).0.Ok?
    ensures var ts := Store(s, items).0.value;
            && |ts| == |items|
            && (forall k :: 0 <= k < |items| ==> ts[k].name == items[k].0 && Ok(ts[k].prior) == GetPosition(s, items[k].0))
            && (|items| > 0 ==> ts[0].pos == |s.file| + 8)
  {
    forall k | 0 <= k < |items|
      ensures var ts := Store(s, items).0.value;
              ts[k].name == items[k].0 && Ok(ts[k].prior) == GetPosition(s, items[k].0) && ts[0].pos == |s.file| + 8
    {
      PositionChecked(s);
      LoopTriples(PositionOf(s), items, |s.file| + 8, k);
    }
  }

  /** A failed store leaves the memory index alone. Only the error writing
      the transaction's length, struct.error, escapes after the records are
      in the file; any other failure, such as a name of the wrong length,
      leaves the whole shelf as it was. */
  lemma StoreFailure(s: Shelf, items: seq<(Bytes, Bytes)>)
    requires Store(s, items).0.Err?
    ensures Store(s, items).1.memory == s.memory
    ensures Store(s, items).1 == s || (Store(s, items).0.error == StructError && |s.file| < |Store(s, items).1.file|
                                       && Store(s, items).1.file[..|s.file|] == s.file)
  {
  }

  /** In particular, an item whose name is not 8 bytes long makes store
      fail and leave the shelf unchanged. */
  lemma StoreBadName(s: Shelf, items: seq<(Bytes, Bytes)>, k: nat)
    requires k < |items| && |items[k].0| != 8
    ensures Store(s, items).0.Err? && Store(s, items).1 == s
  {
    PositionChecked(s);
    LoopOk(PositionOf(s), items, |s.file| + 8);
  }

  // next_name

  /** The generator's loops: the holes from `i` on, then the numbers from
      `j` on, each as int8_to_str, skipping names in the memory index. The
      name found and the state after it; int8_to_str of a negative hole or
      of a number past 2**64 - 1 raises struct.error. */
  function Pick(g: Names, memory: map<Bytes, nat>): (r: Result<(Bytes, Names)>)
    ensures r.Ok? ==> r.value.1.holes == g.holes && r.value.1.base == g.base && r.value.0 !in memory
    decreases if g.i < |g.holes| then |g.holes| - g.i else 0, Codec.INT8_LIMIT - g.j
  {
    if g.i < |g.holes| then
      var name :- Codec.Int8ToStr(g.holes[g.i]);
      if name in memory then Pick(g.(i := g.i + 1), memory) else Ok((name, g.(i := g.i + 1)))
    else
      var name :- Codec.Int8ToStr(g.j);
      if name in memory then Pick(g.(j := g.j + 1), memory) else Ok((name, g.(j := g.j + 1)))
  }

  /** next_name(): the generator is made on the first call, from the holes
      gen_holes yields and the array size; each call takes its next name.
      On an error the shelf is left as it was. */
  function NextName(s: Shelf): (r: (Result<Bytes>, Shelf))
    ensures r.1.file == s.file && r.1.offsets == s.offsets && r.1.memory == s.memory
  {
    var g := if s.gen.Some? then Ok(s.gen.value)
             else match OffsetMaps.GenHoles(s.offsets)
                  case Ok(holes) => Ok(Names(holes, 0, OffsetMaps.Size(s.offsets), OffsetMaps.Size(s.offsets)))
                  case Err(e) => Err(e);
    match g
    case Err(e) => (Err(e), s)
    case Ok(g) =>
      match Pick(g, s.memory)
      case Err(e) => (Err(e), s)
      case Ok((name, g')) => (Ok(name), s.(gen := Some(g')))
  }

  /** The numbers of the names the generator has gone past: the holes
      before `i` and the numbers from `base` up to `j`. */
  ghost function Taken(g: Names): set<int>
  {
    (set t | 0 <= t < g.i && t < |g.holes| :: g.holes[t]) + Between(g.base, g.j)
  }

  /** The numbers from `a` up to `b`. */
  ghost function Between(a: int, b: int): (r: set<int>)
    ensures forall x :: x in r <==> a <= x < b
    decreases b - a
  {
    if b <= a then {} else Between(a, b - 1) + {b - 1}
  }

  /** The generator's invariant: distinct holes below the array size,
      numbers beyond it from the size on. */
  ghost predicate Inv(g: Names)
  {
    && g.i <= |g.holes| && g.base <= g.j
    && (forall t :: 0 <= t < |g.holes| ==> 0 <= g.holes[t] < g.base)
    && (forall a, b :: 0 <= a < b < |g.holes| ==> g.holes[a] != g.holes[b])
  }

  /** The holes gen_holes yields from a map, when it yields them, are
      distinct slots of the array. */
  ghost predicate HolesFit(m: OffsetMaps.OffsetMap)
  {
    var r := OffsetMaps.GenHoles(m);
    r.Ok? ==> (forall t :: 0 <= t < |r.value| ==> 0 <= r.value[t] < OffsetMaps.Size(m))
              && (forall a, b :: 0 <= a < b < |r.value| ==> r.value[a] != r.value[b])
  }

  /** They do on a map gen_stitch has linked, as every shelf's is. */
  lemma StitchedHolesFit(m0: OffsetMaps.OffsetMap)
    requires OffsetMaps.Valid(m0)
    requires m0.start + OffsetMaps.Size(m0) - 1 < Codec.Pow256(m0.width)
    requires OffsetMaps.Size(m0) > 0 ==> OffsetMaps.IsHole(m0, OffsetMaps.Size(m0) - 1)
    ensures OffsetMaps.GenStitch(m0).Ok? && HolesFit(OffsetMaps.GenStitch(m0).value)
  {
    OffsetMaps.GenHolesSpec(m0);
    var m := OffsetMaps.GenStitch(m0).value;
    var s := OffsetMaps.GenHoles(m).value;
    forall t | 0 <= t < |s|
      ensures 0 <= s[t] < OffsetMaps.Size(m)
    {
      assert s[t] in s;
    }
  }

  /** Taking hole `i` adds it, and it was not taken before. */
  lemma TakeHole(g: Names)
    requires Inv(g) && g.i < |g.holes|
    ensures g.holes[g.i] !in Taken(g) && Taken(g.(i := g.i + 1)) == Taken(g) + {g.holes[g.i]}
  {
    var g' := g.(i := g.i + 1);
    var x := g.holes[g.i];
    forall y | y in Taken(g')
      ensures y in Taken(g) + {x}
    {
      if y !in Between(g.base, g.j) {
        var t :| 0 <= t < g'.i && t < |g.holes| && g.holes[t] == y;
        if t < g.i {
          assert y in (set t | 0 <= t < g.i && t < |g.holes| :: g.holes[t]);
        }
      }
    }
    forall y | y in Taken(g) + {x}
      ensures y in Taken(g')
    {
      if y == x {
        assert y in (set t | 0 <= t < g'.i && t < |g.holes| :: g.holes[t]);
      } else if y !in Between(g.base, g.j) {
        var t :| 0 <= t < g.i && t < |g.holes| && g.holes[t] == y;
        assert y in (set t | 0 <= t < g'.i && t < |g.holes| :: g.holes[t]);
      }
    }
  }

  /** Taking number `j` adds it, and it was not taken before. */
  lemma TakeNumber(g: Names)
    requires Inv(g)
    ensures g.j !in Taken(g) && Taken(g.(j := g.j + 1)) == Taken(g) + {g.j}
  {
    var g' := g.(j := g.j + 1);
    forall y | y in Taken(g')
      ensures y in Taken(g) + {g.j}
    {
      if y !in (set t | 0 <= t < g.i && t < |g.holes| :: g.holes[t]) && y != g.j {
        assert y in Between(g.base, g.j);
      }
    }
    forall y | y in Taken(g) + {g.j}
      ensures y in Taken(g')
    {
      if y !in (set t | 0 <= t < g.i && t < |g.holes| :: g.holes[t]) {
        assert y in Between(g'.base, g'.j);
      }
    }
  }

  /** The loops find a name outside the memory index whose number had not
      been taken and now is; nothing taken is given back. */
  lemma {:induction false} PickSpec(g: Names, memory: map<Bytes, nat>)
    requires Inv(g)
    ensures var r := Pick(g, memory);
            r.Ok? ==> && |r.value.0| == 8 && Inv(r.value.1)
                      && Codec.BigEndian(r.value.0) !in Taken(g) && Codec.BigEndian(r.value.0) in Taken(r.value.1)
                      && Taken(g) <= Taken(r.value.1)
    decreases if g.i < |g.holes| then |g.holes| - g.i else 0, Codec.INT8_LIMIT - g.j
  {
    if g.i < |g.holes| {
      if Codec.Int8ToStr(g.holes[g.i]).Ok? && Codec.Int8ToStr(g.holes[g.i]).value in memory {
        PickSpec(g.(i := g.i + 1), memory);
      }
      PickHoleStep(g, memory);
    } else {
      if Codec.Int8ToStr(g.j).Ok? && Codec.Int8ToStr(g.j).value in memory {
        PickSpec(g.(j := g.j + 1), memory);
      }
      PickNumberStep(g, memory);
    }
  }

  /** What PickSpec states of the loops' result `r` from `g`. */
  ghost predicate Picked(g: Names, r: Result<(Bytes, Names)>)
  {
    r.Ok? ==> && |r.value.0| == 8 && Inv(r.value.1)
              && Codec.BigEndian(r.value.0) !in Taken(g) && Codec.BigEndian(r.value.0) in Taken(r.value.1)
              && Taken(g) <= Taken(r.value.1)
  }

  /** A turn of the holes loop: the hole's name, or the loops from the next
      hole on. */
  lemma PickHoleStep(g: Names, memory: map<Bytes, nat>)
    requires Inv(g) && g.i < |g.holes|
    requires Codec.Int8ToStr(g.holes[g.i]).Ok? && Codec.Int8ToStr(g.holes[g.i]).value in memory ==>
               Picked(g.(i := g.i + 1), Pick(g.(i := g.i + 1), memory))
    ensures Picked(g, Pick(g, memory))
  {
    if Pick(g, memory).Ok? {
      var r := Pick(g, memory).value;
      var g', x := g.(i := g.i + 1), g.holes[g.i];
      TakeHole(g);
      var name := Codec.Int8ToStr(x).value;
      if name in memory {
        assert Pick(g', memory) == Pick(g, memory);
        PickChain(g, g', x, Codec.BigEndian(r.0), r.1);
      } else {
        assert r == (name, g');
      }
    }
  }

  /** A turn of the numbers loop: the number's name, or the loop from the
      next number on. */
  lemma PickNumberStep(g: Names, memory: map<Bytes, nat>)
    requires Inv(g) && g.i >= |g.holes|
    requires Codec.Int8ToStr(g.j).Ok? && Codec.Int8ToStr(g.j).value in memory ==>
               Picked(g.(j := g.j + 1), Pick(g.(j := g.j + 1), memory))
    ensures Picked(g, Pick(g, memory))
  {
    if Pick(g, memory).Ok? {
      var r := Pick(g, memory).value;
      var g', x := g.(j := g.j + 1), g.j;
      TakeNumber(g);
      var name := Codec.Int8ToStr(x).value;
      if name in memory {
        assert Pick(g', memory) == Pick(g, memory);
        PickChain(g, g', x, Codec.BigEndian(r.0), r.1);
      } else {
        assert r == (name, g');
      }
    }
  }

  /** A number the loops find after taking `x` had not been taken before
      either, and what was taken stays taken. */
  lemma PickChain(g: Names, g': Names, x: int, n: int, h: Names)
    requires Taken(g') == Taken(g) + {x}
    requires n !in Taken(g') && n in Taken(h) && Taken(g') <= Taken(h)
    ensures n !in Taken(g) && Taken(g) <= Taken(h)
  {
  }

  /** next_name never returns a name in the memory index, and the numbers
      of the names it returns are taken from then on, so it never returns
      one twice. */
  lemma NextNameSpec(s: Shelf)
    requires s.gen.Some? ==> Inv(s.gen.value)
    requires s.gen.None? ==> HolesFit(s.offsets)
    ensures var (r, s') := NextName(s);
            r.Ok? ==> && |r.value| == 8 && r.value !in s.memory && s'.gen.Some? && Inv(s'.gen.value)
                      && Codec.BigEndian(r.value) in Taken(s'.gen.value)
                      && (s.gen.Some? ==> Codec.BigEndian(r.value) !in Taken(s.gen.value) && Taken(s.gen.value) <= Taken(s'.gen.value))
  {
    if s.gen.Some? {
      PickSpec(s.gen.value, s.memory);
    } else if OffsetMaps.GenHoles(s.offsets).Ok? {
      var n := OffsetMaps.Size(s.offsets);
      PickSpec(Names(OffsetMaps.GenHoles(s.offsets).value, 0, n, n), s.memory);
    }
  }

  /** Two calls of next_name, with stores or anything else that leaves the
      generator alone in between, give different names. */
  lemma NamesDiffer(s: Shelf, s2: Shelf)
    requires s.gen.Some? ==> Inv(s.gen.value)
    requires s.gen.None? ==> HolesFit(s.offsets)
    requires NextName(s).0.Ok? && s2.gen == NextName(s).1.gen
    requires NextName(s2).0.Ok?
    ensures NextName(s2).0.value != NextName(s).0.value
  {
    NextNameSpec(s);
    NextNameSpec(s2);
  }
}

=== FILE: shelf_transactions.dfy ===
/** read_transaction_offsets of shelf.py: reading one transaction of a
    shelf file back, record by record, into the position of each name. A
    transaction cut short, as a power failure mid-write leaves one, is
    either truncated away (repair) or reported as ShortRead.

    Reading past the end of the file yields fewer bytes than asked for,
    which raises ShortRead; seeking past the end is allowed and leaves the
    position there. */
module ShelfTransactions {
  import opened Wrappers
  import Codec
  import Shelves

  /** What read_transaction_offsets leaves: its result (the positions by
      name; None at a clean end of the file or after a repair; or the
      error), the file, and the file's position. */
  datatype Scan = Scan(result: Result<Option<map<Bytes, nat>>>, file: Bytes, tell: nat)

  /** Where a read from `pos` that runs out of bytes leaves the position:
      at the end of the file, or where it was if that is past the end. */
  function ShortAt(file: Bytes, pos: nat): (t: nat)
    ensures t >= pos && t >= |file|
  {
    if pos > |file| then pos else |file|
  }

  /** The record loop, at `pos`, of a transaction ending at `end`: while
      before the end, read a record's length and name, map the name to the
      record's position and seek past the record. The positions found and
      where the loop stopped, or None and where the short read left the
      file. */
  function Entries(file: Bytes, pos: nat, end: nat, acc: map<Bytes, nat>): (r: (Option<map<Bytes, nat>>, nat))
    ensures r.1 >= pos
    decreases if pos < end then end - pos else 0
  {
    if pos >= end then (Some(acc), pos)
    else if pos + 16 > |file| then (None, ShortAt(file, pos))
    else
      var length := Codec.BigEndian(file[pos..pos + 8]);
      Entries(file, pos + 8 + length, end, acc[file[pos + 8..pos + 16] := pos])
  }

  /** read_transaction_offsets(file) with the file at `start`: the
      transaction's length, then its records. The loop must stop exactly
      at the transaction's end. A short read anywhere past `start` is
      repaired by truncating the file at `start`, or raised; one at `start`
      itself, the end of the file, returns None. */
  function ReadTransactionOffsets(file: Bytes, start: nat, repair: bool): (r: Scan)
    ensures r.result.Err? ==> r.result.error == ShortRead && !repair
    ensures r.file == file || (repair && start < |file| && r.file == file[..start])
  {
    if start + 8 > |file| then
      Failed(file, start, ShortAt(file, start), repair)
    else
      var end := start + 8 + Codec.BigEndian(file[start..start + 8]);
      match Entries(file, start + 8, end, map[])
      case (Some(offsets), pos) =>
        if pos == end then Scan(Ok(Some(offsets)), file, end)
        else Failed(file, start, pos, repair)
      case (None, pos) => Failed(file, start, pos, repair)
  }

  /** The handler of ShortRead raised with the file at `pos`. */
  function Failed(file: Bytes, start: nat, pos: nat, repair: bool): (r: Scan)
    requires pos > start ==> start < |file|
    ensures r.result.Err? ==> r.result.error == ShortRead && !repair
    ensures r.file == file || (repair && start < |file| && r.file == file[..start])
  {
    if pos > start then
      if repair then Scan(Ok(None), file[..start], start)
      else Scan(Err(ShortRead), file, pos)
    else Scan(Ok(None), file, pos)
  }

  /** At the end of the file there is nothing to read: None, and the file
      is untouched. */
  lemma CleanEnd(file: Bytes, start: nat, repair: bool)
    requires start >= |file|
    ensures ReadTransactionOffsets(file, start, repair) == Scan(Ok(None), file, start)
  {
  }

  /** Repair and no repair agree on every well-formed transaction; where
      one raises ShortRead, the other truncates the file at the
      transaction's start and returns None. */
  lemma RepairAgrees(file: Bytes, start: nat)
    ensures var plain := ReadTransactionOffsets(file, start, false);
            var fixed := ReadTransactionOffsets(file, start, true);
            && (plain.result.Ok? ==> fixed == plain)
            && (plain.result.Err? ==>
                  plain.result.error == ShortRead && plain.file == file && start < |file|
                  && fixed == Scan(Ok(None), file[..start], start))
  {
  }

  /** A malformed transaction at the end of the file, one whose length
      word is cut short or whose records do not end where it says, is
      ShortRead without repair. */
  lemma TruncatedHeader(file: Bytes, start: nat)
    requires start < |file| < start + 8
    ensures ReadTransactionOffsets(file, start, false) == Scan(Err(ShortRead), file, |file|)
    ensures ReadTransactionOffsets(file, start, true) == Scan(Ok(None), file[..start], start)
  {
  }

  /** The loop over the records store writes: it stops exactly at their
      end and maps each name to the position of its last record. */
  lemma {:induction false} EntriesOfRecords(items: seq<(Bytes, Bytes)>, f: Bytes, at: nat, end: nat,
                                            chunk: Bytes, index: map<Bytes, nat>, acc: map<Bytes, nat>)
    requires Shelves.Writable(items) && Shelves.Records(items, at) == (chunk, index)
    requires end == at + |chunk| <= |f| && f[at..end] == chunk
    ensures Entries(f, at, end, acc) == (Some(acc + index), end)
    decreases |items|
  {
    if items == [] {
      assert acc + map[] == acc;
    } else {
      var h, rchunk, rindex := Shelves.RecordsFirst(items, at, chunk, index);
      var (name, value) := items[0];
      var next := RecordHead(f, at, chunk, h, name, value, rchunk);
      EntriesStep(f, at, end, acc, 8 + |value|, name, next);
      EntriesOfRecords(items[1..], f, next, end, rchunk, rindex, acc[name := at]);
      EntriesLink(f, at, next, end, acc, name, rindex);
    }
  }

  /** One turn of the record loop. */
  lemma EntriesStep(f: Bytes, pos: nat, end: nat, acc: map<Bytes, nat>, length: nat, name: Bytes, next: nat)
    requires pos < end && pos + 16 <= |f| && next == pos + 8 + length
    requires Codec.BigEndian(f[pos..pos + 8]) == length && f[pos + 8..pos + 16] == name
    ensures Entries(f, pos, end, acc) == Entries(f, next, end, acc[name := pos])
  {
  }

  /** Two turns of the loop chained: the record at `at` and the loop over
      the rest. */
  lemma EntriesLink(f: Bytes, at: nat, next: nat, end: nat, acc: map<Bytes, nat>, name: Bytes, rindex: map<Bytes, nat>)
    requires Entries(f, at, end, acc) == Entries(f, next, end, acc[name := at])
    requires Entries(f, next, end, acc[name := at]) == (Some(acc[name := at] + rindex), end)
    ensures Entries(f, at, end, acc) == (Some(acc + (map[name := at] + rindex)), end)
  {
    assert acc[name := at] + rindex == acc + (map[name := at] + rindex);
  }

  /** A record at `at` of the file: its length word and its name, and the
      records after it, which start at `next`. */
  lemma RecordHead(f: Bytes, at: nat, chunk: Bytes, h: Bytes, name: Bytes, value: Bytes, rchunk: Bytes)
    returns (next: nat)
    requires |h| == 8 && |name| == 8 && chunk == (h + name + value) + rchunk
    requires at + |chunk| <= |f| && f[at..at + |chunk|] == chunk
    ensures next == at + 8 + (8 + |value|) && at < at + |chunk| == next + |rchunk|
    ensures f[at..at + 8] == h && f[at + 8..at + 16] == name
    ensures f[next..next + |rchunk|] == rchunk
  {
    next := at + 16 + |value|;
    assert chunk[..8] == h && chunk[8..16] == name && chunk[16 + |value|..] == rchunk;
    Within(f, at, chunk, 0, 8);
    Within(f, at, chunk, 8, 16);
    Within(f, at, chunk, 16 + |value|, |chunk|);
  }

  /** A slice of a stretch of the file is the same slice of its copy. */
  lemma Within(f: Bytes, at: nat, c: Bytes, i: nat, j: nat)
    requires at + |c| <= |f| && f[at..at + |c|] == c && i <= j <= |c|
    ensures f[at + i..at + j] == c[i..j]
  {
    forall k | 0 <= k < j - i
      ensures f[at + i..at + j][k] == c[i..j][k]
    {
      assert f[at..at + |c|][i + k] == c[i + k];
    }
  }

  /** A transaction whose loop ends exactly at the end of the file. */
  lemma ScanWhole(f: Bytes, start: nat, end: nat, index: map<Bytes, nat>, repair: bool)
    requires end == |f| && start + 8 <= end && start + 8 + Codec.BigEndian(f[start..start + 8]) == end
    requires Entries(f, start + 8, end, map[]) == (Some(map[] + index), end)
    ensures ReadTransactionOffsets(f, start, repair) == Scan(Ok(Some(index)), f, |f|)
  {
    assert map[] + index == index;
  }

  /** Reading back what store appended: the transaction read from where
      the file ended gives each name the position of its new record, as
      the memory index has it, and leaves the file at its new end. */
  lemma StoreThenScan(s: Shelves.Shelf, items: seq<(Bytes, Bytes)>, repair: bool)
    requires Shelves.Store(s, items).0.Ok?
    ensures var s' := Shelves.Store(s, items).1;
            ReadTransactionOffsets(s'.file, |s.file|, repair) ==
              Scan(Ok(Some(Shelves.IndexOf(Shelves.Store(s, items).0.value))), s'.file, |s'.file|)
  {
    var ts, chunk, len := Shelves.StoreParts(s, items);
    Shelves.PositionChecked(s);
    Shelves.LoopRecords(Shelves.PositionOf(s), items, |s.file| + 8, ts, chunk);
    ScanAppended(s.file, len, chunk, items, Shelves.IndexOf(ts), repair);
  }

  /** A transaction appended to a file, its length word and then the
      records of `items`, reads back as the layout's index and leaves the
      file at its end. */
  lemma ScanAppended(pre: Bytes, len: Bytes, chunk: Bytes, items: seq<(Bytes, Bytes)>, index: map<Bytes, nat>, repair: bool)
    requires |len| == 8 && Codec.BigEndian(len) == |chunk|
    requires Shelves.Writable(items) && chunk == Shelves.Records(items, |pre| + 8).0 && index == Shelves.Records(items, |pre| + 8).1
    ensures ReadTransactionOffsets(pre + len + chunk, |pre|, repair) == Scan(Ok(Some(index)), pre + len + chunk, |pre + len + chunk|)
  {
    var f, start := pre + len + chunk, |pre|;
    var end := start + 8 + |chunk|;
    LengthWord(pre, len, chunk, f);
    assert Shelves.Records(items, start + 8) == (chunk, index);
    EntriesOfRecords(items, f, start + 8, end, chunk, index, map[]);
    ScanWhole(f, start, end, index, repair);
  }

  /** Where store puts the transaction's length word and its records. */
  lemma LengthWord(pre: Bytes, len: Bytes, chunk: Bytes, f: Bytes)
    requires |len| == 8 && f == pre + len + chunk
    ensures |f| == |pre| + 8 + |chunk| && f[|pre|..|pre| + 8] == len && f[|pre| + 8..|pre| + 8 + |chunk|] == chunk
  {
    assert f[|pre|..|pre| + 8] == (pre + len)[|pre|..];
    assert f[|pre| + 8..] == chunk;
  }
}

=== FILE: sorted_items.dfy ===
/** Sorted sequences of key/value items: the in-order contents of a B-tree
    (durus/btree.py) and the dictionary those contents denote. */
module SortedItems {

  type Key = int

  datatype Item<V> = Item(key: Key, value: V)

  /** Keys strictly increase from left to right. */
  ghost predicate Sorted<V>(s: seq<Item<V>>)
  {
    forall i, j :: 0 <= i < j < |s| ==> s[i].key < s[j].key
  }

  ghost predicate AllBelow<V>(s: seq<Item<V>>, k: Key)
  {
    forall i :: 0 <= i < |s| ==> s[i].key < k
  }

  ghost predicate AllAbove<V>(s: seq<Item<V>>, k: Key)
  {
    forall i :: 0 <= i < |s| ==> s[i].key > k
  }

  /** get_position: the first index whose key is >= k, or the length. */
  function GetPosition<V>(items: seq<Item<V>>, k: Key): (p: nat)
    ensures p <= |items|
    ensures forall i :: 0 <= i < p ==> items[i].key < k
    ensures p < |items| ==> items[p].key >= k
  {
    if |items| == 0 then 0
    else if items[0].key >= k then 0
    else 1 + GetPosition(items[1..], k)
  }

  /** The dictionary a sequence of items denotes; later items win. */
  function ToMap<V>(s: seq<Item<V>>): map<Key, V>
  {
    if |s| == 0 then map[] else map[s[0].key := s[0].value] + ToMap(s[1..])
  }

  /** A key is in the dictionary exactly when some item carries it. */
  lemma {:induction false} InMap<V>(s: seq<Item<V>>, k: Key)
    ensures k in ToMap(s) <==> exists i :: 0 <= i < |s| && s[i].key == k
  {
    if |s| > 0 {
      InMap(s[1..], k);
      if exists i :: 0 <= i < |s| && s[i].key == k {
        var i :| 0 <= i < |s| && s[i].key == k;
        if i > 0 {
          assert s[1..][i - 1].key == k;
        }
      }
      if exists i :: 0 <= i < |s[1..]| && s[1..][i].key == k {
        var i :| 0 <= i < |s[1..]| && s[1..][i].key == k;
        assert s[i + 1].key == k;
      }
    }
  }

  lemma NotInMap<V>(s: seq<Item<V>>, k: Key)
    requires AllAbove(s, k) || AllBelow(s, k)
    ensures k !in ToMap(s)
  {
    InMap(s, k);
  }

  lemma SortedTail<V>(s: seq<Item<V>>)
    requires Sorted(s) && |s| > 0
    ensures Sorted(s[1..]) && AllAbove(s[1..], s[0].key)
  {
    assert forall i :: 0 <= i < |s[1..]| ==> s[1..][i] == s[i + 1];
  }

  /** In a sorted sequence a key can only sit at get_position. */
  lemma PositionOfKey<V>(s: seq<Item<V>>, k: Key)
    requires Sorted(s)
    ensures var p := GetPosition(s, k);
            k in ToMap(s) <==> p < |s| && s[p].key == k
  {
    InMap(s, k);
  }

  /** Make key `it.key` map to `it.value`: replace the item with that key or
      insert it in key order. */
  function Upsert<V>(s: seq<Item<V>>, it: Item<V>): seq<Item<V>>
  {
    if |s| == 0 then [it]
    else if s[0].key == it.key then [it] + s[1..]
    else if s[0].key > it.key then [it] + s
    else [s[0]] + Upsert(s[1..], it)
  }

  /** Drop the item with key k, if any. */
  function Remove<V>(s: seq<Item<V>>, k: Key): seq<Item<V>>
  {
    if |s| == 0 then []
    else if s[0].key == k then s[1..]
    else if s[0].key > k then s
    else [s[0]] + Remove(s[1..], k)
  }

  lemma {:induction false} UpsertTail<V>(x: seq<Item<V>>, b: seq<Item<V>>, it: Item<V>)
    requires AllAbove(b, it.key)
    ensures Upsert(x + b, it) == Upsert(x, it) + b
  {
    if |x| == 0 {
      assert x + b == b;
    } else {
      assert (x + b)[1..] == x[1..] + b;
      if x[0].key < it.key {
        UpsertTail(x[1..], b, it);
      }
    }
  }

  /** Inserting into a window whose neighbours lie wholly below and above the
      key only changes the window. */
  lemma {:induction false} UpsertWindow<V>(a: seq<Item<V>>, x: seq<Item<V>>, b: seq<Item<V>>, it: Item<V>)
    requires AllBelow(a, it.key) && AllAbove(b, it.key)
    ensures Upsert(a + x + b, it) == a + Upsert(x, it) + b
  {
    if |a| == 0 {
      assert a + x + b == x + b;
      UpsertTail(x, b, it);
    } else {
      assert (a + x + b)[1..] == a[1..] + x + b;
      UpsertWindow(a[1..], x, b, it);
    }
  }

  lemma {:induction false} RemoveTail<V>(x: seq<Item<V>>, b: seq<Item<V>>, k: Key)
    requires AllAbove(b, k)
    ensures Remove(x + b, k) == Remove(x, k) + b
  {
    if |x| == 0 {
      assert x + b == b;
    } else {
      assert (x + b)[1..] == x[1..] + b;
      if x[0].key < k {
        RemoveTail(x[1..], b, k);
      }
    }
  }

  lemma {:induction false} RemoveWindow<V>(a: seq<Item<V>>, x: seq<Item<V>>, b: seq<Item<V>>, k: Key)
    requires AllBelow(a, k) && AllAbove(b, k)
    ensures Remove(a + x + b, k) == a + Remove(x, k) + b
  {
    if |a| == 0 {
      assert a + x + b == x + b;
      RemoveTail(x, b, k);
    } else {
      assert (a + x + b)[1..] == a[1..] + x + b;
      RemoveWindow(a[1..], x, b, k);
    }
  }

  lemma {:induction false} UpsertAbove<V>(s: seq<Item<V>>, it: Item<V>, m: Key)
    requires AllAbove(s, m) && it.key > m
    ensures AllAbove(Upsert(s, it), m)
  {
    if |s| > 0 && s[0].key < it.key {
      UpsertAbove(s[1..], it, m);
    }
  }

  lemma SortedCons<V>(x: Item<V>, t: seq<Item<V>>)
    requires Sorted(t) && AllAbove(t, x.key)
    ensures Sorted([x] + t)
  {
    assert forall i :: 1 <= i < |[x] + t| ==> ([x] + t)[i] == t[i - 1];
  }

  /** Keys that increase from each item to the next are sorted. */
  lemma {:induction false} Ascending<V>(s: seq<Item<V>>)
    requires forall i :: 0 <= i < |s| - 1 ==> s[i].key < s[i + 1].key
    ensures Sorted(s)
    decreases |s|
  {
    if |s| > 1 {
      var tail := s[1..];
      assert forall i :: 0 <= i < |tail| - 1 ==> tail[i].key < tail[i + 1].key by {
        forall i | 0 <= i < |tail| - 1 ensures tail[i].key < tail[i + 1].key {
          assert tail[i] == s[i + 1] && tail[i + 1] == s[i + 2];
        }
      }
      Ascending(tail);
      assert s[0].key < tail[0].key;
      assert AllAbove(tail, s[0].key);
      SortedCons(s[0], tail);
      assert [s[0]] + tail == s;
    }
  }

  /** Upsert keeps a sequence sorted. */
  lemma {:induction false} UpsertSorted<V>(s: seq<Item<V>>, it: Item<V>)
    requires Sorted(s)
    ensures Sorted(Upsert(s, it))
  {
    if |s| > 0 {
      SortedTail(s);
      if s[0].key == it.key {
        SortedCons(it, s[1..]);
      } else if s[0].key > it.key {
        SortedCons(it, s);
      } else {
        UpsertSorted(s[1..], it);
        UpsertAbove(s[1..], it, s[0].key);
        SortedCons(s[0], Upsert(s[1..], it));
      }
    }
  }

  /** Upsert updates the dictionary a sorted sequence denotes. */
  lemma {:induction false} UpsertMap<V>(s: seq<Item<V>>, it: Item<V>)
    requires Sorted(s)
    ensures ToMap(Upsert(s, it)) == ToMap(s)[it.key := it.value]
  {
    if |s| > 0 {
      SortedTail(s);
      if s[0].key == it.key {
        NotInMap(s[1..], it.key);
        assert Upsert(s, it)[1..] == s[1..];
      } else if s[0].key > it.key {
        NotInMap(s, it.key);
        assert Upsert(s, it)[1..] == s;
      } else {
        UpsertMap(s[1..], it);
        assert Upsert(s, it)[1..] == Upsert(s[1..], it);
      }
    }
  }

  lemma {:induction false} RemoveAbove<V>(s: seq<Item<V>>, k: Key, m: Key)
    requires AllAbove(s, m)
    ensures AllAbove(Remove(s, k), m)
  {
    if |s| > 0 && s[0].key < k {
      RemoveAbove(s[1..], k, m);
    }
  }

  /** Remove keeps a sequence sorted and drops the key from its dictionary. */
  lemma RemoveSpec<V>(s: seq<Item<V>>, k: Key)
    requires Sorted(s)
    ensures Sorted(Remove(s, k))
    ensures ToMap(Remove(s, k)) == ToMap(s) - {k}
  {
    RemoveSorted(s, k);
    RemoveMap(s, k);
  }

  lemma {:induction false} RemoveSorted<V>(s: seq<Item<V>>, k: Key)
    requires Sorted(s)
    ensures Sorted(Remove(s, k))
  {
    if |s| > 0 {
      SortedTail(s);
      if s[0].key < k {
        RemoveSorted(s[1..], k);
        RemoveAbove(s[1..], k, s[0].key);
        SortedCons(s[0], Remove(s[1..], k));
      }
    }
  }

  lemma {:induction false} RemoveMap<V>(s: seq<Item<V>>, k: Key)
    requires Sorted(s)
    ensures ToMap(Remove(s, k)) == ToMap(s) - {k}
  {
    if |s| > 0 {
      SortedTail(s);
      if s[0].key == k {
        NotInMap(s[1..], k);
      } else if s[0].key > k {
        NotInMap(s, k);
      } else {
        RemoveMap(s[1..], k);
        assert Remove(s, k)[1..] == Remove(s[1..], k);
      }
    }
  }

  /** Two sorted sequences denoting the same dictionary are equal: the
      in-order contents are exactly the dictionary's items sorted by key. */
  lemma {:induction false} SortedUnique<V>(s: seq<Item<V>>, u: seq<Item<V>>)
    requires Sorted(s) && Sorted(u) && ToMap(s) == ToMap(u)
    ensures s == u
    decreases |s| + |u|
  {
    if |s| > 0 {
      assert s[0].key in ToMap(u);
    }
    if |u| > 0 {
      assert u[0].key in ToMap(s);
    }
    if |s| > 0 && |u| > 0 {
      SortedTail(s);
      SortedTail(u);
      NotInMap(s[1..], s[0].key);
      NotInMap(u[1..], u[0].key);
      InMap(s, u[0].key);
      InMap(u, s[0].key);
      assert s[0].key == u[0].key;
      assert ToMap(s[1..]) == ToMap(s) - {s[0].key};
      assert ToMap(u[1..]) == ToMap(u) - {u[0].key};
      SortedUnique(s[1..], u[1..]);
      assert s[0].value == ToMap(s)[s[0].key];
      assert s == [s[0]] + s[1..] && u == [u[0]] + u[1..];
    }
  }

  lemma SortedSplit<V>(a: seq<Item<V>>, b: seq<Item<V>>)
    requires Sorted(a + b)
    ensures Sorted(a) && Sorted(b)
    ensures forall i, j :: 0 <= i < |a| && 0 <= j < |b| ==> a[i].key < b[j].key
  {
    forall i, j | 0 <= i < |a| && 0 <= j < |b|
      ensures a[i].key < b[j].key
    {
      assert (a + b)[i] == a[i] && (a + b)[|a| + j] == b[j];
    }
    forall i, j | 0 <= i < j < |b|
      ensures b[i].key < b[j].key
    {
      assert (a + b)[|a| + i] == b[i] && (a + b)[|a| + j] == b[j];
    }
    forall i, j | 0 <= i < j < |a|
      ensures a[i].key < a[j].key
    {
      assert (a + b)[i] == a[i] && (a + b)[j] == a[j];
    }
  }

  /** Around an item of a sorted sequence, everything before it is below
      its key and sorted, and everything after it is above and sorted. */
  lemma SortedAround<V>(a: seq<Item<V>>, x: Item<V>, b: seq<Item<V>>)
    requires Sorted(a + [x] + b)
    ensures Sorted(a) && Sorted(b) && AllBelow(a, x.key) && AllAbove(b, x.key)
  {
    var s := a + [x] + b;
    assert s[|a|] == x;
    forall i, j | 0 <= i < j < |a|
      ensures a[i].key < a[j].key
    {
      assert s[i] == a[i] && s[j] == a[j];
    }
    forall i | 0 <= i < |a|
      ensures a[i].key < x.key
    {
      assert s[i] == a[i];
    }
    forall i, j | 0 <= i < j < |b|
      ensures b[i].key < b[j].key
    {
      assert s[|a| + 1 + i] == b[i] && s[|a| + 1 + j] == b[j];
    }
    forall i | 0 <= i < |b|
      ensures b[i].key > x.key
    {
      assert s[|a| + 1 + i] == b[i];
    }
  }

  lemma {:induction false} ToMapAppend<V>(a: seq<Item<V>>, b: seq<Item<V>>)
    ensures ToMap(a + b) == ToMap(a) + ToMap(b)
  {
    if |a| > 0 {
      assert (a + b)[1..] == a[1..] + b;
      ToMapAppend(a[1..], b);
    } else {
      assert a + b == b;
    }
  }

  /** In a sorted sequence every item is what the dictionary holds for its key. */
  lemma {:induction false} MapAt<V>(s: seq<Item<V>>, i: nat)
    requires Sorted(s) && i < |s|
    ensures s[i].key in ToMap(s) && ToMap(s)[s[i].key] == s[i].value
  {
    SortedTail(s);
    NotInMap(s[1..], s[0].key);
    if i > 0 {
      MapAt(s[1..], i - 1);
    }
  }

  /** Everything before the window is below k and the part after it starts
      at or above k: get_position lands inside the window or at its end. */
  lemma PositionIn<V>(a: seq<Item<V>>, x: seq<Item<V>>, b: seq<Item<V>>, k: Key)
    requires AllBelow(a, k) && (|b| == 0 || b[0].key >= k)
    ensures GetPosition(a + x + b, k) == |a| + GetPosition(x, k)
  {
    assert a + x + b == a + (x + b);
    PositionSkip(a, x + b, k);
    PositionStop(x, b, k);
  }

  /** get_position passes over a prefix of keys below k... */
  lemma {:induction false} PositionSkip<V>(a: seq<Item<V>>, t: seq<Item<V>>, k: Key)
    requires AllBelow(a, k)
    ensures GetPosition(a + t, k) == |a| + GetPosition(t, k)
  {
    if |a| > 0 {
      assert (a + t)[1..] == a[1..] + t;
      PositionSkip(a[1..], t, k);
    } else {
      assert a + t == t;
    }
  }

  /** ...and stops before a suffix that starts at or above k. */
  lemma {:induction false} PositionStop<V>(x: seq<Item<V>>, b: seq<Item<V>>, k: Key)
    requires |b| == 0 || b[0].key >= k
    ensures GetPosition(x + b, k) == GetPosition(x, k)
  {
    if |x| > 0 {
      assert (x + b)[1..] == x[1..] + b;
      PositionStop(x[1..], b, k);
    } else {
      assert x + b == b;
    }
  }

  /** In a sorted sequence everything after an item at or above k is above k. */
  lemma AboveFrom<V>(s: seq<Item<V>>, p: nat, k: Key)
    requires Sorted(s) && p <= |s|
    requires p < |s| ==> s[p].key >= k
    ensures p < |s| ==> AllAbove(s[p + 1..], k)
    ensures p < |s| && s[p].key > k ==> AllAbove(s[p..], k)
  {
    if p < |s| {
      var t := s[p + 1..];
      forall i | 0 <= i < |t|
        ensures t[i].key > k
      {
        assert t[i] == s[p + 1 + i];
      }
      var u := s[p..];
      forall i | 0 <= i < |u| && s[p].key > k
        ensures u[i].key > k
      {
        assert u[i] == s[p + i];
      }
    }
  }

  /** get_position splits a sorted sequence into the items below k, the
      item at the position, and the items above k after it. */
  lemma SplitAt<V>(s: seq<Item<V>>, k: Key, p: nat)
    requires Sorted(s) && p == GetPosition(s, k)
    ensures s == s[..p] + s[p..] && AllBelow(s[..p], k)
    ensures p < |s| ==> s == s[..p] + [s[p]] + s[p + 1..] && AllAbove(s[p + 1..], k)
    ensures !(p < |s| && s[p].key == k) ==> AllAbove(s[p..], k)
  {
    AboveFrom(s, p, k);
    var a := s[..p];
    forall i | 0 <= i < |a|
      ensures a[i].key < k
    {
      assert a[i] == s[i];
    }
    if p < |s| {
      assert s[p..] == [s[p]] + s[p + 1..];
      assert s == a + [s[p]] + s[p + 1..];
    }
  }

  /** On a sorted sequence, Remove cuts out the item at get_position when it
      carries the key... */
  lemma RemoveHit<V>(s: seq<Item<V>>, k: Key, p: nat)
    requires Sorted(s) && p == GetPosition(s, k) && p < |s| && s[p].key == k
    ensures Remove(s, k) == s[..p] + s[p + 1..]
  {
    SplitAt(s, k, p);
    RemoveWindow(s[..p], [s[p]], s[p + 1..], k);
  }

  /** ...and changes nothing when the key is absent. */
  lemma RemoveMiss<V>(s: seq<Item<V>>, k: Key)
    requires Sorted(s) && k !in ToMap(s)
    ensures Remove(s, k) == s
  {
    InMap(s, k);
    var p := GetPosition(s, k);
    SplitAt(s, k, p);
    assert s[..p] + s[p..] == s[..p] + [] + s[p..];
    RemoveWindow(s[..p], [], s[p..], k);
  }

  /** On a sorted sequence, Upsert overwrites the item at get_position when it
      carries the key... */
  lemma UpsertHit<V>(s: seq<Item<V>>, it: Item<V>, p: nat)
    requires Sorted(s) && p == GetPosition(s, it.key) && p < |s| && s[p].key == it.key
    ensures Upsert(s, it) == s[..p] + [it] + s[p + 1..]
  {
    SplitAt(s, it.key, p);
    UpsertWindow(s[..p], [s[p]], s[p + 1..], it);
    assert Upsert([s[p]], it) == [it] + [s[p]][1..];
  }

  /** ...and inserts it there otherwise. */
  lemma UpsertMiss<V>(s: seq<Item<V>>, it: Item<V>, p: nat)
    requires Sorted(s) && p == GetPosition(s, it.key) && !(p < |s| && s[p].key == it.key)
    ensures Upsert(s, it) == s[..p] + [it] + s[p..]
  {
    SplitAt(s, it.key, p);
    assert s[..p] + s[p..] == s[..p] + [] + s[p..];
    UpsertWindow(s[..p], [], s[p..], it);
  }

  /** Removing the largest key drops the last item. */
  lemma RemoveLast<V>(s: seq<Item<V>>)
    requires Sorted(s) && |s| > 0
    ensures Remove(s, s[|s| - 1].key) == s[..|s| - 1]
  {
    var n := |s| - 1;
    var a := s[..n];
    forall i | 0 <= i < |a|
      ensures a[i].key < s[n].key
    {
      assert a[i] == s[i];
    }
    RemoveAfter(a, s[n]);
    assert a + [s[n]] == s;
  }

  /** Removing the key of an item appended after smaller keys drops it. */
  lemma {:induction false} RemoveAfter<V>(a: seq<Item<V>>, x: Item<V>)
    requires AllBelow(a, x.key)
    ensures Remove(a + [x], x.key) == a
  {
    if |a| > 0 {
      assert (a + [x])[1..] == a[1..] + [x];
      RemoveAfter(a[1..], x);
      assert a == [a[0]] + a[1..];
    } else {
      assert a + [x] == [x];
    }
  }

  /** Removing the smallest key drops the first item. */
  lemma RemoveFirst<V>(s: seq<Item<V>>)
    requires |s| > 0
    ensures Remove(s, s[0].key) == s[1..]
  {
  }

  /** What is left once the greatest item is removed, followed by that
      item, is the whole sequence again. */
  lemma DropLast<V>(s: seq<Item<V>>, e: seq<Item<V>>)
    requires Sorted(s) && |s| > 0 && e == Remove(s, s[|s| - 1].key)
    ensures e + [s[|s| - 1]] == s
  {
    RemoveLast(s);
    assert s == s[..|s| - 1] + [s[|s| - 1]];
  }

  /** Looking a key up through a window whose neighbours lie wholly below and
      above it finds what the window holds. */
  lemma LookupWindow<V>(a: seq<Item<V>>, x: seq<Item<V>>, b: seq<Item<V>>, k: Key)
    requires AllBelow(a, k) && AllAbove(b, k)
    ensures k in ToMap(a + x + b) <==> k in ToMap(x)
    ensures k in ToMap(x) ==> ToMap(a + x + b)[k] == ToMap(x)[k]
  {
    ToMapAppend(a + x, b);
    ToMapAppend(a, x);
    NotInMap(a, k);
    NotInMap(b, k);
  }

  /** An item above k followed by items above it are all above k. */
  lemma AboveCons<V>(x: Item<V>, s: seq<Item<V>>, k: Key)
    requires k < x.key && AllAbove(s, x.key)
    ensures AllAbove([x] + s, k)
  {
    forall i | 0 <= i < |[x] + s|
      ensures ([x] + s)[i].key > k
    {
      if i > 0 {
        assert ([x] + s)[i] == s[i - 1];
      }
    }
  }

  /** Items below an item that is below k, then that item, are all below k. */
  lemma BelowSnoc<V>(s: seq<Item<V>>, x: Item<V>, k: Key)
    requires AllBelow(s, x.key) && x.key < k
    ensures AllBelow(s + [x], k)
  {
    forall i | 0 <= i < |s + [x]|
      ensures (s + [x])[i].key < k
    {
      if i < |s| {
        assert (s + [x])[i] == s[i];
      }
    }
  }

  ghost predicate NoneBelow<V>(s: seq<Item<V>>, k: Key)
  {
    forall i :: 0 <= i < |s| ==> s[i].key >= k
  }

  /** The same items in the opposite order. */
  function Reverse<T>(s: seq<T>): (r: seq<T>)
    ensures |r| == |s| && forall i :: 0 <= i < |s| ==> r[i] == s[|s| - 1 - i]
  {
    if |s| == 0 then [] else Reverse(s[1..]) + [s[0]]
  }

  lemma ReverseAppend<T>(a: seq<T>, b: seq<T>)
    ensures Reverse(a + b) == Reverse(b) + Reverse(a)
  {
    var r, q := Reverse(a + b), Reverse(b) + Reverse(a);
    forall i | 0 <= i < |r|
      ensures r[i] == q[i]
    {
      if i < |b| {
        assert r[i] == b[|b| - 1 - i];
      } else {
        assert r[i] == a[|a| + |b| - 1 - i];
      }
    }
  }

  /** One end of a key range: open, or bounded inclusively or exclusively. */
  datatype Bound = Unbounded | Incl(key: Key) | Excl(key: Key)

  predicate AboveLow(k: Key, lo: Bound)
  {
    match lo
    case Unbounded => true
    case Incl(b) => k >= b
    case Excl(b) => k > b
  }

  predicate BelowHigh(k: Key, hi: Bound)
  {
    match hi
    case Unbounded => true
    case Incl(b) => k <= b
    case Excl(b) => k < b
  }

  predicate InSpan(k: Key, lo: Bound, hi: Bound)
  {
    AboveLow(k, lo) && BelowHigh(k, hi)
  }

  /** The items whose keys lie between the bounds, in their original order. */
  function Span<V>(s: seq<Item<V>>, lo: Bound, hi: Bound): seq<Item<V>>
  {
    if |s| == 0 then []
    else (if InSpan(s[0].key, lo, hi) then [s[0]] else []) + Span(s[1..], lo, hi)
  }

  lemma {:induction false} SpanAppend<V>(a: seq<Item<V>>, b: seq<Item<V>>, lo: Bound, hi: Bound)
    ensures Span(a + b, lo, hi) == Span(a, lo, hi) + Span(b, lo, hi)
  {
    if |a| > 0 {
      assert (a + b)[1..] == a[1..] + b;
      SpanAppend(a[1..], b, lo, hi);
    } else {
      assert a + b == b;
    }
  }

  lemma {:induction false} SpanAll<V>(s: seq<Item<V>>, lo: Bound, hi: Bound)
    requires forall i :: 0 <= i < |s| ==> InSpan(s[i].key, lo, hi)
    ensures Span(s, lo, hi) == s
  {
    if |s| > 0 {
      SpanAll(s[1..], lo, hi);
    }
  }

  lemma {:induction false} SpanNone<V>(s: seq<Item<V>>, lo: Bound, hi: Bound)
    requires forall i :: 0 <= i < |s| ==> !InSpan(s[i].key, lo, hi)
    ensures Span(s, lo, hi) == []
  {
    if |s| > 0 {
      SpanNone(s[1..], lo, hi);
    }
  }

  /** The bound that includes its key when closed and excludes it otherwise. */
  function Closed(k: Key, closed: bool): Bound
  {
    if closed then Incl(k) else Excl(k)
  }

  /** Filtering twice is filtering once by both pairs of bounds. */
  lemma {:induction false} SpanSpan<V>(s: seq<Item<V>>, lo1: Bound, hi1: Bound, lo2: Bound, hi2: Bound, lo: Bound, hi: Bound)
    requires forall k :: InSpan(k, lo, hi) <==> InSpan(k, lo1, hi1) && InSpan(k, lo2, hi2)
    ensures Span(Span(s, lo1, hi1), lo2, hi2) == Span(s, lo, hi)
  {
    if |s| > 0 {
      SpanSpan(s[1..], lo1, hi1, lo2, hi2, lo, hi);
      var head := if InSpan(s[0].key, lo1, hi1) then [s[0]] else [];
      SpanAppend(head, Span(s[1..], lo1, hi1), lo2, hi2);
      if InSpan(s[0].key, lo1, hi1) {
        assert head[1..] == [];
      }
    }
  }

  /** Filtering commutes with reversal. */
  lemma {:induction false} SpanReverse<V>(s: seq<Item<V>>, lo: Bound, hi: Bound)
    ensures Span(Reverse(s), lo, hi) == Reverse(Span(s, lo, hi))
  {
    if |s| > 0 {
      SpanReverse(s[1..], lo, hi);
      SpanAppend(Reverse(s[1..]), [s[0]], lo, hi);
      var head := if InSpan(s[0].key, lo, hi) then [s[0]] else [];
      assert Span([s[0]], lo, hi) == head by {
        assert [s[0]][1..] == [];
      }
      ReverseAppend(head, Span(s[1..], lo, hi));
      assert Reverse(head) == head by {
        if |head| == 1 {
          assert Reverse(head) == Reverse(head[1..]) + [head[0]];
        }
      }
    }
  }

  lemma {:induction false} SpanAbove<V>(s: seq<Item<V>>, lo: Bound, hi: Bound, m: Key)
    requires AllAbove(s, m)
    ensures AllAbove(Span(s, lo, hi), m)
  {
    if |s| > 0 {
      SpanAbove(s[1..], lo, hi, m);
      var head := if InSpan(s[0].key, lo, hi) then [s[0]] else [];
      assert forall i :: 0 <= i < |head| ==> head[i] == s[0];
    }
  }

  /** A span of a sorted sequence is sorted. */
  lemma {:induction false} SpanSorted<V>(s: seq<Item<V>>, lo: Bound, hi: Bound)
    requires Sorted(s)
    ensures Sorted(Span(s, lo, hi))
  {
    if |s| > 0 {
      SortedTail(s);
      SpanSorted(s[1..], lo, hi);
      SpanAbove(s[1..], lo, hi, s[0].key);
      if InSpan(s[0].key, lo, hi) {
        SortedCons(s[0], Span(s[1..], lo, hi));
      } else {
        assert Span(s, lo, hi) == Span(s[1..], lo, hi);
      }
    }
  }

  /** Keys that strictly decrease along the sequence. */
  ghost predicate Descending<V>(s: seq<Item<V>>)
  {
    forall i, j :: 0 <= i < j < |s| ==> s[i].key > s[j].key
  }

  lemma ReverseSorted<V>(s: seq<Item<V>>)
    requires Sorted(s)
    ensures Descending(Reverse(s))
  {
    var r := Reverse(s);
    forall i, j | 0 <= i < j < |r|
      ensures r[i].key > r[j].key
    {
      assert r[i] == s[|s| - 1 - i] && r[j] == s[|s| - 1 - j];
    }
  }

  /** In a sorted sequence, the first item holds the least key of its dictionary. */
  lemma FirstLeast<V>(s: seq<Item<V>>)
    requires Sorted(s) && |s| > 0
    ensures forall k :: k in ToMap(s) ==> s[0].key <= k
  {
    forall k | k in ToMap(s)
      ensures s[0].key <= k
    {
      InMap(s, k);
    }
  }

  /** In a sorted sequence, the last item holds the greatest key of its dictionary. */
  lemma LastGreatest<V>(s: seq<Item<V>>)
    requires Sorted(s) && |s| > 0
    ensures forall k :: k in ToMap(s) ==> k <= s[|s| - 1].key
  {
    forall k | k in ToMap(s)
      ensures k <= s[|s| - 1].key
    {
      InMap(s, k);
    }
  }

  /** A sorted sequence has as many items as its dictionary has keys. */
  lemma {:induction false} MapSize<V>(s: seq<Item<V>>)
    requires Sorted(s)
    ensures |ToMap(s)| == |s|
  {
    if |s| > 0 {
      SortedTail(s);
      MapSize(s[1..]);
      NotInMap(s[1..], s[0].key);
      var m := ToMap(s[1..]);
      assert ToMap(s).Keys == m.Keys + {s[0].key};
      assert |m.Keys + {s[0].key}| == |m.Keys| + 1;
    }
  }

  /** Below an inclusive bound k sits what lies below the exclusive bound,
      then the item with key k if there is one. */
  lemma {:induction false} InclExcl<V>(s: seq<Item<V>>, k: Key)
    requires Sorted(s)
    ensures Span(s, Unbounded, Incl(k))
         == Span(s, Unbounded, Excl(k)) + (if k in ToMap(s) then [Item(k, ToMap(s)[k])] else [])
  {
    if |s| > 0 {
      SortedTail(s);
      var x, rest := s[0], s[1..];
      if x.key < k {
        InclExcl(rest, k);
        assert Span(s, Unbounded, Incl(k)) == [x] + Span(rest, Unbounded, Incl(k));
        assert Span(s, Unbounded, Excl(k)) == [x] + Span(rest, Unbounded, Excl(k));
        assert ToMap(s) == map[x.key := x.value] + ToMap(rest);
        assert (k in ToMap(s)) == (k in ToMap(rest));
        assert k in ToMap(s) ==> ToMap(s)[k] == ToMap(rest)[k];
      } else if x.key == k {
        SpanNone(rest, Unbounded, Incl(k));
        SpanNone(rest, Unbounded, Excl(k));
        NotInMap(rest, k);
        assert Span(s, Unbounded, Incl(k)) == [x];
        assert Span(s, Unbounded, Excl(k)) == [];
        assert ToMap(s)[k] == x.value;
      } else {
        SpanNone(s, Unbounded, Incl(k));
        SpanNone(s, Unbounded, Excl(k));
        NotInMap(s, k);
      }
    }
  }
}

=== FILE: storage.dfy ===
/** storage.py: the in-memory storage, the breadth-first walk over stored
    records that gen_oid_record performs, and the reference index built
    from it. Records are byte strings in the format of pack_record; the
    references of a record are its refs part split into oids. */
module Storages {
  import opened Wrappers
  import Codec
  import ByteOrder

  /** The root's oid: int8_to_str(0). */
  const ROOT_OID: Oid := [0, 0, 0, 0, 0, 0, 0, 0]

  /** Storage is the interface Connection requires: constructing it
      directly raises RuntimeError. */
  function AbstractStorage(): (r: Result<()>)
    ensures r.Err? && r.error == RuntimeError
  {
    Err(RuntimeError)
  }

  /** get_packer: a storage has no incremental packer unless it says
      otherwise, so the interface answers None. */
  function GetPacker(): (r: Option<()>)
    ensures r.None?
  {
    None
  }

  lemma {:induction false} BigEndianZeroes(k: nat)
    ensures Codec.BigEndian(seq(k, _ => 0 as bv8)) == 0
  {
    if k > 0 {
      BigEndianZeroes(k - 1);
      var s: Bytes := seq(k, _ => 0 as bv8);
      assert s[..k - 1] == seq(k - 1, _ => 0 as bv8);
      assert Codec.BigEndian(s) == Codec.BigEndian(s[..k - 1]) * 256 + s[k - 1] as nat;
    }
  }

  lemma RootOid()
    ensures Codec.Int8ToStr(0) == Ok(ROOT_OID)
  {
    var s := Codec.Int8ToStr(0).value;
    BigEndianZeroes(8);
    assert ROOT_OID == seq(8, _ => 0 as bv8);
    Codec.BigEndianInjective(s, ROOT_OID);
  }

  /** The oids a record refers to: split_oids of the refs part that
      unpack_record returns. */
  function RefsOf(record: Bytes): (r: Result<seq<Oid>>)
  {
    var u :- Codec.UnpackRecord(record);
    Codec.SplitOids(u.refs)
  }

  /** What reading each stored record's references gives: the oids it
      refers to, or the error unpack_record or split_oids raises. */
  type Graph = map<Oid, Result<seq<Oid>>>

  function GraphOf(records: map<Oid, Bytes>): (g: Graph)
  {
    map k | k in records :: RefsOf(records[k])
  }

  /** The walk can load `oid` and read its references. */
  predicate Loadable(g: Graph, oid: Oid)
  {
    oid in g && g[oid].Ok?
  }

  /** The record of `a` refers to `b`. */
  predicate Edge(g: Graph, a: Oid, b: Oid)
  {
    Loadable(g, a) && b in g[a].value
  }

  /** A chain of references. */
  predicate Path(g: Graph, p: seq<Oid>)
  {
    |p| >= 1 && forall i :: 0 <= i < |p| - 1 ==> Edge(g, p[i], p[i + 1])
  }

  /** `x` can be reached from `root` by following references. */
  ghost predicate Reachable(g: Graph, root: Oid, x: Oid)
  {
    exists p :: Path(g, p) && p[0] == root && p[|p| - 1] == x
  }

  /** Every record names the oid it is stored under, as the connection
      writes them: unpack_record reads the oid from the first 8 bytes. */
  predicate Consistent(records: map<Oid, Bytes>)
  {
    forall k :: k in records && |records[k]| >= 8 ==> records[k][..8] == k
  }

  lemma ReachRoot(g: Graph, root: Oid)
    ensures Reachable(g, root, root)
  {
    assert Path(g, [root]);
  }

  lemma ReachStep(g: Graph, root: Oid, a: Oid, b: Oid)
    requires Reachable(g, root, a) && Edge(g, a, b)
    ensures Reachable(g, root, b)
  {
    var p :| Path(g, p) && p[0] == root && p[|p| - 1] == a;
    var q := p + [b];
    forall i | 0 <= i < |q| - 1
      ensures Edge(g, q[i], q[i + 1])
    {
      if i < |p| - 1 {
        assert q[i] == p[i] && q[i + 1] == p[i + 1];
      }
    }
    assert Path(g, q);
  }

  /** A set that holds the root, whose members are all loadable and whose
      references stay inside it, holds everything reachable. */
  lemma ClosedHoldsReachable(g: Graph, root: Oid, s: set<Oid>, x: Oid)
    requires root in s
    requires forall y :: y in s ==> Loadable(g, y)
    requires forall y, b :: y in s && Edge(g, y, b) ==> b in s
    requires Reachable(g, root, x)
    ensures x in s
  {
    var p :| Path(g, p) && p[0] == root && p[|p| - 1] == x;
    var i := 0;
    while i < |p| - 1
      invariant 0 <= i < |p| && p[i] in s
    {
      assert Edge(g, p[i], p[i + 1]);
      i := i + 1;
    }
  }

  /** The position of the least oid of a non-empty list. */
  function MinIndex(s: seq<Oid>): (r: nat)
    requires s != []
    ensures r < |s| && forall k :: 0 <= k < |s| ==> ByteOrder.LexLe(s[r], s[k])
  {
    if |s| == 1 then
      ByteOrder.LexLeReflexive(s[0]);
      0
    else
      var j := MinIndex(s[1..]) + 1;
      assert forall k :: 1 <= k < |s| ==> ByteOrder.LexLe(s[j], s[k]) by {
        assert forall k :: 1 <= k < |s| ==> s[k] == s[1..][k - 1];
      }
      ByteOrder.LexLeTotal(s[0], s[j]);
      if ByteOrder.LexLe(s[0], s[j]) then
        assert forall k :: 1 <= k < |s| ==> ByteOrder.LexLe(s[0], s[k]) by {
          forall k | 1 <= k < |s|
            ensures ByteOrder.LexLe(s[0], s[k])
          {
            ByteOrder.LexLeTransitive(s[0], s[j], s[k]);
          }
        }
        ByteOrder.LexLeReflexive(s[0]);
        0
      else
        j
  }

  /** heapq.heappop: the least oid of the heap and the heap without it. */
  function PopMin(todo: seq<Oid>): (r: (Oid, seq<Oid>))
    requires todo != []
    ensures r.0 in todo && |r.1| == |todo| - 1
    ensures forall x :: x in todo ==> ByteOrder.LexLe(r.0, x)
    ensures forall x :: x in r.1 ==> x in todo
    ensures forall x :: x in todo ==> x == r.0 || x in r.1
  {
    var i := MinIndex(todo);
    (todo[i], todo[..i] + todo[i + 1..])
  }

  /** `y` was loaded and every reference of it has been seen or is
      waiting. */
  predicate Covered(g: Graph, y: Oid, seen: set<Oid>, todo: seq<Oid>)
  {
    Loadable(g, y) && forall b :: b in g[y].value ==> b in seen || b in todo
  }

  /** Every oid loaded so far is covered. */
  predicate AllCovered(g: Graph, loaded: seq<Oid>, seen: set<Oid>, todo: seq<Oid>)
  {
    forall y :: y in loaded ==> Covered(g, y, seen, todo)
  }

  /** More seen or waiting oids keep everything covered. */
  lemma CoveredGrows(g: Graph, loaded: seq<Oid>, seen: set<Oid>, todo: seq<Oid>,
                     seen2: set<Oid>, todo2: seq<Oid>)
    requires AllCovered(g, loaded, seen, todo)
    requires forall x :: x in seen ==> x in seen2
    requires forall x :: x in todo ==> x in seen2 || x in todo2
    ensures AllCovered(g, loaded, seen2, todo2)
  {
    forall y | y in loaded
      ensures Covered(g, y, seen2, todo2)
    {
      assert Covered(g, y, seen, todo);
    }
  }

  /** Every oid in the list is reachable. */
  ghost predicate AllReachable(g: Graph, root: Oid, xs: seq<Oid>)
  {
    forall x :: x in xs ==> Reachable(g, root, x)
  }

  /** The pair yielded for a loaded oid: the oid its record names, and the
      record. */
  function Yielded(records: map<Oid, Bytes>, oid: Oid): (p: (Oid, Bytes))
    requires oid in records && |records[oid]| >= 8
  {
    (records[oid][..8], records[oid])
  }

  /** What the walk has produced so far: distinct reachable loaded oids, and
      the pair yielded for each. */
  ghost predicate Walked(records: map<Oid, Bytes>, g: Graph, root: Oid, loaded: seq<Oid>, out: seq<(Oid, Bytes)>)
  {
    && |out| == |loaded|
    && (forall i, j :: 0 <= i < j < |loaded| ==> loaded[i] != loaded[j])
    && (forall i :: 0 <= i < |loaded| ==>
          && loaded[i] in records && |records[loaded[i]]| >= 8 && Loadable(g, loaded[i])
          && out[i] == Yielded(records, loaded[i]))
    && AllReachable(g, root, loaded)
  }

  lemma WalkedMore(records: map<Oid, Bytes>, g: Graph, root: Oid, loaded: seq<Oid>, out: seq<(Oid, Bytes)>, oid: Oid)
    requires Walked(records, g, root, loaded, out)
    requires oid !in loaded && oid in records && |records[oid]| >= 8
    requires Loadable(g, oid) && Reachable(g, root, oid)
    ensures Walked(records, g, root, loaded + [oid], out + [Yielded(records, oid)])
  {
    var l := loaded + [oid];
    forall i | 0 <= i < |l|
      ensures l[i] in records && |records[l[i]]| >= 8
      ensures Loadable(g, l[i]) && (out + [Yielded(records, oid)])[i] == Yielded(records, l[i])
    {
      if i < |loaded| {
        assert l[i] == loaded[i];
      }
    }
  }

  /** The oids of a list, as a set. */
  function Members(xs: seq<Oid>): (r: set<Oid>)
    ensures forall x :: x in r <==> x in xs
  {
    set x | x in xs
  }

  lemma MembersAppend(a: seq<Oid>, b: seq<Oid>)
    ensures Members(a + b) == Members(a) + Members(b)
  {
  }

  /** Marking a non-empty batch of unseen stored oids as seen leaves fewer
      stored oids unseen. */
  lemma TakeMore(keys: set<Oid>, seen0: set<Oid>, batch: seq<Oid>)
    requires forall x :: x in batch ==> x in keys && x !in seen0
    requires batch != []
    ensures |keys - (seen0 + Members(batch))| < |keys - seen0|
  {
    var x := batch[0];
    var a := keys - (seen0 + Members(batch));
    var c := keys - seen0;
    assert x in c && x !in a;
    assert a <= c - {x};
    assert c - {x} == a + ((c - {x}) - a);
    assert a * ((c - {x}) - a) == {};
  }

  /** The oid the walk starts from: the given one, or the root's. */
  function StartOid(start: Option<Oid>): (r: Oid)
  {
    if start.None? then ROOT_OID else start.value
  }

  /** The loop that pops a batch of at most `batchSize` unseen oids off the
      heap, marking them seen. */
  method PopBatch(todo0: seq<Oid>, seen0: set<Oid>, batchSize: int)
    returns (batch: seq<Oid>, todo: seq<Oid>, seen: set<Oid>)
    requires batchSize >= 1
    ensures |batch| < batchSize ==> todo == []
    ensures seen == seen0 + Members(batch)
    ensures forall i, j :: 0 <= i < j < |batch| ==> batch[i] != batch[j]
    ensures forall x :: x in batch ==> x !in seen0 && x in todo0
    ensures forall x :: x in todo ==> x in todo0
    ensures forall x :: x in todo0 ==> x in seen || x in todo
  {
    batch, todo, seen := [], todo0, seen0;
    while todo != [] && |batch| < batchSize
      invariant seen == seen0 + Members(batch)
      invariant forall i, j :: 0 <= i < j < |batch| ==> batch[i] != batch[j]
      invariant forall x :: x in batch ==> x !in seen0 && x in todo0
      invariant forall x :: x in todo ==> x in todo0
      invariant forall x :: x in todo0 ==> x in seen || x in todo
      decreases |todo|
    {
      var (oid, rest) := PopMin(todo);
      todo := rest;
      if oid !in seen {
        batch := batch + [oid];
        seen := seen + {oid};
      }
    }
  }

  /** Pushes each of `refs`, the references of `oid`, that is not yet seen
      onto the heap. */
  method PushRefs(ghost g: Graph, ghost root: Oid, ghost oid: Oid, refs: seq<Oid>,
                  seen: set<Oid>, todo0: seq<Oid>)
    returns (todo: seq<Oid>)
    requires Reachable(g, root, oid) && oid in g && g[oid] == Ok(refs)
    requires AllReachable(g, root, todo0)
    ensures forall x :: x in todo0 ==> x in todo
    ensures AllReachable(g, root, todo)
    ensures forall b :: b in refs ==> b in seen || b in todo
  {
    todo := todo0;
    var k := 0;
    while k < |refs|
      invariant 0 <= k <= |refs|
      invariant forall x :: x in todo0 ==> x in todo
      invariant AllReachable(g, root, todo)
      invariant forall j :: 0 <= j < k ==> refs[j] in seen || refs[j] in todo
    {
      var ref := refs[k];
      if ref !in seen {
        ReachStep(g, root, oid, ref);
        todo := todo + [ref];
      }
      k := k + 1;
    }
  }

  /** One oid of a batch: its record is loaded and unpacked, and each
      reference not yet seen is pushed onto the heap. */
  method LoadOne(records: map<Oid, Bytes>, ghost g: Graph, ghost root: Oid, oid: Oid, seen: set<Oid>, todo0: seq<Oid>)
    returns (r: Result<((Oid, Bytes), seq<Oid>)>)
    requires g == GraphOf(records)
    requires Reachable(g, root, oid) && AllReachable(g, root, todo0)
    ensures r.Ok? <==> Loadable(g, oid)
    ensures r.Ok? ==> && oid in records && |records[oid]| >= 8
                      && r.value.0 == Yielded(records, oid)
                      && (forall x :: x in todo0 ==> x in r.value.1)
                      && AllReachable(g, root, r.value.1)
                      && Covered(g, oid, seen, r.value.1)
  {
    if oid !in records {
      return Err(KeyError);
    }
    var record := records[oid];
    assert g[oid] == RefsOf(record);
    var u := Codec.UnpackRecord(record);
    if u.Err? {
      return Err(u.error);
    }
    var refs := Codec.SplitOids(u.value.refs);
    if refs.Err? {
      return Err(refs.error);
    }
    var todo := PushRefs(g, root, oid, refs.value, seen, todo0);
    r := Ok(((u.value.oid, record), todo));
  }

  /** The loading of one batch: each oid in turn is loaded, its pair
      yielded and its unseen references pushed. */
  method LoadBatch(records: map<Oid, Bytes>, ghost g: Graph, ghost root: Oid, batch: seq<Oid>, seen: set<Oid>,
                   todo0: seq<Oid>, ghost loaded0: seq<Oid>, out0: seq<(Oid, Bytes)>)
    returns (r: Result<(seq<(Oid, Bytes)>, seq<Oid>)>, ghost loaded: seq<Oid>)
    requires g == GraphOf(records)
    requires Walked(records, g, root, loaded0, out0)
    requires AllReachable(g, root, batch) && AllReachable(g, root, todo0)
    requires AllCovered(g, loaded0, seen, todo0)
    requires forall i, j :: 0 <= i < j < |batch| ==> batch[i] != batch[j]
    requires forall x :: x in batch ==> x !in loaded0
    ensures batch == [] ==> r == Ok((out0, todo0))
    ensures r.Err? ==> exists x :: x in batch && !Loadable(g, x)
    ensures r.Ok? ==> && loaded == loaded0 + batch
                      && (forall x :: x in batch ==> x in records)
                      && Walked(records, g, root, loaded, r.value.0)
                      && AllReachable(g, root, r.value.1)
                      && AllCovered(g, loaded, seen, r.value.1)
                      && (forall x :: x in todo0 ==> x in r.value.1)
  {
    var out := out0;
    var todo := todo0;
    loaded := loaded0;
    var i := 0;
    while i < |batch|
      invariant 0 <= i <= |batch|
      invariant loaded == loaded0 + batch[..i]
      invariant Walked(records, g, root, loaded, out)
      invariant AllReachable(g, root, todo)
      invariant AllCovered(g, loaded, seen, todo)
      invariant forall x :: x in todo0 ==> x in todo
      invariant batch == [] ==> out == out0 && todo == todo0
    {
      var oid := batch[i];
      var step := LoadOne(records, g, root, oid, seen, todo);
      if step.Err? {
        return Err(step.error), loaded;
      }
      CoveredGrows(g, loaded, seen, todo, seen, step.value.1);
      assert oid !in loaded by {
        assert forall x :: x in batch[..i] ==> x in batch[..i] && x != oid;
      }
      WalkedMore(records, g, root, loaded, out, oid);
      out := out + [step.value.0];
      todo := step.value.1;
      loaded := loaded + [oid];
      assert batch[..i + 1] == batch[..i] + [oid];
      i := i + 1;
    }
    assert batch[..i] == batch;
    assert forall x :: x in batch ==> x in loaded;
    r := Ok((out, todo));
  }

  /** A walk that has emptied its heap has loaded exactly the reachable
      oids. */
  lemma WalkComplete(records: map<Oid, Bytes>, g: Graph, root: Oid, loaded: seq<Oid>, out: seq<(Oid, Bytes)>)
    requires Walked(records, g, root, loaded, out)
    requires AllCovered(g, loaded, Members(loaded), [])
    requires root in loaded
    ensures forall x :: Reachable(g, root, x) <==> x in loaded
  {
    var seen := Members(loaded);
    forall y, b | y in seen && Edge(g, y, b)
      ensures b in seen
    {
      assert Covered(g, y, seen, []);
    }
    forall x | Reachable(g, root, x)
      ensures x in loaded
    {
      ClosedHoldsReachable(g, root, seen, x);
    }
  }

  /** What holds between the rounds of the walk. */
  ghost predicate Between(records: map<Oid, Bytes>, g: Graph, root: Oid, todo: seq<Oid>, seen: set<Oid>,
                          loaded: seq<Oid>, out: seq<(Oid, Bytes)>)
  {
    && seen == Members(loaded)
    && Walked(records, g, root, loaded, out)
    && AllReachable(g, root, todo)
    && (root in seen || root in todo)
    && AllCovered(g, loaded, seen, todo)
  }

  /** The stored oids not yet seen, plus one while oids are waiting: what
      each round of the walk lessens. */
  function Remaining(records: map<Oid, Bytes>, todo: seq<Oid>, seen: set<Oid>): nat
  {
    |records.Keys - seen| + (if todo == [] then 0 else 1)
  }

  /** A round that marked a batch of unseen stored oids as seen, and
      emptied the heap if the batch was empty, lessens what remains. */
  lemma RemainingDrops(keys: set<Oid>, todo0: seq<Oid>, seen0: set<Oid>, batch: seq<Oid>, todo: seq<Oid>, seen: set<Oid>)
    requires todo0 != [] && seen == seen0 + Members(batch)
    requires forall x :: x in batch ==> x in keys && x !in seen0
    requires batch == [] ==> todo == []
    ensures |keys - seen| + (if todo == [] then 0 else 1) < |keys - seen0| + 1
  {
    if batch != [] {
      TakeMore(keys, seen0, batch);
    } else {
      assert seen == seen0;
    }
  }

  /** One round of the outer loop: a batch is popped, then loaded. */
  method Round(records: map<Oid, Bytes>, ghost g: Graph, ghost root: Oid, todo0: seq<Oid>, seen0: set<Oid>,
               ghost loaded0: seq<Oid>, out0: seq<(Oid, Bytes)>, batchSize: int)
    returns (r: Result<(seq<Oid>, set<Oid>, seq<(Oid, Bytes)>)>, ghost loaded: seq<Oid>)
    requires batchSize >= 1 && todo0 != [] && g == GraphOf(records)
    requires Between(records, g, root, todo0, seen0, loaded0, out0)
    ensures r.Err? ==> exists x :: Reachable(g, root, x) && !Loadable(g, x)
    ensures r.Ok? ==> && Between(records, g, root, r.value.0, r.value.1, loaded, r.value.2)
                      && Remaining(records, r.value.0, r.value.1) < Remaining(records, todo0, seen0)
  {
    var batch, todo, seen := PopBatch(todo0, seen0, batchSize);
    CoveredGrows(g, loaded0, seen0, todo0, seen, todo);
    var step;
    step, loaded := LoadBatch(records, g, root, batch, seen, todo, loaded0, out0);
    if step.Err? {
      return Err(step.error), loaded;
    }
    var out;
    out, todo := step.value.0, step.value.1;
    MembersAppend(loaded0, batch);
    RemainingDrops(records.Keys, todo0, seen0, batch, todo, seen);
    r := Ok((todo, seen, out));
  }

  /** gen_oid_record(start_oid, batch_size): a breadth-first walk from the
      start oid (the root's by default) in batches taken from a heap of
      waiting oids, yielding each loaded record with the oid it names. A
      missing record raises KeyError and a malformed one the error of
      unpack_record or split_oids; the pairs yielded before the error are
      not kept. The walk succeeds exactly when every reachable record can
      be read, and then it loads each reachable oid once. */
  method GenOidRecord(records: map<Oid, Bytes>, start: Option<Oid>, batchSize: int)
    returns (r: Result<seq<(Oid, Bytes)>>)
    requires batchSize >= 1
    ensures r.Ok? <==> forall x :: Reachable(GraphOf(records), StartOid(start), x) ==> Loadable(GraphOf(records), x)
    ensures r.Ok? ==> exists loaded :: Walked(records, GraphOf(records), StartOid(start), loaded, r.value)
                                       && forall x :: Reachable(GraphOf(records), StartOid(start), x) <==> x in loaded
  {
    ghost var g := GraphOf(records);
    var root := StartOid(start);
    var todo: seq<Oid> := [root];
    var seen: set<Oid> := {};
    ghost var loaded: seq<Oid> := [];
    var out: seq<(Oid, Bytes)> := [];
    ReachRoot(g, root);
    while todo != []
      invariant Between(records, g, root, todo, seen, loaded, out)
      decreases Remaining(records, todo, seen)
    {
      var step;
      step, loaded := Round(records, g, root, todo, seen, loaded, out, batchSize);
      if step.Err? {
        return Err(step.error);
      }
      todo, seen, out := step.value.0, step.value.1, step.value.2;
    }
    WalkComplete(records, g, root, loaded, out);
    r := Ok(out);
  }

  /** With consistent records the walk yields each reachable oid exactly
      once, paired with its own record, and nothing else. */
  lemma WalkYields(records: map<Oid, Bytes>, root: Oid, loaded: seq<Oid>, out: seq<(Oid, Bytes)>)
    requires Consistent(records) && Walked(records, GraphOf(records), root, loaded, out)
    requires forall x :: Reachable(GraphOf(records), root, x) <==> x in loaded
    ensures forall i :: 0 <= i < |out| ==> out[i].0 == loaded[i]
    ensures forall i :: 0 <= i < |out| ==> out[i].0 in records && out[i].1 == records[out[i].0]
    ensures forall i, j :: 0 <= i < j < |out| ==> out[i].0 != out[j].0
    ensures forall x :: Reachable(GraphOf(records), root, x) <==> exists i :: 0 <= i < |out| && out[i].0 == x
  {
    forall x | Reachable(GraphOf(records), root, x)
      ensures exists i :: 0 <= i < |out| && out[i].0 == x
    {
      var i :| 0 <= i < |loaded| && loaded[i] == x;
      assert out[i].0 == x;
    }
  }
}

=== FILE: storage_queries.dfy ===
/** The queries storage.py builds on gen_oid_record: the records that refer
    to a given oid, the class name of each record, the census of class
    names and the index of referring oids. Each is a function of the
    (oid, record) pairs the walk yields; a record that cannot be unpacked
    or whose references cannot be split makes the query fail with that
    error. */
module StorageQueries {
  import opened Wrappers
  import Codec
  import Storages

  /** The pairs produced by a complete walk of consistent records. */
  ghost predicate FromWalk(records: map<Oid, Bytes>, root: Oid, pairs: seq<(Oid, Bytes)>)
  {
    && Storages.Consistent(records)
    && exists loaded :: Storages.Walked(records, Storages.GraphOf(records), root, loaded, pairs)
                        && forall x :: Storages.Reachable(Storages.GraphOf(records), root, x) <==> x in loaded
  }

  /** What the walk yields, once more: each pair is a reachable oid with
      its record, and its references can be read. */
  lemma FromWalkPairs(records: map<Oid, Bytes>, root: Oid, pairs: seq<(Oid, Bytes)>)
    requires FromWalk(records, root, pairs)
    ensures forall i :: 0 <= i < |pairs| ==>
              && pairs[i].0 in records && pairs[i].1 == records[pairs[i].0]
              && Storages.RefsOf(pairs[i].1) == Storages.GraphOf(records)[pairs[i].0]
              && Storages.Loadable(Storages.GraphOf(records), pairs[i].0)
    ensures forall x :: Storages.Reachable(Storages.GraphOf(records), root, x) <==>
                        exists i :: 0 <= i < |pairs| && pairs[i].0 == x
  {
    var loaded :| Storages.Walked(records, Storages.GraphOf(records), root, loaded, pairs)
                  && forall x :: Storages.Reachable(Storages.GraphOf(records), root, x) <==> x in loaded;
    Storages.WalkYields(records, root, loaded, pairs);
  }

  /** Over a complete walk, some pair of `o` refers to `b` exactly when `o`
      is reachable and its record refers to `b`. */
  lemma PairEdge(records: map<Oid, Bytes>, root: Oid, pairs: seq<(Oid, Bytes)>, o: Oid, b: Oid)
    requires FromWalk(records, root, pairs)
    ensures RefersVia(pairs, o, b) <==>
            Storages.Reachable(Storages.GraphOf(records), root, o) && Storages.Edge(Storages.GraphOf(records), o, b)
  {
    var g := Storages.GraphOf(records);
    FromWalkPairs(records, root, pairs);
    if RefersVia(pairs, o, b) {
      var i :| 0 <= i < |pairs| && pairs[i].0 == o && Storages.RefsOf(pairs[i].1).Ok?
               && b in Storages.RefsOf(pairs[i].1).value;
      assert Storages.RefsOf(pairs[i].1) == g[o];
    }
    if Storages.Reachable(g, root, o) && Storages.Edge(g, o, b) {
      var i :| 0 <= i < |pairs| && pairs[i].0 == o;
      assert Storages.RefsOf(pairs[i].1) == g[o];
    }
  }

  /** gen_referring_oid_record(storage, referred_oid): the pairs whose
      record refers to `referred`, in the walk's order. */
  function Referring(pairs: seq<(Oid, Bytes)>, referred: Oid): (r: Result<seq<(Oid, Bytes)>>)
    ensures r.Ok? ==> |r.value| <= |pairs|
  {
    if pairs == [] then Ok([])
    else
      var refs :- Storages.RefsOf(pairs[0].1);
      var rest :- Referring(pairs[1..], referred);
      Ok(if referred in refs then [pairs[0]] + rest else rest)
  }

  /** On pairs whose references can all be read, the referring pairs are
      exactly those whose references hold `referred`. */
  lemma {:induction false} ReferringMembers(pairs: seq<(Oid, Bytes)>, referred: Oid)
    requires forall i :: 0 <= i < |pairs| ==> Storages.RefsOf(pairs[i].1).Ok?
    ensures Referring(pairs, referred).Ok?
    ensures forall p :: p in Referring(pairs, referred).value <==>
                        p in pairs && referred in Storages.RefsOf(p.1).value
  {
    if pairs != [] {
      ReferringMembers(pairs[1..], referred);
      assert forall p :: p in pairs <==> p == pairs[0] || p in pairs[1..];
    }
  }

  /** Over a complete walk, an oid is yielded as referring exactly when it
      is reachable and its record refers to `referred`. */
  lemma ReferringSpec(records: map<Oid, Bytes>, root: Oid, pairs: seq<(Oid, Bytes)>, referred: Oid)
    requires FromWalk(records, root, pairs)
    ensures Referring(pairs, referred).Ok?
    ensures forall x :: (exists p :: p in Referring(pairs, referred).value && p.0 == x) <==>
                        Storages.Reachable(Storages.GraphOf(records), root, x)
                        && Storages.Edge(Storages.GraphOf(records), x, referred)
  {
    var g := Storages.GraphOf(records);
    FromWalkPairs(records, root, pairs);
    ReferringMembers(pairs, referred);
    var r := Referring(pairs, referred).value;
    forall x
      ensures (exists p :: p in r && p.0 == x) <==> Storages.Reachable(g, root, x) && Storages.Edge(g, x, referred)
    {
      if exists p :: p in r && p.0 == x {
        var p :| p in r && p.0 == x;
        var i :| 0 <= i < |pairs| && pairs[i] == p;
        assert pairs[i].0 == x;
      }
      if Storages.Reachable(g, root, x) && Storages.Edge(g, x, referred) {
        var i :| 0 <= i < |pairs| && pairs[i].0 == x;
        assert pairs[i] in r;
      }
    }
  }

  /** gen_oid_class(storage, *classes): each pair's oid with the class name
      its record holds, keeping only the names listed when any are. */
  function OidClass(pairs: seq<(Oid, Bytes)>, classes: seq<Bytes>): (r: Result<seq<(Oid, Bytes)>>)
    ensures r.Ok? ==> |r.value| <= |pairs|
  {
    if pairs == [] then Ok([])
    else
      var name :- Codec.ExtractClassName(pairs[0].1);
      var rest :- OidClass(pairs[1..], classes);
      Ok(if classes == [] || name in classes then [(pairs[0].0, name)] + rest else rest)
  }

  /** The class name a pair's record holds is selected by `classes`. */
  predicate Selected(p: (Oid, Bytes), classes: seq<Bytes>, name: Bytes)
  {
    |p.1| >= 12 && Codec.ExtractClassName(p.1) == Ok(name) && (classes == [] || name in classes)
  }

  /** gen_oid_class fails exactly when some record is too short to unpack;
      otherwise it yields (oid, name) for exactly the pairs whose class
      name is selected. */
  lemma {:induction false} OidClassSpec(pairs: seq<(Oid, Bytes)>, classes: seq<Bytes>)
    ensures OidClass(pairs, classes).Ok? <==> forall i :: 0 <= i < |pairs| ==> |pairs[i].1| >= 12
    ensures OidClass(pairs, classes).Ok? ==>
              forall q :: q in OidClass(pairs, classes).value <==>
                exists i :: 0 <= i < |pairs| && pairs[i].0 == q.0 && Selected(pairs[i], classes, q.1)
  {
    if pairs != [] {
      OidClassSpec(pairs[1..], classes);
      assert forall i :: 1 <= i < |pairs| ==> pairs[i] == pairs[1..][i - 1];
      if OidClass(pairs, classes).Ok? {
        var r := OidClass(pairs, classes).value;
        forall q
          ensures q in r <==> exists i :: 0 <= i < |pairs| && pairs[i].0 == q.0 && Selected(pairs[i], classes, q.1)
        {
          if exists i :: 0 <= i < |pairs| && pairs[i].0 == q.0 && Selected(pairs[i], classes, q.1) {
            var i :| 0 <= i < |pairs| && pairs[i].0 == q.0 && Selected(pairs[i], classes, q.1);
            if i > 0 {
              assert pairs[1..][i - 1] == pairs[i];
            }
          }
          if q in r && q !in OidClass(pairs[1..], classes).value {
            assert pairs[0].0 == q.0 && Selected(pairs[0], classes, q.1);
          }
        }
      }
    }
  }

  /** The number of entries of `named` with class name `c`: the reference
      count a census must report. */
  function Count(named: seq<(Oid, Bytes)>, c: Bytes): (n: nat)
  {
    |set i | 0 <= i < |named| && named[i].1 == c|
  }

  /** Counting tallies of class names, one entry after another. */
  function Tally(named: seq<(Oid, Bytes)>): (m: map<Bytes, nat>)
  {
    if named == [] then map[]
    else
      var m := Tally(named[..|named| - 1]);
      var c := named[|named| - 1].1;
      m[c := (if c in m then m[c] else 0) + 1]
  }

  /** get_census(storage): the tally of the class names gen_oid_class
      yields. */
  function Census(pairs: seq<(Oid, Bytes)>): (r: Result<map<Bytes, nat>>)
    ensures r.Ok? <==> OidClass(pairs, []).Ok?
  {
    var named :- OidClass(pairs, []);
    Ok(Tally(named))
  }

  /** The indices below n + 1 with a name are those below n, and n when it
      has the name. */
  lemma CountStep(named: seq<(Oid, Bytes)>, c: Bytes)
    requires named != []
    ensures Count(named, c) == Count(named[..|named| - 1], c) + (if named[|named| - 1].1 == c then 1 else 0)
  {
    var n := |named| - 1;
    var front := named[..n];
    var a := set i | 0 <= i < n && front[i].1 == c;
    var b := set i | 0 <= i < |named| && named[i].1 == c;
    forall i | i in a
      ensures i in b
    {
      assert front[i] == named[i];
    }
    forall i | i in b && i != n
      ensures i in a
    {
      assert front[i] == named[i];
    }
    if named[n].1 == c {
      assert b == a + {n};
    } else {
      assert b == a;
    }
  }

  /** The census holds exactly the names that occur, each with the number
      of its occurrences. */
  lemma {:induction false} TallySpec(named: seq<(Oid, Bytes)>)
    ensures forall c :: c in Tally(named) <==> Count(named, c) > 0
    ensures forall c :: c in Tally(named) ==> Tally(named)[c] == Count(named, c)
    decreases |named|
  {
    if named != [] {
      TallySpec(named[..|named| - 1]);
      forall c
        ensures Count(named, c) == Count(named[..|named| - 1], c) + (if named[|named| - 1].1 == c then 1 else 0)
      {
        CountStep(named, c);
      }
    }
  }

  /** With no classes listed, gen_oid_class names every pair, in order. */
  lemma {:induction false} OidClassAll(pairs: seq<(Oid, Bytes)>)
    requires forall i :: 0 <= i < |pairs| ==> |pairs[i].1| >= 12
    ensures OidClass(pairs, []).Ok?
    ensures |OidClass(pairs, []).value| == |pairs|
    ensures forall i :: 0 <= i < |pairs| ==>
              OidClass(pairs, []).value[i] == (pairs[i].0, Codec.ExtractClassName(pairs[i].1).value)
  {
    if pairs != [] {
      OidClassAll(pairs[1..]);
      assert forall i :: 1 <= i < |pairs| ==> pairs[i] == pairs[1..][i - 1];
    }
  }

  /** The number of pairs whose record holds class name `c`. */
  function PairCount(pairs: seq<(Oid, Bytes)>, c: Bytes): (n: nat)
  {
    |set i | 0 <= i < |pairs| && Codec.ExtractClassName(pairs[i].1) == Ok(c)|
  }

  /** get_census fails exactly when some record is too short to unpack;
      otherwise it counts, for each class name that occurs, the pairs whose
      record holds it, and holds no other name. */
  lemma CensusSpec(pairs: seq<(Oid, Bytes)>)
    ensures Census(pairs).Ok? <==> forall i :: 0 <= i < |pairs| ==> |pairs[i].1| >= 12
    ensures Census(pairs).Ok? ==>
              forall c :: (c in Census(pairs).value <==> PairCount(pairs, c) > 0)
                          && (c in Census(pairs).value ==> Census(pairs).value[c] == PairCount(pairs, c))
  {
    OidClassSpec(pairs, []);
    if Census(pairs).Ok? {
      OidClassAll(pairs);
      var named := OidClass(pairs, []).value;
      TallySpec(named);
      forall c
        ensures Count(named, c) == PairCount(pairs, c)
      {
        CountNamed(pairs, named, c);
      }
    }
  }

  /** Counting the names gen_oid_class gave is counting the pairs. */
  lemma CountNamed(pairs: seq<(Oid, Bytes)>, named: seq<(Oid, Bytes)>, c: Bytes)
    requires |named| == |pairs|
    requires forall i :: 0 <= i < |pairs| ==>
               |pairs[i].1| >= 12 && named[i] == (pairs[i].0, Codec.ExtractClassName(pairs[i].1).value)
    ensures Count(named, c) == PairCount(pairs, c)
  {
    assert (set i | 0 <= i < |named| && named[i].1 == c)
        == (set i | 0 <= i < |pairs| && Codec.ExtractClassName(pairs[i].1) == Ok(c));
  }

  /** Adds `oid` as a referrer of each of `refs` in turn, as
      setdefault(ref, []).append(oid) does. */
  function AddReferrer(m: map<Oid, seq<Oid>>, refs: seq<Oid>, oid: Oid): (r: map<Oid, seq<Oid>>)
  {
    if refs == [] then m
    else
      var m1 := AddReferrer(m, refs[..|refs| - 1], oid);
      var ref := refs[|refs| - 1];
      m1[ref := (if ref in m1 then m1[ref] else []) + [oid]]
  }

  /** After adding, an oid refers to `ref` when it did before, or when it
      is `oid` and `ref` is among the references; nothing else changes. */
  lemma {:induction false} AddReferrerSpec(m: map<Oid, seq<Oid>>, refs: seq<Oid>, oid: Oid)
    ensures forall ref :: ref in AddReferrer(m, refs, oid) <==> ref in m || ref in refs
    ensures forall ref, o :: ref in AddReferrer(m, refs, oid) ==>
              (o in AddReferrer(m, refs, oid)[ref] <==> (ref in m && o in m[ref]) || (o == oid && ref in refs))
    decreases |refs|
  {
    if refs != [] {
      var front := refs[..|refs| - 1];
      AddReferrerSpec(m, front, oid);
      assert forall ref :: ref in refs <==> ref in front || ref == refs[|refs| - 1];
    }
  }

  /** get_reference_index(storage): for each referred oid, the oids whose
      records refer to it, in the walk's order. */
  function RefIndex(pairs: seq<(Oid, Bytes)>): (r: Result<map<Oid, seq<Oid>>>)
  {
    if pairs == [] then Ok(map[])
    else
      var m :- RefIndex(pairs[..|pairs| - 1]);
      var refs :- Storages.RefsOf(pairs[|pairs| - 1].1);
      Ok(AddReferrer(m, refs, pairs[|pairs| - 1].0))
  }

  /** Some pair of `o` refers to `ref`. */
  predicate RefersVia(pairs: seq<(Oid, Bytes)>, o: Oid, ref: Oid)
  {
    exists i :: 0 <= i < |pairs| && pairs[i].0 == o && Storages.RefsOf(pairs[i].1).Ok?
                && ref in Storages.RefsOf(pairs[i].1).value
  }

  /** The index lists `o` under `ref`. */
  predicate Listed(m: map<Oid, seq<Oid>>, ref: Oid, o: Oid)
  {
    ref in m && o in m[ref]
  }

  /** One more pair refers through itself or through the pairs before. */
  lemma RefersViaLast(pairs: seq<(Oid, Bytes)>, o: Oid, ref: Oid)
    requires pairs != []
    ensures var n := |pairs| - 1;
            RefersVia(pairs, o, ref) <==>
              RefersVia(pairs[..n], o, ref)
              || (pairs[n].0 == o && Storages.RefsOf(pairs[n].1).Ok? && ref in Storages.RefsOf(pairs[n].1).value)
  {
    var n := |pairs| - 1;
    assert forall i :: 0 <= i < n ==> pairs[..n][i] == pairs[i];
  }

  /** On pairs whose references can all be read, `o` is listed under `ref`
      exactly when some pair of `o` refers to `ref`. */
  lemma {:induction false} RefIndexMembers(pairs: seq<(Oid, Bytes)>)
    requires forall i :: 0 <= i < |pairs| ==> Storages.RefsOf(pairs[i].1).Ok?
    ensures RefIndex(pairs).Ok?
    ensures forall ref, o :: Listed(RefIndex(pairs).value, ref, o) <==> RefersVia(pairs, o, ref)
    decreases |pairs|
  {
    if pairs != [] {
      var n := |pairs| - 1;
      var front := pairs[..n];
      assert forall i :: 0 <= i < n ==> front[i] == pairs[i];
      RefIndexMembers(front);
      var m := RefIndex(front).value;
      var refs := Storages.RefsOf(pairs[n].1).value;
      AddReferrerSpec(m, refs, pairs[n].0);
      forall ref, o
        ensures Listed(RefIndex(pairs).value, ref, o) <==> RefersVia(pairs, o, ref)
      {
        RefersViaLast(pairs, o, ref);
      }
    }
  }

  /** Over a complete walk, the index lists `o` under `ref` exactly when `o`
      is reachable and its record refers to `ref`. */
  lemma RefIndexSpec(records: map<Oid, Bytes>, root: Oid, pairs: seq<(Oid, Bytes)>)
    requires FromWalk(records, root, pairs)
    ensures RefIndex(pairs).Ok?
    ensures forall ref, o :: Listed(RefIndex(pairs).value, ref, o) <==>
              Storages.Reachable(Storages.GraphOf(records), root, o)
              && Storages.Edge(Storages.GraphOf(records), o, ref)
  {
    FromWalkPairs(records, root, pairs);
    RefIndexMembers(pairs);
    forall ref, o
      ensures RefersVia(pairs, o, ref) <==>
              Storages.Reachable(Storages.GraphOf(records), root, o) && Storages.Edge(Storages.GraphOf(records), o, ref)
    {
      PairEdge(records, root, pairs, o, ref);
    }
  }
}

=== FILE: word_array.dfy ===
/** WordArray of utils.py: `count` words of `width` bytes each, kept in a
    file after a 24-byte header of three int8 values: the bytes that follow
    the first header word (16 plus the words' bytes), the width and the
    count. The words themselves live in a ByteArray right after the
    header. */
module WordArrays {
  import opened Wrappers
  import Codec
  import ByteArrays

  /** The length of the header. */
  const HEADER: nat := 24

  /** An open WordArray: the byte array holding the words, the width of
      a word and the number of words. */
  datatype WordArray = WordArray(bytes: ByteArrays.ByteArray, width: nat, count: nat)

  /** The bytes taken by `n` words of `w` bytes: n * w, spelled out as
      repeated addition so that offsets stay linear. */
  function Span(n: nat, w: nat): nat
  {
    if n == 0 then 0 else Span(n - 1, w) + w
  }

  lemma {:induction false} SpanProduct(n: nat, w: nat)
    ensures Span(n, w) == n * w
  {
    if n > 0 {
      SpanProduct(n - 1, w);
      assert n * w == (n - 1) * w + w;
    }
  }

  /** Word `p` ends no later than word `n` starts, for p < n. */
  lemma {:induction false} SpanBefore(p: nat, n: nat, w: nat)
    requires p < n
    ensures Span(p, w) + w <= Span(n, w)
  {
    if p < n - 1 {
      SpanBefore(p, n - 1, w);
    }
  }

  /** The byte array holds exactly the words. */
  predicate Valid(a: WordArray)
  {
    ByteArrays.Valid(a.bytes) && a.bytes.size == Span(a.count, a.width)
  }

  /** The header written by generate: each of the three int8 values fails
      with struct.error when it is negative or does not fit 64 bits, the
      first one first. */
  function Header(width: int, count: int): (r: Result<Bytes>)
    ensures r.Ok? <==>
              && 0 <= width < Codec.INT8_LIMIT && 0 <= count < Codec.INT8_LIMIT
              && 0 <= 16 + width * count < Codec.INT8_LIMIT
    ensures r.Err? ==> r.error == StructError
    ensures r.Ok? ==> |r.value| == HEADER
  {
    var total :- Codec.Int8ToStr(16 + width * count);
    var w :- Codec.Int8ToStr(width);
    var n :- Codec.Int8ToStr(count);
    Ok(total + w + n)
  }

  /** The three numbers a header holds. */
  datatype Dimensions = Dimensions(total: nat, width: nat, count: nat)

  /** Reading the three int8 values back from 24 header bytes. */
  function ReadHeader(h: Bytes): (d: Dimensions)
    requires |h| == HEADER
  {
    Dimensions(Codec.StrToInt8(h[..8]).value, Codec.StrToInt8(h[8..16]).value,
               Codec.StrToInt8(h[16..]).value)
  }

  /** A header that could be written reads back as written. */
  lemma HeaderRoundTrip(width: int, count: int)
    requires Header(width, count).Ok?
    ensures ReadHeader(Header(width, count).value) == Dimensions(16 + width * count, width, count)
  {
    var h := Header(width, count).value;
    var t := Codec.Int8ToStr(16 + width * count).value;
    var w := Codec.Int8ToStr(width).value;
    var n := Codec.Int8ToStr(count).value;
    assert h == t + w + n;
    assert h[..8] == t && h[8..16] == w && h[16..] == n;
    Codec.Int8RoundTrip(16 + width * count);
    Codec.Int8RoundTrip(width);
    Codec.Int8RoundTrip(count);
  }

  /** WordArray.generate at position `start`: the file must end there;
      a missing dimension fails the arithmetic with TypeError; the header
      is appended and then `width * count` copies of `init`. */
  function Generate(file: Bytes, start: nat, width: Option<int>, count: Option<int>, init: bv8)
    : (r: Result<Bytes>)
    requires start <= |file|
    ensures start != |file| ==> r == Err(AssertionError)
    ensures start == |file| && (width.None? || count.None?) ==> r == Err(TypeError)
    ensures r.Ok? <==> start == |file| && width.Some? && count.Some? && Header(width.value, count.value).Ok?
    ensures r.Ok? ==> r.value == file + Header(width.value, count.value).value
                                   + ByteArrays.Fill(init, Span(count.value, width.value))
  {
    if start != |file| then Err(AssertionError)
    else if width.None? || count.None? then Err(TypeError)
    else
      var h :- Header(width.value, count.value);
      var size := Span(count.value, width.value);
      var b := ByteArrays.SetSize(ByteArrays.ByteArray(file + h, start + HEADER, 0), size, init);
      if size == 0 then
        assert ByteArrays.Fill(init, 0) == [];
        Ok(b.value.file)
      else
        Ok(b.value.file)
  }

  /** WordArray(file, width, count) for a file positioned at `start`: a
      file that ends there gets a new array first; then the header is read
      back, checked, and the byte array after it is opened. */
  function Open(file: Bytes, start: nat, width: Option<int>, count: Option<int>): (r: Result<WordArray>)
    requires start <= |file|
    ensures r.Ok? ==> Valid(r.value) && r.value.bytes.start == start + HEADER
    ensures r.Ok? ==> |r.value.bytes.file| >= |file| && r.value.bytes.file[..|file|] == file
  {
    var f :- if |file| == start then Generate(file, start, width, count, 0) else Ok(file);
    var h :- ByteArrays.ReadAt(f, start, HEADER);
    var d := ReadHeader(h);
    if d.total != 16 + Span(d.count, d.width) then Err(AssertionError)
    else
      var b :- ByteArrays.Create(f, start + HEADER, Span(d.count, d.width));
      Ok(WordArray(b, d.width, d.count))
  }

  /** Opening what generate wrote finds the dimensions it was given and
      every byte set to the initial byte, whatever dimensions the opener
      passes. */
  lemma ReopenGenerated(file: Bytes, width: int, count: int, init: bv8, w2: Option<int>, n2: Option<int>)
    requires Generate(file, |file|, Some(width), Some(count), init).Ok?
    ensures var g := Generate(file, |file|, Some(width), Some(count), init).value;
            var r := Open(g, |file|, w2, n2);
            && r.Ok?
            && r.value.width == width && r.value.count == count
            && r.value.bytes == ByteArrays.ByteArray(g, |file| + HEADER, Span(count, width))
            && ByteArrays.Contents(r.value.bytes) == ByteArrays.Fill(init, Span(count, width))
  {
    var h := Header(width, count).value;
    var g := Generate(file, |file|, Some(width), Some(count), init).value;
    HeaderRoundTrip(width, count);
    SpanProduct(count, width);
    assert ByteArrays.ReadAt(g, |file|, HEADER) == Ok(h) by {
      assert g[|file|..|file| + HEADER] == h;
    }
    var fill := ByteArrays.Fill(init, Span(count, width));
    assert g == (file + h) + fill;
    assert ByteArrays.Contents(ByteArrays.ByteArray(g, |file| + HEADER, Span(count, width))) == fill;
  }

  /** Opening at the end of a file generates zero-filled words. */
  lemma OpenNew(file: Bytes, width: int, count: int)
    requires Header(width, count).Ok?
    ensures var r := Open(file, |file|, Some(width), Some(count));
            && r.Ok? && r.value.width == width && r.value.count == count
            && ByteArrays.Contents(r.value.bytes) == ByteArrays.Fill(0, Span(count, width))
  {
    ReopenGenerated(file, width, count, 0, Some(width), Some(count));
  }

  /** The index of word j, a negative one counting from the end. */
  function Position(a: WordArray, j: int): (p: int)
  {
    if j < 0 then a.count + j else j
  }

  /** The bytes of word `p`. */
  function Word(a: WordArray, p: nat): (r: Bytes)
    requires Valid(a) && p < a.count
    ensures |r| == a.width
  {
    SpanBefore(p, a.count, a.width);
    ByteArrays.Contents(a.bytes)[Span(p, a.width)..Span(p, a.width) + a.width]
  }

  /** In an array filled with one byte, every word is that byte. */
  lemma WordOfFill(a: WordArray, b: bv8, p: nat)
    requires Valid(a) && p < a.count
    requires ByteArrays.Contents(a.bytes) == ByteArrays.Fill(b, Span(a.count, a.width))
    ensures Word(a, p) == ByteArrays.Fill(b, a.width)
  {
    SpanBefore(p, a.count, a.width);
  }

  /** __getitem__: the slice holding the word; indices outside
      [-count, count) are an IndexError, and so is every index when the
      width is zero, because the slice is then empty. */
  function Get(a: WordArray, j: int): (r: Result<Bytes>)
    requires Valid(a)
    ensures r.Ok? <==> -(a.count as int) <= j < a.count && a.width > 0
    ensures r.Err? ==> r.error == IndexError
    ensures r.Ok? ==> r.value == Word(a, Position(a, j))
  {
    var p := Position(a, j);
    if 0 <= p < a.count then
      SpanBefore(p, a.count, a.width);
      ByteArrays.GetSlice(a.bytes, Span(p, a.width), Span(p, a.width) + a.width)
    else Err(IndexError)
  }

  /** __setitem__: the index is checked, then the word's length. */
  function Set(a: WordArray, j: int, word: Bytes): (r: Result<WordArray>)
    requires Valid(a)
    ensures r.Ok? <==> -(a.count as int) <= j < a.count && a.width > 0 && |word| == a.width
    ensures !(-(a.count as int) <= j < a.count && a.width > 0) ==> r == Err(IndexError)
    ensures -(a.count as int) <= j < a.count && a.width > 0 && |word| != a.width ==> r == Err(ValueError)
    ensures r.Ok? ==> Valid(r.value) && r.value.width == a.width && r.value.count == a.count
                      && r.value.bytes.start == a.bytes.start
  {
    var p := Position(a, j);
    if 0 <= p < a.count then
      SpanBefore(p, a.count, a.width);
      var b :- ByteArrays.SetSlice(a.bytes, Span(p, a.width), Span(p, a.width) + a.width, word);
      Ok(a.(bytes := b))
    else Err(IndexError)
  }

  /** A word written is read back, and every other word is as it was. */
  lemma SetGet(a: WordArray, j: int, word: Bytes, k: int)
    requires Valid(a) && Set(a, j, word).Ok? && -(a.count as int) <= k < a.count
    ensures Get(Set(a, j, word).value, k)
              == if Position(a, k) == Position(a, j) then Ok(word) else Get(a, k)
  {
    var p := Position(a, j);
    var m := Position(a, k);
    var w := a.width;
    SpanBefore(p, a.count, w);
    SpanBefore(m, a.count, w);
    var b := Set(a, j, word).value;
    ByteArrays.SetSliceSpec(a.bytes, Span(p, w), Span(p, w) + w, word);
    var before := ByteArrays.Contents(a.bytes);
    var after := ByteArrays.Contents(b.bytes);
    if m == p {
      assert Word(b, m) == word;
    } else {
      if m < p { SpanBefore(m, p, w); } else { SpanBefore(p, m, w); }
      forall i | Span(m, w) <= i < Span(m, w) + w
        ensures after[i] == before[i]
      {
      }
      assert Word(b, m) == Word(a, m);
    }
  }

  /** __iter__: each word in turn; the first word read from a zero-width
      array raises IndexError. */
  function Iterate(a: WordArray): (r: Result<seq<Bytes>>)
    requires Valid(a)
    ensures r.Ok? <==> a.count == 0 || a.width > 0
    ensures r.Err? ==> r.error == IndexError
    ensures r.Ok? ==> |r.value| == a.count
  {
    if a.count > 0 && a.width == 0 then Err(IndexError)
    else Ok(seq(a.count, p requires 0 <= p < a.count => Word(a, p)))
  }

  /** Iterating yields what indexing yields. */
  lemma IterateSpec(a: WordArray)
    requires Valid(a) && Iterate(a).Ok?
    ensures forall p :: 0 <= p < a.count ==> Get(a, p) == Ok(Iterate(a).value[p])
  {
  }
}

=== FILE: wrappers.dfy ===
/** Shared vocabulary: optional values, the exceptions the modelled code
    raises, and results that carry either a value or one of those errors. */
module Wrappers {

  /** A byte string, as Python's `bytes`. */
  type Bytes = seq<bv8>

  /** An object identifier: in the source always an 8-byte string. */
  type Oid = Bytes

  datatype Option<+T> = None | Some(value: T) {
    function GetOr(default: T): T {
      match this
      case Some(v) => v
      case None => default
    }
  }

  /** The exception classes the modelled code raises or lets escape. */
  datatype Error =
    | TypeError
    | AttributeError
    | KeyError
    | IndexError
    | ValueError
    | AssertionError
    | RuntimeError
    | StructError                      // struct.error from pack/unpack
    | ShortRead                        // durus.utils.ShortRead
    | ReadConflict(oids: seq<Oid>)     // ReadConflictError
    | WriteConflict(oids: seq<Oid>)    // WriteConflictError

  datatype Result<+T> = Ok(value: T) | Err(error: Error) {
    predicate IsFailure() {
      Err?
    }

    function PropagateFailure<U>(): Result<U>
      requires Err?
    {
      Err(error)
    }

    function Extract(): T
      requires Ok?
    {
      value
    }
  }
}
